=== FILE: README.md ===
# Gaia Sky core logic in Dafny

This project models the logic at the core of Gaia Sky, a real-time 3D
astronomy visualisation program. It keeps the parts that are plain
bookkeeping, parsing and arithmetic, separated from the rendering, the
windows and the headset around them. Every operation is a pure function
over immutable datatypes. A Java reference that may be null is an
`Option`, and a call that may throw returns a `Result`. Loops the source
runs over a collection are recursive functions or methods with loop
invariants.

The model covers:

- **Lunar libration script** (`libration.dfy`): the per-tick camera
  updater. It has a pause detector throttled by wall-clock time, a test
  for significant relative motion, a co-rotating triad built from cross
  products, and a capture-once, reproject-every-tick state machine.
  Normalisation is an abstract inverse square root, `inv`.
- **Containers and caches**:
  - `bst.dfy`: the unbalanced binary search tree;
  - `proximity.dfy`: the nearest-object array with shifting insert;
  - `name_index.dfy`, `particle_set.dfy`, `star_group.dfy`: the
    name-to-index maps;
  - `immediate_render_system.dfy`: the mesh slot allocator;
  - `svt_manager.dfy`: the sparse-virtual-texture tile cache with LRU
    eviction;
  - `scene_graph_builder.dfy`: scene-graph linking and child counts;
  - `particle_set_initializer.dfy`: particle-set initialisation.
- **Event and state machines**:
  - `event_manager.dfy`: the observer registry and delayed telegrams;
  - `camcorder.dfy`: the camera recorder;
  - `gui_registry.dfy`: GUI switching;
  - `gaia_sky.dfy`: parked runnables and the time step;
  - `spacecraft_view.dfy`: the thrust-factor cycle;
  - `music_component.dfy`: the track-name marquee;
  - `notifications_interface.dfy`: notifications;
  - `vr_context.dfy`: VR device bookkeeping.
- **Parsers and strings**:
  - `portable_float_map.dfy`: the Portable FloatMap header and pixel
    words;
  - `file_data_loader.dfy`: the orbit text-file parser;
  - `bookmark_path.dfy`: bookmark paths;
  - `logger.dfy`: the `{}` formatter;
  - `preferences_window.dfy`: key-combination text and select-box
    indices;
  - `attribute_map.dfy`: the attribute map.
- **Arithmetic, tables and validators**:
  - `astro_utils.dfy`: calendar arithmetic;
  - `time_warp.dfy`: the time-warp ladder;
  - `component_types.dfy`: the component-type bit set;
  - `global_conf.dfy`: configuration predicates;
  - `billboard_set_renderer.dfy`: quad indices;
  - `gaia_sky_frame_buffer.dfy`: render targets;
  - `affine_transformations.dfy`: the transform list;
  - `event_scripting_interface.dfy`: scripting argument checks;
  - `dataset_manager_window.dfy`: dataset weights.

Three helper modules model the Java and Python library behaviour the
core relies on:

- `wrappers.dfy`: `Option` and `Result`.
- `text.dfy`:
  - ASCII case mapping;
  - `String.trim` and `strip`;
  - `split` and `join`;
  - decimal integers;
  - Java's truncating `/` and `%`.
- `vec3.dfy`: real 3-vectors with dot and cross products.

Java `int` and `long` widths are written out where the source depends on
them: the 64-bit button mask, `Integer.MAX_VALUE` bounds and shift
distances. Elsewhere integers are unbounded, as noted under "Left out".

## Model

| member | source | states |
|---|---|---|
| Libration.Init | assets/scripts/showcases/lunar-libration.py:17-25 | a new runner holds no captured camera: `cam_coo` is false, `lastt` is 0 and there are no tied coordinates; it starts from the simulation clock it was given |
| Libration.Moved | assets/scripts/showcases/lunar-libration.py:64 | the relative-motion test passes exactly when the change is non-zero and, for a non-zero Earth-Moon vector, its squared length exceeds 1e-32 times the vector's squared length |
| Libration.Frame | assets/scripts/showcases/lunar-libration.py:58-88 | a frame is built only from a non-zero Earth-Moon vector and a non-zero change |
| Libration.UpBasis | assets/scripts/showcases/lunar-libration.py:110-115 | the two up-basis vectors are orthogonal to each other |
| Libration.Capture | assets/scripts/showcases/lunar-libration.py:98-116 | in an orthonormal frame the recorded position coordinates recombine into the camera's position relative to the Earth |
| Libration.Project | assets/scripts/showcases/lunar-libration.py:122-143 | the up vector written is orthogonal to the direction written |
| Libration.PauseReset | assets/scripts/showcases/lunar-libration.py:48-52 | the capture is dropped only when the simulation clock is still and at least 0.1 s of wall time has passed since `lastt` |
| Libration.CurrentFrame | assets/scripts/showcases/lunar-libration.py:58-78 | coincident predicted bodies give no current frame |
| Libration.ReferenceFrame | assets/scripts/showcases/lunar-libration.py:61-88 | coincident current bodies give no reference frame |
| Libration.Go | assets/scripts/showcases/lunar-libration.py:54-88 | the camera is moved only when the simulation clock moved and the Earth-Moon vector changed |
| Libration.Tick | assets/scripts/showcases/lunar-libration.py:26-143 | one tick keeps the runner consistent and always records the sampled simulation time as `simT`; when the tied coordinates change they become the camera captured in the reference frame, and a camera write is always the recorded coordinates projected into the current frame |
| Libration.PausedTickWritesNothing | assets/scripts/showcases/lunar-libration.py:54-57 | when simulated time has not advanced, `do` stays false: no camera write and no new capture |
| Libration.PauseDropsCapture | assets/scripts/showcases/lunar-libration.py:48-52 | with the clock still, after at least 0.1 s of wall time the capture is dropped and `lastt` becomes now; before that both are kept |
| Libration.MovingTickStampsClock | assets/scripts/showcases/lunar-libration.py:57-91 | a tick on which simulated time moved sets `lastt` to now and keeps an existing capture |
| Libration.TouchesCameraIffGo | assets/scripts/showcases/lunar-libration.py:64-88 | the camera is touched exactly when the clock moved, the relative-motion test passed and the current OR the reference frame was built |
| Libration.FailsIffFrameMissing | assets/scripts/showcases/lunar-libration.py:74-88 | the tick fails (Python's unbound local) exactly when `do` holds but the frame it needs is missing; when only the reference frame exists the write always fails |
| Libration.CaptureOnce | assets/scripts/showcases/lunar-libration.py:98-118 | the recorded coordinates change only on a tick that starts without a capture, which then ends captured; conversely a moving tick that starts without a capture and has a reference frame does capture; a capture survives until the pause check drops it |
| Libration.NoSecondCapture | assets/scripts/showcases/lunar-libration.py:98-118 | a moving tick right after a capture does not capture again |
| Libration.CaptureTick | assets/scripts/showcases/lunar-libration.py:98-131 | a moving tick that starts without a capture and has a reference frame records the camera's Earth-relative position, direction and up in the reference frame, and on the same tick writes the recorded coordinates projected into the current frame, or fails when there is none |
| Libration.CaptureTickCoRotates | assets/scripts/showcases/lunar-libration.py:98-131 | on such a tick with both frames, the written camera's position and direction have the same coordinates in the current frame as the camera had in the reference frame |
| Libration.FramesNeverShareDirection | assets/scripts/showcases/lunar-libration.py:58-88 | when both frames exist their first axes differ: a change parallel to the Earth-Moon vector builds no frame |
| Libration.FrameIsOrthonormal | assets/scripts/showcases/lunar-libration.py:70-77 | a frame that could be built has unit, orthogonal r1 and r2, and r3 = r1 × r2 |
| Libration.FrameNeedsSeparation | assets/scripts/showcases/lunar-libration.py:64 | no frame comes from a zero Earth-Moon vector |
| Libration.FrameNeedsTurn | assets/scripts/showcases/lunar-libration.py:72-74 | no frame comes from a change that is any multiple of the Earth-Moon vector (parallel or anti-parallel), since r1 × r2 then vanishes |
| Libration.FrameFollowsEarthMoon | assets/scripts/showcases/lunar-libration.py:70-75 | r1 is the normalised Earth-Moon vector and r2 is orthogonal to it |
| Libration.CoincidentBodiesHaveNoFrame | assets/scripts/showcases/lunar-libration.py:64 | coincident predicted bodies give neither frame |
| Libration.CoincidentBodiesLeaveCamera | assets/scripts/showcases/lunar-libration.py:64-88 | coincident predicted bodies never move the camera |
| Libration.ReprojectionRestoresCamera | assets/scripts/showcases/lunar-libration.py:98-143 | capturing in an orthonormal frame and reprojecting in the same frame returns the original camera position (the 1e6 scalings cancel), its normalised direction, and, for an up vector orthogonal to the direction whose up basis is defined, that up vector |
| Libration.CapturedUpRestored | assets/scripts/showcases/lunar-libration.py:110-116 | an up vector orthogonal to the direction is the sum of its two recorded components along the up basis, and normalising the direction first gives the same basis |
| Libration.ProjectKeepsCoordinates | assets/scripts/showcases/lunar-libration.py:119-131 | writing a recorded camera back from an orthonormal frame gives a position (relative to the Earth, in object units after the 1e6 scaling) and a direction whose coordinates in that frame are exactly the recorded ones |
| Libration.WrittenCameraKeepsCoordinates | assets/scripts/showcases/lunar-libration.py:64-131 | whenever a tick writes the camera, the current frame exists, is orthonormal, and the camera is written from the recorded coordinates in it: the camera co-rotates with the Earth-Moon frame |
| Libration.NormalizedCrossOrthogonal | assets/scripts/showcases/lunar-libration.py:110-113 | n(a × n(dir)) is orthogonal to dir |
| Libration.UpBasisOrthogonal | assets/scripts/showcases/lunar-libration.py:137-142 | both up-basis vectors are orthogonal to the direction they come from |
| Libration.UpOrthogonalToDirection | assets/scripts/showcases/lunar-libration.py:131-143 | the up vector written is orthogonal to the direction written |
| BinarySearchTree.MinKeyIsMinimum | core/src/gaiasky/util/BinarySearchTree.java:239-245 | the leftmost key of an ordered tree is an element and no element is smaller |
| BinarySearchTree.MaxKeyIsMaximum | core/src/gaiasky/util/BinarySearchTree.java:254-260 | the rightmost key of an ordered tree is an element and no element is larger |
| BinarySearchTree.Insert | core/src/gaiasky/util/BinarySearchTree.java:175-185 | insertion succeeds iff the key is absent, keeps the search-tree ordering and adds exactly that key; a present key throws "Duplicate item" |
| BinarySearchTree.DropMin | core/src/gaiasky/util/BinarySearchTree.java:222-230 | taking the minimum out of a non-empty tree keeps it ordered and removes exactly the minimum |
| BinarySearchTree.RemoveMin | core/src/gaiasky/util/BinarySearchTree.java:222-230 | throws iff the tree is empty; otherwise removes only the smallest element and keeps the ordering |
| BinarySearchTree.Remove | core/src/gaiasky/util/BinarySearchTree.java:197-211 | succeeds iff the key is present, removes exactly that key and keeps the ordering; a two-child node takes the minimum of its right subtree |
| BinarySearchTree.MakeEmpty | core/src/gaiasky/util/BinarySearchTree.java:141-143 | the tree afterwards holds no element |
| BinarySearchTree.IsEmpty | core/src/gaiasky/util/BinarySearchTree.java:150-152 | true iff the tree holds no element |
| BinarySearchTree.FindMin | core/src/gaiasky/util/BinarySearchTree.java:239-245 | the smallest element, or null exactly when the tree is empty |
| BinarySearchTree.FindMax | core/src/gaiasky/util/BinarySearchTree.java:254-260 | the largest element, or null exactly when the tree is empty |
| BinarySearchTree.Find | core/src/gaiasky/util/BinarySearchTree.java:270-281 | the equal element if present, otherwise null |
| BinarySearchTree.FindIntervalStart | core/src/gaiasky/util/BinarySearchTree.java:293-307 | the greatest element not above x, or null exactly when every element exceeds x |
| BinarySearchTree.InsertThenRemove | core/src/gaiasky/util/BinarySearchTree.java:175-211 | inserting an absent key and removing it again restores the element set |
| BinarySearchTree.InsertTwiceFails | core/src/gaiasky/util/BinarySearchTree.java:175-185 | inserting the same key twice throws the second time |
| Proximity.Create | core/src/gaiasky/util/camera/Proximity.java:28-30 | a new array has exactly `size` slots, all empty |
| Proximity.CreateDefault | core/src/gaiasky/util/camera/Proximity.java:20-26 | the default array has 4 empty slots |
| Proximity.Set | core/src/gaiasky/util/camera/Proximity.java:59-61 | overwrites the given slot and leaves the length and every other slot unchanged |
| Proximity.Insert | core/src/gaiasky/util/camera/Proximity.java:70-78 | places the record at the index, shifts slots index..len-2 one step right and drops the last; an index past the end changes nothing |
| Proximity.Clear | core/src/gaiasky/util/camera/Proximity.java:142-146 | every slot empty, the length kept |
| Proximity.FirstStop | core/src/gaiasky/util/camera/Proximity.java:100-109 | the first slot holding the same record or a farther one, or the length when there is none |
| Proximity.FillEmpty | core/src/gaiasky/util/camera/Proximity.java:101-102 | each empty slot receives the record, filled slots are kept |
| Proximity.Update | core/src/gaiasky/util/camera/Proximity.java:98-113 | the scan writes the record into every empty slot before the stop; it answers true, inserting before the first farther record, exactly when it stops at a record other than the same one; the length never changes |
| Proximity.UpdateSameRecordChangesNothing | core/src/gaiasky/util/camera/Proximity.java:103-105 | on a packed array, meeting the same record first returns false and changes nothing |
| Proximity.UpdateFillsEmptyArray | core/src/gaiasky/util/camera/Proximity.java:99-112 | on an all-empty array the record lands in every slot and the call returns false |
| Proximity.UpdateKeepsOrder | core/src/gaiasky/util/camera/Proximity.java:98-113 | update keeps a packed, distance-sorted array packed and sorted |
| NameIndex.PutKeys | core/src/gaiasky/scene/component/ParticleSet.java:237 | each key put now maps to the particle, and keys not put keep their mapping |
| NameIndex.Build | core/src/gaiasky/scene/component/ParticleSet.java:230-241 | every index entry names an existing particle |
| NameIndex.BuildLast | core/src/gaiasky/scene/component/ParticleSet.java:230-241 | a key maps to particle i exactly when particle i carries it and no later particle does |
| NameIndex.BuildKeys | core/src/gaiasky/scene/component/ParticleSet.java:230-241 | the index holds exactly the keys some particle carries |
| ParticleSet.LowerAll | core/src/gaiasky/scene/component/ParticleSet.java:237 | every name's lower-case form is a key |
| ParticleSet.NameKeys | core/src/gaiasky/scene/component/ParticleSet.java:235-237 | a particle contributes the lower-case form of each of its names, and nothing when it has no names |
| ParticleSet.AllNameKeys | core/src/gaiasky/scene/component/ParticleSet.java:233-238 | one key list per particle, in order |
| ParticleSet.GenerateIndex | core/src/gaiasky/scene/component/ParticleSet.java:230-241 | every entry points to a particle carrying that key, and every particle's names are found at that particle or a later one |
| ParticleSet.GenerateIndexFacts | core/src/gaiasky/scene/component/ParticleSet.java:230-241 | the same two facts, for the index built from the key lists |
| ParticleSet.GenerateIndexLast | core/src/gaiasky/scene/component/ParticleSet.java:230-241 | a key maps to particle i exactly when particle i carries it and no later particle does |
| ParticleSet.SetData | core/src/gaiasky/scene/component/ParticleSet.java:202-213 | the data is replaced and every particle is visible; the index is regenerated only when asked, and then points only at existing particles |
| ParticleSet.IsVisible | core/src/gaiasky/scene/component/ParticleSet.java:399-401 | no visibility array means invisible; an index outside the array throws; visible means a non-zero entry |
| ParticleSet.SetDataAllVisible | core/src/gaiasky/scene/component/ParticleSet.java:202-213 | right after setData every particle is visible |
| ParticleSet.SetParticleSizeLimits | core/src/gaiasky/scene/component/ParticleSet.java:310-314 | a minimum above the maximum is lowered to it and nothing else changes; fewer than two entries throw |
| ParticleSet.UpdateFocusDataPos | core/src/gaiasky/scene/component/ParticleSet.java:368-378 | a negative focus index clears the focus; otherwise the focus is that particle and its position, which throws for an index past the data |
| ParticleSet.MakeFocus | core/src/gaiasky/scene/component/ParticleSet.java:387-390 | the candidate becomes the focus index, and fails exactly when it is past the data |
| ParticleSet.SetFocusIndex | core/src/gaiasky/scene/component/ParticleSet.java:380-385 | an index inside the data becomes the focus with that particle's position; any other index changes nothing |
| ParticleSet.GetAbsolutePosition | core/src/gaiasky/scene/component/ParticleSet.java:403-412 | an unknown name gives null; a known name gives the position of the particle it maps to |
| ParticleSet.PositionAfterSetData | core/src/gaiasky/scene/component/ParticleSet.java:198-241 | after setData a key has a position exactly when some particle carries it, and it is that of a particle carrying it |
| StarGroup.PutsForName | core/src/gaiasky/scenegraph/StarGroup.java:187-198 | one name puts the lower-cased name, the id when positive and different from the name, and "hip N" when the HIP number is positive and different from the name |
| StarGroup.IdKey | core/src/gaiasky/scenegraph/StarGroup.java:190 | the id key is the decimal text of the id: lower-casing a number changes nothing |
| StarGroup.HipKey | core/src/gaiasky/scenegraph/StarGroup.java:195 | the HIP key is "hip " followed by the decimal text of the HIP number |
| StarGroup.NameLoopKeys | core/src/gaiasky/scenegraph/StarGroup.java:186-199 | a star with an empty name list puts nothing |
| StarGroup.NameLoopKeysExact | core/src/gaiasky/scenegraph/StarGroup.java:186-199 | the name loop puts exactly the lower-cased names, the positive id and the positive HIP designation, whenever there is at least one name: the "differs from the name" guards never lose a key |
| StarGroup.StarKeys | core/src/gaiasky/scenegraph/StarGroup.java:186 | a star without names puts nothing |
| StarGroup.StarKeysExact | core/src/gaiasky/scenegraph/StarGroup.java:185-200 | a star puts exactly the keys it answers to |
| StarGroup.AllKeys | core/src/gaiasky/scenegraph/StarGroup.java:184-201 | one key list per star, in order |
| StarGroup.GenerateIndex | core/src/gaiasky/scenegraph/StarGroup.java:181-203 | every entry points to an existing star |
| StarGroup.GenerateIndexLast | core/src/gaiasky/scenegraph/StarGroup.java:181-203 | a key maps to star i exactly when star i answers to it and no later star does |
| StarGroup.GenerateIndexKeys | core/src/gaiasky/scenegraph/StarGroup.java:181-203 | the index holds exactly the keys some star answers to |
| StarGroup.GetFocus | core/src/gaiasky/scenegraph/StarGroup.java:779-785 | the candidate is -1 exactly when the name is not in the index |
| StarGroup.FocusByHip | core/src/gaiasky/scenegraph/StarGroup.java:181-203 | a star with names and a positive HIP number is found by "hip N" unless a later star answers to it |
| StarGroup.PositionAt | core/src/gaiasky/scenegraph/StarGroup.java:799-806 | the position moves from the catalogue one by the proper motion times the elapsed years |
| StarGroup.GetAbsolutePosition | core/src/gaiasky/scenegraph/StarGroup.java:787-796 | an unknown name gives null; a known one gives the moved position of the star it maps to, throwing when the entry lies past the data |
| StarGroup.PositionByAnyKey | core/src/gaiasky/scenegraph/StarGroup.java:181-203 | with the generated index, any key some star answers to has the moved position of such a star, and other names give null |
| ImmediateRenderSystem.Clear | core/src/gaiasky/render/system/ImmediateRenderSystem.java:46-51 | the four write counters return to zero and everything else is kept |
| ImmediateRenderSystem.CreateMeshData | core/src/gaiasky/render/system/ImmediateRenderSystem.java:72-87 | the new mesh data goes into the first empty slot, or a new slot at the end when none is empty; every other slot is unchanged and its index is returned |
| ImmediateRenderSystem.FirstFreeUnique | core/src/gaiasky/render/system/ImmediateRenderSystem.java:74-79 | there is only one first empty slot |
| ImmediateRenderSystem.ClearMeshData | core/src/gaiasky/render/system/ImmediateRenderSystem.java:103-113 | a slot holding a built mesh is emptied; an out-of-range index or a slot without a mesh changes nothing; other slots are kept |
| ImmediateRenderSystem.ClearedSlotIsReused | core/src/gaiasky/render/system/ImmediateRenderSystem.java:72-113 | after clearing the first built slot past a full prefix, the next mesh data goes into that slot |
| ImmediateRenderSystem.ClearingFreshSlotKeepsIt | core/src/gaiasky/render/system/ImmediateRenderSystem.java:103-113 | a freshly created slot has no mesh, so clearing it keeps it |
| ImmediateRenderSystem.ClearMeshes | core/src/gaiasky/render/system/ImmediateRenderSystem.java:89-96 | a null array stays null; any other array ends up empty |
| ImmediateRenderSystem.EnsureSize | core/src/gaiasky/render/system/ImmediateRenderSystem.java:144-160 | a large enough array is kept; otherwise a new array of the requested size is made, which throws for a negative size |
| ImmediateRenderSystem.EnsureSizeIdempotent | core/src/gaiasky/render/system/ImmediateRenderSystem.java:144-160 | asking for the same size again keeps the array |
| ImmediateRenderSystem.Vertex | core/src/gaiasky/render/system/ImmediateRenderSystem.java:178-185 | succeeds exactly when the array exists and holds three entries from the cursor; writes x, y, z there, keeps the rest, advances the cursor by the vertex size and counts one more vertex |
| ImmediateRenderSystem.ConsecutiveVertices | core/src/gaiasky/render/system/ImmediateRenderSystem.java:178-185 | two vertices in a row land one vertex size apart and the second does not overwrite the first |
| ImmediateRenderSystem.ClearRestartsVertices | core/src/gaiasky/render/system/ImmediateRenderSystem.java:46-51 | after clear, the next vertex is written at the start and is the only vertex counted |
| SvtManager.Observe | core/src/gaiasky/util/svt/SVTManager.java:160-189 | a not-loaded tile is requested unless its path is already held; a loading tile waits until its path has finished; a finished or loaded tile joins the queue and is queued, failing only when the 150-entry queue is full; queued and cached tiles only refresh their access time; the cache is untouched |
| SvtManager.ObserveAll | core/src/gaiasky/util/svt/SVTManager.java:160-189 | processing every observed tile keeps the cache placement consistent and the tile set unchanged |
| SvtManager.FirstFree | core/src/gaiasky/util/svt/SVTManager.java:199-209 | the first empty slot in scan order, and every slot before it is occupied |
| SvtManager.LruScan | core/src/gaiasky/util/svt/SVTManager.java:213-222 | the scan reads a null slot exactly when one exists, and picks a tile of level above zero |
| SvtManager.LruScanMinimal | core/src/gaiasky/util/svt/SVTManager.java:213-222 | the picked tile has the smallest access time among cached tiles of level above zero, and none is picked only when all are level zero |
| SvtManager.LocationBound | core/src/gaiasky/util/svt/SVTManager.java:82 | the location map never holds more tiles than there are occupied slots |
| SvtManager.FullCacheHasNoGap | core/src/gaiasky/util/svt/SVTManager.java:197-212 | when the location map is as large as the cache every slot is occupied, so the eviction scan never meets a null slot |
| SvtManager.PutTileInCache | core/src/gaiasky/util/svt/SVTManager.java:259-294 | the tile is placed at the slot, its location recorded, its access time set and its state cached, and nothing else moves |
| SvtManager.Unplace | core/src/gaiasky/util/svt/SVTManager.java:296-300 | the tile leaves its slot and the location map, its access time resets and its state is loaded |
| SvtManager.RemoveTileFromCache | core/src/gaiasky/util/svt/SVTManager.java:296-317 | the tile is unplaced; the parent walk ends exactly when the tile has no parent or its parent is cached, and otherwise never ends |
| SvtManager.RemovalHangs | core/src/gaiasky/util/svt/SVTManager.java:304-314 | removing a tile whose parent is not cached never returns |
| SvtManager.CachedAncestor | core/src/gaiasky/util/svt/SVTManager.java:302-314 | the walk, when it finds a tile, finds a cached one |
| SvtManager.RemoveTileFromCacheFixed | core/src/gaiasky/util/svt/SVTManager.java:296-317 | the tile is unplaced and the indirection falls back to its nearest cached ancestor, its own parent when that is cached |
| SvtManager.FixedAgreesWhenSourceEnds | core/src/gaiasky/util/svt/SVTManager.java:296-317 | wherever the loop as written ends, the corrected walk does the same |
| SvtManager.Page | core/src/gaiasky/util/svt/SVTManager.java:192-237 | the queue is consumed from the front until it is empty or three tiles were added; the tile polled at the limit is dropped; placement stays consistent |
| SvtManager.PageIn | core/src/gaiasky/util/svt/SVTManager.java:195-235 | only queued tiles are handled; a queued tile already cached becomes cached; a tile added is cached afterwards; at most one tile goes in and at most one comes out |
| SvtManager.Evict | core/src/gaiasky/util/svt/SVTManager.java:213-232 | the evicted tile leaves the cache reset to loaded with access time 0, the polled tile takes exactly its slot and becomes cached, and with the corrected removal eviction never fails |
| SvtManager.PageInTakesFirstFree | core/src/gaiasky/util/svt/SVTManager.java:197-209 | with room in the cache the tile goes to the first free slot |
| SvtManager.PageInEvictsLru | core/src/gaiasky/util/svt/SVTManager.java:210-231 | with a full cache the least recently used tile of level above zero is evicted and the new tile takes its slot |
| SvtManager.LruIsCached | core/src/gaiasky/util/svt/SVTManager.java:213-231 | the eviction candidate is in the location map |
| SvtManager.Update | core/src/gaiasky/util/svt/SVTManager.java:115-255 | a frame keeps the cache placement consistent and adds at most three tiles |
| SceneGraphBuilder.GetNode | core/src/gaiasky/scene/system/initialize/SceneGraphBuilderSystem.java:76-79 | a name is found exactly when its lower-cased, stripped form is an index key, and then gives that key's entity |
| SceneGraphBuilder.GetNodeNormalized | core/src/gaiasky/scene/system/initialize/SceneGraphBuilderSystem.java:76-79 | lower-casing and stripping a name first, in either order, finds the same entity |
| SceneGraphBuilder.Walk | core/src/gaiasky/scene/system/initialize/SceneGraphBuilderSystem.java:67-72 | the ancestor loop visits distinct entities of the graph, and reports a cycle instead of running forever |
| SceneGraphBuilder.WalkFollowsLinks | core/src/gaiasky/scene/system/initialize/SceneGraphBuilderSystem.java:67-72 | the k-th entity the loop visits is the k-th parent up the chain, and the chain ends right after the last one |
| SceneGraphBuilder.AncestorsOnWalk | core/src/gaiasky/scene/system/initialize/SceneGraphBuilderSystem.java:65-73 | the loop visits exactly the strict ancestors of the parent |
| SceneGraphBuilder.Bump | core/src/gaiasky/scene/system/initialize/SceneGraphBuilderSystem.java:69-70 | each listed entity gains one child in its count and nothing else changes |
| SceneGraphBuilder.Link | core/src/gaiasky/scene/system/initialize/SceneGraphBuilderSystem.java:55-63 | the child is appended to the parent's children, points to the parent, and the parent counts one more child; no other node's children or count change and the graph keeps its entities |
| SceneGraphBuilder.AddChild | core/src/gaiasky/scene/system/initialize/SceneGraphBuilderSystem.java:55-74 | the child is appended to the parent's children and points to the parent; the graph keeps its entities and its parent links stay inside it; without ancestor counting the call always succeeds |
| SceneGraphBuilder.AddChildCounts | core/src/gaiasky/scene/system/initialize/SceneGraphBuilderSystem.java:55-74 | the parent gains one child, every strict ancestor of the parent gains one when asked, and every other node keeps its count and its links |
| SceneGraphBuilder.InitializeEntity | core/src/gaiasky/scene/system/initialize/SceneGraphBuilderSystem.java:30-41 | an entity without a parent name is left alone, an unknown parent name is an error, and otherwise the entity is added under the named parent with ancestor counting |
| SceneGraphBuilder.InitializeEntityAttaches | core/src/gaiasky/scene/system/initialize/SceneGraphBuilderSystem.java:30-41 | after initialisation the entity points to the parent its name denotes and is that parent's last child |
| ParticleSetInitializer.InitializeCommon | core/src/gaiasky/scene/system/initialize/ParticleSetInitializer.java:74-80 | an unset factor becomes 1 and a set one is kept; the last sort time is -1; the proximity array has one empty slot per directional light |
| ParticleSetInitializer.Finite | core/src/gaiasky/scene/system/initialize/ParticleSetInitializer.java:180-183 | the kept distances are exactly the finite ones |
| ParticleSetInitializer.Insert | core/src/gaiasky/scene/system/initialize/ParticleSetInitializer.java:188 | inserting into a sorted list keeps it sorted, one longer, and holding exactly the old values and the new one |
| ParticleSetInitializer.InsertCounts | core/src/gaiasky/scene/system/initialize/ParticleSetInitializer.java:188 | the insertion adds one entry below a value exactly when the new value is below it, and one at or below it exactly when it is at or below it |
| ParticleSetInitializer.Sort | core/src/gaiasky/scene/system/initialize/ParticleSetInitializer.java:188 | the sorted list is ordered, as long as the input and holds the same values |
| ParticleSetInitializer.SortCounts | core/src/gaiasky/scene/system/initialize/ParticleSetInitializer.java:188 | sorting keeps, for every value, the number of entries below it and at or below it |
| ParticleSetInitializer.SortedRank | core/src/gaiasky/scene/system/initialize/ParticleSetInitializer.java:188-190 | in a sorted list the j-th entry has at most j entries below it and at least j + 1 at or below it |
| ParticleSetInitializer.NinetiethRank | core/src/gaiasky/scene/system/initialize/ParticleSetInitializer.java:189 | the rank is the ceiling of nine tenths of the count |
| ParticleSetInitializer.MinMax | core/src/gaiasky/scene/system/initialize/ParticleSetInitializer.java:178-186 | the minimum and maximum bound every finite distance and are either a distance or the starting sentinel |
| ParticleSetInitializer.NinetiethPercentile | core/src/gaiasky/scene/system/initialize/ParticleSetInitializer.java:188-190 | defined exactly for a non-empty list; the value is a distance with fewer than the rank below it and at least the rank at or below it |
| ParticleSetInitializer.ComputeMinMeanMaxDistances | core/src/gaiasky/scene/system/initialize/ParticleSetInitializer.java:173-191 | succeeds exactly when some distance is finite; the mean is half the ninetieth-percentile distance; min and max bound all finite distances |
| ParticleSetInitializer.ComputeMeanPosition | core/src/gaiasky/scene/system/initialize/ParticleSetInitializer.java:193-204 | a preset mean position is kept; otherwise, for a non-empty set, the mean times the count is the body position plus all particle positions |
| ParticleSetInitializer.AccumulateCopies | core/src/gaiasky/scene/system/initialize/ParticleSetInitializer.java:199-201 | adding n copies of a point adds n times the point |
| ParticleSetInitializer.MeanOfCopies | core/src/gaiasky/scene/system/initialize/ParticleSetInitializer.java:193-204 | starting from the origin, the mean of identical particles is that particle |
| ParticleSetInitializer.SetLabelPosition | core/src/gaiasky/scene/system/initialize/ParticleSetInitializer.java:206-219 | a label position already set is kept; otherwise it becomes the body position exactly when the entity has both a label and a body |
| ParticleSetInitializer.SetLabelPositionIdempotent | core/src/gaiasky/scene/system/initialize/ParticleSetInitializer.java:206-219 | setting the label position twice is setting it once |
| ParticleSetInitializer.DefaultEpochs | core/src/gaiasky/scene/system/initialize/ParticleSetInitializer.java:159-166 | non-positive epochs become J2015.5 and J2010, positive ones are kept |
| ParticleSetInitializer.DefaultEpochsIdempotent | core/src/gaiasky/scene/system/initialize/ParticleSetInitializer.java:159-166 | defaulting the epochs twice is defaulting them once |
| ParticleSetInitializer.InitSortingData | core/src/gaiasky/scene/system/initialize/ParticleSetInitializer.java:224-237 | one zero of metadata per particle; both index arrays are the identity, the first active and the second background |
| ParticleSetInitializer.IdentityIsPermutation | core/src/gaiasky/scene/system/initialize/ParticleSetInitializer.java:229-234 | the identity index array holds every particle index exactly once |
| EventManager.WithQueue | core/src/gaiasky/event/EventManager.java:47 | replacing one frame's queue leaves the other queue, the subscriptions and the default frame alone |
| EventManager.Without | core/src/gaiasky/event/EventManager.java:127-136 | removing a list of observers from a set keeps exactly the others, in order and without duplicates |
| EventManager.Create | core/src/gaiasky/event/EventManager.java:58-72 | a new manager has empty queues, real time as default frame, and only itself subscribed, to the time-frame command |
| EventManager.Subscribe | core/src/gaiasky/event/EventManager.java:93-99 | the observer joins the end of the event's ordered set unless already there; no other event and no queue changes |
| EventManager.IsSubscribedTo | core/src/gaiasky/event/EventManager.java:284-287 | an observer is subscribed exactly when it is among the event's subscribers, and then the event has subscribers |
| EventManager.HasSubscribers | core/src/gaiasky/event/EventManager.java:267-270 | an event has subscribers exactly when its subscriber list is not empty |
| EventManager.SubscribeAll | core/src/gaiasky/event/EventManager.java:80-84 | afterwards the observer is subscribed to every listed event, and nothing else is added |
| EventManager.Unsubscribe | core/src/gaiasky/event/EventManager.java:113-120 | removes exactly that (observer, event) pair; an event without a set is a no-op |
| EventManager.RemoveAllSubscriptions | core/src/gaiasky/event/EventManager.java:127-136 | the listeners leave every event's set and all other listeners stay |
| EventManager.ClearSubscriptions | core/src/gaiasky/event/EventManager.java:143-147 | the event has no listener afterwards and every other event keeps its listeners |
| EventManager.ClearAllSubscriptions | core/src/gaiasky/event/EventManager.java:149-153 | nobody is subscribed to anything afterwards |
| EventManager.Notify | core/src/gaiasky/event/EventManager.java:290-295 | a time-frame command sets the default frame from its first datum; any other event changes nothing |
| EventManager.Deliver | core/src/gaiasky/event/EventManager.java:164-168 | one notification per observer, in order, and the manager reacts only when it is itself one of them |
| EventManager.Post | core/src/gaiasky/event/EventManager.java:161-170 | notifies exactly the current subscribers of the event, in insertion order; subscriptions and queues are unchanged |
| EventManager.InsertPos | core/src/gaiasky/event/EventManager.java:192 | the slot of a new telegram: behind every telegram due no later, in front of the first due strictly later |
| EventManager.Enqueue | core/src/gaiasky/event/EventManager.java:192 | adding a telegram keeps the queue in timestamp order and adds exactly that telegram |
| EventManager.PostDelayedIn | core/src/gaiasky/event/EventManager.java:207-219 | a delay of at most zero posts at once; otherwise nothing is delivered and exactly one telegram stamped now + delay joins the chosen frame's queue |
| EventManager.PostDelayed | core/src/gaiasky/event/EventManager.java:182-194 | the same in the default time frame |
| EventManager.DueCount | core/src/gaiasky/event/EventManager.java:247-258 | the number of front telegrams stamped no later than now, stopping at the first future one |
| EventManager.PostAll | core/src/gaiasky/event/EventManager.java:261-265 | posting a run of telegrams leaves the subscriptions and queues alone and changes nothing unless one is a time-frame command |
| EventManager.Dispatch | core/src/gaiasky/event/EventManager.java:240-259 | delivers the due prefix in queue order, removes exactly it, and leaves the other frame's queue alone |
| EventManager.PostAllIgnoresQueues | core/src/gaiasky/event/EventManager.java:261-265 | what posting delivers depends only on the subscriptions and the default frame |
| EventManager.DispatchDelayedMessages | core/src/gaiasky/event/EventManager.java:234-238 | each frame's queue loses exactly its due prefix at that frame's current time |
| EventManager.DispatchStopsAtFirstFuture | core/src/gaiasky/event/EventManager.java:241-251 | with nothing due at the front, dispatching delivers nothing and changes nothing |
| EventManager.SubscribeIdempotent | core/src/gaiasky/event/EventManager.java:93-99 | subscribing twice is subscribing once |
| EventManager.UnsubscribeUndoesSubscribe | core/src/gaiasky/event/EventManager.java:93-120 | unsubscribing a fresh subscription restores every subscription relation |
| EventManager.PostReachesExactlySubscribers | core/src/gaiasky/event/EventManager.java:161-170 | a post reaches an observer iff it is subscribed to the event (isSubscribedTo, 284-287) |
| EventManager.TimeFrameCommandSwitchesFrame | core/src/gaiasky/event/EventManager.java:290-295 | posting a time-frame command to a manager subscribed to itself switches its default frame |
| Camcorder.Create | core/src/gaiasky/util/camera/rec/Camcorder.java:46-58 | a new recorder is idle with no paths and no file name |
| Camcorder.EmptyPath | core/src/gaiasky/util/camera/rec/Camcorder.java:149 | a new recording path holds no frames and its cursor is at 0 |
| Camcorder.PoseValues | core/src/gaiasky/util/camera/rec/Camcorder.java:74-77 | a pose is written as nine numbers |
| Camcorder.PoseAt | core/src/gaiasky/util/camera/rec/Camcorder.java:87-90 | the pose read at a data offset is the nine numbers stored there |
| Camcorder.Add | core/src/gaiasky/util/camera/rec/Camcorder.java:74-77 | adding a frame appends its time and its nine numbers and counts one more frame |
| Camcorder.Update | core/src/gaiasky/util/camera/rec/Camcorder.java:67-121 | idle does nothing; recording appends the frame; playing with frames left shows the cursor's pose at its time and advances, failing only when the data is too short; playing past the end drops the path, goes idle, and puts the backed-up frame limit back (only when the path's frame rate is positive) before stopping the camera, reporting playing off and switching frame output off |
| Camcorder.RecordCommand | core/src/gaiasky/util/camera/rec/Camcorder.java:128-218 | starting while not idle is refused; starting creates an empty path at the target rate, keeps a non-blank name as the current file name, and for a positive target rate backs up the frame limit and caps frames at the target rate; stopping while idle does nothing; stopping goes idle, discards the recording path, puts the backed-up limit back when the path's rate is positive, and persists to the given name, else the remembered name, else the default name, with ".gsc" appended (a failed persist when there is no path), forgetting the remembered name unless a name was given |
| Camcorder.PlayCommand | core/src/gaiasky/util/camera/rec/Camcorder.java:219-262 | playing while not idle is refused; a parsed file becomes the playing path and the mode is playing; for a positive frame rate the frame limit is backed up and frames are capped at the path's rate; the events are play started, the cap, playing on, then frame output on when automatic output is set; a parse failure changes nothing and reports the error |
| Camcorder.StopPlay | core/src/gaiasky/util/camera/rec/Camcorder.java:271-289 | ignored, with no effects, unless playing; otherwise goes idle, keeps both paths, and stops the camera, reports playing off and switches frame output off, in that order |
| Camcorder.ManualStopKeepsCap | core/src/gaiasky/util/camera/rec/Camcorder.java:242-289 | a playback at a positive frame rate stopped by hand publishes no frame limit, so the cap the play command set stays |
| Camcorder.StopPlayFixed | core/src/gaiasky/util/camera/rec/Camcorder.java:271-289 | the corrected stop: as the source's stop, but first puts back the backed-up frame limit when the loaded path's rate is positive |
| Camcorder.PlayThenStopFixedRestoresLimit | core/src/gaiasky/util/camera/rec/Camcorder.java:242-289 | with the corrected stop, playing a path at a positive rate from idle under limit L and stopping it by hand publishes L, then the three stop events |
| Camcorder.PlayThenStop | core/src/gaiasky/util/camera/rec/Camcorder.java:219-289 | starting a path from idle and then stopping it ends idle with the path kept; the stop switches off the play information and the frame output that the start switched on, frame output last |
| Camcorder.RecordAll | core/src/gaiasky/util/camera/rec/Camcorder.java:72-79 | recording n frames keeps recording, counts n more frames, keeps the path's frame rate and changes nothing but the recording path |
| Camcorder.Times | core/src/gaiasky/util/camera/rec/Camcorder.java:74 | the frame times in order |
| Camcorder.Flat | core/src/gaiasky/util/camera/rec/Camcorder.java:74-77 | nine numbers per frame |
| Camcorder.FlatFrame | core/src/gaiasky/util/camera/rec/Camcorder.java:87-90 | frame k's pose sits at offset 9k |
| Camcorder.RecordStoresFrames | core/src/gaiasky/util/camera/rec/Camcorder.java:72-79 | a recording stores exactly the times and poses seen, in order, after the existing ones |
| Camcorder.PlaybackReplaysRecording | core/src/gaiasky/util/camera/rec/Camcorder.java:80-94 | playing back a recorded path, the k-th update shows the k-th recorded pose and publishes the k-th recorded time |
| Camcorder.PlayFrames | core/src/gaiasky/util/camera/rec/Camcorder.java:67-121 | an idle recorder is unchanged over any number of frames; a recorder that is not playing keeps its mode and never fails |
| Camcorder.PlaybackEnds | core/src/gaiasky/util/camera/rec/Camcorder.java:95-114 | the update after the last frame goes idle with no playing path, puts the backed-up limit back when the path's rate is positive, and stops the camera, reports playing off and switches frame output off |
| Camcorder.RecordingRestoresLimit | core/src/gaiasky/util/camera/rec/Camcorder.java:152-208 | a recording at a positive rate started from idle under limit L caps frames at the target rate, and stopping it after any frames publishes L first and persists the path |
| Camcorder.PlaybackRestoresLimit | core/src/gaiasky/util/camera/rec/Camcorder.java:95-113 | a recorded path played at a positive rate from idle under limit L caps frames at its rate, and the update past its last frame publishes L, then stops the camera, reports playing off and switches frame output off |
| Camcorder.PoseValuesInjective | core/src/gaiasky/util/camera/rec/Camcorder.java:74-90 | distinct poses are written as distinct numbers |
| Camcorder.StartWhileRecordingIsBusy | core/src/gaiasky/util/camera/rec/Camcorder.java:130-146 | starting while already recording is refused as busy, so the "already recording" branch is never reached |
| GuiRegistry.IndexOf | core/src/gaiasky/gui/GuiRegistry.java:224 | the position of the first occurrence of the GUI |
| GuiRegistry.RemoveValue | core/src/gaiasky/gui/GuiRegistry.java:223-225 | reports true exactly when the GUI was registered, and then removes its first occurrence and nothing else |
| GuiRegistry.RemoveValueNoDup | core/src/gaiasky/gui/GuiRegistry.java:223-225 | on a duplicate-free list the GUI is removed entirely, every other GUI stays, and the list stays duplicate-free |
| GuiRegistry.RegisterGui | core/src/gaiasky/gui/GuiRegistry.java:210-214 | afterwards the GUI is registered, nothing else is added, and no GUI is registered twice |
| GuiRegistry.UnregisterGui | core/src/gaiasky/gui/GuiRegistry.java:223-225 | reports whether the GUI was registered and removes it from the list only |
| GuiRegistry.UnregisterAll | core/src/gaiasky/gui/GuiRegistry.java:232-235 | clears the list and reports true |
| GuiRegistry.RegisterThenUnregister | core/src/gaiasky/gui/GuiRegistry.java:210-225 | registering a new GUI and unregistering it restores the registry and reports true |
| GuiRegistry.Unset | core/src/gaiasky/gui/GuiRegistry.java:175-181 | the given GUI becomes the previous one and, when non-null, leaves both the list and the processors |
| GuiRegistry.Set | core/src/gaiasky/gui/GuiRegistry.java:188-194 | the given GUI becomes current and, when non-null, is registered and put in front of the processors |
| GuiRegistry.SetPrevious | core/src/gaiasky/gui/GuiRegistry.java:201-203 | only the previous GUI changes |
| GuiRegistry.ChangeWithPrevious | core/src/gaiasky/gui/GuiRegistry.java:144-149 | changing to the current GUI does nothing; otherwise the GUI becomes current, the given previous is recorded, and the GUI is registered |
| GuiRegistry.Change | core/src/gaiasky/gui/GuiRegistry.java:156-161 | changing to the current GUI does nothing; otherwise the GUI becomes current, the old one becomes previous, and the new one is registered |
| GuiRegistry.ChangeUnregistersOld | core/src/gaiasky/gui/GuiRegistry.java:156-181 | the GUI changed away from is unregistered, and the list stays duplicate-free |
| GuiRegistry.ChangeAndBack | core/src/gaiasky/gui/GuiRegistry.java:156-161 | changing to another GUI and back restores the current GUI and records the other as previous |
| GaiaSky.RemoveFirst | core/src/gaiasky/GaiaSky.java:1452 | removing by identity drops one occurrence and changes nothing when the runnable is absent |
| GaiaSky.Park | core/src/gaiasky/GaiaSky.java:1439-1442 | the key now maps to the runnable, other keys keep theirs, and the runnable is appended to the run list |
| GaiaSky.Unpark | core/src/gaiasky/GaiaSky.java:1449-1455 | an unknown key changes nothing; otherwise the key is gone, other keys are kept and its runnable leaves the run list once |
| GaiaSky.ParkUnpark | core/src/gaiasky/GaiaSky.java:1439-1455 | parking under a new key and unparking it restores the previous state |
| GaiaSky.RemoveLast | core/src/gaiasky/GaiaSky.java:1452 | removing a runnable that was appended last, and occurs nowhere else, gives back the list before it |
| GaiaSky.Survivors | core/src/gaiasky/GaiaSky.java:1010-1020 | after a run the list holds only runnables that did not throw, and every one that did not throw is kept |
| GaiaSky.SurvivorsConcat | core/src/gaiasky/GaiaSky.java:1010-1019 | the survivors of two lists run in turn are the survivors of the first followed by those of the second: removal keeps order |
| GaiaSky.SurvivorsSingle | core/src/gaiasky/GaiaSky.java:1010-1019 | a single runnable survives exactly when it does not throw |
| GaiaSky.SurvivorsMultiplicity | core/src/gaiasky/GaiaSky.java:1010-1019 | a runnable that does not throw keeps every one of its occurrences; one that throws keeps none |
| GaiaSky.RunParked | core/src/gaiasky/GaiaSky.java:1007-1022 | running parked runnables never touches the key map; a crashed frame runs nothing; otherwise exactly the throwing ones leave the run list |
| GaiaSky.ThrowingStaysMapped | core/src/gaiasky/GaiaSky.java:1007-1022 | a runnable dropped for throwing stays in the key map, and unparking its key afterwards leaves the run list alone |
| GaiaSky.PerFrame | core/src/gaiasky/GaiaSky.java:1087 | the time per frame is the reciprocal of the frame rate; a rate of 0 has none |
| GaiaSky.TimeStep | core/src/gaiasky/GaiaSky.java:1083-1095 | frame output and camera recording use the target rate; otherwise the step is the frame time capped at 0.05 s |
| GaiaSky.CappedSteps | core/src/gaiasky/GaiaSky.java:1093-1094 | n uncapped-mode frames advance the simulation by at most 0.05 n seconds |
| GaiaSky.Key | core/src/gaiasky/GaiaSky.java:1218-1220 | a size key has at least three characters |
| GaiaSky.NoXInNumber | core/src/gaiasky/GaiaSky.java:1219 | a decimal number contains no 'x' |
| GaiaSky.FirstX | core/src/gaiasky/GaiaSky.java:1219 | the first 'x' of the key sits right after the width |
| GaiaSky.KeyInjective | core/src/gaiasky/GaiaSky.java:1218-1220 | distinct int sizes have distinct keys |
| GaiaSky.GetFrameBuffer | core/src/gaiasky/GaiaSky.java:1209-1216 | a cached size returns its buffer unchanged; a new size caches and returns the new buffer |
| GaiaSky.OneBufferPerSize | core/src/gaiasky/GaiaSky.java:1209-1216 | asking twice for the same size returns the same buffer and leaves the cache as it was |
| GaiaSky.OtherSizeKeepsBuffer | core/src/gaiasky/GaiaSky.java:1209-1216 | asking for a second, different size keeps the first size's buffer cached and returns the second size's cached buffer, or the new one |
| SpacecraftView.StopAllMovement | core/src/gaiasky/scene/view/SpacecraftView.java:207-217 | every power is zero and the engine is neither levelling nor stopping, while the thrust setting is kept |
| SpacecraftView.Increase | core/src/gaiasky/scene/view/SpacecraftView.java:219-224 | only the index changes; an index in range moves up by one and wraps from the last factor to the first; with no factors the modulo throws; the call completes exactly when the new index can be read |
| SpacecraftView.Decrease | core/src/gaiasky/scene/view/SpacecraftView.java:226-233 | only the index changes; an index in range moves down by one and wraps from the first factor to the last; the call completes exactly when the new index can be read |
| SpacecraftView.SetThrustFactorIndex | core/src/gaiasky/scene/view/SpacecraftView.java:235-241 | the index is stored as given and the call completes exactly when it is inside the factor array |
| SpacecraftView.IncreaseDecreaseInverse | core/src/gaiasky/scene/view/SpacecraftView.java:219-233 | increasing then decreasing, or the reverse, gives back the engine |
| SpacecraftView.StopKeepsThrust | core/src/gaiasky/scene/view/SpacecraftView.java:207-233 | stopping does not affect the thrust steps, and stopping twice is stopping once |
| MusicComponent.Trunc | core/src/gaiasky/interafce/components/MusicComponent.java:146-147 | the int cast truncates toward zero |
| MusicComponent.ZeroPad | core/src/gaiasky/interafce/components/MusicComponent.java:148 | padding keeps the digits' value and gives at least two digits |
| MusicComponent.LeadingZero | core/src/gaiasky/interafce/components/MusicComponent.java:148 | a leading zero does not change a digit string's value |
| MusicComponent.Format00 | core/src/gaiasky/interafce/components/MusicComponent.java:148 | every number gets at least two characters; 0 to 99 are exactly two digits of the number's value; an int reads back as itself |
| MusicComponent.ToMinutesSeconds | core/src/gaiasky/interafce/components/MusicComponent.java:145-149 | below 100 minutes the label is "mm:ss" with seconds under 60, and 60 mm + ss is the whole number of seconds |
| MusicComponent.MinutesSeconds | core/src/gaiasky/interafce/components/MusicComponent.java:146-147 | the truncated minutes and remaining seconds split the whole seconds exactly, with seconds in 0 to 59 |
| MusicComponent.CapStr | core/src/gaiasky/interafce/components/MusicComponent.java:166-172 | a string that fits the window is returned whole; otherwise the window's characters, and bounds outside the string throw |
| MusicComponent.Slide | core/src/gaiasky/interafce/components/MusicComponent.java:151-164 | a name that fits, or no name, stays still; otherwise the window moves one step, reversing at the right end going right and at the start going left, and stays inside the name |
| MusicComponent.NewTrack | core/src/gaiasky/interafce/components/MusicComponent.java:193-199 | a new track starts at the left moving right |
| MusicComponent.ShownIsWindow | core/src/gaiasky/interafce/components/MusicComponent.java:162 | while the window stays inside the name the label never throws, and shows the whole name or exactly the window |
| MusicComponent.SlideN | core/src/gaiasky/interafce/components/MusicComponent.java:151-164 | repeated sliding keeps the track and keeps the window inside the name |
| MusicComponent.SlideReachesEnd | core/src/gaiasky/interafce/components/MusicComponent.java:151-164 | from a new track, k slides move the window k characters right, up to the end |
| MusicComponent.TurnsAtEnd | core/src/gaiasky/interafce/components/MusicComponent.java:155-160 | at the right end the next slide turns back one character |
| NotificationsInterface.JoinTags | core/src/gaiasky/gui/NotificationsInterface.java:216-219 | a single text is kept as it is |
| NotificationsInterface.Texts | core/src/gaiasky/gui/NotificationsInterface.java:216 | one text per argument, in order |
| NotificationsInterface.Assemble | core/src/gaiasky/gui/NotificationsInterface.java:210-221 | without a trailing flag the message is the joined texts and not permanent |
| NotificationsInterface.TrailingFlagIsPermanence | core/src/gaiasky/gui/NotificationsInterface.java:210-221 | a trailing flag sets the permanence and adds nothing to the text |
| NotificationsInterface.JoinTagsSnoc | core/src/gaiasky/gui/NotificationsInterface.java:216-219 | appending a text appends the separator and the text |
| NotificationsInterface.PostNotification | core/src/gaiasky/gui/NotificationsInterface.java:207-222 | the loop builds the message and permanence the assembled notification describes |
| NotificationsInterface.FormatMessage | core/src/gaiasky/gui/NotificationsInterface.java:164-167 | with dates the date, a debug tag and the separator prefix the message; without, only debug messages get a prefix; the message always ends the text |
| NotificationsInterface.AddMessage | core/src/gaiasky/gui/NotificationsInterface.java:140-162 | a debug message below debug log level changes nothing; otherwise the message takes line one, the display turns on with the given permanence, history grows only when kept, and line one moves to line two exactly when two lines are on and the latest entry is still live |
| NotificationsInterface.Finished | core/src/gaia/cu9/ari/gaiaorbit/interfce/MessageBean.java:33-35 | a message is finished exactly when more than the timeout has passed since it was created, so with a non-negative timeout never at its creation time |
| NotificationsInterface.TwoQuickMessages | core/src/gaiasky/gui/NotificationsInterface.java:140-162 | two quick messages show the newer first and, on two lines, the older below it |
| NotificationsInterface.Update | core/src/gaiasky/gui/NotificationsInterface.java:169-186 | only a displayed non-permanent message is acted on; an empty history throws; each line is cleared exactly when its entry has timed out; on a one-line interface the visibility test fails exactly when the first line is left without a label; otherwise the panel is visible exactly while a line shows |
| NotificationsInterface.Expire | core/src/gaiasky/gui/NotificationsInterface.java:170-178 | the second line is cleared exactly when two lines are on and the second-latest entry has timed out; the first line is cleared and the display stops exactly when the latest entry has timed out; history and permanence are kept |
| NotificationsInterface.UpdateFixed | core/src/gaiasky/gui/NotificationsInterface.java:169-186 | the update with a missing second cell read as holding no label: it fails only on an empty history, and otherwise expires the lines and shows the panel exactly while the first line, or on two lines either line, shows |
| NotificationsInterface.UpdateFixedAgrees | core/src/gaiasky/gui/NotificationsInterface.java:169-186 | the corrected update equals the source's on every two-line interface and wherever the source does not fail |
| NotificationsInterface.OneLineExpiryFails | core/src/gaiasky/gui/NotificationsInterface.java:119-123 | on a one-line interface, the first update after a message times out fails on the missing second cell |
| NotificationsInterface.AddedMessageLifetime | core/src/gaiasky/gui/NotificationsInterface.java:140-186 | with the corrected update, a message just added survives an update at once and is cleared by one after its timeout, which also hides a one-line panel |
| NotificationsInterface.PermanentMessageStays | core/src/gaiasky/gui/NotificationsInterface.java:140-186 | an update, as written or corrected, never takes down a permanent message |
| VrContext.ShiftDistance | core/src/gaiasky/vr/openvr/VRContext.java:870-876 | a long shift uses the low six bits of the distance, so a button number in 0..63 shifts by itself |
| VrContext.IsButtonPressed | core/src/gaiasky/vr/openvr/VRContext.java:864-868 | a button outside 0..63 is never pressed; inside it is pressed exactly when its bit is set |
| VrContext.SetButton | core/src/gaiasky/vr/openvr/VRContext.java:870-876 | only the addressed bit changes; a press sets it and a release flips it |
| VrContext.ReleaseUnpressedPresses | core/src/gaiasky/vr/openvr/VRContext.java:870-876 | releasing a button that was not pressed makes it read as pressed |
| VrContext.SetButtonFixed | core/src/gaiasky/vr/openvr/VRContext.java:870-876 | only the addressed bit changes and it ends equal to the pressed flag |
| VrContext.SetButtonAgreesOnPressedRelease | core/src/gaiasky/vr/openvr/VRContext.java:870-876 | the code as written and the corrected one agree on every press and on the release of a pressed button |
| VrContext.SetButtonFixedPressed | core/src/gaiasky/vr/openvr/VRContext.java:864-876 | after the corrected update a button reads as pressed exactly when it was just pressed, or, for any other button, as it read before |
| VrContext.FirstOfType | core/src/gaiasky/vr/openvr/VRContext.java:204-211 | the first occupied slot holding a device of the type, with none of the type before it |
| VrContext.GetDeviceByType | core/src/gaiasky/vr/openvr/VRContext.java:204-211 | a connected device of the type, and null exactly when there is none |
| VrContext.GetDevicesByType | core/src/gaiasky/vr/openvr/VRContext.java:215-222 | exactly the connected devices of the type |
| VrContext.GetDevicesByTypeConcat | core/src/gaiasky/vr/openvr/VRContext.java:215-222 | the devices of a type in a concatenated table are those of each part, in order |
| VrContext.FirstOfList | core/src/gaiasky/vr/openvr/VRContext.java:204-222 | the device by type is the first of the list by type, or null when that list is empty |
| VrContext.GetDevices | core/src/gaiasky/vr/openvr/VRContext.java:227-234 | exactly the connected devices, never more than the slots |
| VrContext.DevicesByTypePartition | core/src/gaiasky/vr/openvr/VRContext.java:215-234 | a device is connected exactly when it is among the devices of its own type |
| VrContext.GetControllerByRole | core/src/gaiasky/vr/openvr/VRContext.java:240-246 | a connected controller with the role, and null only when no connected controller has it |
| VrContext.GetDevicePose | core/src/gaiasky/vr/openvr/VRContext.java:248-252 | the pose at the index, and an error exactly when the index is outside the pose array |
| VrContext.AddListener | core/src/gaiasky/vr/openvr/VRContext.java:188-191 | the listener is present afterwards; an existing listener is not added twice, a new one goes last, and the list stays free of repeats |
| VrContext.RemoveListener | core/src/gaiasky/vr/openvr/VRContext.java:196-198 | an absent listener leaves the list alone; a present one is removed once, and from a list without repeats entirely |
| VrContext.AddRemoveListener | core/src/gaiasky/vr/openvr/VRContext.java:188-198 | adding a new listener and removing it restores the list, and adding twice is adding once |
| PortableFloatMap.Blank | core/src/gaiasky/util/gdx/loader/PortableFloatMap.java:43-45 | a new map is big-endian with no mode and no pixels |
| PortableFloatMap.Ascii | core/src/gaiasky/util/gdx/loader/PortableFloatMap.java:89 | US-ASCII decoding keeps the length and maps each byte on its own |
| PortableFloatMap.Bytes | core/src/gaiasky/util/gdx/loader/PortableFloatMap.java:173 | the bytes of an ASCII text decode back to that text |
| PortableFloatMap.LineEnd | core/src/gaiasky/util/gdx/loader/PortableFloatMap.java:86-91 | the first newline, or the end of input, and no newline before it |
| PortableFloatMap.ReadLine | core/src/gaiasky/util/gdx/loader/PortableFloatMap.java:84-94 | the text before the newline or end of stream, with the rest after the newline; lines of 100 or more bytes are rejected |
| PortableFloatMap.ReadLineOfWritten | core/src/gaiasky/util/gdx/loader/PortableFloatMap.java:84-94 | a short ASCII line followed by a newline reads back as itself, leaving exactly the bytes after it |
| PortableFloatMap.LineEndAt | core/src/gaiasky/util/gdx/loader/PortableFloatMap.java:86-91 | the line ends at the first newline |
| PortableFloatMap.ParseMagic | core/src/gaiasky/util/gdx/loader/PortableFloatMap.java:98-104 | "PF" selects colour, "Pf" grayscale, anything else is rejected |
| PortableFloatMap.ParseDimensions | core/src/gaiasky/util/gdx/loader/PortableFloatMap.java:107-117 | accepted only with a space, two parsable `int`s split at the first space, both positive |
| PortableFloatMap.ParseEndianness | core/src/gaiasky/util/gdx/loader/PortableFloatMap.java:120-126 | a non-negative scale means big-endian, a negative one little-endian; NaN is rejected |
| PortableFloatMap.Channels | core/src/gaiasky/util/gdx/loader/PortableFloatMap.java:207-211 | 3 channels for colour, 1 for grayscale |
| PortableFloatMap.NestedDivision | core/src/gaiasky/util/gdx/loader/PortableFloatMap.java:212 | the nested integer divisions of the overflow test are one division by the product |
| PortableFloatMap.DivZero | core/src/gaiasky/util/gdx/loader/PortableFloatMap.java:212 | the overflow test's quotient is zero exactly when the product exceeds `Integer.MAX_VALUE` |
| PortableFloatMap.CalcPixelArrayLength | core/src/gaiasky/util/gdx/loader/PortableFloatMap.java:206-216 | w·h·channels, accepted exactly when it does not exceed `Integer.MAX_VALUE` |
| PortableFloatMap.WordBytesBig | core/src/gaiasky/util/gdx/loader/PortableFloatMap.java:188 | four bytes per 32-bit word |
| PortableFloatMap.ReverseBytes | core/src/gaiasky/util/gdx/loader/PortableFloatMap.java:136 | `Integer.reverseBytes` reverses the four bytes of the word |
| PortableFloatMap.WordBytesBigOf | core/src/gaiasky/util/gdx/loader/PortableFloatMap.java:133 | assembling four bytes into a word and splitting it again gives the bytes back |
| PortableFloatMap.BytesWordBigOf | core/src/gaiasky/util/gdx/loader/PortableFloatMap.java:133 | splitting a word into bytes and reassembling it gives the word back |
| PortableFloatMap.EncodePixel | core/src/gaiasky/util/gdx/loader/PortableFloatMap.java:186-192 | one pixel is four bytes; a NaN word is written as the canonical NaN 0x7fc00000 in the chosen byte order, any other word as its own bytes in that order |
| PortableFloatMap.FloatToIntBits | core/src/gaiasky/util/gdx/loader/PortableFloatMap.java:186-192 | every NaN word becomes 0x7fc00000 and every other word is kept, so NaN-ness is preserved |
| PortableFloatMap.Canonical | core/src/gaiasky/util/gdx/loader/PortableFloatMap.java:186-192 | the written pixel words: same length, each word through `floatToIntBits` |
| PortableFloatMap.CanonicalStable | core/src/gaiasky/util/gdx/loader/PortableFloatMap.java:186-192 | canonicalising twice is canonicalising once, and an image without non-canonical NaN words is unchanged |
| PortableFloatMap.DecodePixel | core/src/gaiasky/util/gdx/loader/PortableFloatMap.java:131-137 | the word read has the four bytes as its big-endian bytes, reversed for a little-endian file |
| PortableFloatMap.EncodePixels | core/src/gaiasky/util/gdx/loader/PortableFloatMap.java:186-192 | n pixels are 4n bytes |
| PortableFloatMap.DecodePixels | core/src/gaiasky/util/gdx/loader/PortableFloatMap.java:129-137 | reading n pixels needs 4n bytes (otherwise end of stream) and leaves exactly the bytes after them |
| PortableFloatMap.DecodeEncodePixel | core/src/gaiasky/util/gdx/loader/PortableFloatMap.java:135-136 | a pixel written and read back in either byte order gives the word `floatToIntBits` makes of it: the same word unless it is a non-canonical NaN |
| PortableFloatMap.DecodeEncodePixels | core/src/gaiasky/util/gdx/loader/PortableFloatMap.java:131-137 | a run of pixel words read back is the run with each NaN canonicalised, in either byte order, and the following bytes are left alone |
| PortableFloatMap.ReadHeader | core/src/gaiasky/util/gdx/loader/PortableFloatMap.java:96-126 | a successful header has positive `int` dimensions; a bad magic line is "Unrecognized format" |
| PortableFloatMap.Read | core/src/gaiasky/util/gdx/loader/PortableFloatMap.java:96-138 | a successful read gives a consistent image (positive size, mode set, exactly w·h·channels pixels); header errors propagate |
| PortableFloatMap.CheckData | core/src/gaiasky/util/gdx/loader/PortableFloatMap.java:195-204 | passes exactly for a consistent image; the errors come in the source's order, width first, then height |
| PortableFloatMap.IntToStringAscii | core/src/gaiasky/util/gdx/loader/PortableFloatMap.java:179 | a decimal number is ASCII without newlines |
| PortableFloatMap.DimensionsLineAscii | core/src/gaiasky/util/gdx/loader/PortableFloatMap.java:179 | the dimensions line is short ASCII without newlines |
| PortableFloatMap.Write | core/src/gaiasky/util/gdx/loader/PortableFloatMap.java:168-193 | refused with checkData's error unless the image is consistent |
| PortableFloatMap.WriteHeader | core/src/gaiasky/util/gdx/loader/PortableFloatMap.java:175-182 | the header starts with "PF" for colour or "Pf" for grayscale and a newline, and ends with a newline |
| PortableFloatMap.MagicLineReads | core/src/gaiasky/util/gdx/loader/PortableFloatMap.java:174-178 | the written magic line reads back to the same mode |
| PortableFloatMap.DimensionsLineReads | core/src/gaiasky/util/gdx/loader/PortableFloatMap.java:179 | the written dimensions line reads back to the same width and height |
| PortableFloatMap.ScaleLineReads | core/src/gaiasky/util/gdx/loader/PortableFloatMap.java:180 | the written scale line "1.0"/"-1.0" reads back to the same byte order |
| PortableFloatMap.HeaderRoundTrip | core/src/gaiasky/util/gdx/loader/PortableFloatMap.java:174-181 | a written header reads back to the same mode, width, height and byte order |
| PortableFloatMap.WriteThenRead | core/src/gaiasky/util/gdx/loader/PortableFloatMap.java:168-193 | a consistent image written and read back is the same image with each NaN pixel canonicalised, and exactly the same image when it has no non-canonical NaN; the following bytes are left |
| PortableFloatMap.DimensionsRoundTrip | core/src/gaiasky/util/gdx/loader/PortableFloatMap.java:107-117 | "w h" for positive `int`s parses back to (w, h) |
| PortableFloatMap.SplitAtFirst | core/src/gaiasky/util/gdx/loader/PortableFloatMap.java:107 | splitting at the first separator of a text whose head has none gives head and tail |
| FileDataLoader.MillisPrecision | core/src/gaiasky/data/orbit/FileDataLoader.java:58 | `last.setTime(t.getTime())` keeps the timestamp truncated to whole milliseconds |
| FileDataLoader.TimestampText | core/src/gaiasky/data/orbit/FileDataLoader.java:42 | underscores in the timestamp token become spaces before parsing |
| FileDataLoader.Tokens | core/src/gaiasky/data/orbit/FileDataLoader.java:39 | splitting the trimmed line on runs of whitespace gives only non-empty tokens |
| FileDataLoader.StepTokens | core/src/gaiasky/data/orbit/FileDataLoader.java:40-59 | an unparsable timestamp throws; a timestamp equal to `last` changes nothing; otherwise exactly one time and one x, y, z are appended, so the four lists stay the same length |
| FileDataLoader.Step | core/src/gaiasky/data/orbit/FileDataLoader.java:35-61 | blank and '#' lines and lines with fewer than 4 tokens are skipped; other lines go through the data step |
| FileDataLoader.LoadFrom | core/src/gaiasky/data/orbit/FileDataLoader.java:35-62 | the lists stay aligned, only grow, and gain at most one entry per line |
| FileDataLoader.Load | core/src/gaiasky/data/orbit/FileDataLoader.java:28-67 | starting empty with `last` at the epoch, the loaded lists are aligned and no longer than the input, with the step as written or the corrected one |
| FileDataLoader.RepeatedMillisecondStampDropped | core/src/gaiasky/data/orbit/FileDataLoader.java:45 | a line repeating an accepted whole-millisecond timestamp is dropped |
| FileDataLoader.EpochStampDropped | core/src/gaiasky/data/orbit/FileDataLoader.java:34-45 | a first data line stamped at the epoch is dropped, because `last` starts there |
| FileDataLoader.SubMillisecondStampRepeated | core/src/gaiasky/data/orbit/FileDataLoader.java:45-58 | a timestamp with a sub-millisecond part is appended again when the same line follows (see Findings) |
| FileDataLoader.StepExact | core/src/gaiasky/data/orbit/FileDataLoader.java:45-58 | the intended step: `last` remembers the full accepted timestamp |
| FileDataLoader.StepExactDropsRepeats | core/src/gaiasky/data/orbit/FileDataLoader.java:45 | with the exact `last`, a line repeating the previous accepted timestamp is always dropped |
| FileDataLoader.LoadExactNoAdjacentRepeats | core/src/gaiasky/data/orbit/FileDataLoader.java:35-62 | with the corrected step, a load that starts without repeats and with `last` at the final sample never stores the same timestamp twice in a row |
| FileDataLoader.LoadExactHasNoRepeats | core/src/gaiasky/data/orbit/FileDataLoader.java:28-67 | a whole file loaded with the corrected step has no two consecutive equal timestamps |
| BookmarkPath.ConstructString | core/src/gaiasky/gui/bookmarks/BookmarkPath.java:180-193 | "" for null or no tokens, the token itself for one, and a text containing "/" for several |
| BookmarkPath.FromString | core/src/gaiasky/gui/bookmarks/BookmarkPath.java:29-43 | a non-empty text is split on "/" and kept verbatim as the path text; a null or empty text gives null tokens and null text |
| BookmarkPath.FromTokens | core/src/gaiasky/gui/bookmarks/BookmarkPath.java:45-53 | the tokens as given, and the text constructed from them |
| BookmarkPath.Parent | core/src/gaiasky/gui/bookmarks/BookmarkPath.java:33-37 | a parent exists iff there are at least two tokens, and it has every token but the last |
| BookmarkPath.IsAbsolute | core/src/gaiasky/gui/bookmarks/BookmarkPath.java:60-63 | always true |
| BookmarkPath.Root | core/src/gaiasky/gui/bookmarks/BookmarkPath.java:65-71 | the path of the first token, null without tokens |
| BookmarkPath.FileName | core/src/gaiasky/gui/bookmarks/BookmarkPath.java:73-79 | the path of the last token, null without tokens |
| BookmarkPath.Resolve | core/src/gaiasky/gui/bookmarks/BookmarkPath.java:121-126 | this path's tokens followed by the other text's "/"-split tokens; a path without tokens throws |
| BookmarkPath.ResolvePath | core/src/gaiasky/gui/bookmarks/BookmarkPath.java:116-119 | resolving a path resolves its text; a path without text throws |
| BookmarkPath.Wrap32 | core/src/gaiasky/gui/bookmarks/BookmarkPath.java:163-165 | the Java `int` congruent to the value modulo 2^32 |
| BookmarkPath.StringHash | core/src/gaiasky/gui/bookmarks/BookmarkPath.java:163-165 | the string hash is a Java `int` |
| BookmarkPath.HashCode | core/src/gaiasky/gui/bookmarks/BookmarkPath.java:162-165 | `Objects.hash` of the text: an `int`, and 31 for a null text |
| BookmarkPath.CompareStrings | core/src/gaiasky/gui/bookmarks/BookmarkPath.java:168-173 | against an empty string the comparison is the length difference |
| BookmarkPath.CompareTo | core/src/gaiasky/gui/bookmarks/BookmarkPath.java:167-173 | defined iff both paths have text (otherwise a null dereference) |
| BookmarkPath.CompareZeroIffEqual | core/src/gaiasky/gui/bookmarks/BookmarkPath.java:168-173 | the text comparison is zero iff the texts are equal |
| BookmarkPath.CompareAntisymmetric | core/src/gaiasky/gui/bookmarks/BookmarkPath.java:168-173 | comparing b with a is the negation of comparing a with b |
| BookmarkPath.EqualsAgreesWithHashAndOrder | core/src/gaiasky/gui/bookmarks/BookmarkPath.java:154-173 | equal paths hash alike and compare as zero: all three depend only on the text |
| BookmarkPath.Equals | core/src/gaiasky/gui/bookmarks/BookmarkPath.java:154-160 | equal paths have the same text and the same hash code |
| BookmarkPath.CompareToZeroIffEquals | core/src/gaiasky/gui/bookmarks/BookmarkPath.java:154-173 | for paths with text, compareTo is zero iff equals holds |
| BookmarkPath.ConstructStringRoundTrip | core/src/gaiasky/gui/bookmarks/BookmarkPath.java:29-32 | splitting a text without empty segments and joining the tokens again gives the text back |
| BookmarkPath.TokensRoundTrip | core/src/gaiasky/gui/bookmarks/BookmarkPath.java:45-53 | tokens without "/" and not empty survive join-then-split |
| BookmarkPath.ParentAndLastToken | core/src/gaiasky/gui/bookmarks/BookmarkPath.java:33-37 | a path's text is its parent's text, "/", and the last token |
| Logger.InLevel | core/src/gaia/cu9/ari/gaiaorbit/util/Logger.java:96-98 | a level passes exactly when its value is at most the current level's |
| Logger.Val | core/src/gaia/cu9/ari/gaiaorbit/util/Logger.java:10-17 | the values run from 0 for errors to 3 for debug, warnings 1 and information 2 |
| Logger.InLevelMonotone | core/src/gaia/cu9/ari/gaiaorbit/util/Logger.java:10-25 | errors always pass, raising the current level never blocks a passing message, and debug passes only at debug level |
| Logger.FindPlaceholder | core/src/gaia/cu9/ari/gaiaorbit/util/Logger.java:85 | the position of the first "{}", or none exactly when the text has no "{}" |
| Logger.SkipZeros | core/src/gaia/cu9/ari/gaiaorbit/util/Logger.java:85 | the zeros after a "$0" group reference are consumed and what remains is a suffix that does not start with 0 |
| Logger.ExpandVerbatim | core/src/gaia/cu9/ari/gaiaorbit/util/Logger.java:85 | a replacement without "$" or backslash is inserted exactly as it is |
| Logger.ReplaceFirst | core/src/gaia/cu9/ari/gaiaorbit/util/Logger.java:85 | text without "{}" comes back unchanged |
| Logger.Parse | core/src/gaia/cu9/ari/gaiaorbit/util/Logger.java:81-89 | with plain arguments, a message without "{}" is returned unchanged |
| Logger.FormatLiteral | core/src/gaia/cu9/ari/gaiaorbit/util/Logger.java:81-89 | with no arguments or no "{}", the message is returned unchanged |
| Logger.FindInPiece | core/src/gaia/cu9/ari/gaiaorbit/util/Logger.java:85 | the first "{}" after a placeholder-free prefix is the one right after it |
| Logger.FirstPlaceholderUnique | core/src/gaia/cu9/ari/gaiaorbit/util/Logger.java:85 | the first "{}" is unique |
| Logger.FormatLiteralRenders | core/src/gaia/cu9/ari/gaiaorbit/util/Logger.java:81-89 | a template made of placeholder-free pieces joined by "{}" renders as the pieces with the arguments between them, in order |
| Logger.NoPlaceholderConcat | core/src/gaia/cu9/ari/gaiaorbit/util/Logger.java:85 | joining two placeholder-free texts that do not form "{}" at the seam gives a placeholder-free text |
| Logger.FindShift | core/src/gaia/cu9/ari/gaiaorbit/util/Logger.java:85 | behind a placeholder-free prefix, the first "{}" moves by the prefix length |
| Logger.ParseAgrees | core/src/gaia/cu9/ari/gaiaorbit/util/Logger.java:81-89 | with plain non-empty arguments, repeated replaceFirst never looks into text already filled in |
| Logger.ParseStep | core/src/gaia/cu9/ari/gaiaorbit/util/Logger.java:83-86 | one step of parse and one step of the literal formatter fill the same "{}" with the same argument |
| Logger.PrefixStaysPlain | core/src/gaia/cu9/ari/gaiaorbit/util/Logger.java:83-86 | the filled-in prefix stays placeholder-free when the argument is plain |
| Logger.Texts | core/src/gaia/cu9/ari/gaiaorbit/util/Logger.java:84 | each argument's text, null as "null" |
| Logger.ParsePlainIsLiteral | core/src/gaia/cu9/ari/gaiaorbit/util/Logger.java:81-89 | with plain non-empty arguments, parse equals the literal formatter |
| Logger.PlaceholderArgumentRefilled | core/src/gaia/cu9/ari/gaiaorbit/util/Logger.java:81-89 | an argument "{}" is itself refilled by the next argument: "{} {}" with "{}", "x" gives "x {}" instead of "{} x" (see Findings) |
| Logger.DollarArgumentThrows | core/src/gaia/cu9/ari/gaiaorbit/util/Logger.java:85 | an argument "$5" makes replaceFirst throw where the literal formatter gives "cost $5" (see Findings) |
| Logger.BackslashArgumentDropped | core/src/gaia/cu9/ari/gaiaorbit/util/Logger.java:85 | a backslash in an argument is dropped: "C:\\d" comes out as "C:d" (see Findings) |
| Logger.RemoveFirst | core/src/gaia/cu9/ari/gaiaorbit/util/Logger.java:74-79 | the array without its first element, in order |
| Logger.Log | core/src/gaia/cu9/ari/gaiaorbit/util/Logger.java:64-72 | a non-template is posted as it is; a template is posted as one string; the corrected formatter fills it literally |
| Logger.LogPlainAgrees | core/src/gaia/cu9/ari/gaiaorbit/util/Logger.java:64-72 | with plain non-empty arguments the as-written and the corrected log post the same thing |
| Logger.Post | core/src/gaia/cu9/ari/gaiaorbit/util/Logger.java:53-94 | nothing is posted below the level; debug messages are posted unformatted; non-templates are posted as they are |
| PreferencesWindow.KeyToString | core/src/gaiasky/interafce/PreferencesWindow.java:2236-2241 | the PLUS key is written "+", every other key by its libGDX name |
| PreferencesWindow.Render | core/src/gaiasky/interafce/PreferencesWindow.java:2225 | a rendered key has the length of its name and contains no space |
| PreferencesWindow.RenderAll | core/src/gaiasky/interafce/PreferencesWindow.java:2224-2225 | one rendered key per key, in order |
| PreferencesWindow.KeysToString | core/src/gaiasky/interafce/PreferencesWindow.java:2219-2234 | the combination is the rendered keys joined with "+" |
| Text.JoinSnoc | core/src/gaiasky/interafce/PreferencesWindow.java:2224-2231 | appending a key appends the separator and its text |
| PreferencesWindow.CombinationSplits | core/src/gaiasky/interafce/PreferencesWindow.java:2219-2234 | when no key renders with a "+", splitting the combination at "+" gives back exactly the rendered keys |
| PreferencesWindow.PlusCollidesWithSeparator | core/src/gaiasky/interafce/PreferencesWindow.java:2219-2241 | the PLUS key alone reads back as two empty keys, and PLUS with another key as three fields |
| PreferencesWindow.FieldsCount | core/src/gaiasky/interafce/PreferencesWindow.java:2219-2234 | k separators give k + 1 fields |
| PreferencesWindow.IntLog | core/src/gaiasky/interafce/PreferencesWindow.java:2204 | the whole part of the logarithm, bracketed by consecutive powers |
| PreferencesWindow.IdxAa | core/src/gaiasky/interafce/PreferencesWindow.java:2197-2205 | FXAA is entry 1, NFAA entry 2, none entry 0, other negative codes entry 2, and a positive code base^k entry k + 2 |
| PreferencesWindow.AaEntriesRoundTrip | core/src/gaiasky/interafce/PreferencesWindow.java:2197-2205 | each code listed in the select box selects its own entry |
| PreferencesWindow.AaCodeOneSelectsNfaa | core/src/gaiasky/interafce/PreferencesWindow.java:2204 | code 1 selects the same entry as NFAA |
| PreferencesWindow.IdxLang | core/src/gaiasky/interafce/PreferencesWindow.java:2207-2217 | an empty code stands for the current locale; -1 exactly when no tag matches, otherwise the first matching position |
| PreferencesWindow.Thresholds | core/src/gaiasky/interafce/PreferencesWindow.java:2038 | the second threshold is 0.4 above the first with fading on and equal to it otherwise |
| AttributeMap.ClassName | core/src/gaiasky/scene/AttributeMap.java:58-59 | the class name is the component package followed by the component's name |
| AttributeMap.Get | core/src/gaiasky/scene/AttributeMap.java:31-44 | get answers a class exactly for the keys containsKey accepts, and that key's class |
| AttributeMap.ContainsKey | core/src/gaiasky/scene/AttributeMap.java:42-44 | true exactly for the table's keys, and only for a non-empty table |
| AttributeMap.Names | core/src/gaiasky/scene/AttributeMap.java:60-72 | every attribute not named "description" (in any case) contributes its name and all its aliases |
| AttributeMap.NamesOnly | core/src/gaiasky/scene/AttributeMap.java:60-72 | nothing else is listed: each name is such an attribute's name or one of its aliases |
| AttributeMap.PutAll | core/src/gaiasky/scene/AttributeMap.java:103-112 | putting succeeds exactly when no name is already a key or repeated; the new keys all map to the class and old keys are unchanged; a failure names an offending attribute |
| AttributeMap.Initialize | core/src/gaiasky/scene/AttributeMap.java:46-90 | a file without components gives the empty map; every class in the map is a loadable one |
| AttributeMap.Load | core/src/gaiasky/scene/AttributeMap.java:56-85 | loading only adds keys, keeps every earlier mapping, and maps new keys to loadable classes |
| AttributeMap.LoadedKeys | core/src/gaiasky/scene/AttributeMap.java:56-85 | after a successful load the keys are exactly the names of components whose class loads, each mapped to the class of a component listing it |
| AttributeMap.DuplicateFails | core/src/gaiasky/scene/AttributeMap.java:92-112 | two loadable components listing the same name make the load throw |
| AttributeMap.PutAgain | core/src/gaiasky/scene/AttributeMap.java:103-112 | a name already in the map makes any later loadable component listing it throw |
| AstroUtils.IsLeapYearGregorian | core/src/gaiasky/util/coord/AstroUtils.java:320-322 | a year is a leap year iff divisible by 4 and not (divisible by 100 and not by 400), for negative years too |
| AstroUtils.RemZeroIffDivides | core/src/gaiasky/util/coord/AstroUtils.java:320-322 | Java's truncating remainder is zero exactly when the floored one is |
| AstroUtils.JulianDayNumberGregorian | core/src/gaiasky/util/coord/AstroUtils.java:333-345 | the Gregorian day number is an integer plus one half (days start at midnight) |
| AstroUtils.HalfDayOf | core/src/gaiasky/util/coord/AstroUtils.java:334 | an integer plus 0.5 is such a day number |
| AstroUtils.GregorianConsecutiveDays | core/src/gaiasky/util/coord/AstroUtils.java:333-345 | consecutive days within a month are exactly one day number apart |
| AstroUtils.JDivNonNegative | core/src/gaiasky/util/coord/AstroUtils.java:336-338 | truncating and floored division agree for non-negative dividends |
| AstroUtils.DivStep | core/src/gaiasky/util/coord/AstroUtils.java:336-338 | raising the dividend by one raises the quotient exactly at a multiple of the divisor |
| AstroUtils.GregorianYearLength | core/src/gaiasky/util/coord/AstroUtils.java:333-345 | for years from 1 on, 1 January of the next year is 366 days later in a leap year and 365 otherwise |
| AstroUtils.YearZeroCollision | core/src/gaiasky/util/coord/AstroUtils.java:333-345 | year 0 is a leap year, yet 31 December of year 0 and 1 January of year 1 get the same day number (see Findings) |
| AstroUtils.JulianDayNumberGregorianFloored | core/src/gaiasky/util/coord/AstroUtils.java:333-345 | the corrected day number with floored divisions is still an integer plus one half |
| AstroUtils.FlooredAgreesFromYearOne | core/src/gaiasky/util/coord/AstroUtils.java:333-345 | from year 1 on the corrected and the original day numbers agree |
| AstroUtils.GregorianFlooredYearLength | core/src/gaiasky/util/coord/AstroUtils.java:333-345 | with floored divisions every year has 366 or 365 days by the leap rule, and 31 December is the day before 1 January |
| AstroUtils.JulianDayNumberJulianCalendar | core/src/gaiasky/util/coord/AstroUtils.java:304-310 | the Julian-calendar day number is an integer minus 32083.5 plus integer quotients, so an integer plus one half |
| AstroUtils.JulianCalendarMonthShift | core/src/gaiasky/util/coord/AstroUtils.java:305 | (14 - month) / 12 is 1 for January and February and 0 otherwise |
| AstroUtils.JulianCalendarConsecutiveDays | core/src/gaiasky/util/coord/AstroUtils.java:304-310 | consecutive days have Julian-calendar day numbers one apart |
| AstroUtils.CalendarReform | core/src/gaiasky/util/coord/AstroUtils.java:304-345 | Julian 4 October 1582 is the day before Gregorian 15 October 1582, day number 2299160.5 |
| AstroUtils.DayFraction | core/src/gaiasky/util/coord/AstroUtils.java:362-364 | hours, minutes, seconds and nanoseconds expressed in days |
| AstroUtils.JulianDate | core/src/gaiasky/util/coord/AstroUtils.java:162-168 | the calendar chosen by the flag, plus the day fraction |
| AstroUtils.T | core/src/gaiasky/util/coord/AstroUtils.java:403-405 | Julian centuries since 2451545.0 |
| AstroUtils.J2000Epoch | core/src/gaiasky/util/coord/AstroUtils.java:403-405 | noon of 1 January 2000 (Gregorian) is Julian date 2451545.0, where T is 0 |
| AstroUtils.Truncate | core/src/gaiasky/util/coord/AstroUtils.java:83 | the `(int)` cast truncates toward zero |
| AstroUtils.JulianDateOfEpoch | core/src/gaiasky/util/coord/AstroUtils.java:82-86 | the start of the truncated year plus the remaining fraction in Julian years |
| AstroUtils.ReferenceEpochs | core/src/gaiasky/util/coord/AstroUtils.java:30-52 | J2000 is 2451544.5, half a day before the epoch of T; J2010 is 2455197.5, J2015 is 2457023.5 and J2015.5 is 2457206.125, as documented |
| TimeWarp.PositiveEntry | core/src/gaiasky/interafce/components/TimeComponent.java:193-203 | the k-th positive ladder entry is at least 0.125 |
| TimeWarp.Increase | core/src/gaiasky/interafce/components/TimeComponent.java:193-203 | doubles positive warps and halves negative ones below -0.125 (moving toward zero) |
| TimeWarp.Decrease | core/src/gaiasky/interafce/components/TimeComponent.java:205-215 | doubles negative warps and halves positive ones above 0.125 (moving toward zero) |
| TimeWarp.IncreaseSteps | core/src/gaiasky/interafce/components/TimeComponent.java:193-203 | increaseWarp maps 0 to 0.125, -0.125 to 0, and each entry to the next one |
| TimeWarp.DecreaseSteps | core/src/gaiasky/interafce/components/TimeComponent.java:205-215 | decreaseWarp maps 0.125 to 0, 0 to -0.125, and each entry to the previous one |
| TimeWarp.GenerateTimeWarpVector | core/src/gaiasky/interafce/components/TimeComponent.java:175-191 | the generated vector has 2·steps+1 entries, 0 in the middle, and ±0.125·2^(k-1) k places from it |
| TimeWarp.LadderSteps | core/src/gaiasky/interafce/components/TimeComponent.java:175-215 | along the ladder increaseWarp moves one entry up and decreaseWarp one entry down |
| TimeWarp.IncreaseDecreaseInverse | core/src/gaiasky/interafce/components/TimeComponent.java:193-215 | increaseWarp and decreaseWarp undo each other on every inner ladder entry |
| TimeWarp.PositiveEntryIncreasing | core/src/gaiasky/interafce/components/TimeComponent.java:180-183 | the positive entries strictly increase |
| TimeWarp.LadderShape | core/src/gaiasky/interafce/components/TimeComponent.java:175-191 | the ladder is antisymmetric about the middle and strictly increasing |
| TimeWarp.GetWarpIndex | core/src/gaiasky/interafce/components/TimeComponent.java:248-263 | the first index that is an exact match or lies above a value between the previous entry and itself, or -1 |
| TimeWarp.WarpIndexOnLadder | core/src/gaiasky/interafce/components/TimeComponent.java:248-263 | on the ladder, an exact match gives its index, a value between two entries the upper index, and a value outside the ladder -1 |
| TimeWarp.Sorted | core/src/gaiasky/interafce/components/TimeComponent.java:175-191 | a ladder increasing step by step increases between any two entries |
| TimeWarp.SortedPair | core/src/gaiasky/interafce/components/TimeComponent.java:175-191 | the same for one pair of entries |
| TimeWarp.OnWarpEvent | core/src/gaiasky/interafce/components/TimeComponent.java:229-242 | an event from the slider itself leaves it alone, and so does a value matching no ladder entry; otherwise the slider moves to a matching index minus warpSteps, and for a value on the ladder to that value's own index minus warpSteps |
| ComponentTypes.NameIsWord | core/src/gaiasky/render/ComponentTypes.java:89-127 | every type name is a non-empty word without spaces |
| ComponentTypes.Ordinal | core/src/gaiasky/render/ComponentTypes.java:89-127 | a type's ordinal is its position in values() |
| ComponentTypes.InvisibleIsLast | core/src/gaiasky/render/ComponentTypes.java:126-127 | Invisible has the largest ordinal |
| ComponentTypes.Key | core/src/gaiasky/render/ComponentTypes.java:141 | every key starts with "element." |
| ComponentTypes.SignatureDecodes | core/src/gaiasky/render/ComponentTypes.java:141 | the lower-case name's length, first and next-to-last letters identify the type |
| ComponentTypes.KeyInjective | core/src/gaiasky/render/ComponentTypes.java:141 | distinct types have distinct keys |
| ComponentTypes.PutAll | core/src/gaiasky/render/ComponentTypes.java:131-135 | the key map's keys are the keys of the types put, and each key maps to a type with that key |
| ComponentTypes.GetFromKey | core/src/gaiasky/render/ComponentTypes.java:145-147 | a type found for a key has that key; null means no type has it |
| ComponentTypes.KeysMapShape | core/src/gaiasky/render/ComponentTypes.java:129-135 | the static map holds exactly the keys of all types, each mapping to a type with that key |
| ComponentTypes.KeysMapIsPutAll | core/src/gaiasky/render/ComponentTypes.java:129-135 | putting every type under its key in `values()` order, starting from an empty map, gives the key map that `getFromKey` reads |
| ComponentTypes.PutAllShape | core/src/gaiasky/render/ComponentTypes.java:131-135 | filling an empty map gives exactly the keys of the types put |
| ComponentTypes.PutAllFinds | core/src/gaiasky/render/ComponentTypes.java:131-135 | with distinct keys, every type put is found under its key |
| ComponentTypes.PutAllKeeps | core/src/gaiasky/render/ComponentTypes.java:131-135 | a key no later type uses keeps its entry |
| ComponentTypes.FromKeyOfKey | core/src/gaiasky/render/ComponentTypes.java:129-147 | getFromKey of a type's key returns that type |
| ComponentTypes.New | core/src/gaiasky/render/ComponentTypes.java:22-24 | a new set enables nothing |
| ComponentTypes.Set | core/src/gaiasky/render/ComponentTypes.java:28 | setting a bit enables it and keeps every other bit |
| ComponentTypes.FromOrdinal | core/src/gaiasky/render/ComponentTypes.java:26-29 | a negative ordinal throws; otherwise exactly that bit is set |
| ComponentTypes.FromTypes | core/src/gaiasky/render/ComponentTypes.java:31-35 | exactly the ordinals of the listed types are set |
| ComponentTypes.Name | core/src/gaiasky/render/ComponentTypes.java:89-127 | every type name is non-empty and starts with a capital letter |
| ComponentTypes.IsEnabled | core/src/gaiasky/render/ComponentTypes.java:68-70 | a type is enabled only in a non-empty set whose lowest set bit is at or below its ordinal |
| ComponentTypes.EnabledIffListed | core/src/gaiasky/render/ComponentTypes.java:31-70 | a set built from types enables a type exactly when it is listed |
| ComponentTypes.IsEmpty | core/src/gaiasky/render/ComponentTypes.java:75 | empty exactly when no bit is set |
| ComponentTypes.NextSetBit | core/src/gaiasky/render/ComponentTypes.java:78 | the lowest set bit at or above the start, or -1 when there is none |
| ComponentTypes.FirstOrdinal | core/src/gaiasky/render/ComponentTypes.java:43-45 | -1 exactly for the empty set; otherwise the lowest set bit |
| ComponentTypes.LowWord | core/src/gaiasky/render/ComponentTypes.java:56 | the first word holds bits 0 to 63; for an empty set the word array is empty and the access throws |
| ComponentTypes.And | core/src/gaiasky/render/ComponentTypes.java:57 | bitwise and of two words |
| ComponentTypes.AllSetLike | core/src/gaiasky/render/ComponentTypes.java:55-58 | throws when either set is empty; otherwise true exactly when every one of the low 64 bits set here is set in the other |
| ComponentTypes.SetNames | core/src/gaiasky/render/ComponentTypes.java:77-84 | fails exactly when a bit past the last type is set; otherwise every name collected is a word |
| ComponentTypes.NoOutOfRangeBelow | core/src/gaiasky/render/ComponentTypes.java:78 | skipping clear bits below a valid index does not change whether an out-of-range bit is set |
| ComponentTypes.Spaced | core/src/gaiasky/render/ComponentTypes.java:80 | the builder's text ends in a space when any name was appended |
| ComponentTypes.ToString | core/src/gaiasky/render/ComponentTypes.java:72-87 | the empty set prints "Empty"; printing throws exactly when a bit past the last type is set |
| ComponentTypes.SpacedIsJoin | core/src/gaiasky/render/ComponentTypes.java:80-85 | the builder's text is the names joined by spaces plus one trailing space |
| ComponentTypes.ToStringSplits | core/src/gaiasky/render/ComponentTypes.java:72-87 | a non-empty set prints as its type names joined by single spaces, and splitting at spaces gives the names back |
| ComponentTypes.SetNamesLists | core/src/gaiasky/render/ComponentTypes.java:77-84 | when the set bits from a position on are exactly the ordinals of an increasing list of types, the names collected are those types' names in list order |
| ComponentTypes.SetNamesOfTypes | core/src/gaiasky/render/ComponentTypes.java:77-84 | the set built from an increasing list of types collects exactly their names, in increasing ordinal order |
| ComponentTypes.ToStringOfTypes | core/src/gaiasky/render/ComponentTypes.java:72-87 | the set built from a non-empty increasing list of types prints as their names joined by single spaces |
| ComponentTypes.NextIsFirstListed | core/src/gaiasky/render/ComponentTypes.java:77-80 | the next set bit from a position is the first listed type's ordinal |
| ComponentTypes.TypeNames | core/src/gaiasky/render/ComponentTypes.java:77-84 | one name per listed type, in list order |
| GlobalConf.NumberThreads | core/src/gaia/cu9/ari/gaiaorbit/util/GlobalConf.java:128-133 | a positive configured count is used as is; otherwise the processor count, so the result is positive whenever the machine reports processors |
| GlobalConf.GetAntialias | core/src/gaia/cu9/ari/gaiaorbit/util/GlobalConf.java:160-170 | each of the four codes selects the mode with that code; any other code selects no antialiasing |
| GlobalConf.AntialiasRoundTrip | core/src/gaia/cu9/ari/gaiaorbit/util/GlobalConf.java:139-170 | a mode's code maps back to the mode, and the post-process modes are exactly FXAA and NFAA |
| GlobalConf.AaCode | core/src/gaia/cu9/ari/gaiaorbit/util/GlobalConf.java:139-153 | the codes lie in [-2, 1]: zero only for no antialiasing, negative exactly for FXAA and NFAA, positive only for SSAA, and FXAA alone has -1 |
| GlobalConf.IsPostProcessAntialias | core/src/gaia/cu9/ari/gaiaorbit/util/GlobalConf.java:155-157 | exactly FXAA and NFAA are post-process modes |
| GlobalConf.IsControllerBlacklisted | core/src/gaia/cu9/ari/gaiaorbit/util/GlobalConf.java:312-322 | true exactly when the list is non-null and some entry equals the name ignoring case |
| Text.LowerOfUpper | core/src/gaia/cu9/ari/gaiaorbit/util/GlobalConf.java:317 | lower-casing an upper-cased string equals lower-casing it |
| GlobalConf.BlacklistIgnoresCase | core/src/gaia/cu9/ari/gaiaorbit/util/GlobalConf.java:312-322 | the blacklist answers the same for a name and its upper-case form |
| GlobalConf.Toggle | core/src/gaia/cu9/ari/gaiaorbit/util/GlobalConf.java:436-453 | a given value is taken; a null argument flips the flag |
| GlobalConf.ToggleTwice | core/src/gaia/cu9/ari/gaiaorbit/util/GlobalConf.java:436-453 | two null toggles restore the flag; two toggles to the same value equal one |
| GlobalConf.ScreenSize | core/src/gaia/cu9/ari/gaiaorbit/util/GlobalConf.java:703-709 | fullscreen uses the fullscreen size, windowed mode the window size |
| GlobalConf.ProfileKinds | core/src/gaia/cu9/ari/gaiaorbit/util/GlobalConf.java:741-751 | every stereo profile is exactly one of horizontal, vertical and anaglyphic |
| GlobalConf.IsHorizontal | core/src/gaia/cu9/ari/gaiaorbit/util/GlobalConf.java:741-743 | a profile is horizontal exactly when it is neither vertical nor anaglyphic |
| GlobalConf.IsVertical | core/src/gaia/cu9/ari/gaiaorbit/util/GlobalConf.java:745-747 | only the top-bottom 3DTV profile is vertical, and it is not anaglyphic |
| GlobalConf.IsAnaglyphic | core/src/gaia/cu9/ari/gaiaorbit/util/GlobalConf.java:749-751 | the anaglyph profile is none of the five split-screen profiles |
| GlobalConf.CorrectAspect | core/src/gaia/cu9/ari/gaiaorbit/util/GlobalConf.java:753-755 | the aspect is corrected exactly for the vertical profile and the horizontal profiles other than side-by-side 3DTV |
| GlobalConf.IsStereoHalfWidth | core/src/gaia/cu9/ari/gaiaorbit/util/GlobalConf.java:853-855 | half width exactly in stereo mode with a profile that corrects the aspect |
| GlobalConf.IsStereoFullWidth | core/src/gaia/cu9/ari/gaiaorbit/util/GlobalConf.java:857-859 | full width exactly outside stereo mode or with side-by-side 3DTV or anaglyph |
| GlobalConf.IsStereoHalfViewport | core/src/gaia/cu9/ari/gaiaorbit/util/GlobalConf.java:861-863 | half viewport exactly in stereo mode with a non-anaglyph profile |
| GlobalConf.HalfWidthIsHalfViewport | core/src/gaia/cu9/ari/gaiaorbit/util/GlobalConf.java:853-863 | half width implies half viewport, and they differ only for side-by-side 3DTV in stereo mode |
| GlobalConf.UiThemeBase | core/src/gaia/cu9/ari/gaiaorbit/util/GlobalConf.java:879-889 | a hi-dpi theme loses its three-character "-x2" suffix; any other theme is kept |
| GlobalConf.IsHiDpiTheme | core/src/gaia/cu9/ari/gaiaorbit/util/GlobalConf.java:887-889 | a theme is high-DPI exactly when its last three characters are "-x2" |
| GlobalConf.UiThemeBaseSuffix | core/src/gaia/cu9/ari/gaiaorbit/util/GlobalConf.java:879-889 | the base differs from the theme exactly for hi-dpi themes, and appending "-x2" to a base and stripping it gives the base back |
| GlobalConf.QualityOrder | core/src/gaia/cu9/ari/gaiaorbit/util/GlobalConf.java:1007-1027 | qualities are totally ordered, at-least and at-most are converse, both hold only for equal levels, and suffixes are distinct |
| GlobalConf.ToggleType | core/src/gaia/cu9/ari/gaiaorbit/util/GlobalConf.java:1345-1348 | no type leaves the flags alone; a type's own flag is toggled and every other flag kept; an ordinal past the array throws |
| GlobalConf.ToggleVisibility | core/src/gaia/cu9/ari/gaiaorbit/util/GlobalConf.java:1339-1349 | an unknown key changes nothing, and the flag array keeps its length |
| GlobalConf.ToggleTypeTwice | core/src/gaia/cu9/ari/gaiaorbit/util/GlobalConf.java:1345-1348 | toggling a type without a state flips its flag, and toggling again restores the array |
| GlobalConf.ToggleVisibilityByKey | core/src/gaia/cu9/ari/gaiaorbit/util/GlobalConf.java:1339-1349 | a type's key flips that type's flag when its ordinal is inside the array, and a second toggle restores the array; an array too short for the ordinal gives an index error |
| BillboardSetRenderer.LayoutTiles | core/src/gaiasky/scene/render/draw/BillboardSetRenderer.java:190-197 | the five field groups of a vertex sit back to back and fill its 11 floats |
| BillboardSetRenderer.Clamp | core/src/gaiasky/scene/render/draw/BillboardSetRenderer.java:216-218 | the result lies in [lo, hi], equals the value inside it and the nearer bound outside it |
| BillboardSetRenderer.ParticleColor | core/src/gaiasky/scene/render/draw/BillboardSetRenderer.java:214-218 | every channel is in [0, 1]; a record with seven doubles supplies its own colour, a shorter one the generated colour |
| BillboardSetRenderer.KeptIndices | core/src/gaiasky/scene/render/draw/BillboardSetRenderer.java:204-206 | only positions of existing particles are listed |
| BillboardSetRenderer.KeptIndicesExact | core/src/gaiasky/scene/render/draw/BillboardSetRenderer.java:204-206 | the kept list holds every particle whose position passes the modulus test, only those, in increasing order |
| BillboardSetRenderer.KeptCount | core/src/gaiasky/scene/render/draw/BillboardSetRenderer.java:204-206 | modulus 0 keeps all n particles; modulus m keeps ceil(n / m) of them |
| BillboardSetRenderer.KeptIsJavaRemainder | core/src/gaiasky/scene/render/draw/BillboardSetRenderer.java:206 | the modelled test keeps a particle exactly when the modulus is 0 or the Java remainder `i % modulus` is 0, for a modulus of either sign |
| BillboardSetRenderer.UniformIsRemainder | core/src/gaiasky/scene/render/draw/BillboardSetRenderer.java:207 | the layer drawn is the raw draw modulo the number of layers, so every layer can be drawn |
| BillboardSetRenderer.Uniform | core/src/gaiasky/scene/render/draw/BillboardSetRenderer.java:207 | the layer index drawn is always below the number of layers |
| BillboardSetRenderer.QuadIndices | core/src/gaiasky/scene/render/draw/BillboardSetRenderer.java:425-433 | six indices per quad |
| BillboardSetRenderer.QuadIndicesCover | core/src/gaiasky/scene/render/draw/BillboardSetRenderer.java:425-433 | the six indices name only the last four vertices, name each of them, and the two triangles share the diagonal between the first and third |
| BillboardSetRenderer.Quad | core/src/gaiasky/scene/render/draw/BillboardSetRenderer.java:207-239 | four vertices, one per corner, sharing the particle's position, size, kind and one layer from the dataset, each with a colour in [0, 1]; with colour data all four corners share it, without it each corner takes its own draw from the generator |
| BillboardSetRenderer.VerticesOf | core/src/gaiasky/scene/render/draw/BillboardSetRenderer.java:205-243 | four vertices per kept particle |
| BillboardSetRenderer.IndicesOf | core/src/gaiasky/scene/render/draw/BillboardSetRenderer.java:240 | six indices per kept particle |
| BillboardSetRenderer.VertexAt | core/src/gaiasky/scene/render/draw/BillboardSetRenderer.java:205-243 | vertex k is corner k mod 4 of the (k div 4)-th kept particle |
| BillboardSetRenderer.VertexColor | core/src/gaiasky/scene/render/draw/BillboardSetRenderer.java:205-239 | vertex k takes the generator's draw for its own particle and corner when the particle has no colour data, and the colour of its quad's first vertex when it has; all four vertices of a quad share the layer |
| BillboardSetRenderer.IndexAt | core/src/gaiasky/scene/render/draw/BillboardSetRenderer.java:425-433 | index k points into the quad k div 6 and stays below the vertex count |
| BillboardSetRenderer.ConvertDataToGpu | core/src/gaiasky/scene/render/draw/BillboardSetRenderer.java:185-245 | the conversion fails exactly when some particle is kept and there are no layers; otherwise it writes the kept particles' quads, in order, and their indices |
| BillboardSetRenderer.WriteParticle | core/src/gaiasky/scene/render/draw/BillboardSetRenderer.java:205-243 | one pass of the particle loop fails exactly when the particle is kept and there is no layer to draw; otherwise the arrays hold the quads and indices of the kept particles up to and including this one |
| BillboardSetRenderer.KeptStep | core/src/gaiasky/scene/render/draw/BillboardSetRenderer.java:206-241 | a kept particle lengthens the kept list by one and appends its four vertices and six indices after those already written |
| BillboardSetRenderer.FitsArrays | core/src/gaiasky/scene/render/draw/BillboardSetRenderer.java:199-200 | the vertices and indices written never exceed the arrays sized for all particles |
| AffineTransformations.Initialize | core/src/gaiasky/scene/component/AffineTransformations.java:31-35 | a null list becomes the empty list; an existing list is kept as it is |
| AffineTransformations.Append | core/src/gaiasky/scene/component/AffineTransformations.java:37-42 | every builder leaves a non-null list that is the old list plus the new transform at the end |
| AffineTransformations.InitializeIdempotent | core/src/gaiasky/scene/component/AffineTransformations.java:31-35 | initialising twice equals initialising once and adds no transform |
| AffineTransformations.SetTransformations | core/src/gaiasky/scene/component/AffineTransformations.java:24-29 | the given transforms are appended, in order, after the existing ones |
| AffineTransformations.SetTranslate | core/src/gaiasky/scene/component/AffineTransformations.java:37-42 | appends exactly one translation by the given vector |
| AffineTransformations.ScaleFirstThree | core/src/gaiasky/scene/component/AffineTransformations.java:45-48 | the three components each multiplied by the unit factor |
| AffineTransformations.SetTranslateScaled | core/src/gaiasky/scene/component/AffineTransformations.java:44-58 | an array shorter than three throws and leaves the component untouched; otherwise one translation by the scaled vector is appended |
| AffineTransformations.TranslateUnitsRoundTrip | core/src/gaiasky/scene/component/AffineTransformations.java:44-58 | scaling a 3-vector by a non-zero factor and then by its inverse gives the vector back |
| AffineTransformations.SetQuaternionAxis | core/src/gaiasky/scene/component/AffineTransformations.java:60-65 | appends exactly one quaternion transform built from axis and angle |
| AffineTransformations.SetQuaternion | core/src/gaiasky/scene/component/AffineTransformations.java:67-72 | appends exactly one quaternion transform holding the quaternion |
| AffineTransformations.SetRotate | core/src/gaiasky/scene/component/AffineTransformations.java:74-80 | fewer than four entries throw after the list has been created; otherwise a rotation about the first three entries by the fourth is appended |
| AffineTransformations.SetScale | core/src/gaiasky/scene/component/AffineTransformations.java:82-87 | appends exactly one scale by the given factors |
| AffineTransformations.SetScaleUniform | core/src/gaiasky/scene/component/AffineTransformations.java:89-94 | a null factor throws after the list has been created; otherwise the same factor on all three axes is appended |
| AffineTransformations.ApplyAll | core/src/gaiasky/scene/component/AffineTransformations.java:96-103 | an empty list leaves the matrix as it is |
| AffineTransformations.Apply | core/src/gaiasky/scene/component/AffineTransformations.java:105-112 | a null list leaves the matrix as it is |
| AffineTransformations.ApplyAllConcat | core/src/gaiasky/scene/component/AffineTransformations.java:98-100 | applying a concatenation is applying the first part and then the second |
| AffineTransformations.AppendRunsLast | core/src/gaiasky/scene/component/AffineTransformations.java:96-103 | the transform a builder adds acts after everything added before it |
| AffineTransformations.SetTransformationsRunInOrder | core/src/gaiasky/scene/component/AffineTransformations.java:24-29 | transforms given to setTransformations act, in the given order, after the earlier ones |
| AffineTransformations.FirstIndex | core/src/gaiasky/scene/component/AffineTransformations.java:116-120 | the position of the first transform of the kind, or -1 exactly when there is none |
| AffineTransformations.FirstOf | core/src/gaiasky/scene/component/AffineTransformations.java:114-123 | the first transform of the kind, or null exactly when the list holds none |
| AffineTransformations.GetTransform | core/src/gaiasky/scene/component/AffineTransformations.java:114-145 | a null list gives null; any transform returned is of the asked kind |
| AffineTransformations.FirstOfSnoc | core/src/gaiasky/scene/component/AffineTransformations.java:114-123 | appending never changes a lookup that already finds something, and otherwise finds the appended transform exactly when it is of the kind |
| AffineTransformations.UniformScaleIsFound | core/src/gaiasky/scene/component/AffineTransformations.java:89-123 | after setScale(Double) the scale lookup finds the new uniform scale, unless an earlier scale shadows it |
| GaiaSkyFrameBuffer.Ordinal | core/src/gaiasky/render/util/GaiaSkyFrameBuffer.java:26-37 | each role has its own constructor position, below five |
| GaiaSkyFrameBuffer.RoleAt | core/src/gaiasky/render/util/GaiaSkyFrameBuffer.java:26-37 | the role at a constructor position has that position |
| GaiaSkyFrameBuffer.OrdinalRoundTrip | core/src/gaiasky/render/util/GaiaSkyFrameBuffer.java:26-37 | position and role are inverse maps |
| GaiaSkyFrameBuffer.New | core/src/gaiasky/render/util/GaiaSkyFrameBuffer.java:17-38 | the k-th index is the k-th vararg when present and -1 otherwise, for each of the five roles |
| GaiaSkyFrameBuffer.Get | core/src/gaiasky/render/util/GaiaSkyFrameBuffer.java:42 | the element is returned exactly for an index inside the list; any other index throws |
| GaiaSkyFrameBuffer.BufferTexture | core/src/gaiasky/render/util/GaiaSkyFrameBuffer.java:40-73 | a negative role index gives null, an index inside the list the attachment there, and an index past the end throws |
| GaiaSkyFrameBuffer.TextureAttachment | core/src/gaiasky/render/util/GaiaSkyFrameBuffer.java:75-80 | an index at or past the size gives null, one inside the list the attachment, and a negative one throws |
| GaiaSkyFrameBuffer.RoleGetterVersusAttachment | core/src/gaiasky/render/util/GaiaSkyFrameBuffer.java:40-80 | the role getters and getTextureAttachment agree inside the list and disagree in opposite ways at both ends |
| GaiaSkyFrameBuffer.ConstructedGetters | core/src/gaiasky/render/util/GaiaSkyFrameBuffer.java:26-73 | with varargs that are all valid positions, each role getter returns the attachment its vararg names, or null when it has none, and never throws |
| EventScriptingInterface.CheckNum | core/src/gaiasky/script/EventScriptingInterface.java:3154-3160 | a real value is accepted exactly when it lies within [min, max] (NaN is outside the model; see Left out) |
| EventScriptingInterface.CheckLengths | core/src/gaiasky/script/EventScriptingInterface.java:3178-3184 | accepted exactly when the length is one of the two allowed |
| EventScriptingInterface.CheckString | core/src/gaiasky/script/EventScriptingInterface.java:3194-3200 | accepted exactly when the value is neither null nor empty |
| EventScriptingInterface.CheckStringIn | core/src/gaiasky/script/EventScriptingInterface.java:3202-3213 | accepted exactly when the value is non-empty and equals one of the allowed values exactly |
| EventScriptingInterface.CheckStringEnum | core/src/gaiasky/script/EventScriptingInterface.java:3244-3257 | accepted exactly when the value is non-empty and equals the text of one of the enum's constants, ignoring case |
| EventScriptingInterface.EnumCheckIgnoresCase | core/src/gaiasky/script/EventScriptingInterface.java:3244-3257 | the enum check accepts a value exactly when it accepts its upper-case form |
| EventScriptingInterface.EnumCheckExtendsExactCheck | core/src/gaiasky/script/EventScriptingInterface.java:3202-3257 | every value the exact list check accepts, the enum check accepts for the same texts, and "fxaa" is accepted against the constant FXAA though it is not listed exactly |
| EventScriptingInterface.InternalUnitsToKilometres | core/src/gaiasky/script/EventScriptingInterface.java:3007-3013 | an array of the same length with each element converted |
| EventScriptingInterface.SetCameraPosition | core/src/gaiasky/script/EventScriptingInterface.java:293-304 | succeeds exactly for three components, each converted from kilometres to internal units |
| EventScriptingInterface.BoxDoubles | core/src/gaiasky/script/EventScriptingInterface.java:116-125 | a script list of the given doubles: one boxed double per number, in order |
| EventScriptingInterface.DoubleArray | core/src/gaiasky/script/EventScriptingInterface.java:116-125 | a null list gives null; a list fails with a cast error exactly when some element is not a boxed double; otherwise the array holds the elements unboxed, in order |
| EventScriptingInterface.DoubleArrayOfDoubles | core/src/gaiasky/script/EventScriptingInterface.java:116-125 | a list of boxed doubles comes back as those doubles, and inserting an integer anywhere makes the conversion fail |
| EventScriptingInterface.BoxDoublesInjective | core/src/gaiasky/script/EventScriptingInterface.java:116-125 | two lists of doubles that box alike are equal, so the unboxed array is determined by the list |
| EventScriptingInterface.CameraPositionRoundTrip | core/src/gaiasky/script/EventScriptingInterface.java:293-304 | with reciprocal factors a position converted to internal units and back is unchanged |
| EventScriptingInterface.HipNameIsNotNumber | core/src/gaiasky/script/EventScriptingInterface.java:1041-1044 | a "hip N" name never matches the bare-number pattern, so the two branches exclude each other |
| EventScriptingInterface.HipName | core/src/gaiasky/script/EventScriptingInterface.java:1044 | a HIP name has a digit after the four-character prefix and at its end, and is never a bare number |
| EventScriptingInterface.Alias | core/src/gaiasky/script/EventScriptingInterface.java:1040-1047 | a bare number is retried as "hip N", "hip N" or "HIP N" as "N", and any other name has no second try |
| EventScriptingInterface.GetObject | core/src/gaiasky/script/EventScriptingInterface.java:1037-1047 | a registered name finds its node; any node found is under the name or under its alias |
| EventScriptingInterface.HipAliasesMeet | core/src/gaiasky/script/EventScriptingInterface.java:1040-1047 | a Hipparcos star is found by its bare number or its "hip"/"HIP" name, whichever of the two it is registered under |
| EventScriptingInterface.Round | core/src/gaiasky/script/EventScriptingInterface.java:2014 | Java's round is the floor of x + 1/2 |
| EventScriptingInterface.SleepFor | core/src/gaiasky/script/EventScriptingInterface.java:2008-2023 | out-of-range durations are rejected, zero returns at once, frame output waits at least one frame and about fps times seconds frames, otherwise the rounded milliseconds |
| EventScriptingInterface.SleepFramesMonotone | core/src/gaiasky/script/EventScriptingInterface.java:2008-2023 | in frame-output mode a longer sleep never waits fewer frames |
| DatasetManagerWindow.TypeWeight | core/src/gaiasky/interafce/DatasetManagerWindow.java:88-100 | the eight known types weigh 0 to 6 and 8 in their listed order; every other type weighs 10 |
| DatasetManagerWindow.KnownWeightsDistinct | core/src/gaiasky/interafce/DatasetManagerWindow.java:88-100 | distinct known types have distinct weights |
| DatasetManagerWindow.Icon | core/src/gaiasky/interafce/DatasetManagerWindow.java:72-106 | null and unknown types get the "others" icon; the three star catalogues get the stars icon; other, data-pack and catalog-other get "others" |
| DatasetManagerWindow.PacksRankAsUnknown | core/src/gaiasky/interafce/DatasetManagerWindow.java:72-100 | texture packs and data packs have an icon entry but sort with the unknown types |
| DatasetManagerWindow.GroupTypes | core/src/gaiasky/interafce/DatasetManagerWindow.java:1222-1229 | one entry per dataset type, no type twice, exactly the types seen |
| DatasetManagerWindow.Insert | core/src/gaiasky/interafce/DatasetManagerWindow.java:1235-1236 | inserting into a weight-sorted list keeps it sorted and adds exactly the element |
| DatasetManagerWindow.InsertHead | core/src/gaiasky/interafce/DatasetManagerWindow.java:1235-1236 | a lighter head stays in front of the insertion into the tail |
| DatasetManagerWindow.SortByWeight | core/src/gaiasky/interafce/DatasetManagerWindow.java:1235-1236 | the sorted list is ordered by weight and is a permutation of the input |
| DatasetManagerWindow.OfWeightAppend | core/src/gaiasky/interafce/DatasetManagerWindow.java:1235-1236 | the elements of one weight in a concatenation are those of each part, in order |
| DatasetManagerWindow.OfWeightNone | core/src/gaiasky/interafce/DatasetManagerWindow.java:1235-1236 | a list of heavier elements has none of the weight |
| DatasetManagerWindow.OfWeightSingle | core/src/gaiasky/interafce/DatasetManagerWindow.java:1235-1236 | a single element is selected exactly when it has the weight |
| DatasetManagerWindow.InsertStable | core/src/gaiasky/interafce/DatasetManagerWindow.java:1235-1236 | insertion places the new element after all elements of equal weight |
| DatasetManagerWindow.SortStable | core/src/gaiasky/interafce/DatasetManagerWindow.java:1235-1236 | the sort is stable: elements of equal weight keep their relative order |
| DatasetManagerWindow.LocalTypes | core/src/gaiasky/interafce/DatasetManagerWindow.java:1210-1236 | the local type list has each type once, exactly the types seen, ordered by weight |
| DatasetManagerWindow.SortKeepsDistinct | core/src/gaiasky/interafce/DatasetManagerWindow.java:1235-1236 | a permutation of a duplicate-free list is duplicate-free |
| DatasetManagerWindow.DistinctMultiplicity | core/src/gaiasky/interafce/DatasetManagerWindow.java:1222-1229 | a duplicate-free list holds each value at most once |
| DatasetManagerWindow.Enable | core/src/gaiasky/interafce/DatasetManagerWindow.java:1083-1088 | afterwards the path is listed; an already listed path leaves the list unchanged, a new one is appended |
| DatasetManagerWindow.Disable | core/src/gaiasky/interafce/DatasetManagerWindow.java:1090-1093 | removes the first occurrence of the path and keeps the rest in order; changes nothing when the path is absent |
| DatasetManagerWindow.EnableDisable | core/src/gaiasky/interafce/DatasetManagerWindow.java:1083-1093 | enabling a path that was not listed and then disabling it restores the list |
| DatasetManagerWindow.DisableRemoves | core/src/gaiasky/interafce/DatasetManagerWindow.java:1083-1093 | on a duplicate-free list, disabling removes the path entirely and enabling keeps the list duplicate-free |
| DatasetManagerWindow.UpdateSucceeded | core/src/gaiasky/interafce/DatasetManagerWindow.java:1065-1081 | after an update the dataset is current at the server's version; with a server entry the update count drops by one, never below 0, and updates are flagged exactly while it is positive |
| DatasetManagerWindow.UpdatesCountDown | core/src/gaiasky/interafce/DatasetManagerWindow.java:1065-1081 | updating k datasets lowers the count by k, never below 0 |
| DatasetManagerWindow.ResetSelectedDataset | core/src/gaiasky/interafce/DatasetManagerWindow.java:1182-1189 | both selections are cleared and all four scroll positions are 0 |

## Left out

- Rendering, GPU work, windows and widgets are not modelled. Only the index, bitmask and bookkeeping logic behind them is kept: meshes, textures, shaders, dialog layout, the OpenVR runtime, indirection pixmaps and cache drawing.
- Floating-point rounding is not modelled. Reals are exact, and the square roots and normalisations are abstract parameters. This covers:
  - the ninetieth-percentile index `ceil(0.9 n)`, which is modelled exactly as the integer ceiling;
  - the distance square roots in the particle-set initializer;
  - `Math.log` in `idxAa`, whose `1e-10` slack is taken to make the exact logarithm come out;
  - the track-time arithmetic of the music component;
  - the float-bit packing of colours in the billboard renderer.
- I/O is replaced by sequences: file and stream reading, the asset manager, logging output, persisting recordings, and the event posts that only inform the UI. The PFM and orbit readers work on byte and line sequences; the asset manager is the sets of held and finished paths.
- Time is a parameter: wall-clock time, simulation time, `TimeUtils.millis` and the frame rate enter as arguments.
- Threads, locks and `postRunnable` are not modelled. Operations are sequential.
- `EventScriptingInterface.SetCameraPosition`: the source converts the caller's array in place, inside a runnable posted to the render thread. The model returns a fresh sequence and leaves the argument alone.
- Classes outside this model enter as parameters or are left out:
  - `CameraPath`, `SVTQuadtree`, `MotorEngine`, `Constants` and `MathUtilsd`;
  - the libGDX `Keys` table and the `FrameBuffer` superclass;
  - `Settings`, `I18n` and `Timestamp.valueOf`.
  `Constants.N_DIR_LIGHTS`, `KM_TO_U`, `PC_TO_U` and `WARP_STEPS` are parameters too.
- Where a Java `int` cannot overflow in practice, integers are unbounded. This covers `AstroUtils` day numbers, the `thrustFactorIndex` increment and the `(int)` casts in the scripting interface. The 32-bit wrap of `String.hashCode` is modelled, because `BookmarkPath.hashCode` depends on it.
- Strings are ASCII: `toLowerCase`, `toUpperCase` and `equalsIgnoreCase` map only A-Z.
- The `Integer.MAX_VALUE` guard that ends the `ComponentTypes.toString` loop cannot trigger on the bounded ordinal set and is not modelled.
- Capacities are not modelled: the initial capacity of the scene-graph children array, and the unused tail of the billboard index buffer when the modulus exceeds 1.
- The `update()` loop of the VR context, the `getObject` polling loop with its timeout, and the scripting `sleep` wall-clock wait are not modelled. Their guards are.
- The class loading and JSON reading in `AttributeMap.initialize` are not modelled. The component classes enter as names together with a set of loadable classes.
- Filename uniqueness of recordings is not modelled. The `Camcorder` persistence error appears only as a `PersistFailed` effect; its logged message is not modelled.
- `DatasetManagerWindow.TypeWeight`: a null dataset type, which throws `NullPointerException` in `getTypeWeight`, is not modelled.
- `AffineTransformations.SetTransformations`: the `ClassCastException` for a list element that is not a transform is not modelled, and the matrix action of each transform is a parameter.
- `SceneGraphBuilder.AddChild`: a cycle in the parent links makes the Java ancestor loop run forever; the model returns `Cycle` instead.
- `ParticleSetInitializer.ComputeMeanPosition`: an empty data set gives `None`, where Java scales by an infinite factor.
- `ParticleSetInitializer.SetLabelPosition`: the warning logged for an entity without a label or a body is not modelled. The position is left unset, as in the source.
- `GaiaSky.PerFrame`: a frame rate of 0 gives `None`, where Java divides to `Infinity`.
- `Logger.Post`: requires a level other than error. Posting an error also depends on the Java-exception subscribers, which are not modelled.
- `Proximity.Set`: requires an index inside the array. Java would throw for an index outside it.
- `EventManager.Notify`: requires a time-frame command to carry a time-frame datum first. This is how every caller in the source sends it.
- `EventScriptingInterface.CheckNum` and `EventScriptingInterface.SleepFor`: arguments are reals, so NaN is outside the model. The source accepts NaN in every range check, because both of its comparisons are false, and `sleep(NaN)` then waits one frame in frame-output mode (`Math.round(NaN)` is 0, raised to 1) or sleeps 0 ms.
- `AffineTransformations.SetQuaternionAxis`: `Vector3d` is not part of this model. The axis array is stored as given, and whatever `new Vector3d(axis)` does with an array shorter than three is not modelled.
- `GlobalConf.ToggleType`, `GlobalConf.ToggleVisibility`, `GlobalConf.ToggleTypeTwice` and `GlobalConf.ToggleVisibilityByKey`: `GlobalConf` uses the legacy enum `gaia.cu9.ari.gaiaorbit.render.ComponentTypes.ComponentType`, which is not part of this model. The model assumes it has the members, order and `element.<name>` keys of the current `ComponentTypes` enum (core/src/gaiasky/render/ComponentTypes.java), which the `ComponentTypes` module models.
- `PortableFloatMap.CalcPixelArrayLength`: requires positive dimensions. Its only callers have checked them already.
- `NotificationsInterface.Update`: the history is one list per interface. In the source it is a static list shared by every instance.
- `PreferencesWindow.KeysToString`: the keys are taken in the order given. The source's `TreeSet` supplies them ascending.
- `ComponentTypes.SetNames`: its own contract states only when it fails and that each name is a word. Which names are collected, one per set bit in increasing bit order, is stated by `ComponentTypes.SetNamesLists` and `ComponentTypes.SetNamesOfTypes`.
- `ComponentTypes.ToString`: its own contract states only the "Empty" text and the failure. The printed names and their order are stated by `ComponentTypes.ToStringOfTypes`.
- `GaiaSky.Survivors`: its own contract states membership only. Order and multiplicity are stated by `GaiaSky.SurvivorsConcat`, `GaiaSky.SurvivorsSingle` and `GaiaSky.SurvivorsMultiplicity`.
- `Normalize` (the `Vec3` module): a zero vector normalises to the zero vector, where numpy's division gives NaN. When the camera direction is zero, or parallel to r1 + r2 + r3 (lunar-libration.py lines 110-115 and 137-142), the model's up basis is zero and `Libration.Project` writes a zero up vector where the script writes NaN. `Libration.UpBasisDefined` names the case where the two agree, and `Libration.CapturedUpRestored` is stated for it.
- `Libration.Project`: builds the up basis from the direction it has just composed. The script instead reads the direction back from the engine with `gs.getCameraDirection()` (lunar-libration.py line 135), so the model assumes the engine returns the direction it was just given.

## Findings

| source | as written | input that shows it | evidently intended | confidence | as-written member | corrected member |
|---|---|---|---|---|---|---|
| core/src/gaiasky/data/orbit/FileDataLoader.java:45-58 | `last.setTime(t.getTime())` keeps only whole milliseconds of the accepted timestamp, so `!t.equals(last)` compares against a truncated copy | two identical lines stamped `2020-01-01_00:00:00.0005` | a line repeating the previous accepted timestamp is dropped | not executed | FileDataLoader.SubMillisecondStampRepeated | FileDataLoader.StepExact |
| core/src/gaiasky/util/coord/AstroUtils.java:333-345 | `(year - 1) / 4`, `/ 100` and `/ 400` on `int` truncate toward zero, so day counts for years up to 0 are off | 31 December of year 0 and 1 January of year 1 get the same day number | consecutive days differ by one in every year (floored division) | not executed | AstroUtils.YearZeroCollision | AstroUtils.GregorianFlooredYearLength |
| core/src/gaiasky/util/svt/SVTManager.java:304-314 | the parent walk `while ((parent = tile.parent) != null)` never moves up the tree | removing a cached tile whose parent is not cached | walk up to the nearest cached ancestor | not executed | SvtManager.RemovalHangs | SvtManager.RemoveTileFromCacheFixed |
| core/src/gaia/cu9/ari/gaiaorbit/util/Logger.java:81-89 | each argument is substituted with `replaceFirst`, which reads it as a regular-expression replacement and rescans the already-filled text | template "{} {}" with arguments "{}", "x" gives "x {}"; an argument "$5" throws | each "{}" is replaced by the next argument verbatim | not executed | Logger.PlaceholderArgumentRefilled | Logger.FormatLiteral |
| core/src/gaiasky/vr/openvr/VRContext.java:870-876 | a release does `buttons ^= 1L << button`, which flips the bit | a release event for a button that is not pressed | a release clears the bit | not executed | VrContext.ReleaseUnpressedPresses | VrContext.SetButtonFixed |
| core/src/gaiasky/util/camera/rec/Camcorder.java:271-289 | the manual stop goes idle without publishing `LIMIT_FPS_CMD`, while the natural end of a playback (lines 95-98) puts the backed-up limit back | a camera file with a positive frame rate, played and then stopped before its last frame | the manual stop restores the frame limit too | not executed | Camcorder.ManualStopKeepsCap | Camcorder.StopPlayFixed |
| core/src/gaiasky/gui/NotificationsInterface.java:170-185 | the visibility test `!c1.hasActor() && !c2.hasActor()` reads `c2`, which only the two-line constructor creates (lines 119-123) | a one-line interface (as `LoadingGui` builds) updated after its message times out | a missing second line counts as showing nothing, so the panel hides | not executed | NotificationsInterface.OneLineExpiryFails | NotificationsInterface.UpdateFixed |

The corrected halves, and where the model uses them:

- `FileDataLoader.Load` takes `exact`, and `LoadExactHasNoRepeats` proves the corrected load never stores the same timestamp twice in a row.
- `SvtManager.Page` and `SvtManager.Update` take `fixed`.
- `Logger.Log` and `Logger.Post` take `corrected`.
- The calendar constants are computed for years from 1 on, where the two day-number formulas agree (`AstroUtils.FlooredAgreesFromYearOne`).
- For the VR button mask, `VrContext.SetButtonAgreesOnPressedRelease` proves the two versions agree on every press and on the release of a pressed button.
- `NotificationsInterface.UpdateFixedAgrees` proves the corrected update agrees with the source on two-line interfaces and wherever the source does not fail, and `NotificationsInterface.AddedMessageLifetime` is proved for the corrected update.
- `Camcorder.StopPlayFixed` is the corrected stop. `Camcorder.PlayThenStopFixedRestoresLimit` proves it restores the limit in force before the play command. `Camcorder.StopPlay` and `Camcorder.PlayThenStop` keep the behaviour as written.

=== FILE: affine_transformations.dfy ===
/** `gaiasky.scene.component.AffineTransformations`: the ordered list of
    transforms an object applies to its model matrix every cycle. The list
    is null until the first builder call creates it. What one transform does
    to a matrix is passed in as a function, and the parsec and kilometre
    factors of the internal unit are parameters. */
module AffineTransformations {
  import opened Wrappers

  /** A unit quaternion as the source stores it. */
  datatype Quaternion = Quaternion(x: real, y: real, z: real, w: real)

  /** The transform records: a translation vector, a quaternion given by
      axis and angle or directly, a rotation given by axis and angle in
      degrees, and a per-axis scale. */
  datatype Transform =
    | Translate(vector: seq<real>)
    | QuaternionAxis(axis: seq<real>, angle: real)
    | QuaternionOf(q: Quaternion)
    | Rotate(axis: seq<real>, angle: real)
    | Scale(factors: seq<real>)

  /** A short array or a null `Double` makes a builder throw. */
  datatype Error = IndexOutOfBounds | NullPointer

  /** The component: `transformations` may be null. */
  type Component = Option<seq<Transform>>

  /** The component after a builder call, and what the call threw. */
  datatype Step = Step(after: Component, thrown: Option<Error>)

  /** `initialize`: creates the empty list only when there is none. */
  function Initialize(c: Component): (r: Component)
    ensures r.Some?
    ensures c.Some? ==> r == c
    ensures c.None? ==> r == Some([])
  {
    if c.None? then Some([]) else c
  }

  /** The transforms of a component, none when the list is null. */
  function List(c: Component): seq<Transform> {
    if c.None? then [] else c.value
  }

  /** Every builder: initialise, then append one transform. */
  function Append(c: Component, t: Transform): (r: Component)
    ensures r.Some? && List(r) == List(c) + [t]
  {
    Some(Initialize(c).value + [t])
  }

  /** Initialising twice is initialising once. */
  lemma InitializeIdempotent(c: Component)
    ensures Initialize(Initialize(c)) == Initialize(c)
    ensures List(Initialize(c)) == List(c)
  {
  }

  /** `setTransformations`: appends every given transform in order. */
  function SetTransformations(c: Component, ts: seq<Transform>): (r: Component)
    ensures r.Some? && List(r) == List(c) + ts
  {
    Some(Initialize(c).value + ts)
  }

  /** `setTranslate`. */
  function SetTranslate(c: Component, translation: seq<real>): (r: Component)
    ensures List(r) == List(c) + [Translate(translation)]
  {
    Append(c, Translate(translation))
  }

  /** The first three components multiplied by a unit factor. */
  function ScaleFirstThree(v: seq<real>, factor: real): (iu: seq<real>)
    requires |v| >= 3
    ensures |iu| == 3 && forall i :: 0 <= i < 3 ==> iu[i] == v[i] * factor
  {
    [v[0] * factor, v[1] * factor, v[2] * factor]
  }

  /** `setTranslatePc` and `setTranslateKm`: the first three components
      converted to internal units by `factor`; a shorter array throws before
      anything is created. */
  function SetTranslateScaled(c: Component, translation: seq<real>, factor: real): (r: Step)
    ensures r.thrown.Some? <==> |translation| < 3
    ensures r.thrown.Some? ==> r.after == c
    ensures r.thrown.None? ==> List(r.after) == List(c) + [Translate(ScaleFirstThree(translation, factor))]
  {
    if |translation| < 3 then Step(c, Some(IndexOutOfBounds))
    else Step(SetTranslate(c, ScaleFirstThree(translation, factor)), None)
  }

  /** A translation given in parsecs and then scaled back by the inverse
      factor is the original vector. */
  lemma TranslateUnitsRoundTrip(v: seq<real>, factor: real)
    requires |v| == 3 && factor != 0.0
    ensures ScaleFirstThree(ScaleFirstThree(v, factor), 1.0 / factor) == v
  {
    var back := ScaleFirstThree(ScaleFirstThree(v, factor), 1.0 / factor);
    forall i | 0 <= i < 3 ensures back[i] == v[i] {
      assert back[i] == v[i] * factor * (1.0 / factor);
      assert factor * (1.0 / factor) == 1.0;
    }
  }

  /** `setQuaternion(axis, angle)`. */
  function SetQuaternionAxis(c: Component, axis: seq<real>, angle: real): (r: Component)
    ensures List(r) == List(c) + [QuaternionAxis(axis, angle)]
  {
    Append(c, QuaternionAxis(axis, angle))
  }

  /** `setQuaternion(q)`. */
  function SetQuaternion(c: Component, q: Quaternion): (r: Component)
    ensures List(r) == List(c) + [QuaternionOf(q)]
  {
    Append(c, QuaternionOf(q))
  }

  /** `setRotate(axisDegrees)`: the first three entries are the axis and the
      fourth the angle; a shorter array throws. The list is created before
      the array is read, so a failed call still leaves it non-null. */
  function SetRotate(c: Component, axisDegrees: seq<real>): (r: Step)
    ensures r.thrown.Some? <==> |axisDegrees| < 4
    ensures r.thrown.Some? ==> r.after == Initialize(c)
    ensures r.thrown.None? ==> List(r.after) == List(c) + [Rotate(axisDegrees[..3], axisDegrees[3])]
  {
    if |axisDegrees| < 4 then Step(Initialize(c), Some(IndexOutOfBounds))
    else Step(Append(c, Rotate(axisDegrees[..3], axisDegrees[3])), None)
  }

  /** `setScale(double[])`. */
  function SetScale(c: Component, sc: seq<real>): (r: Component)
    ensures List(r) == List(c) + [Scale(sc)]
  {
    Append(c, Scale(sc))
  }

  /** `setScale(Double)`: a uniform scale on the three axes; unboxing a null
      throws, after the list has been created. */
  function SetScaleUniform(c: Component, sc: Option<real>): (r: Step)
    ensures r.thrown.Some? <==> sc.None?
    ensures r.thrown.Some? ==> r.after == Initialize(c)
    ensures r.thrown.None? ==> List(r.after) == List(c) + [Scale([sc.value, sc.value, sc.value])]
  {
    if sc.None? then Step(Initialize(c), Some(NullPointer))
    else Step(SetScale(c, [sc.value, sc.value, sc.value]), None)
  }

  /** `apply(mat)`: every transform in list order, each acting on the result
      of the previous one; a null list returns the matrix untouched. */
  function ApplyAll<M>(ts: seq<Transform>, step: (Transform, M) -> M, mat: M): (r: M)
    ensures |ts| == 0 ==> r == mat
    decreases |ts|
  {
    if |ts| == 0 then mat else step(ts[|ts| - 1], ApplyAll(ts[..|ts| - 1], step, mat))
  }

  function Apply<M>(c: Component, step: (Transform, M) -> M, mat: M): (r: M)
    ensures c.None? ==> r == mat
  {
    ApplyAll(List(c), step, mat)
  }

  /** Applying a list is applying its prefix and then its suffix. */
  lemma {:induction false} ApplyAllConcat<M>(a: seq<Transform>, b: seq<Transform>, step: (Transform, M) -> M, mat: M)
    ensures ApplyAll(a + b, step, mat) == ApplyAll(b, step, ApplyAll(a, step, mat))
    decreases |b|
  {
    if |b| == 0 {
      assert a + b == a;
    } else {
      var b' := b[..|b| - 1];
      assert (a + b)[..|a + b| - 1] == a + b';
      ApplyAllConcat(a, b', step, mat);
    }
  }

  /** A builder's transform runs last, after everything built before it. */
  lemma AppendRunsLast<M>(c: Component, t: Transform, step: (Transform, M) -> M, mat: M)
    ensures Apply(Append(c, t), step, mat) == step(t, Apply(c, step, mat))
  {
    assert (List(c) + [t])[..|List(c)|] == List(c);
  }

  /** `setTransformations` followed by `apply` runs the given list after
      the earlier transforms. */
  lemma SetTransformationsRunInOrder<M>(c: Component, ts: seq<Transform>, step: (Transform, M) -> M, mat: M)
    ensures Apply(SetTransformations(c, ts), step, mat) == ApplyAll(ts, step, Apply(c, step, mat))
  {
    ApplyAllConcat(List(c), ts, step, mat);
  }

  /** The concrete classes `getScaleTransform`, `getRotateTransform` and
      `getTranslateTransform` look for. */
  datatype Kind = ScaleKind | RotateKind | TranslateKind

  predicate OfKind(t: Transform, k: Kind) {
    match k
    case ScaleKind => t.Scale?
    case RotateKind => t.Rotate?
    case TranslateKind => t.Translate?
  }

  /** The position of the first transform of a kind, or -1. */
  function FirstIndex(ts: seq<Transform>, k: Kind): (i: int)
    ensures -1 <= i < |ts|
    ensures i == -1 <==> forall j :: 0 <= j < |ts| ==> !OfKind(ts[j], k)
    ensures i >= 0 ==> OfKind(ts[i], k) && forall j :: 0 <= j < i ==> !OfKind(ts[j], k)
  {
    if |ts| == 0 then -1
    else if OfKind(ts[0], k) then 0
    else
      var i := FirstIndex(ts[1..], k);
      if i < 0 then -1 else i + 1
  }

  /** The first transform of a kind, or null. */
  function FirstOf(ts: seq<Transform>, k: Kind): (r: Option<Transform>)
    ensures r.None? <==> forall i :: 0 <= i < |ts| ==> !OfKind(ts[i], k)
    ensures r.Some? ==> exists i :: 0 <= i < |ts| && ts[i] == r.value && OfKind(ts[i], k) &&
                                    forall j :: 0 <= j < i ==> !OfKind(ts[j], k)
  {
    var i := FirstIndex(ts, k);
    if i < 0 then None else Some(ts[i])
  }

  /** `getScaleTransform` and its two siblings. */
  function GetTransform(c: Component, k: Kind): (r: Option<Transform>)
    ensures c.None? ==> r.None?
    ensures r.Some? ==> OfKind(r.value, k)
  {
    FirstOf(List(c), k)
  }

  /** The first match never moves: appending a transform leaves the lookup
      unchanged when it already finds one, and otherwise finds the appended
      transform exactly when it is of the kind. */
  lemma {:induction false} FirstOfSnoc(ts: seq<Transform>, t: Transform, k: Kind)
    ensures FirstOf(ts + [t], k) ==
            if FirstOf(ts, k).Some? then FirstOf(ts, k)
            else if OfKind(t, k) then Some(t) else None
  {
    if |ts| == 0 {
      assert ts + [t] == [t];
    } else {
      assert (ts + [t])[1..] == ts[1..] + [t];
      FirstOfSnoc(ts[1..], t, k);
    }
  }

  /** A uniform scale set on a component without a scale transform is the
      one `getScaleTransform` returns; an earlier scale shadows it. */
  lemma UniformScaleIsFound(c: Component, sc: real)
    ensures var r := SetScaleUniform(c, Some(sc));
            r.thrown.None? &&
            GetTransform(r.after, ScaleKind) ==
              if GetTransform(c, ScaleKind).Some? then GetTransform(c, ScaleKind) else Some(Scale([sc, sc, sc]))
  {
    FirstOfSnoc(List(c), Scale([sc, sc, sc]), ScaleKind);
  }
}

=== FILE: astro_utils.dfy ===
/** The calendar part of `gaiasky.util.coord.AstroUtils`: the Gregorian leap
    rule, the Gregorian and Julian-calendar day numbers, the Julian date of a
    calendar instant and Julian centuries since J2000. Java `int`/`long`
    division truncates toward zero; it is written out with `Text.JDiv`. The
    `double` results are exact reals here: every value below is an integer
    plus one half, or a ratio of small integers. */
module AstroUtils {
  import opened Text

  /** `isLeapYearGregorian`, with Java's truncating remainder. */
  function IsLeapYearGregorian(year: int): (b: bool)
    ensures b <==> year % 4 == 0 && (year % 100 != 0 || year % 400 == 0)
  {
    RemZeroIffDivides(year, 4);
    RemZeroIffDivides(year, 100);
    RemZeroIffDivides(year, 400);
    JRem(year, 4) == 0 && !(JRem(year, 100) == 0 && JRem(year, 400) != 0)
  }

  /** A truncated remainder is zero exactly when a floored one is. */
  lemma RemZeroIffDivides(a: int, b: int)
    requires b > 0
    ensures JRem(a, b) == 0 <==> a % b == 0
  {
    if a < 0 {
      var q := (-a) / b;
      assert JDiv(a, b) == -q;
      assert JRem(a, b) == -((-a) % b);
      if (-a) % b == 0 {
        assert a == b * (-q) + 0;
        DivUnique(a, b, -q, 0);
      }
      if a % b == 0 {
        var p := a / b;
        assert -a == b * (-p) + 0;
        DivUnique(-a, b, -p, 0);
      }
    }
  }

  const GREGORIAN_EPOCH: real := 1721425.5

  /** The whole-day part of the Gregorian day number, as the source computes
      it: the divisions by 4, 100, 400 and 12 truncate toward zero. */
  function GregorianDayCount(year: int, month: int, day: int): int {
    365 * (year - 1) + JDiv(year - 1, 4) - JDiv(year - 1, 100) + JDiv(year - 1, 400)
    + JDiv(367 * month - 362, 12)
    + (if month <= 2 then 0 else if IsLeapYearGregorian(year) then -1 else -2)
    + day
  }

  /** `getJulianDayNumberGregorian`. */
  function JulianDayNumberGregorian(year: int, month: int, day: int): (jdn: real)
    ensures IsHalfDay(jdn)
  {
    HalfDayOf(1721424 + GregorianDayCount(year, month, day));
    (GREGORIAN_EPOCH - 1.0) + (GregorianDayCount(year, month, day) as real)
  }

  /** A day number that starts at midnight: an integer plus one half. */
  predicate IsHalfDay(x: real) {
    (x - 0.5).Floor as real == x - 0.5
  }

  lemma HalfDayOf(n: int)
    ensures IsHalfDay(n as real + 0.5)
  {
    assert n as real + 0.5 - 0.5 == n as real;
  }

  /** Within a month, the next day has the next day number. */
  lemma GregorianConsecutiveDays(year: int, month: int, day: int)
    ensures JulianDayNumberGregorian(year, month, day + 1) - JulianDayNumberGregorian(year, month, day) == 1.0
  {
  }

  /** Truncated and floored division agree for non-negative dividends. */
  lemma JDivNonNegative(a: int, b: int)
    requires a >= 0 && b > 0
    ensures JDiv(a, b) == a / b
  {
  }

  /** Moving the dividend up by one raises the quotient exactly at a multiple. */
  lemma {:induction false} DivStep(x: int, d: int)
    requires d > 0
    ensures (x + 1) / d == x / d + (if (x + 1) % d == 0 then 1 else 0)
  {
    var q, r := x / d, x % d;
    assert x == d * q + r && 0 <= r < d;
    if r + 1 == d {
      assert x + 1 == d * (q + 1) + 0;
      DivUnique(x + 1, d, q + 1, 0);
    } else {
      assert x + 1 == d * q + (r + 1);
      DivUnique(x + 1, d, q, r + 1);
    }
  }

  /** For years from 1 on, the truncating divisions are floored ones and the
      year from 1 January to 1 January has 366 days exactly in a leap year. */
  lemma GregorianYearLength(year: int)
    requires year >= 1
    ensures JulianDayNumberGregorian(year + 1, 1, 1) - JulianDayNumberGregorian(year, 1, 1)
         == if IsLeapYearGregorian(year) then 366.0 else 365.0
  {
    FlooredAgreesFromYearOne(year, 1, 1);
    FlooredAgreesFromYearOne(year + 1, 1, 1);
    GregorianFlooredYearLength(year);
  }

  /** For years before 1 the truncating divisions of `year - 1` round toward
      zero instead of down, and 31 December of year 0 (a leap year under the
      same rule) gets the same day number as 1 January of year 1. */
  lemma YearZeroCollision()
    ensures IsLeapYearGregorian(0)
    ensures JulianDayNumberGregorian(0, 12, 31) == JulianDayNumberGregorian(1, 1, 1)
  {
    assert JDiv(-1, 4) == 0 && JDiv(-1, 100) == 0 && JDiv(-1, 400) == 0;
    assert JDiv(367 * 12 - 362, 12) == 336;
    assert JDiv(367 * 1 - 362, 12) == 0;
  }

  /** The day count with floored divisions, as the proleptic Gregorian
      calendar intends it for every year. */
  function GregorianDayCountFloored(year: int, month: int, day: int): int {
    365 * (year - 1) + (year - 1) / 4 - (year - 1) / 100 + (year - 1) / 400
    + JDiv(367 * month - 362, 12)
    + (if month <= 2 then 0 else if IsLeapYearGregorian(year) then -1 else -2)
    + day
  }

  /** The Gregorian day number with floored divisions. */
  function JulianDayNumberGregorianFloored(year: int, month: int, day: int): (jdn: real)
    ensures IsHalfDay(jdn)
  {
    HalfDayOf(1721424 + GregorianDayCountFloored(year, month, day));
    (GREGORIAN_EPOCH - 1.0) + (GregorianDayCountFloored(year, month, day) as real)
  }

  /** From year 1 on the floored and the truncating day numbers agree. */
  lemma FlooredAgreesFromYearOne(year: int, month: int, day: int)
    requires year >= 1
    ensures JulianDayNumberGregorianFloored(year, month, day) == JulianDayNumberGregorian(year, month, day)
  {
    JDivNonNegative(year - 1, 4);
    JDivNonNegative(year - 1, 100);
    JDivNonNegative(year - 1, 400);
  }

  /** With floored divisions every year has its proper length, and
      31 December is always followed by 1 January one day later. */
  lemma GregorianFlooredYearLength(year: int)
    ensures JulianDayNumberGregorianFloored(year + 1, 1, 1) - JulianDayNumberGregorianFloored(year, 1, 1)
         == if IsLeapYearGregorian(year) then 366.0 else 365.0
    ensures JulianDayNumberGregorianFloored(year + 1, 1, 1) - JulianDayNumberGregorianFloored(year, 12, 31) == 1.0
  {
    FlooredDaysInYear(year);
    assert JDiv(367 * 12 - 362, 12) == 336;
  }

  /** The whole-day counts of two consecutive New Year's days differ by the
      length of the year. */
  lemma FlooredDaysInYear(year: int)
    ensures GregorianDayCountFloored(year + 1, 1, 1) - GregorianDayCountFloored(year, 1, 1)
         == if IsLeapYearGregorian(year) then 366 else 365
  {
    DivStep(year - 1, 4);
    DivStep(year - 1, 100);
    DivStep(year - 1, 400);
    assert JDiv(367 * 1 - 362, 12) == 0;
    var step4 := year / 4 - (year - 1) / 4;
    var step100 := year / 100 - (year - 1) / 100;
    var step400 := year / 400 - (year - 1) / 400;
    assert GregorianDayCountFloored(year + 1, 1, 1) - GregorianDayCountFloored(year, 1, 1)
        == 365 + step4 - step100 + step400;
    DividesThrough(year);
    LeapSteps(year % 4 == 0, year % 100 == 0, year % 400 == 0, step4, step100, step400);
  }

  /** A multiple of 400 is one of 100, and a multiple of 100 one of 4. */
  lemma DividesThrough(year: int)
    ensures year % 400 == 0 ==> year % 100 == 0
    ensures year % 100 == 0 ==> year % 4 == 0
  {
    if year % 400 == 0 {
      var q := year / 400;
      assert year == 100 * (4 * q) + 0;
      DivUnique(year, 100, 4 * q, 0);
    }
    if year % 100 == 0 {
      var q := year / 100;
      assert year == 4 * (25 * q) + 0;
      DivUnique(year, 4, 25 * q, 0);
    }
  }

  /** The leap rule in terms of which of 4, 100 and 400 divide the year. */
  lemma LeapSteps(by4: bool, by100: bool, by400: bool, step4: int, step100: int, step400: int)
    requires step4 == (if by4 then 1 else 0) && step100 == (if by100 then 1 else 0)
    requires step400 == (if by400 then 1 else 0)
    requires (by400 ==> by100) && (by100 ==> by4)
    ensures step4 - step100 + step400 == if by4 && (!by100 || by400) then 1 else 0
  {
  }

  /** `getJulianDayNumberJulianCalendar`, in `long` arithmetic: March-based
      months, years counted from -4800, then -32083.5. */
  function JulianDayNumberJulianCalendar(year: int, month: int, day: int): (jdn: real)
    ensures IsHalfDay(jdn)
  {
    var a := JDiv(14 - month, 12);
    var y := year + 4800 - a;
    var m := month + 12 * a - 3;
    var n := day + JDiv(153 * m + 2, 5) + 365 * y + JDiv(y, 4) - 32084;
    HalfDayOf(n);
    n as real + 0.5
  }

  /** January and February count as months 10 and 11 of the previous year:
      the shift `a` is 1 for them and 0 for March to December. */
  lemma JulianCalendarMonthShift(month: int)
    requires 1 <= month <= 12
    ensures JDiv(14 - month, 12) == if month <= 2 then 1 else 0
  {
  }

  lemma JulianCalendarConsecutiveDays(year: int, month: int, day: int)
    ensures JulianDayNumberJulianCalendar(year, month, day + 1) - JulianDayNumberJulianCalendar(year, month, day) == 1.0
  {
  }

  /** The two calendars meet at the Gregorian reform: Julian 4 October 1582
      is followed by Gregorian 15 October 1582. */
  lemma CalendarReform()
    ensures JulianDayNumberJulianCalendar(1582, 10, 4) + 1.0 == JulianDayNumberGregorian(1582, 10, 15)
    ensures JulianDayNumberGregorian(1582, 10, 15) == 2299160.5
  {
    assert JDiv(14 - 10, 12) == 0;
    assert JDiv(153 * 7 + 2, 5) == 214;
    assert JDiv(6382, 4) == 1595;
    assert JDiv(1581, 4) == 395 && JDiv(1581, 100) == 15 && JDiv(1581, 400) == 3;
    assert JDiv(367 * 10 - 362, 12) == 275;
  }

  /** `getDayFraction`: hours, minutes, seconds and nanoseconds in days. */
  function DayFraction(hour: int, min: int, sec: int, nanos: int): (f: real)
    ensures f * 86400.0 == (3600 * hour + 60 * min + sec) as real + (nanos as real) / 1000000000.0
  {
    (hour as real) / 24.0 + (min as real) / 1440.0 + ((sec as real) + (nanos as real) / 1000000000.0) / 86400.0
  }

  /** `getJulianDate(year, month, day, hour, min, sec, nanos, gregorian)`. */
  function JulianDate(year: int, month: int, day: int, hour: int, min: int, sec: int, nanos: int, gregorian: bool): (jd: real)
    ensures gregorian ==> jd - JulianDayNumberGregorian(year, month, day) == DayFraction(hour, min, sec, nanos)
    ensures !gregorian ==> jd - JulianDayNumberJulianCalendar(year, month, day) == DayFraction(hour, min, sec, nanos)
  {
    if gregorian then JulianDayNumberGregorian(year, month, day) + DayFraction(hour, min, sec, nanos)
    else JulianDayNumberJulianCalendar(year, month, day) + DayFraction(hour, min, sec, nanos)
  }

  const J2000: real := 2451545.0
  const DAYS_PER_CENTURY: real := 36525.0

  /** `T`: Julian centuries since J2000. */
  function T(julianDate: real): (t: real)
    ensures julianDate == J2000 + t * DAYS_PER_CENTURY
  {
    (julianDate - J2000) / DAYS_PER_CENTURY
  }

  /** Noon of 1 January 2000 (Gregorian) is the epoch J2000: T is zero there. */
  lemma J2000Epoch()
    ensures JulianDate(2000, 1, 1, 12, 0, 0, 0, true) == J2000
    ensures T(JulianDate(2000, 1, 1, 12, 0, 0, 0, true)) == 0.0
  {
    assert JDiv(1999, 4) == 499 && JDiv(1999, 100) == 19 && JDiv(1999, 400) == 4;
    assert JDiv(367 * 1 - 362, 12) == 0;
  }

  const JD_TO_Y: real := 365.25

  /** The `(int)` cast of a double: truncation toward zero. */
  function Truncate(x: real): (n: int)
    ensures x >= 0.0 ==> n == x.Floor
    ensures x < 0.0 ==> n == -((-x).Floor)
    ensures (n as real - x) * (n as real - x) < 1.0 && n as real * x >= 0.0
  {
    if x >= 0.0 then x.Floor else -((-x).Floor)
  }

  /** `getJulianDate(refEpoch)`: the start of the epoch's (truncated) year
      plus the remaining fraction of a year in Julian years. */
  function JulianDateOfEpoch(refEpoch: real): (jd: real)
    ensures refEpoch == Truncate(refEpoch) as real ==> jd == JulianDayNumberGregorian(Truncate(refEpoch), 1, 1)
    ensures refEpoch >= 0.0 ==> jd >= JulianDayNumberGregorian(Truncate(refEpoch), 1, 1)
    ensures refEpoch < 0.0 ==> jd <= JulianDayNumberGregorian(Truncate(refEpoch), 1, 1)
    ensures jd - JulianDayNumberGregorian(Truncate(refEpoch), 1, 1) == JD_TO_Y * (refEpoch - Truncate(refEpoch) as real)
  {
    var year := Truncate(refEpoch);
    JulianDate(year, 1, 1, 0, 0, 0, 0, true) + JD_TO_Y * (refEpoch - year as real)
  }

  const JD_J2000: real := JulianDateOfEpoch(2000.0)
  const JD_J2010: real := JulianDateOfEpoch(2010.0)
  const JD_J2015: real := JulianDateOfEpoch(2015.0)
  const JD_J2015_5: real := JulianDateOfEpoch(2015.5)

  /** The reference epochs evaluate to the Julian dates their documentation
      gives: J2000 is JD 2451544.5 (midnight, half a day before the noon
      epoch `T` counts from), J2010 is JD 2455197.5, J2015 is JD 2457023.5
      and J2015.5 is JD 2457206.125. */
  lemma ReferenceEpochs()
    ensures JD_J2000 == 2451544.5 && J2000 - JD_J2000 == 0.5
    ensures JD_J2010 == 2455197.5
    ensures JD_J2015 == 2457023.5 && JD_J2015_5 == 2457206.125
  {
    assert (2000.0).Floor == 2000;
    assert JDiv(1999, 4) == 499 && JDiv(1999, 100) == 19 && JDiv(1999, 400) == 4;
    assert (2010.0).Floor == 2010;
    assert (2015.0).Floor == 2015 && (2015.5).Floor == 2015;
    assert JDiv(2009, 4) == 502 && JDiv(2009, 100) == 20 && JDiv(2009, 400) == 5;
    assert JDiv(2014, 4) == 503 && JDiv(2014, 100) == 20 && JDiv(2014, 400) == 5;
    assert JDiv(367 * 1 - 362, 12) == 0;
  }
}

=== FILE: attribute_map.dfy ===
/** `gaiasky.scene.AttributeMap`: the table from legacy object attribute
    names to the component class that now holds them, loaded from the
    `components` object of a JSON definition. The JSON file is given as a
    tree and class loading as the set of loadable component class names. */
module AttributeMap {
  import opened Wrappers
  import opened Text

  /** One attribute entry of a component: its name and the optional
      `aliases` array. */
  datatype Attribute = Attribute(name: string, aliases: Option<seq<string>>)

  /** One child of `components`: the component's simple class name and its
      attributes. */
  datatype Component = Component(name: string, attributes: seq<Attribute>)

  /** Attribute name to fully qualified component class name. */
  type Table = map<string, string>

  datatype Error = AlreadyDefined(attribute: string)

  const PACKAGE: string := "gaiasky.scene.component."

  /** `"gaiasky.scene.component." + name`. */
  function ClassName(name: string): (r: string)
    ensures |r| == |PACKAGE| + |name| && r[..|PACKAGE|] == PACKAGE && r[|PACKAGE|..] == name
  {
    PACKAGE + name
  }

  /** `get(key)`: the class, or null for an unknown key. */
  function Get(t: Table, key: string): (r: Option<string>)
    ensures r.Some? <==> ContainsKey(t, key)
    ensures r.Some? ==> r.value == t[key]
  {
    if key in t then Some(t[key]) else None
  }

  /** `containsKey(key)`: whether the table has a class for the key; only
      a non-empty table has any. */
  function ContainsKey(t: Table, key: string): (r: bool)
    ensures r <==> key in t.Keys
    ensures r ==> |t| > 0
  {
    key in t
  }

  predicate Described(a: Attribute) {
    EqualsIgnoreCase(a.name, "description")
  }

  /** The names a component contributes: each attribute name followed by
      its aliases, skipping attributes named "description" in any case. */
  function Names(attrs: seq<Attribute>): (r: seq<string>)
    ensures forall i :: 0 <= i < |attrs| && !Described(attrs[i]) ==> attrs[i].name in r
    ensures forall i, a ::
              (0 <= i < |attrs| && !Described(attrs[i]) && attrs[i].aliases.Some? && a in attrs[i].aliases.value) ==> a in r
  {
    if |attrs| == 0 then []
    else
      var a := attrs[0];
      var rest := Names(attrs[1..]);
      assert forall i :: 1 <= i < |attrs| ==> attrs[i] == attrs[1..][i - 1];
      if Described(a) then rest
      else [a.name] + (if a.aliases.Some? then a.aliases.value else []) + rest
  }

  /** Nothing else is listed: every name is a non-description attribute or
      one of its aliases. */
  lemma {:induction false} NamesOnly(attrs: seq<Attribute>, n: string)
    requires n in Names(attrs)
    ensures exists i :: 0 <= i < |attrs| && !Described(attrs[i]) &&
                        (n == attrs[i].name || (attrs[i].aliases.Some? && n in attrs[i].aliases.value))
  {
    var a := attrs[0];
    var rest := attrs[1..];
    if n in Names(rest) {
      NamesOnly(rest, n);
      var i :| 0 <= i < |rest| && !Described(rest[i]) &&
               (n == rest[i].name || (rest[i].aliases.Some? && n in rest[i].aliases.value));
      assert rest[i] == attrs[i + 1];
    } else {
      assert !Described(a) && (n == a.name || (a.aliases.Some? && n in a.aliases.value));
    }
  }

  /** `putAll(clazz, attributes)`: each name is mapped to the class in turn;
      a name already mapped, by an earlier component or earlier in the same
      list, throws. */
  function PutAll(t: Table, cls: string, names: seq<string>): (r: Result<Table, Error>)
    ensures r.Ok? <==> Fresh(t, names)
    ensures r.Ok? ==> r.value.Keys == t.Keys + set n | n in names
    ensures r.Ok? ==> forall k :: k in r.value ==> r.value[k] == if k in t then t[k] else cls
    ensures r.Err? ==> r.error.attribute in names
    decreases |names|
  {
    if |names| == 0 then Ok(t)
    else if names[0] in t then Err(AlreadyDefined(names[0]))
    else
      var rest := PutAll(t[names[0] := cls], cls, names[1..]);
      FreshCons(t, cls, names);
      NameSetCons(names);
      rest
  }

  /** A successful `putAll` maps every listed name. */
  lemma PutAllAdds(t: Table, cls: string, names: seq<string>, k: string)
    requires PutAll(t, cls, names).Ok? && k in names
    ensures k in PutAll(t, cls, names).value
  {
    assert k in (set n | n in names);
  }

  /** A list is fresh for a table exactly when its head is not a key and
      its tail is fresh for the table with the head added. */
  lemma FreshCons(t: Table, cls: string, names: seq<string>)
    requires |names| > 0
    ensures Fresh(t, names) <==> names[0] !in t && Fresh(t[names[0] := cls], names[1..])
  {
    assert forall i :: 1 <= i < |names| ==> names[i] == names[1..][i - 1];
    if names[0] !in t && Fresh(t[names[0] := cls], names[1..]) {
      forall i, j | 0 <= i < j < |names| ensures names[i] != names[j] {
        if i == 0 {
          assert names[1..][j - 1] !in t[names[0] := cls];
        }
      }
    }
  }

  lemma NameSetCons(names: seq<string>)
    requires |names| > 0
    ensures (set n | n in names) == {names[0]} + set n | n in names[1..]
  {
    assert forall n :: n in names <==> n == names[0] || n in names[1..];
  }

  /** No name is already a key and no name occurs twice. */
  predicate Fresh(t: Table, names: seq<string>) {
    (forall i :: 0 <= i < |names| ==> names[i] !in t) &&
    (forall i, j :: 0 <= i < j < |names| ==> names[i] != names[j])
  }

  /** `initialize`: every component whose class loads puts all its names;
      a component whose class does not load is skipped (the error is only
      logged); a duplicate name anywhere aborts with the exception. A file
      without `components` gives the empty table. */
  function Initialize(root: Option<seq<Component>>, loadable: set<string>): (r: Result<Table, Error>)
    ensures root.None? ==> r == Ok(map[])
    ensures r.Ok? ==> forall k :: k in r.value ==> r.value[k] in loadable
  {
    match root
    case None => Ok(map[])
    case Some(cs) => Load(map[], cs, loadable)
  }

  function Load(t: Table, cs: seq<Component>, loadable: set<string>): (r: Result<Table, Error>)
    ensures r.Ok? ==> t.Keys <= r.value.Keys && forall k :: k in t ==> r.value[k] == t[k]
    ensures r.Ok? ==> forall k :: k in r.value && k !in t ==> r.value[k] in loadable
    decreases |cs|
  {
    if |cs| == 0 then Ok(t)
    else
      var cls := ClassName(cs[0].name);
      if cls !in loadable then Load(t, cs[1..], loadable)
      else
        match PutAll(t, cls, Names(cs[0].attributes))
        case Err(e) => Err(e)
        case Ok(t') => Load(t', cs[1..], loadable)
  }

  /** A name of a loaded component. */
  ghost predicate Provides(cs: seq<Component>, loadable: set<string>, i: int, k: string) {
    0 <= i < |cs| && ClassName(cs[i].name) in loadable && k in Names(cs[i].attributes)
  }

  /** After a successful load, `get` answers exactly the names of the loaded
      components, each with the class of the component that lists it; names
      of components whose class does not load are absent. */
  lemma {:induction false} LoadedKeys(t: Table, cs: seq<Component>, loadable: set<string>, k: string)
    requires Load(t, cs, loadable).Ok?
    ensures var u := Load(t, cs, loadable).value;
            (k in u <==> k in t || exists i :: Provides(cs, loadable, i, k)) &&
            (k in u && k !in t ==> exists i :: Provides(cs, loadable, i, k) && u[k] == ClassName(cs[i].name))
    decreases |cs|
  {
    if |cs| > 0 {
      var cls := ClassName(cs[0].name);
      var rest := cs[1..];
      assert forall i, k :: 1 <= i < |cs| ==> (Provides(cs, loadable, i, k) <==> Provides(rest, loadable, i - 1, k));
      if cls !in loadable {
        LoadedKeys(t, rest, loadable, k);
        assert !Provides(cs, loadable, 0, k);
        if exists i :: Provides(cs, loadable, i, k) {
          var i :| Provides(cs, loadable, i, k);
          assert Provides(rest, loadable, i - 1, k);
        }
        if exists i :: Provides(rest, loadable, i, k) {
          var i :| Provides(rest, loadable, i, k);
          assert Provides(cs, loadable, i + 1, k);
        }
      } else {
        var t' := PutAll(t, cls, Names(cs[0].attributes)).value;
        LoadedKeys(t', rest, loadable, k);
        if exists i :: Provides(cs, loadable, i, k) {
          var i :| Provides(cs, loadable, i, k);
          if i > 0 { assert Provides(rest, loadable, i - 1, k); }
        }
        if exists i :: Provides(rest, loadable, i, k) {
          var i :| Provides(rest, loadable, i, k);
          assert Provides(cs, loadable, i + 1, k);
        }
        if k in t' && k !in t {
          assert Provides(cs, loadable, 0, k);
        }
      }
    }
  }

  /** Two loaded components listing the same name make the load fail. */
  lemma {:induction false} DuplicateFails(t: Table, cs: seq<Component>, loadable: set<string>, k: string, i: nat, j: nat)
    requires i < j && Provides(cs, loadable, i, k) && Provides(cs, loadable, j, k)
    ensures Load(t, cs, loadable).Err?
    decreases |cs|
  {
    var cls := ClassName(cs[0].name);
    var rest := cs[1..];
    var p := PutAll(t, cls, Names(cs[0].attributes));
    ProvidesTail(cs, loadable, j, k);
    if i == 0 {
      if p.Ok? {
        LoadPuts(t, cs, loadable);
        PutAllAdds(t, cls, Names(cs[0].attributes), k);
        PutAgain(p.value, rest, loadable, k, j - 1);
      } else {
        LoadPutFails(t, cs, loadable);
      }
    } else {
      ProvidesTail(cs, loadable, i, k);
      if cls !in loadable {
        LoadSkips(t, cs, loadable);
        DuplicateFails(t, rest, loadable, k, i - 1, j - 1);
      } else if p.Ok? {
        LoadPuts(t, cs, loadable);
        DuplicateFails(p.value, rest, loadable, k, i - 1, j - 1);
      } else {
        LoadPutFails(t, cs, loadable);
      }
    }
  }

  lemma ProvidesTail(cs: seq<Component>, loadable: set<string>, i: int, k: string)
    requires i > 0 && Provides(cs, loadable, i, k)
    ensures Provides(cs[1..], loadable, i - 1, k)
  {
    assert cs[1..][i - 1] == cs[i];
  }

  /** A component whose class does not load is skipped. */
  lemma LoadSkips(t: Table, cs: seq<Component>, loadable: set<string>)
    requires |cs| > 0 && ClassName(cs[0].name) !in loadable
    ensures Load(t, cs, loadable) == Load(t, cs[1..], loadable)
  {
  }

  /** A loaded component's names go into the table before the rest load. */
  lemma LoadPuts(t: Table, cs: seq<Component>, loadable: set<string>)
    requires |cs| > 0 && ClassName(cs[0].name) in loadable
    requires PutAll(t, ClassName(cs[0].name), Names(cs[0].attributes)).Ok?
    ensures Load(t, cs, loadable) == Load(PutAll(t, ClassName(cs[0].name), Names(cs[0].attributes)).value, cs[1..], loadable)
  {
  }

  /** A loaded component whose names cannot go in stops the load. */
  lemma LoadPutFails(t: Table, cs: seq<Component>, loadable: set<string>)
    requires |cs| > 0 && ClassName(cs[0].name) in loadable
    requires PutAll(t, ClassName(cs[0].name), Names(cs[0].attributes)).Err?
    ensures Load(t, cs, loadable).Err?
  {
  }

  /** A name already in the table cannot be put again by a loaded component. */
  lemma {:induction false} PutAgain(t: Table, cs: seq<Component>, loadable: set<string>, k: string, j: nat)
    requires k in t && Provides(cs, loadable, j, k)
    ensures Load(t, cs, loadable).Err?
    decreases |cs|
  {
    var cls := ClassName(cs[0].name);
    var rest := cs[1..];
    if j == 0 {
      var names := Names(cs[0].attributes);
      var n :| 0 <= n < |names| && names[n] == k;
      assert !Fresh(t, names);
    } else {
      ProvidesTail(cs, loadable, j, k);
      if cls !in loadable {
        LoadSkips(t, cs, loadable);
        PutAgain(t, rest, loadable, k, j - 1);
      } else {
        var p := PutAll(t, cls, Names(cs[0].attributes));
        if p.Ok? {
          LoadPuts(t, cs, loadable);
          PutAgain(p.value, rest, loadable, k, j - 1);
        } else {
          LoadPutFails(t, cs, loadable);
        }
      }
    }
  }
}

=== FILE: billboard_set_renderer.dfy ===
/** The vertex layout that `gaiasky.scene.render.draw.BillboardSetRenderer`
    builds for a billboard dataset (`convertDataToGpu`): every kept
    particle becomes a quad of four vertices and six indices (two triangles
    sharing a diagonal). A vertex holds 11 floats; the model keeps them as
    fields. The packing of the colour into one float and the float
    rounding of positions are not modelled; the random layer and the
    generated colours are parameters. */
module BillboardSetRenderer {
  import opened Wrappers
  import opened Text
  import opened Vec3

  /** Floats per vertex: corner position (2), colour (1), UV (2), particle
      position (3) and size, type and layer (3). */
  const VERTEX_SIZE: nat := 2 + 1 + 2 + 3 + 3

  /** The first of the 11 floats of each vertex field group. */
  const POS_OFFSET: nat := 0
  const COLOR_OFFSET: nat := 2
  const UV_OFFSET: nat := 3
  const PARTICLE_POS_OFFSET: nat := 5
  const ADDITIONAL_OFFSET: nat := 8

  /** The offsets tile the vertex: each group ends where the next begins
      and the last ends at the vertex size. */
  lemma LayoutTiles()
    ensures POS_OFFSET + 2 == COLOR_OFFSET && COLOR_OFFSET + 1 == UV_OFFSET
    ensures UV_OFFSET + 2 == PARTICLE_POS_OFFSET && PARTICLE_POS_OFFSET + 3 == ADDITIONAL_OFFSET
    ensures ADDITIONAL_OFFSET + 3 == VERTEX_SIZE && VERTEX_SIZE == 11
  {
  }

  // ---------------------------------------------------------------------
  // Data

  /** A particle record: its raw doubles (colour at 4..6 when present),
      size and position. */
  datatype Particle = Particle(raw: seq<real>, size: real, pos: Vec)

  datatype Rgb = Rgb(r: real, g: real, b: real)

  /** The colour generator, drawn once per particle and corner. */
  type ColorSource = (nat, nat) -> Rgb

  /** One vertex: which corner of the quad it is and the per-particle
      attributes. */
  datatype Vertex = Vertex(corner: nat, color: Rgb, size: real, kind: int, layer: real, pos: Vec)

  /** `MathUtilsd.clamp`. */
  function Clamp(x: real, lo: real, hi: real): (r: real)
    requires lo <= hi
    ensures lo <= r <= hi
    ensures lo <= x <= hi ==> r == x
    ensures x < lo ==> r == lo
    ensures x > hi ==> r == hi
  {
    if x < lo then lo else if x > hi then hi else x
  }

  predicate InUnit(c: Rgb) {
    0.0 <= c.r <= 1.0 && 0.0 <= c.g <= 1.0 && 0.0 <= c.b <= 1.0
  }

  /** The colour of a particle: the raw doubles 4..6 when there are at least
      seven, otherwise the generator's colour; each channel clamped to
      [0, 1]. */
  function ParticleColor(p: Particle, generated: Rgb): (c: Rgb)
    ensures InUnit(c)
    ensures |p.raw| >= 7 && 0.0 <= p.raw[4] <= 1.0 ==> c.r == p.raw[4]
    ensures |p.raw| < 7 && InUnit(generated) ==> c == generated
  {
    var src := if |p.raw| >= 7 then Rgb(p.raw[4], p.raw[5], p.raw[6]) else generated;
    Rgb(Clamp(src.r, 0.0, 1.0), Clamp(src.g, 0.0, 1.0), Clamp(src.b, 0.0, 1.0))
  }

  // ---------------------------------------------------------------------
  // Which particles are kept

  /** `modulus == 0 || i % modulus == 0`. For a non-negative `i` the Java
      remainder is zero exactly when `i` is a multiple of the modulus's
      size, which is tested by repeated subtraction. */
  predicate Kept(i: nat, modulus: int) {
    modulus == 0 || IsMultiple(i, if modulus > 0 then modulus else -modulus)
  }

  predicate IsMultiple(i: nat, m: nat)
    requires m > 0
    decreases i
  {
    if i < m then i == 0 else IsMultiple(i - m, m)
  }

  lemma {:induction false} IsMultipleRemainder(i: nat, m: nat)
    requires m > 0
    ensures IsMultiple(i, m) <==> i % m == 0
    decreases i
  {
    if i < m {
      DivUnique(i, m, 0, i);
    } else {
      IsMultipleRemainder(i - m, m);
      RemainderShift(i, m);
    }
  }

  /** The kept test is Java's: a zero modulus keeps everything, any other
      keeps the particles whose truncating remainder is zero, whatever the
      modulus's sign. */
  lemma KeptIsJavaRemainder(i: nat, modulus: int)
    ensures Kept(i, modulus) <==> modulus == 0 || JRem(i, modulus) == 0
  {
    if modulus != 0 {
      var m: nat := if modulus > 0 then modulus else -modulus;
      IsMultipleRemainder(i, m);
      JRemOfNatural(i, modulus, m);
    }
  }

  /** For a non-negative dividend the truncating remainder is the
      Euclidean one by the divisor's size. */
  lemma JRemOfNatural(i: nat, b: int, m: nat)
    requires b != 0 && m == (if b > 0 then b else -b)
    ensures JRem(i, b) == i % m
  {
    var q := i / m;
    if b > 0 {
      assert JDiv(i, b) == q;
    } else {
      assert JDiv(i, b) == -q;
      NegTimesNeg(m, q);
    }
    assert JRem(i, b) == i - m * q;
  }

  lemma NegTimesNeg(m: int, q: int)
    ensures (-m) * (-q) == m * q
  {
  }

  /** The indices of the kept particles among the first `n`, in order. */
  function KeptIndices(n: nat, modulus: int): (ks: seq<nat>)
    ensures |ks| <= n
    ensures forall q :: 0 <= q < |ks| ==> ks[q] < n
  {
    if n == 0 then []
    else
      var p := KeptIndices(n - 1, modulus);
      if Kept(n - 1, modulus) then p + [n - 1] else p
  }

  /** The kept list holds exactly the kept particles, in increasing order. */
  lemma {:induction false} KeptIndicesExact(n: nat, modulus: int)
    ensures forall q :: 0 <= q < |KeptIndices(n, modulus)| ==> Kept(KeptIndices(n, modulus)[q], modulus)
    ensures forall q, q' :: 0 <= q < q' < |KeptIndices(n, modulus)| ==> KeptIndices(n, modulus)[q] < KeptIndices(n, modulus)[q']
    ensures forall i :: 0 <= i < n && Kept(i, modulus) ==> i in KeptIndices(n, modulus)
  {
    if n > 0 {
      var p := KeptIndices(n - 1, modulus);
      var ks := KeptIndices(n, modulus);
      KeptIndicesExact(n - 1, modulus);
      if Kept(n - 1, modulus) {
        assert ks == p + [n - 1];
        forall q | 0 <= q < |ks| ensures Kept(ks[q], modulus) {
          if q < |p| {
            assert ks[q] == p[q];
          } else {
            assert ks[q] == n - 1;
            assert Kept(n - 1, modulus);
          }
        }
      } else {
        assert ks == p;
      }
    }
  }

  /** With modulus 0 every particle is kept; otherwise exactly the multiples
      of the modulus, so with a positive modulus `m` the first `n` give
      `ceil(n / m)` quads. */
  lemma {:induction false} KeptCount(n: nat, m: nat)
    ensures m == 0 ==> |KeptIndices(n, m)| == n
    ensures m > 0 ==> |KeptIndices(n, m)| == (n + m - 1) / m
  {
    if n > 0 {
      KeptCount(n - 1, m);
      if m > 0 {
        var k := n - 1;
        IsMultipleRemainder(k, m);
        CeilStep(k, m);
      }
    }
  }

  lemma CeilStep(k: nat, m: nat)
    requires m > 0
    ensures (k + 1 + m - 1) / m == (k + m - 1) / m + (if k % m == 0 then 1 else 0)
  {
    var q, r := k / m, k % m;
    assert k == m * q + r && 0 <= r < m;
    if r == 0 {
      DivUnique(k + m - 1, m, q, m - 1);
      DivUnique(k + m, m, q + 1, 0);
    } else {
      DivUnique(k + m - 1, m, q + 1, r - 1);
      DivUnique(k + m, m, q + 1, r);
    }
  }

  // ---------------------------------------------------------------------
  // Quads

  /** `GpuData.quadIndices`: the six indices of the quad whose four vertices
      end at vertex count `nv`. */
  function QuadIndices(nv: int): (r: seq<int>)
    ensures |r| == 6
  {
    [nv - 4, nv - 3, nv - 2, nv - 2, nv - 1, nv - 4]
  }

  /** The two triangles of a quad use only its own four vertices, each of
      them, and share the diagonal from the first to the third corner. */
  lemma QuadIndicesCover(nv: int)
    requires nv >= 4
    ensures forall k :: 0 <= k < 6 ==> nv - 4 <= QuadIndices(nv)[k] < nv
    ensures forall v :: nv - 4 <= v < nv ==> v in QuadIndices(nv)
    ensures var t := QuadIndices(nv); {t[0], t[2]} == {t[3], t[5]}
  {
  }

  /** The in-quad offsets of the six indices. */
  const QUAD_OFFSETS: seq<nat> := [0, 1, 2, 2, 3, 0]

  function MakeVertex(p: Particle, corner: nat, color: Rgb, kind: int, layer: real): Vertex {
    Vertex(corner, color, p.size, kind, layer, p.pos)
  }

  /** The dataset fields the conversion reads. */
  datatype Dataset = Dataset(data: seq<Particle>, modulus: int, kind: int, layers: seq<real>)

  lemma DivMod(q: nat, v: nat, d: nat)
    requires 0 <= v < d
    ensures (d * q + v) / d == q && (d * q + v) % d == v
  {
    DivUnique(d * q + v, d, q, v);
  }

  /** `StdRandom.uniform(n)`: the raw draw brought into `[0, n)` by
      repeatedly taking `n` off it. */
  function Uniform(draw: nat, n: nat): (k: nat)
    requires n > 0
    ensures k < n
    decreases draw
  {
    if draw < n then draw else Uniform(draw - n, n)
  }

  /** The reduction is the remainder of the draw by `n`, so every layer can
      be drawn and draws `n` apart pick the same layer. */
  lemma {:induction false} UniformIsRemainder(draw: nat, n: nat)
    requires n > 0
    ensures Uniform(draw, n) == draw % n
    decreases draw
  {
    if draw < n {
      DivUnique(draw, n, 0, draw);
    } else {
      assert Uniform(draw, n) == Uniform(draw - n, n);
      UniformIsRemainder(draw - n, n);
      RemainderShift(draw, n);
    }
  }

  /** Taking the divisor off leaves the remainder unchanged. */
  lemma RemainderShift(a: nat, n: nat)
    requires 0 < n <= a
    ensures (a - n) % n == a % n
  {
    var q, r := (a - n) / n, (a - n) % n;
    assert a - n == n * q + r && 0 <= r < n;
    assert a == n * (q + 1) + r;
    DivUnique(a, n, q + 1, r);
  }

  /** The four vertices of kept particle `i`: `pick(i)` is the random draw
      that chooses its layer, and `generated(i, v)` the colour the
      generator gives its vertex `v`. The generator is asked once per
      vertex, so a particle without colour data can get four different
      colours; one with colour data gets the same colour on every corner.
      All four share the particle's size, position, kind and layer. */
  function Quad(bd: Dataset, i: nat, pick: nat -> nat, generated: ColorSource): (r: seq<Vertex>)
    requires i < |bd.data| && |bd.layers| > 0
    ensures |r| == 4
    ensures forall v :: 0 <= v < 4 ==>
              r[v].corner == v && r[v].pos == bd.data[i].pos && r[v].size == bd.data[i].size &&
              r[v].kind == bd.kind && r[v].layer == r[0].layer && r[v].layer in bd.layers && InUnit(r[v].color)
    ensures |bd.data[i].raw| >= 7 ==> forall v :: 0 <= v < 4 ==> r[v].color == r[0].color
    ensures |bd.data[i].raw| < 7 ==>
              forall v :: 0 <= v < 4 && InUnit(generated(i, v)) ==> r[v].color == generated(i, v)
  {
    var p := bd.data[i];
    var layer := bd.layers[Uniform(pick(i), |bd.layers|)];
    [MakeVertex(p, 0, ParticleColor(p, generated(i, 0)), bd.kind, layer),
     MakeVertex(p, 1, ParticleColor(p, generated(i, 1)), bd.kind, layer),
     MakeVertex(p, 2, ParticleColor(p, generated(i, 2)), bd.kind, layer),
     MakeVertex(p, 3, ParticleColor(p, generated(i, 3)), bd.kind, layer)]
  }

  predicate Writable(bd: Dataset, ks: seq<nat>) {
    (forall q :: 0 <= q < |ks| ==> ks[q] < |bd.data|) && (|ks| == 0 || |bd.layers| > 0)
  }

  /** The vertex array, quad after quad. */
  function VerticesOf(bd: Dataset, ks: seq<nat>, pick: nat -> nat, generated: ColorSource): (r: seq<Vertex>)
    requires Writable(bd, ks)
    ensures |r| == 4 * |ks|
  {
    if |ks| == 0 then []
    else VerticesOf(bd, ks[..|ks| - 1], pick, generated) + Quad(bd, ks[|ks| - 1], pick, generated)
  }

  /** The index array after `q` quads. */
  function IndicesOf(q: nat): (r: seq<int>)
    ensures |r| == 6 * q
  {
    if q == 0 then [] else IndicesOf(q - 1) + QuadIndices(4 * q)
  }

  /** Vertex `k` is corner `k % 4` of kept particle `k / 4`. */
  lemma {:induction false} VertexAt(bd: Dataset, ks: seq<nat>, pick: nat -> nat, generated: ColorSource, k: nat)
    requires Writable(bd, ks) && k < 4 * |ks|
    ensures k / 4 < |ks| && VerticesOf(bd, ks, pick, generated)[k] == Quad(bd, ks[k / 4], pick, generated)[k % 4]
  {
    if k < 4 * (|ks| - 1) {
      VertexInPrefix(bd, ks, pick, generated, k);
      VertexAt(bd, ks[..|ks| - 1], pick, generated, k);
    } else {
      VertexInLastQuad(bd, ks, pick, generated, k);
    }
  }

  /** A vertex before the last quad is where the shorter list put it. */
  lemma VertexInPrefix(bd: Dataset, ks: seq<nat>, pick: nat -> nat, generated: ColorSource, k: nat)
    requires Writable(bd, ks) && k < 4 * (|ks| - 1)
    ensures Writable(bd, ks[..|ks| - 1]) && ks[..|ks| - 1][k / 4] == ks[k / 4]
    ensures VerticesOf(bd, ks, pick, generated)[k] == VerticesOf(bd, ks[..|ks| - 1], pick, generated)[k]
  {
    var p := ks[..|ks| - 1];
    assert forall q :: 0 <= q < |p| ==> p[q] == ks[q];
  }

  /** A vertex of the last quad is that quad's corner. */
  lemma VertexInLastQuad(bd: Dataset, ks: seq<nat>, pick: nat -> nat, generated: ColorSource, k: nat)
    requires Writable(bd, ks) && 4 * (|ks| - 1) <= k < 4 * |ks|
    ensures k / 4 == |ks| - 1
    ensures VerticesOf(bd, ks, pick, generated)[k] == Quad(bd, ks[k / 4], pick, generated)[k % 4]
  {
    var n := |ks| - 1;
    DivMod(n, k - 4 * n, 4);
    assert Writable(bd, ks[..n]) by {
      assert forall q :: 0 <= q < n ==> ks[..n][q] == ks[q];
    }
  }

  /** Vertex `k` of the array takes its colour from the generator's draw
      for its own particle and corner when that particle has no colour
      data, and from the particle's data otherwise; the first vertex of each
      quad fixes the layer of all four. */
  lemma VertexColor(bd: Dataset, ks: seq<nat>, pick: nat -> nat, generated: ColorSource, k: nat)
    requires Writable(bd, ks) && k < 4 * |ks|
    ensures k / 4 < |ks| && ks[k / 4] < |bd.data|
    ensures var vs, i := VerticesOf(bd, ks, pick, generated), ks[k / 4];
            vs[k].corner == k % 4 && vs[k].layer == vs[k - k % 4].layer &&
            (|bd.data[i].raw| < 7 && InUnit(generated(i, k % 4)) ==> vs[k].color == generated(i, k % 4)) &&
            (|bd.data[i].raw| >= 7 ==> vs[k].color == vs[k - k % 4].color)
  {
    var q, c := k / 4, k % 4;
    var j := k - c;
    DivMod(q, 0, 4);
    assert j == 4 * q + 0;
    assert j / 4 == q && j % 4 == 0;
    VertexAt(bd, ks, pick, generated, k);
    VertexAt(bd, ks, pick, generated, j);
    var vs, quad := VerticesOf(bd, ks, pick, generated), Quad(bd, ks[q], pick, generated);
    assert vs[k] == quad[c];
    assert vs[j] == quad[0];
  }

  /** Index `k` is `QUAD_OFFSETS[k % 6]` into quad `k / 6`, so every index
      names one of the written vertices. */
  lemma {:induction false} IndexAt(q: nat, k: nat)
    requires k < 6 * q
    ensures IndicesOf(q)[k] == 4 * (k / 6) + QUAD_OFFSETS[k % 6]
    ensures 0 <= IndicesOf(q)[k] < 4 * q
  {
    if k < 6 * (q - 1) {
      IndexAt(q - 1, k);
    } else {
      DivMod(q - 1, k - 6 * (q - 1), 6);
      assert IndicesOf(q)[k] == QuadIndices(4 * q)[k - 6 * (q - 1)];
    }
  }

  /** The arrays after the first `i` particles: the quads of the kept ones
      among them. */
  predicate Written(bd: Dataset, i: nat, pick: nat -> nat, generated: ColorSource,
                    vertices: seq<Vertex>, indices: seq<int>)
  {
    var ks := KeptIndices(i, bd.modulus);
    Writable(bd, ks) && vertices == VerticesOf(bd, ks, pick, generated) && indices == IndicesOf(|ks|)
  }

  /** `convertDataToGpu`: walks the particles, and for each kept one writes
      its four vertices and the six indices of their quad. Without layers
      the layer draw throws (`failed`) as soon as a particle is kept. */
  method ConvertDataToGpu(bd: Dataset, pick: nat -> nat, generated: ColorSource)
    returns (failed: bool, vertices: seq<Vertex>, indices: seq<int>)
    ensures var ks := KeptIndices(|bd.data|, bd.modulus);
            (failed <==> |bd.layers| == 0 && |ks| > 0) &&
            (!failed ==> Writable(bd, ks) && vertices == VerticesOf(bd, ks, pick, generated) &&
                         indices == IndicesOf(|ks|))
  {
    var n := |bd.data|;
    vertices, indices := [], [];
    failed := false;
    var i := 0;
    while i < n
      invariant 0 <= i <= n
      invariant Written(bd, i, pick, generated, vertices, indices)
    {
      failed, vertices, indices := WriteParticle(bd, i, pick, generated, vertices, indices);
      if failed {
        return;
      }
      i := i + 1;
    }
  }

  /** One pass of the loop: a kept particle appends its quad's vertices and
      indices, a skipped one changes nothing, and a kept particle without
      layers throws. */
  method WriteParticle(bd: Dataset, i: nat, pick: nat -> nat, generated: ColorSource,
                       vertices: seq<Vertex>, indices: seq<int>)
    returns (failed: bool, vertices': seq<Vertex>, indices': seq<int>)
    requires i < |bd.data| && Written(bd, i, pick, generated, vertices, indices)
    ensures failed <==> Kept(i, bd.modulus) && |bd.layers| == 0
    ensures failed ==> |KeptIndices(|bd.data|, bd.modulus)| > 0
    ensures !failed ==> Written(bd, i + 1, pick, generated, vertices', indices')
    ensures !failed && i + 1 == |bd.data| && |bd.layers| == 0 ==> |KeptIndices(|bd.data|, bd.modulus)| == 0
  {
    failed := false;
    vertices', indices' := vertices, indices;
    if Kept(i, bd.modulus) {
      if |bd.layers| == 0 {
        failed := true;
        KeptGrows(i, |bd.data|, bd.modulus);
        return;
      }
      var q := |KeptIndices(i, bd.modulus)| + 1;
      KeptStep(bd, i, pick, generated);
      vertices' := vertices + Quad(bd, i, pick, generated);
      indices' := indices + QuadIndices(4 * q);
    } else {
      assert KeptIndices(i + 1, bd.modulus) == KeptIndices(i, bd.modulus);
    }
  }

  /** A kept particle adds one quad: its four vertices after the others,
      and the six indices of the new quad. */
  lemma KeptStep(bd: Dataset, i: nat, pick: nat -> nat, generated: ColorSource)
    requires i < |bd.data| && Kept(i, bd.modulus) && |bd.layers| > 0
    requires Writable(bd, KeptIndices(i, bd.modulus))
    ensures var ks, ks' := KeptIndices(i, bd.modulus), KeptIndices(i + 1, bd.modulus);
            |ks'| == |ks| + 1 && Writable(bd, ks') &&
            VerticesOf(bd, ks', pick, generated) == VerticesOf(bd, ks, pick, generated) + Quad(bd, i, pick, generated) &&
            IndicesOf(|ks'|) == IndicesOf(|ks|) + QuadIndices(4 * |ks'|)
  {
    var ks := KeptIndices(i, bd.modulus);
    var ks' := ks + [i];
    assert KeptIndices(i + 1, bd.modulus) == ks';
    VerticesSnoc(bd, ks, i, pick, generated);
    assert |ks'| == |ks| + 1;
    assert IndicesOf(|ks'|) == IndicesOf(|ks|) + QuadIndices(4 * |ks'|);
  }

  /** Appending a particle to the kept list appends its quad. */
  lemma VerticesSnoc(bd: Dataset, ks: seq<nat>, k: nat, pick: nat -> nat, generated: ColorSource)
    requires Writable(bd, ks) && k < |bd.data| && |bd.layers| > 0
    ensures Writable(bd, ks + [k])
    ensures VerticesOf(bd, ks + [k], pick, generated) == VerticesOf(bd, ks, pick, generated) + Quad(bd, k, pick, generated)
  {
    var ks' := ks + [k];
    assert ks'[..|ks|] == ks;
    assert ks'[|ks'| - 1] == k;
  }

  /** Later particles only add to the kept list. */
  lemma {:induction false} KeptGrows(i: nat, n: nat, modulus: int)
    requires i <= n
    requires i < n ==> Kept(i, modulus)
    ensures |KeptIndices(n, modulus)| >= |KeptIndices(i, modulus)| + (if i < n then 1 else 0)
    decreases n - i
  {
    if i < n {
      if i + 1 < n {
        KeptMonotone(i + 1, n, modulus);
      }
    }
  }

  lemma {:induction false} KeptMonotone(i: nat, n: nat, modulus: int)
    requires i <= n
    ensures |KeptIndices(i, modulus)| <= |KeptIndices(n, modulus)|
    decreases n - i
  {
    if i < n {
      KeptMonotone(i, n - 1, modulus);
    }
  }

  /** What is written fits in the arrays sized for all particles
      (`n * 11 * 4` floats and `n * 6` ints). */
  lemma FitsArrays(n: nat, modulus: int)
    ensures var quads := |KeptIndices(n, modulus)|;
            4 * quads * VERTEX_SIZE <= n * VERTEX_SIZE * 4 && 6 * quads <= n * 6
  {
  }
}

=== FILE: bookmark_path.dfy ===
/** The slash-separated bookmark paths of `gaiasky.gui.bookmarks.BookmarkPath`.
    A path keeps its token array and its text, either of which may be null
    (`None`); its parent is derived from the tokens exactly as the
    constructors compute it. */
module BookmarkPath {
  import opened Wrappers
  import opened Text

  const SEPARATOR: char := '/'

  datatype Path = Path(tokens: Option<seq<string>>, text: Option<string>)

  datatype Error = NullPointer

  /** `constructString`: the tokens joined with "/", or "" without tokens. */
  function ConstructString(tokens: Option<seq<string>>): (r: string)
    ensures tokens.None? || |tokens.value| == 0 ==> r == ""
    ensures tokens.Some? && |tokens.value| == 1 ==> r == tokens.value[0]
    ensures tokens.Some? && |tokens.value| > 1 ==> SEPARATOR in r
  {
    if tokens.None? || |tokens.value| == 0 then ""
    else
      assert |tokens.value| > 1 ==> Join(tokens.value, SEPARATOR)[|tokens.value[0]|] == SEPARATOR;
      Join(tokens.value, SEPARATOR)
  }

  /** `new BookmarkPath(String)`: a non-empty text is split on "/" and kept as
      the path text; a null or empty one gives a path with neither. */
  function FromString(s: Option<string>): (p: Path)
    ensures s.Some? && s.value != "" ==> p.text == s && p.tokens == Some(Split(s.value, SEPARATOR))
    ensures s.None? || s.value == "" ==> p.tokens.None? && p.text.None?
  {
    if s.Some? && s.value != "" then Path(Some(Split(s.value, SEPARATOR)), s)
    else Path(None, None)
  }

  /** `new BookmarkPath(String[])`: the tokens as given, the text constructed
      from them. */
  function FromTokens(tokens: Option<seq<string>>): (p: Path)
    ensures p.tokens == tokens
    ensures p.text == Some(ConstructString(tokens))
  {
    Path(tokens, Some(ConstructString(tokens)))
  }

  /** `getParent`: the path of every token but the last; none for zero or one
      token. */
  function Parent(p: Path): (r: Option<Path>)
    ensures r.Some? <==> p.tokens.Some? && |p.tokens.value| > 1
    ensures r.Some? ==> r.value.tokens == Some(p.tokens.value[..|p.tokens.value| - 1])
  {
    if p.tokens.Some? && |p.tokens.value| > 1 then
      Some(FromTokens(Some(p.tokens.value[..|p.tokens.value| - 1])))
    else None
  }

  /** `isAbsolute`. */
  function IsAbsolute(p: Path): (b: bool)
    ensures b
  {
    true
  }

  /** `getRoot`: a path made from the first token. */
  function Root(p: Path): (r: Option<Path>)
    ensures r.Some? <==> p.tokens.Some? && |p.tokens.value| > 0
    ensures r.Some? ==> r.value == FromString(Some(p.tokens.value[0]))
  {
    if p.tokens.Some? && |p.tokens.value| > 0 then Some(FromString(Some(p.tokens.value[0]))) else None
  }

  /** `getFileName`: a path made from the last token. */
  function FileName(p: Path): (r: Option<Path>)
    ensures r.Some? <==> p.tokens.Some? && |p.tokens.value| > 0
    ensures r.Some? ==> r.value == FromString(Some(p.tokens.value[|p.tokens.value| - 1]))
  {
    if p.tokens.Some? && |p.tokens.value| > 0 then
      Some(FromString(Some(p.tokens.value[|p.tokens.value| - 1])))
    else None
  }

  /** `resolve(String)`: this path's tokens followed by the "/"-split tokens
      of the other text. A path without tokens cannot be resolved against (the
      array copy dereferences null). */
  function Resolve(p: Path, other: string): (r: Result<Path, Error>)
    ensures r.Ok? <==> p.tokens.Some?
    ensures r.Ok? ==> r.value.tokens == Some(p.tokens.value + Split(other, SEPARATOR))
  {
    if p.tokens.None? then Err(NullPointer)
    else Ok(FromTokens(Some(p.tokens.value + Split(other, SEPARATOR))))
  }

  /** `resolve(Path)`: the same with the other path's text, which must not be
      null. */
  function ResolvePath(p: Path, q: Path): (r: Result<Path, Error>)
    ensures q.text.None? ==> r.Err?
    ensures q.text.Some? ==> r == Resolve(p, q.text.value)
  {
    if q.text.None? then Err(NullPointer) else Resolve(p, q.text.value)
  }

  // ---------------------------------------------------------------------
  // Equality, hashing and ordering, all through the text

  /** `equals`: the same text, so equal paths hash alike and print alike. */
  function Equals(p: Path, q: Path): (r: bool)
    ensures r ==> HashCode(p) == HashCode(q) && p.text == q.text
  {
    p.text == q.text
  }

  /** A Java `int` from an unbounded integer, wrapping modulo 2^32. */
  function Wrap32(x: int): (r: int)
    ensures IsInt32(r)
    ensures (r - x) % 0x1_0000_0000 == 0
  {
    (x + 0x8000_0000) % 0x1_0000_0000 - 0x8000_0000
  }

  /** `String.hashCode`: h = 31·h + c over the characters, in `int`. */
  function StringHash(s: string): (h: int)
    ensures IsInt32(h)
    decreases |s|
  {
    if |s| == 0 then 0 else Wrap32(31 * StringHash(s[..|s| - 1]) + s[|s| - 1] as int)
  }

  /** `hashCode`: `Objects.hash(pathString)`. */
  function HashCode(p: Path): (h: int)
    ensures IsInt32(h)
    ensures p.text.None? ==> h == 31
  {
    Wrap32(31 + if p.text.None? then 0 else StringHash(p.text.value))
  }

  /** `String.compareTo`: the difference of the first differing characters,
      or of the lengths when one text is a prefix of the other. */
  function CompareStrings(a: string, b: string): (c: int)
    ensures |a| == 0 ==> c == -|b|
    ensures |b| == 0 ==> c == |a|
  {
    if |a| == 0 || |b| == 0 then |a| - |b|
    else if a[0] != b[0] then a[0] as int - b[0] as int
    else CompareStrings(a[1..], b[1..])
  }

  /** `compareTo`: a path without text cannot be compared (null dereference). */
  function CompareTo(p: Path, q: Path): (r: Result<int, Error>)
    ensures r.Ok? <==> p.text.Some? && q.text.Some?
  {
    if p.text.None? || q.text.None? then Err(NullPointer)
    else Ok(CompareStrings(p.text.value, q.text.value))
  }

  // ---------------------------------------------------------------------
  // Properties

  lemma {:induction false} CompareZeroIffEqual(a: string, b: string)
    ensures CompareStrings(a, b) == 0 <==> a == b
    decreases |a|
  {
    if |a| > 0 && |b| > 0 && a[0] == b[0] {
      CompareZeroIffEqual(a[1..], b[1..]);
      assert a == [a[0]] + a[1..] && b == [b[0]] + b[1..];
    }
  }

  lemma {:induction false} CompareAntisymmetric(a: string, b: string)
    ensures CompareStrings(a, b) == -CompareStrings(b, a)
    decreases |a|
  {
    if |a| > 0 && |b| > 0 && a[0] == b[0] {
      CompareAntisymmetric(a[1..], b[1..]);
    }
  }

  /** Equal paths hash alike and compare as zero: all three depend on the
      text alone. */
  lemma EqualsAgreesWithHashAndOrder(p: Path, q: Path)
    requires Equals(p, q)
    ensures HashCode(p) == HashCode(q)
    ensures p.text.Some? ==> CompareTo(p, q) == Ok(0)
  {
    if p.text.Some? {
      CompareZeroIffEqual(p.text.value, q.text.value);
    }
  }

  /** Two texts with equal paths: text equality decides `equals`, and
      `compareTo` is zero exactly for equal paths. */
  lemma CompareToZeroIffEquals(p: Path, q: Path)
    requires p.text.Some? && q.text.Some?
    ensures CompareTo(p, q) == Ok(0) <==> Equals(p, q)
  {
    CompareZeroIffEqual(p.text.value, q.text.value);
  }

  /** The text of a path built from a text without empty segments is what its
      tokens construct back. */
  lemma ConstructStringRoundTrip(s: string)
    requires s != ""
    requires forall k :: 0 <= k < |Fields(s, SEPARATOR)| ==> Fields(s, SEPARATOR)[k] != ""
    ensures ConstructString(FromString(Some(s)).tokens) == s
  {
    JoinSplit(s, SEPARATOR);
  }

  /** A path built from tokens and re-read from its text has the same tokens,
      when no token is empty or holds the separator. */
  lemma TokensRoundTrip(ts: seq<string>)
    requires |ts| > 0
    requires forall k :: 0 <= k < |ts| ==> ts[k] != "" && SEPARATOR !in ts[k]
    ensures FromString(FromTokens(Some(ts)).text).tokens == Some(ts)
  {
    SplitJoin(ts, SEPARATOR);
    assert ts[0] != "";
    assert |Join(ts, SEPARATOR)| > 0 by {
      if |ts| > 1 {
        assert Join(ts, SEPARATOR) == ts[0] + [SEPARATOR] + Join(ts[1..], SEPARATOR);
      }
    }
  }

  /** The parent's text followed by "/" and the file name's token is the
      whole constructed text. */
  lemma ParentAndLastToken(ts: seq<string>)
    requires |ts| > 1
    ensures ConstructString(Some(ts)) == ConstructString(Some(ts[..|ts| - 1])) + [SEPARATOR] + ts[|ts| - 1]
  {
    var init := ts[..|ts| - 1];
    JoinSnoc(init, ts[|ts| - 1], SEPARATOR);
    assert init + [ts[|ts| - 1]] == ts;
  }
}

=== FILE: bst.dfy ===
/** The unbalanced binary search tree of `gaiasky.util.BinarySearchTree`,
    over integer keys. Every operation that mutates the Java tree is a
    function from the old tree to the new one; a thrown RuntimeException is an
    `Err`, after which the Java tree is still the old one (the exception
    escapes before any assignment along the search path). */
module BinarySearchTree {
  import opened Wrappers

  datatype Tree = Leaf | Node(left: Tree, key: int, right: Tree)

  datatype Error = DuplicateItem(item: int) | ItemNotFound

  function Elements(t: Tree): set<int> {
    match t
    case Leaf => {}
    case Node(l, k, r) => Elements(l) + {k} + Elements(r)
  }

  /** The search-tree ordering: everything in a left subtree is smaller and
      everything in a right subtree is larger than the node. */
  predicate Ordered(t: Tree) {
    match t
    case Leaf => true
    case Node(l, k, r) =>
      Ordered(l) && Ordered(r)
      && (forall y :: y in Elements(l) ==> y < k)
      && (forall y :: y in Elements(r) ==> y > k)
  }

  /** The leftmost key. */
  function MinKey(t: Tree): int
    requires t.Node?
  {
    if t.left.Leaf? then t.key else MinKey(t.left)
  }

  /** The rightmost key. */
  function MaxKey(t: Tree): int
    requires t.Node?
  {
    if t.right.Leaf? then t.key else MaxKey(t.right)
  }

  lemma {:induction false} MinKeyIsMinimum(t: Tree)
    requires t.Node? && Ordered(t)
    ensures MinKey(t) in Elements(t)
    ensures forall y :: y in Elements(t) ==> MinKey(t) <= y
  {
    if t.left.Node? {
      MinKeyIsMinimum(t.left);
    }
  }

  lemma {:induction false} MaxKeyIsMaximum(t: Tree)
    requires t.Node? && Ordered(t)
    ensures MaxKey(t) in Elements(t)
    ensures forall y :: y in Elements(t) ==> y <= MaxKey(t)
  {
    if t.right.Node? {
      MaxKeyIsMaximum(t.right);
    }
  }

  // ---------------------------------------------------------------------
  // Mutators

  /** `insert`: a new leaf in search position; a key already present throws. */
  function Insert(x: int, t: Tree): (r: Result<Tree, Error>)
    requires Ordered(t)
    ensures r.Ok? <==> x !in Elements(t)
    ensures r.Ok? ==> Ordered(r.value) && Elements(r.value) == Elements(t) + {x}
    ensures r.Err? ==> r.error == DuplicateItem(x)
  {
    match t
    case Leaf => Ok(Node(Leaf, x, Leaf))
    case Node(l, k, rt) =>
      if x < k then
        match Insert(x, l)
        case Ok(l') => Ok(Node(l', k, rt))
        case Err(e) => Err(e)
      else if x > k then
        match Insert(x, rt)
        case Ok(r') => Ok(Node(l, k, r'))
        case Err(e) => Err(e)
      else Err(DuplicateItem(x))
  }

  /** The smallest key taken out of a non-empty tree. */
  function DropMin(t: Tree): (r: Tree)
    requires t.Node? && Ordered(t)
    ensures Ordered(r)
    ensures Elements(r) == Elements(t) - {MinKey(t)}
  {
    MinKeyIsMinimum(t);
    if t.left.Leaf? then t.right
    else
      MinKeyIsMinimum(t.left);
      Node(DropMin(t.left), t.key, t.right)
  }

  /** `removeMin`: throws on the empty tree, otherwise removes only the
      smallest element. */
  function RemoveMin(t: Tree): (r: Result<Tree, Error>)
    requires Ordered(t)
    ensures r.Err? <==> t.Leaf?
    ensures r.Err? ==> r.error == ItemNotFound
    ensures r.Ok? ==> Ordered(r.value)
    ensures r.Ok? ==> exists m :: m in Elements(t) && (forall y :: y in Elements(t) ==> m <= y)
                                  && Elements(r.value) == Elements(t) - {m}
  {
    if t.Leaf? then Err(ItemNotFound)
    else
      MinKeyIsMinimum(t);
      Ok(DropMin(t))
  }

  /** `remove`: a missing key throws; a node with two children takes the
      smallest key of its right subtree, any other node is replaced by its
      only child (or nothing). */
  function Remove(x: int, t: Tree): (r: Result<Tree, Error>)
    requires Ordered(t)
    ensures r.Ok? <==> x in Elements(t)
    ensures r.Err? ==> r.error == ItemNotFound
    ensures r.Ok? ==> Ordered(r.value) && Elements(r.value) == Elements(t) - {x}
    ensures r.Ok? && t.Node? && t.key == x && t.left.Node? && t.right.Node? ==>
      r.value.Node? && r.value.key == MinKey(t.right)
  {
    match t
    case Leaf => Err(ItemNotFound)
    case Node(l, k, rt) =>
      if x < k then
        match Remove(x, l)
        case Ok(l') => Ok(Node(l', k, rt))
        case Err(e) => Err(e)
      else if x > k then
        match Remove(x, rt)
        case Ok(r') => Ok(Node(l, k, r'))
        case Err(e) => Err(e)
      else if l.Node? && rt.Node? then
        MinKeyIsMinimum(rt);
        Ok(Node(l, MinKey(rt), DropMin(rt)))
      else
        Ok(if l.Node? then l else rt)
  }

  /** `makeEmpty`. */
  function MakeEmpty(): (t: Tree)
    ensures Elements(t) == {} && Ordered(t)
  {
    Leaf
  }

  /** `isEmpty`. */
  function IsEmpty(t: Tree): (b: bool)
    ensures b <==> Elements(t) == {}
  {
    assert t.Node? ==> t.key in Elements(t);
    t.Leaf?
  }

  // ---------------------------------------------------------------------
  // Queries (the Java loops)

  /** `findMin`: walk left to the end. */
  method FindMin(t: Tree) returns (r: Option<int>)
    requires Ordered(t)
    ensures r.None? <==> Elements(t) == {}
    ensures r.Some? ==> r.value in Elements(t) && forall y :: y in Elements(t) ==> r.value <= y
  {
    if t.Leaf? {
      return None;
    }
    var cur := t;
    while cur.left.Node?
      invariant cur.Node? && MinKey(cur) == MinKey(t)
      decreases cur
    {
      cur := cur.left;
    }
    MinKeyIsMinimum(t);
    return Some(cur.key);
  }

  /** `findMax`: walk right to the end. */
  method FindMax(t: Tree) returns (r: Option<int>)
    requires Ordered(t)
    ensures r.None? <==> Elements(t) == {}
    ensures r.Some? ==> r.value in Elements(t) && forall y :: y in Elements(t) ==> y <= r.value
  {
    if t.Leaf? {
      return None;
    }
    var cur := t;
    while cur.right.Node?
      invariant cur.Node? && MaxKey(cur) == MaxKey(t)
      decreases cur
    {
      cur := cur.right;
    }
    MaxKeyIsMaximum(t);
    return Some(cur.key);
  }

  /** `find`: the equal element if present, otherwise null. */
  method Find(x: int, t: Tree) returns (r: Option<int>)
    requires Ordered(t)
    ensures r == (if x in Elements(t) then Some(x) else None)
  {
    var cur := t;
    while cur.Node?
      invariant Ordered(cur)
      invariant x in Elements(t) <==> x in Elements(cur)
      decreases cur
    {
      if x < cur.key {
        cur := cur.left;
      } else if x > cur.key {
        cur := cur.right;
      } else {
        return Some(cur.key);
      }
    }
    return None;
  }

  /** `findIntervalStart`: the greatest element not above x, or null when
      every element exceeds x. */
  method FindIntervalStart(x: int, t: Tree) returns (r: Option<int>)
    requires Ordered(t)
    ensures r.Some? ==> r.value in Elements(t) && r.value <= x
                        && forall y :: y in Elements(t) && y <= x ==> y <= r.value
    ensures r.None? ==> forall y :: y in Elements(t) ==> y > x
  {
    var cur := t;
    var lastPrev: Option<int> := None;
    while cur.Node?
      invariant Ordered(cur)
      invariant Elements(cur) <= Elements(t)
      invariant lastPrev.Some? ==> lastPrev.value in Elements(t) && lastPrev.value < x
      invariant lastPrev.Some? ==> forall y :: y in Elements(cur) ==> y > lastPrev.value
      invariant forall y :: y in Elements(t) && y <= x && y !in Elements(cur) ==>
        lastPrev.Some? && y <= lastPrev.value
      decreases cur
    {
      if x < cur.key {
        cur := cur.left;
      } else if x > cur.key {
        lastPrev := Some(cur.key);
        cur := cur.right;
      } else {
        return Some(cur.key);
      }
    }
    return lastPrev;
  }

  // ---------------------------------------------------------------------
  // Relations between operations

  /** Inserting a new key and removing it again gives a tree with the same
      elements. */
  lemma InsertThenRemove(x: int, t: Tree)
    requires Ordered(t) && x !in Elements(t)
    ensures Insert(x, t).Ok?
    ensures Remove(x, Insert(x, t).value).Ok?
    ensures Elements(Remove(x, Insert(x, t).value).value) == Elements(t)
  {
  }

  /** Inserting a key twice fails the second time. */
  lemma InsertTwiceFails(x: int, t: Tree)
    requires Ordered(t) && x !in Elements(t)
    ensures Insert(x, Insert(x, t).value) == Err(DuplicateItem(x))
  {
  }
}

=== FILE: camcorder.dfy ===
/** The camera recorder state machine of `gaiasky.util.camera.rec.Camcorder`:
    recording a camera path frame by frame, playing one back, and the
    record/play/stop commands. The camera path class is not part of this
    model: a path is taken to be its frame times, nine numbers per frame
    (position, direction, up), its frame count `n`, its play cursor `i` and
    its frame rate. Events published to the rest of the program are
    returned as a list of effects; files, the clock and the settings enter as
    parameters. */
module Camcorder {
  import opened Wrappers
  import opened Text

  datatype RecorderState = Idle | Recording | Playing

  datatype CameraPath = CameraPath(times: seq<int>, data: seq<real>, n: nat, i: nat, frameRate: real)

  /** Nine numbers: position, direction and up. */
  datatype Pose = Pose(position: (real, real, real), direction: (real, real, real), up: (real, real, real))

  datatype Effect =
    | LimitFps(fps: real)
    | TimeChange(epochMs: int)
    | CameraStop
    | CameraPlayInfo(playing: bool)
    | FrameOutput(on: bool)
    | Persist(fileName: string)
      /** `persist` threw (no recording path); the error is logged. */
    | PersistFailed(fileName: string)
    | Busy
    | PlayStarted
    | ParseError

  datatype Recorder = Recorder(
    mode: RecorderState,
    recordingPath: Option<CameraPath>,
    playingPath: Option<CameraPath>,
    fpsLimitBackup: real,
    currentFileName: Option<string>)

  /** A reply to one call: the new recorder, the camera pose after it, and
      the events published, in order. */
  datatype Step = Step(recorder: Recorder, pose: Pose, effects: seq<Effect>)

  datatype Error = IndexOutOfBounds(index: int)

  /** The constructor: idle, with no paths and no file name. */
  function Create(): (r: Recorder)
    ensures r.mode == Idle && r.recordingPath.None? && r.playingPath.None? && r.currentFileName.None?
  {
    Recorder(Idle, None, None, 0.0, None)
  }

  function EmptyPath(frameRate: real): (p: CameraPath)
    ensures p.n == 0 && p.i == 0 && p.times == [] && p.data == []
  {
    CameraPath([], [], 0, 0, frameRate)
  }

  function PoseValues(p: Pose): (v: seq<real>)
    ensures |v| == 9
  {
    [p.position.0, p.position.1, p.position.2,
     p.direction.0, p.direction.1, p.direction.2,
     p.up.0, p.up.1, p.up.2]
  }

  /** The pose held at `ip .. ip + 9` of the path data. */
  function PoseAt(data: seq<real>, ip: nat): (p: Pose)
    requires ip + 9 <= |data|
    ensures PoseValues(p) == data[ip..ip + 9]
  {
    Pose((data[ip], data[ip + 1], data[ip + 2]),
         (data[ip + 3], data[ip + 4], data[ip + 5]),
         (data[ip + 6], data[ip + 7], data[ip + 8]))
  }

  /** `CameraPath.add(time, x, y, z, dx, dy, dz, ux, uy, uz)`. */
  function Add(p: CameraPath, time: int, pose: Pose): (r: CameraPath)
    ensures r.n == p.n + 1 && r.i == p.i && r.frameRate == p.frameRate
    ensures r.times == p.times + [time] && r.data == p.data + PoseValues(pose)
  {
    p.(times := p.times + [time], data := p.data + PoseValues(pose), n := p.n + 1)
  }

  /** Playing, with frames left to show. */
  predicate HasNextFrame(r: Recorder) {
    r.mode == Playing && r.playingPath.Some? && r.playingPath.value.i < r.playingPath.value.n
  }

  /** The cursor's time and nine numbers exist. */
  predicate FrameReadable(p: CameraPath) {
    p.i < |p.times| && 9 * p.i + 9 <= |p.data|
  }

  /** `update(time, position, direction, up)`. Recording appends the
      current frame; playing moves the camera to the next frame and
      advances the cursor, or, past the last frame, drops the path and
      returns to idle. */
  function Update(r: Recorder, timeMs: int, pose: Pose): (s: Result<Step, Error>)
    ensures r.mode == Idle ==> s == Ok(Step(r, pose, []))
    ensures r.mode == Recording && r.recordingPath.Some? ==>
      s == Ok(Step(r.(recordingPath := Some(Add(r.recordingPath.value, timeMs, pose))), pose, []))
    ensures HasNextFrame(r) ==> (s.Ok? <==> FrameReadable(r.playingPath.value))
    ensures HasNextFrame(r) && FrameReadable(r.playingPath.value) ==>
      var p := r.playingPath.value;
      && s.Ok?
      && s.value.recorder == r.(playingPath := Some(p.(i := p.i + 1)))
      && PoseValues(s.value.pose) == p.data[9 * p.i..9 * p.i + 9]
      && s.value.effects == [TimeChange(p.times[p.i])]
    ensures r.mode == Playing && r.playingPath.Some? && r.playingPath.value.i >= r.playingPath.value.n ==>
      && s.Ok? && s.value.recorder == r.(playingPath := None, mode := Idle) && s.value.pose == pose
      && s.value.effects == RestoreLimit(r.playingPath.value, r.fpsLimitBackup) + [CameraStop, CameraPlayInfo(false), FrameOutput(false)]
    ensures s.Err? ==> r.mode == Playing && r.playingPath.Some?
  {
    match r.mode
    case Idle => Ok(Step(r, pose, []))
    case Recording =>
      if r.recordingPath.None? then Ok(Step(r, pose, []))
      else Ok(Step(r.(recordingPath := Some(Add(r.recordingPath.value, timeMs, pose))), pose, []))
    case Playing =>
      if r.playingPath.None? then Ok(Step(r, pose, []))
      else
        var p := r.playingPath.value;
        if p.i < p.n then
          if p.i >= |p.times| then Err(IndexOutOfBounds(p.i))
          else if 9 * p.i + 9 > |p.data| then Err(IndexOutOfBounds(9 * p.i + 9 - 1))
          else
            Ok(Step(r.(playingPath := Some(p.(i := p.i + 1))), PoseAt(p.data, 9 * p.i), [TimeChange(p.times[p.i])]))
        else
          Ok(Step(r.(playingPath := None, mode := Idle), pose,
            RestoreLimit(p, r.fpsLimitBackup) + [CameraStop, CameraPlayInfo(false), FrameOutput(false)]))
  }

  /** The frame cap a path with a positive frame rate imposes while it is
      recorded or played, and the one its end puts back. */
  function CapLimit(p: CameraPath): (e: seq<Effect>)
    ensures p.frameRate > 0.0 <==> e == [LimitFps(p.frameRate)]
    ensures p.frameRate <= 0.0 <==> e == []
  {
    if p.frameRate > 0.0 then [LimitFps(p.frameRate)] else []
  }

  function RestoreLimit(p: CameraPath, backup: real): (e: seq<Effect>)
    ensures p.frameRate > 0.0 <==> e == [LimitFps(backup)]
    ensures p.frameRate <= 0.0 <==> e == []
  {
    if p.frameRate > 0.0 then [LimitFps(backup)] else []
  }

  /** A file name argument counts when present and not blank. */
  predicate GivenName(name: Option<string>) {
    name.Some? && Strip(name.value) != ""
  }

  /** `RECORD_CAMERA_CMD(state, name)`. `targetFps` and `fpsLimit` are the
      settings; `defaultName` is the date-stamped name the source formats
      from the clock. */
  function RecordCommand(r: Recorder, pose: Pose, state: bool, name: Option<string>,
                         targetFps: real, fpsLimit: real, defaultName: string): (s: Step)
    ensures s.pose == pose
    ensures state && r.mode != Idle ==> s == Step(r, pose, [Busy])
    ensures state && r.mode == Idle ==>
      && s.recorder.mode == Recording
      && s.recorder.recordingPath == Some(EmptyPath(targetFps))
      && s.recorder.playingPath == r.playingPath
      && (GivenName(name) <==> s.recorder.currentFileName.Some?)
      && (GivenName(name) ==> s.recorder.currentFileName == name)
      && (targetFps > 0.0 ==> s.effects == [LimitFps(targetFps)] && s.recorder.fpsLimitBackup == fpsLimit)
      && (targetFps <= 0.0 ==> s.effects == [] && s.recorder.fpsLimitBackup == r.fpsLimitBackup)
    ensures !state && r.mode == Idle ==> s == Step(r, pose, [])
    ensures !state && r.mode != Idle ==>
      && s.recorder.mode == Idle && s.recorder.recordingPath.None?
      && s.recorder.playingPath == r.playingPath
      && s.recorder.fpsLimitBackup == r.fpsLimitBackup
      && |s.effects| >= 1
      && s.effects[..|s.effects| - 1] == (if r.recordingPath.Some? then RestoreLimit(r.recordingPath.value, r.fpsLimitBackup) else [])
      && (GivenName(name) ==> s.recorder.currentFileName == r.currentFileName)
      && (!GivenName(name) ==> s.recorder.currentFileName.None?)
      && var last := s.effects[|s.effects| - 1];
         && (last.Persist? <==> r.recordingPath.Some?)
         && (last.Persist? || last.PersistFailed?)
         && (GivenName(name) ==> last.fileName == name.value + ".gsc")
         && (!GivenName(name) && r.currentFileName.Some? ==> last.fileName == r.currentFileName.value + ".gsc")
         && (!GivenName(name) && r.currentFileName.None? ==> last.fileName == defaultName + ".gsc")
  {
    if state && r.mode != Idle then Step(r, pose, [Busy])
    else if state then
      var path := EmptyPath(targetFps);
      var backup := if path.frameRate > 0.0 then fpsLimit else r.fpsLimitBackup;
      var current := if GivenName(name) then name else None;
      Step(Recorder(Recording, Some(path), r.playingPath, backup, current), pose, CapLimit(path))
    else if r.mode == Idle then Step(r, pose, [])
    else
      var restore := if r.recordingPath.Some? then RestoreLimit(r.recordingPath.value, r.fpsLimitBackup) else [];
      var fileName :=
        if GivenName(name) then name.value
        else if r.currentFileName.Some? then r.currentFileName.value
        else defaultName;
      var current := if GivenName(name) then r.currentFileName else None;
      var persist := if r.recordingPath.Some? then Persist(fileName + ".gsc") else PersistFailed(fileName + ".gsc");
      Step(r.(mode := Idle, recordingPath := None, currentFileName := current), pose, restore + [persist])
  }

  /** `PLAY_CAMERA_CMD(file)`: `parsed` is the path read from the file, or
      None when reading it failed. */
  function PlayCommand(r: Recorder, pose: Pose, parsed: Option<CameraPath>, fpsLimit: real, auto: bool): (s: Step)
    ensures s.pose == pose
    ensures r.mode != Idle ==> s == Step(r, pose, [Busy])
    ensures r.mode == Idle && parsed.Some? ==>
      && s.recorder.mode == Playing && s.recorder.playingPath == parsed
      && s.recorder.recordingPath == r.recordingPath && s.recorder.currentFileName == r.currentFileName
      && var rate := parsed.value.frameRate;
         && (rate > 0.0 ==> s.recorder.fpsLimitBackup == fpsLimit)
         && (rate <= 0.0 ==> s.recorder.fpsLimitBackup == r.fpsLimitBackup)
         && s.effects == [PlayStarted] + (if rate > 0.0 then [LimitFps(rate)] else [])
                         + [CameraPlayInfo(true)] + (if auto then [FrameOutput(true)] else [])
    ensures r.mode == Idle && parsed.None? ==> s.recorder == r && s.effects == [ParseError]
  {
    if r.mode != Idle then Step(r, pose, [Busy])
    else
      match parsed
      case None => Step(r, pose, [ParseError])
      case Some(path) =>
        var backup := if path.frameRate > 0.0 then fpsLimit else r.fpsLimitBackup;
        var frames := if auto then [FrameOutput(true)] else [];
        Step(r.(playingPath := Some(path), fpsLimitBackup := backup, mode := Playing), pose,
          [PlayStarted] + CapLimit(path) + [CameraPlayInfo(true)] + frames)
  }

  /** `STOP_CAMERA_PLAY`: ignored (only a warning is logged) unless
      playing; otherwise the recorder goes idle with the path still loaded,
      and stops the camera, reports that playing ended and switches frame
      output off, whether or not the play command switched it on. */
  function StopPlay(r: Recorder, pose: Pose): (s: Step)
    ensures s.pose == pose
    ensures r.mode != Playing ==> s == Step(r, pose, [])
    ensures r.mode == Playing ==>
      s.recorder.mode == Idle && s.recorder.playingPath == r.playingPath &&
      s.recorder.recordingPath == r.recordingPath &&
      s.effects == [CameraStop, CameraPlayInfo(false), FrameOutput(false)]
  {
    if r.mode != Playing then Step(r, pose, [])
    else Step(r.(mode := Idle), pose, [CameraStop, CameraPlayInfo(false), FrameOutput(false)])
  }

  /** A playback at a positive frame rate that is stopped by hand keeps the
      path's frame cap: the play command set it, and the stop publishes no
      frame limit, where the natural end of the playback puts the old limit
      back. */
  lemma ManualStopKeepsCap(r: Recorder, pose: Pose, path: CameraPath, limit: real, auto: bool)
    requires r.mode == Idle && path.frameRate > 0.0
    ensures var p := PlayCommand(r, pose, Some(path), limit, auto);
            var q := StopPlay(p.recorder, pose);
            && LimitFps(path.frameRate) in p.effects
            && q.recorder.mode == Idle
            && forall e :: e in q.effects ==> !e.LimitFps?
  {
    var p := PlayCommand(r, pose, Some(path), limit, auto);
    assert p.effects[1] == LimitFps(path.frameRate);
  }

  /** `STOP_CAMERA_PLAY` as evidently intended: like the end of a playback,
      it first puts back the frame limit the loaded path replaced. */
  function StopPlayFixed(r: Recorder, pose: Pose): (s: Step)
    ensures s.pose == pose
    ensures r.mode != Playing ==> s == StopPlay(r, pose)
    ensures r.mode == Playing ==>
      && s.recorder == StopPlay(r, pose).recorder
      && s.effects == (if r.playingPath.Some? then RestoreLimit(r.playingPath.value, r.fpsLimitBackup) else [])
                      + StopPlay(r, pose).effects
  {
    if r.mode != Playing then Step(r, pose, [])
    else
      var restore := if r.playingPath.Some? then RestoreLimit(r.playingPath.value, r.fpsLimitBackup) else [];
      Step(r.(mode := Idle), pose, restore + [CameraStop, CameraPlayInfo(false), FrameOutput(false)])
  }

  /** With the correction, stopping a playback by hand puts back the limit
      that was in force when it started, as its natural end does. */
  lemma PlayThenStopFixedRestoresLimit(r: Recorder, pose: Pose, path: CameraPath, limit: real, auto: bool)
    requires r.mode == Idle && path.frameRate > 0.0
    ensures var p := PlayCommand(r, pose, Some(path), limit, auto);
            var q := StopPlayFixed(p.recorder, pose);
            && q.recorder.mode == Idle
            && q.effects == [LimitFps(limit), CameraStop, CameraPlayInfo(false), FrameOutput(false)]
  {
  }

  /** Stopping a playback that a play command started returns the recorder
      to idle with the path loaded, and switches off what the start switched
      on: the play information, and the frame output when it was started
      automatically. */
  lemma PlayThenStop(r: Recorder, pose: Pose, path: CameraPath, fpsLimit: real, auto: bool)
    requires r.mode == Idle
    ensures var p := PlayCommand(r, pose, Some(path), fpsLimit, auto);
            var q := StopPlay(p.recorder, pose);
            q.recorder.mode == Idle && q.recorder.playingPath == Some(path) &&
            CameraPlayInfo(true) in p.effects && CameraPlayInfo(false) in q.effects &&
            (auto ==> FrameOutput(true) in p.effects) && FrameOutput(false) in q.effects &&
            q.effects[|q.effects| - 1] == FrameOutput(false)
  {
  }

  // ---------------------------------------------------------------------
  // Recording and playing back

  /** The recorder after `Update` at each (time, pose), in turn. */
  function RecordAll(r: Recorder, frames: seq<(int, Pose)>): (s: Recorder)
    requires r.mode == Recording && r.recordingPath.Some?
    ensures s.mode == Recording && s.recordingPath.Some?
    ensures s.recordingPath.value.n == r.recordingPath.value.n + |frames|
    ensures s.recordingPath.value.frameRate == r.recordingPath.value.frameRate
    ensures s == r.(recordingPath := s.recordingPath)
    decreases |frames|
  {
    if |frames| == 0 then r
    else
      var step := Update(r, frames[0].0, frames[0].1);
      RecordAll(step.value.recorder, frames[1..])
  }

  /** The frame times and the flattened poses of a list of frames. */
  function Times(frames: seq<(int, Pose)>): (t: seq<int>)
    ensures |t| == |frames|
    ensures forall k :: 0 <= k < |frames| ==> t[k] == frames[k].0
  {
    if |frames| == 0 then [] else [frames[0].0] + Times(frames[1..])
  }

  function Flat(frames: seq<(int, Pose)>): (d: seq<real>)
    ensures |d| == 9 * |frames|
  {
    if |frames| == 0 then [] else PoseValues(frames[0].1) + Flat(frames[1..])
  }

  /** The k-th frame's pose sits at 9k in the flattened data. */
  lemma {:induction false} FlatFrame(frames: seq<(int, Pose)>, k: nat)
    requires k < |frames|
    ensures Flat(frames)[9 * k..9 * k + 9] == PoseValues(frames[k].1)
  {
    if k > 0 {
      FlatFrame(frames[1..], k - 1);
      var rest := Flat(frames[1..]);
      assert Flat(frames)[9 * k..9 * k + 9] == rest[9 * (k - 1)..9 * (k - 1) + 9];
    }
  }

  /** Recording from an empty path stores exactly the frames seen. */
  lemma {:induction false} RecordStoresFrames(r: Recorder, frames: seq<(int, Pose)>)
    requires r.mode == Recording && r.recordingPath.Some?
    ensures var p := RecordAll(r, frames).recordingPath.value;
      var q := r.recordingPath.value;
      p.times == q.times + Times(frames) && p.data == q.data + Flat(frames) && p.i == q.i
    decreases |frames|
  {
    if |frames| > 0 {
      var q := r.recordingPath.value;
      var r' := r.(recordingPath := Some(Add(q, frames[0].0, frames[0].1)));
      assert RecordAll(r, frames) == RecordAll(r', frames[1..]);
      RecordStoresFrames(r', frames[1..]);
      assert Times(frames) == [frames[0].0] + Times(frames[1..]);
      assert Flat(frames) == PoseValues(frames[0].1) + Flat(frames[1..]);
      assert (q.times + [frames[0].0]) + Times(frames[1..]) == q.times + Times(frames);
      assert (q.data + PoseValues(frames[0].1)) + Flat(frames[1..]) == q.data + Flat(frames);
    }
  }

  /** Playing a path through `k` frames: the recorder after `k` updates, or
      None once an update fails or the recorder stops playing. */
  function PlayFrames(r: Recorder, pose: Pose, k: nat): (s: Option<Step>)
    ensures r.mode == Idle ==> s == Some(Step(r, pose, []))
    ensures s.Some? && r.mode != Playing ==> s.value.recorder.mode == r.mode
    ensures s.None? ==> r.mode == Playing
    decreases k
  {
    if k == 0 then Some(Step(r, pose, []))
    else
      match PlayFrames(r, pose, k - 1)
      case None => None
      case Some(prev) =>
        var step := Update(prev.recorder, 0, prev.pose);
        if step.Err? then None else Some(step.value)
  }

  /** A recorded path plays back frame by frame: the k-th update shows the
      k-th recorded pose at the k-th recorded time. */
  lemma {:induction false} PlaybackReplaysRecording(r: Recorder, pose: Pose, frames: seq<(int, Pose)>, k: nat)
    requires r.mode == Playing && r.playingPath.Some?
    requires r.playingPath.value == CameraPath(Times(frames), Flat(frames), |frames|, 0, r.playingPath.value.frameRate)
    requires k <= |frames|
    ensures PlayFrames(r, pose, k).Some?
    ensures PlayFrames(r, pose, k).value.recorder == r.(playingPath := Some(r.playingPath.value.(i := k)))
    ensures k > 0 ==> PlayFrames(r, pose, k).value.pose == frames[k - 1].1
    ensures k > 0 ==> PlayFrames(r, pose, k).value.effects == [TimeChange(frames[k - 1].0)]
  {
    if k > 0 {
      PlaybackReplaysRecording(r, pose, frames, k - 1);
      var prev := PlayFrames(r, pose, k - 1).value;
      PlayOneFrame(r, prev.pose, frames, k - 1);
      PlayFramesStep(r, pose, k, Update(prev.recorder, 0, prev.pose).value);
    }
  }

  /** One more frame is one more update of the recorder reached so far. */
  lemma PlayFramesStep(r: Recorder, pose: Pose, k: nat, next: Step)
    requires k > 0 && PlayFrames(r, pose, k - 1).Some?
    requires var prev := PlayFrames(r, pose, k - 1).value; Update(prev.recorder, 0, prev.pose) == Ok(next)
    ensures PlayFrames(r, pose, k) == Some(next)
  {
  }

  /** The update at cursor `j` of a recorded path shows frame `j` and moves
      the cursor to `j + 1`. */
  lemma PlayOneFrame(r: Recorder, pose: Pose, frames: seq<(int, Pose)>, j: nat)
    requires r.mode == Playing && r.playingPath.Some?
    requires r.playingPath.value == CameraPath(Times(frames), Flat(frames), |frames|, 0, r.playingPath.value.frameRate)
    requires j < |frames|
    ensures var cur := r.(playingPath := Some(r.playingPath.value.(i := j)));
      && Update(cur, 0, pose).Ok?
      && Update(cur, 0, pose).value.recorder == r.(playingPath := Some(r.playingPath.value.(i := j + 1)))
      && Update(cur, 0, pose).value.pose == frames[j].1
      && Update(cur, 0, pose).value.effects == [TimeChange(frames[j].0)]
  {
    var cur := r.(playingPath := Some(r.playingPath.value.(i := j)));
    var p := cur.playingPath.value;
    assert HasNextFrame(cur) && FrameReadable(p);
    var step := Update(cur, 0, pose).value;
    FlatFrame(frames, j);
    assert PoseValues(step.pose) == PoseValues(frames[j].1);
    PoseValuesInjective(step.pose, frames[j].1);
  }

  /** After the last frame, one more update ends playing. */
  lemma PlaybackEnds(r: Recorder, pose: Pose, frames: seq<(int, Pose)>)
    requires r.mode == Playing && r.playingPath.Some?
    requires r.playingPath.value == CameraPath(Times(frames), Flat(frames), |frames|, 0, r.playingPath.value.frameRate)
    ensures PlayFrames(r, pose, |frames|).Some?
    ensures var last := PlayFrames(r, pose, |frames|).value;
      && Update(last.recorder, 0, last.pose).Ok?
      && Update(last.recorder, 0, last.pose).value.recorder == r.(mode := Idle, playingPath := None)
      && Update(last.recorder, 0, last.pose).value.effects ==
           RestoreLimit(r.playingPath.value, r.fpsLimitBackup) + [CameraStop, CameraPlayInfo(false), FrameOutput(false)]
  {
    PlaybackReplaysRecording(r, pose, frames, |frames|);
  }

  /** A recording at a positive frame rate, started from idle under the
      frame limit `limit`, caps frames at the target rate and puts `limit`
      back first thing when it is stopped, whatever was recorded. */
  lemma RecordingRestoresLimit(r: Recorder, pose: Pose, name: Option<string>, targetFps: real, limit: real,
                               defaultName: string, frames: seq<(int, Pose)>, stopName: Option<string>, laterLimit: real)
    requires r.mode == Idle && targetFps > 0.0
    ensures var start := RecordCommand(r, pose, true, name, targetFps, limit, defaultName);
      var stop := RecordCommand(RecordAll(start.recorder, frames), pose, false, stopName, targetFps, laterLimit, defaultName);
      && start.effects == [LimitFps(targetFps)]
      && stop.recorder.mode == Idle
      && stop.effects[0] == LimitFps(limit)
      && stop.effects[|stop.effects| - 1].Persist?
  {
    var start := RecordCommand(r, pose, true, name, targetFps, limit, defaultName);
    var rec := RecordAll(start.recorder, frames);
    assert rec.fpsLimitBackup == limit && rec.recordingPath.value.frameRate == targetFps;
  }

  /** A playback at a positive frame rate, started from idle under the frame
      limit `limit`, caps frames at the path's rate and, on the update past
      its last frame, puts `limit` back before stopping the camera. */
  lemma PlaybackRestoresLimit(r: Recorder, pose: Pose, frames: seq<(int, Pose)>, frameRate: real, limit: real, auto: bool)
    requires r.mode == Idle && frameRate > 0.0
    ensures var path := CameraPath(Times(frames), Flat(frames), |frames|, 0, frameRate);
      var start := PlayCommand(r, pose, Some(path), limit, auto);
      var last := PlayFrames(start.recorder, pose, |frames|);
      && start.effects[1] == LimitFps(frameRate)
      && last.Some?
      && Update(last.value.recorder, 0, last.value.pose).Ok?
      && Update(last.value.recorder, 0, last.value.pose).value.effects ==
           [LimitFps(limit), CameraStop, CameraPlayInfo(false), FrameOutput(false)]
  {
    var path := CameraPath(Times(frames), Flat(frames), |frames|, 0, frameRate);
    var start := PlayCommand(r, pose, Some(path), limit, auto);
    PlaybackEnds(start.recorder, pose, frames);
  }

  lemma PoseValuesInjective(a: Pose, b: Pose)
    requires PoseValues(a) == PoseValues(b)
    ensures a == b
  {
    assert PoseValues(a)[0] == PoseValues(b)[0] && PoseValues(a)[1] == PoseValues(b)[1] && PoseValues(a)[2] == PoseValues(b)[2];
    assert PoseValues(a)[3] == PoseValues(b)[3] && PoseValues(a)[4] == PoseValues(b)[4] && PoseValues(a)[5] == PoseValues(b)[5];
    assert PoseValues(a)[6] == PoseValues(b)[6] && PoseValues(a)[7] == PoseValues(b)[7] && PoseValues(a)[8] == PoseValues(b)[8];
  }

  /** Starting to record while busy is dead code in the source: the busy
      check comes first, so the recorder is never asked to start while it
      is already recording. */
  lemma StartWhileRecordingIsBusy(r: Recorder, pose: Pose, name: Option<string>, targetFps: real, fpsLimit: real, defaultName: string)
    requires r.mode == Recording
    ensures RecordCommand(r, pose, true, name, targetFps, fpsLimit, defaultName).effects == [Busy]
  {
  }
}

=== FILE: component_types.dfy ===
/** `gaiasky.render.ComponentTypes`: the enumeration of scene component
    types, its key map, and the bit set of enabled types. A `java.util.BitSet`
    is a sequence of booleans here (bits past the end are clear). */
module ComponentTypes {
  import opened Wrappers
  import opened Text

  /** Initial capacity, in bits, of a new set. */
  const CT_SIZE: nat := 32

  /** `ComponentType`, in declaration order; `Invisible` is always last. */
  datatype ComponentType =
    | Stars
    | Planets
    | Moons
    | Satellites
    | Asteroids
    | Clusters
    | MilkyWay
    | Galaxies
    | Nebulae
    | Meshes
    | Labels
    | Orbits
    | CosmicLocations
    | Locations
    | Countries
    | Equatorial
    | Ecliptic
    | Galactic
    | RecursiveGrid
    | Constellations
    | Boundaries
    | Ruler
    | Effects
    | Atmospheres
    | Clouds
    | Axes
    | VelocityVectors
    | Titles
    | Others
    | Invisible

  /** `name()`, which `toString` returns. */
  function Name(ct: ComponentType): (r: string)
    ensures |r| > 0 && 'A' <= r[0] <= 'Z'
  {
    match ct
    case Stars => "Stars"
    case Planets => "Planets"
    case Moons => "Moons"
    case Satellites => "Satellites"
    case Asteroids => "Asteroids"
    case Clusters => "Clusters"
    case MilkyWay => "MilkyWay"
    case Galaxies => "Galaxies"
    case Nebulae => "Nebulae"
    case Meshes => "Meshes"
    case Labels => "Labels"
    case Orbits => "Orbits"
    case CosmicLocations => "CosmicLocations"
    case Locations => "Locations"
    case Countries => "Countries"
    case Equatorial => "Equatorial"
    case Ecliptic => "Ecliptic"
    case Galactic => "Galactic"
    case RecursiveGrid => "RecursiveGrid"
    case Constellations => "Constellations"
    case Boundaries => "Boundaries"
    case Ruler => "Ruler"
    case Effects => "Effects"
    case Atmospheres => "Atmospheres"
    case Clouds => "Clouds"
    case Axes => "Axes"
    case VelocityVectors => "VelocityVectors"
    case Titles => "Titles"
    case Others => "Others"
    case Invisible => "Invisible"
  }

  /** `ComponentType.values()`. */
  const VALUES: seq<ComponentType> := [
      Stars,
      Planets,
      Moons,
      Satellites,
      Asteroids,
      Clusters,
      MilkyWay,
      Galaxies,
      Nebulae,
      Meshes,
      Labels,
      Orbits,
      CosmicLocations,
      Locations,
      Countries,
      Equatorial,
      Ecliptic,
      Galactic,
      RecursiveGrid,
      Constellations,
      Boundaries,
      Ruler,
      Effects,
      Atmospheres,
      Clouds,
      Axes,
      VelocityVectors,
      Titles,
      Others,
      Invisible
  ]

  /** A type name is one non-empty word. */
  lemma NameIsWord(ct: ComponentType)
    ensures Name(ct) != "" && ' ' !in Name(ct)
  {
    if ct.Stars? || ct.Planets? || ct.Moons? || ct.Satellites? || ct.Asteroids? {
      NamesAreWordsA(ct);
    } else if ct.Clusters? || ct.MilkyWay? || ct.Galaxies? || ct.Nebulae? || ct.Meshes? {
      NamesAreWordsB(ct);
    } else if ct.Labels? || ct.Orbits? || ct.CosmicLocations? || ct.Locations? || ct.Countries? {
      NamesAreWordsC(ct);
    } else if ct.Equatorial? || ct.Ecliptic? || ct.Galactic? || ct.RecursiveGrid? || ct.Constellations? {
      NamesAreWordsD(ct);
    } else if ct.Boundaries? || ct.Ruler? || ct.Effects? || ct.Atmospheres? || ct.Clouds? {
      NamesAreWordsE(ct);
    } else {
      NamesAreWordsF(ct);
    }
  }

  // The names checked five at a time, in declaration order.

  lemma NamesAreWordsA(ct: ComponentType)
    requires ct.Stars? || ct.Planets? || ct.Moons? || ct.Satellites? || ct.Asteroids?
    ensures Name(ct) != "" && ' ' !in Name(ct)
  {
  }

  lemma NamesAreWordsB(ct: ComponentType)
    requires ct.Clusters? || ct.MilkyWay? || ct.Galaxies? || ct.Nebulae? || ct.Meshes?
    ensures Name(ct) != "" && ' ' !in Name(ct)
  {
  }

  lemma NamesAreWordsC(ct: ComponentType)
    requires ct.Labels? || ct.Orbits? || ct.CosmicLocations? || ct.Locations? || ct.Countries?
    ensures Name(ct) != "" && ' ' !in Name(ct)
  {
  }

  lemma NamesAreWordsD(ct: ComponentType)
    requires ct.Equatorial? || ct.Ecliptic? || ct.Galactic? || ct.RecursiveGrid? || ct.Constellations?
    ensures Name(ct) != "" && ' ' !in Name(ct)
  {
  }

  lemma NamesAreWordsE(ct: ComponentType)
    requires ct.Boundaries? || ct.Ruler? || ct.Effects? || ct.Atmospheres? || ct.Clouds?
    ensures Name(ct) != "" && ' ' !in Name(ct)
  {
  }

  lemma NamesAreWordsF(ct: ComponentType)
    requires ct.Axes? || ct.VelocityVectors? || ct.Titles? || ct.Others? || ct.Invisible?
    ensures Name(ct) != "" && ' ' !in Name(ct)
  {
  }

  /** `ordinal()`: the position in `values()`. */
  function Ordinal(ct: ComponentType): (i: nat)
    ensures i < |VALUES| && VALUES[i] == ct
  {
    match ct
    case Stars => 0
    case Planets => 1
    case Moons => 2
    case Satellites => 3
    case Asteroids => 4
    case Clusters => 5
    case MilkyWay => 6
    case Galaxies => 7
    case Nebulae => 8
    case Meshes => 9
    case Labels => 10
    case Orbits => 11
    case CosmicLocations => 12
    case Locations => 13
    case Countries => 14
    case Equatorial => 15
    case Ecliptic => 16
    case Galactic => 17
    case RecursiveGrid => 18
    case Constellations => 19
    case Boundaries => 20
    case Ruler => 21
    case Effects => 22
    case Atmospheres => 23
    case Clouds => 24
    case Axes => 25
    case VelocityVectors => 26
    case Titles => 27
    case Others => 28
    case Invisible => 29
  }

  lemma InvisibleIsLast()
    ensures Ordinal(Invisible) == |VALUES| - 1
    ensures forall ct :: Ordinal(ct) <= Ordinal(Invisible)
  {
  }

  /** The key `"element." + name().toLowerCase()` that finds a type. */
  function Key(ct: ComponentType): (k: string)
    ensures StartsWith(k, "element.")
  {
    "element." + Lower(Name(ct))
  }

  // Distinct types have distinct keys: the length, first and next-to-last
  // letters of the lower-case name already tell the types apart.

  function Signature(s: string): (int, char, char)
    requires |s| >= 2
  {
    (|s|, s[0], s[|s| - 2])
  }

  function FromSignature(sig: (int, char, char)): Option<ComponentType> {
    if sig == (5, 's', 'r') then Some(Stars)
    else if sig == (7, 'p', 't') then Some(Planets)
    else if sig == (5, 'm', 'n') then Some(Moons)
    else if sig == (10, 's', 'e') then Some(Satellites)
    else if sig == (9, 'a', 'd') then Some(Asteroids)
    else if sig == (8, 'c', 'r') then Some(Clusters)
    else if sig == (8, 'm', 'a') then Some(MilkyWay)
    else if sig == (8, 'g', 'e') then Some(Galaxies)
    else if sig == (7, 'n', 'a') then Some(Nebulae)
    else if sig == (6, 'm', 'e') then Some(Meshes)
    else if sig == (6, 'l', 'l') then Some(Labels)
    else if sig == (6, 'o', 't') then Some(Orbits)
    else if sig == (15, 'c', 'n') then Some(CosmicLocations)
    else if sig == (9, 'l', 'n') then Some(Locations)
    else if sig == (9, 'c', 'e') then Some(Countries)
    else if sig == (10, 'e', 'a') then Some(Equatorial)
    else if sig == (8, 'e', 'i') then Some(Ecliptic)
    else if sig == (8, 'g', 'i') then Some(Galactic)
    else if sig == (13, 'r', 'i') then Some(RecursiveGrid)
    else if sig == (14, 'c', 'n') then Some(Constellations)
    else if sig == (10, 'b', 'e') then Some(Boundaries)
    else if sig == (5, 'r', 'e') then Some(Ruler)
    else if sig == (7, 'e', 't') then Some(Effects)
    else if sig == (11, 'a', 'e') then Some(Atmospheres)
    else if sig == (6, 'c', 'd') then Some(Clouds)
    else if sig == (4, 'a', 'e') then Some(Axes)
    else if sig == (15, 'v', 'r') then Some(VelocityVectors)
    else if sig == (6, 't', 'e') then Some(Titles)
    else if sig == (6, 'o', 'r') then Some(Others)
    else if sig == (9, 'i', 'l') then Some(Invisible)
    else None
  }

  /** The signature of each lower-case type name decodes to that type. */
  lemma SignatureDecodes(ct: ComponentType)
    ensures |Name(ct)| >= 2 && FromSignature(Signature(Lower(Name(ct)))) == Some(ct)
  {
    if ct.Stars? || ct.Planets? || ct.Moons? || ct.Satellites? || ct.Asteroids? {
      SignaturesDecodeA(ct);
    } else if ct.Clusters? || ct.MilkyWay? || ct.Galaxies? || ct.Nebulae? || ct.Meshes? {
      SignaturesDecodeB(ct);
    } else if ct.Labels? || ct.Orbits? || ct.CosmicLocations? || ct.Locations? || ct.Countries? {
      SignaturesDecodeC(ct);
    } else if ct.Equatorial? || ct.Ecliptic? || ct.Galactic? || ct.RecursiveGrid? || ct.Constellations? {
      SignaturesDecodeD(ct);
    } else if ct.Boundaries? || ct.Ruler? || ct.Effects? || ct.Atmospheres? || ct.Clouds? {
      SignaturesDecodeE(ct);
    } else {
      SignaturesDecodeF(ct);
    }
  }

  // The signatures checked five types at a time, in declaration order.

  lemma SignaturesDecodeA(ct: ComponentType)
    requires ct.Stars? || ct.Planets? || ct.Moons? || ct.Satellites? || ct.Asteroids?
    ensures |Name(ct)| >= 2 && FromSignature(Signature(Lower(Name(ct)))) == Some(ct)
  {
    var n := Name(ct);
    NameLength(ct);
    SignatureOfLower(n);
    var sig := (|n|, LowerChar(n[0]), LowerChar(n[|n| - 2]));
    if ct.Stars? {
      assert sig == (5, 's', 'r');
    } else if ct.Planets? {
      assert sig == (7, 'p', 't');
    } else if ct.Moons? {
      assert sig == (5, 'm', 'n');
    } else if ct.Satellites? {
      assert sig == (10, 's', 'e');
    } else {
      assert sig == (9, 'a', 'd');
    }
  }

  lemma SignaturesDecodeB(ct: ComponentType)
    requires ct.Clusters? || ct.MilkyWay? || ct.Galaxies? || ct.Nebulae? || ct.Meshes?
    ensures |Name(ct)| >= 2 && FromSignature(Signature(Lower(Name(ct)))) == Some(ct)
  {
    var n := Name(ct);
    NameLength(ct);
    SignatureOfLower(n);
    var sig := (|n|, LowerChar(n[0]), LowerChar(n[|n| - 2]));
    if ct.Clusters? {
      assert sig == (8, 'c', 'r');
    } else if ct.MilkyWay? {
      assert sig == (8, 'm', 'a');
    } else if ct.Galaxies? {
      assert sig == (8, 'g', 'e');
    } else if ct.Nebulae? {
      assert sig == (7, 'n', 'a');
    } else {
      assert sig == (6, 'm', 'e');
    }
  }

  lemma SignaturesDecodeC(ct: ComponentType)
    requires ct.Labels? || ct.Orbits? || ct.CosmicLocations? || ct.Locations? || ct.Countries?
    ensures |Name(ct)| >= 2 && FromSignature(Signature(Lower(Name(ct)))) == Some(ct)
  {
    var n := Name(ct);
    NameLength(ct);
    SignatureOfLower(n);
    var sig := (|n|, LowerChar(n[0]), LowerChar(n[|n| - 2]));
    if ct.Labels? {
      assert sig == (6, 'l', 'l');
    } else if ct.Orbits? {
      assert sig == (6, 'o', 't');
    } else if ct.CosmicLocations? {
      assert sig == (15, 'c', 'n');
    } else if ct.Locations? {
      assert sig == (9, 'l', 'n');
    } else {
      assert sig == (9, 'c', 'e');
    }
  }

  lemma SignaturesDecodeD(ct: ComponentType)
    requires ct.Equatorial? || ct.Ecliptic? || ct.Galactic? || ct.RecursiveGrid? || ct.Constellations?
    ensures |Name(ct)| >= 2 && FromSignature(Signature(Lower(Name(ct)))) == Some(ct)
  {
    var n := Name(ct);
    NameLength(ct);
    SignatureOfLower(n);
    var sig := (|n|, LowerChar(n[0]), LowerChar(n[|n| - 2]));
    if ct.Equatorial? {
      assert sig == (10, 'e', 'a');
    } else if ct.Ecliptic? {
      assert sig == (8, 'e', 'i');
    } else if ct.Galactic? {
      assert sig == (8, 'g', 'i');
    } else if ct.RecursiveGrid? {
      assert sig == (13, 'r', 'i');
    } else {
      assert sig == (14, 'c', 'n');
    }
  }

  lemma SignaturesDecodeE(ct: ComponentType)
    requires ct.Boundaries? || ct.Ruler? || ct.Effects? || ct.Atmospheres? || ct.Clouds?
    ensures |Name(ct)| >= 2 && FromSignature(Signature(Lower(Name(ct)))) == Some(ct)
  {
    var n := Name(ct);
    NameLength(ct);
    SignatureOfLower(n);
    var sig := (|n|, LowerChar(n[0]), LowerChar(n[|n| - 2]));
    if ct.Boundaries? {
      assert sig == (10, 'b', 'e');
    } else if ct.Ruler? {
      assert sig == (5, 'r', 'e');
    } else if ct.Effects? {
      assert sig == (7, 'e', 't');
    } else if ct.Atmospheres? {
      assert sig == (11, 'a', 'e');
    } else {
      assert sig == (6, 'c', 'd');
    }
  }

  lemma SignaturesDecodeF(ct: ComponentType)
    requires ct.Axes? || ct.VelocityVectors? || ct.Titles? || ct.Others? || ct.Invisible?
    ensures |Name(ct)| >= 2 && FromSignature(Signature(Lower(Name(ct)))) == Some(ct)
  {
    var n := Name(ct);
    NameLength(ct);
    SignatureOfLower(n);
    var sig := (|n|, LowerChar(n[0]), LowerChar(n[|n| - 2]));
    if ct.Axes? {
      assert sig == (4, 'a', 'e');
    } else if ct.VelocityVectors? {
      assert sig == (15, 'v', 'r');
    } else if ct.Titles? {
      assert sig == (6, 't', 'e');
    } else if ct.Others? {
      assert sig == (6, 'o', 'r');
    } else {
      assert sig == (9, 'i', 'l');
    }
  }

  /** Every type name has at least four letters. */
  lemma NameLength(ct: ComponentType)
    ensures |Name(ct)| >= 4
  {
  }

  /** The signature of a lower-cased text reads only three of its letters. */
  lemma SignatureOfLower(s: string)
    requires |s| >= 2
    ensures Signature(Lower(s)) == (|s|, LowerChar(s[0]), LowerChar(s[|s| - 2]))
  {
  }

  lemma KeyInjective(a: ComponentType, b: ComponentType)
    requires Key(a) == Key(b)
    ensures a == b
  {
    assert Lower(Name(a)) == Key(a)[8..];
    assert Lower(Name(b)) == Key(b)[8..];
    SignatureDecodes(a);
    SignatureDecodes(b);
  }

  /** `keysMap.put(ct.key, ct)` for each type in turn. */
  function PutAll(m: map<string, ComponentType>, cts: seq<ComponentType>): (r: map<string, ComponentType>)
    ensures r.Keys == m.Keys + set ct | ct in cts :: Key(ct)
    ensures (forall k :: k in m ==> Key(m[k]) == k) ==> forall k :: k in r ==> Key(r[k]) == k
    decreases |cts|
  {
    if |cts| == 0 then m
    else
      var r := PutAll(m[Key(cts[0]) := cts[0]], cts[1..]);
      assert forall ct :: ct in cts <==> ct == cts[0] || ct in cts[1..];
      r
  }

  /** Distinct types have distinct keys. */
  lemma KeysDistinct()
    ensures forall a, b :: Key(a) == Key(b) ==> a == b
  {
    forall a, b | Key(a) == Key(b) ensures a == b {
      KeyInjective(a, b);
    }
  }

  /** Each type of `cts` under its key. */
  function KeyIndex(cts: seq<ComponentType>): map<string, ComponentType> {
    KeysDistinct();
    map ct | ct in cts :: Key(ct) := ct
  }

  /** The static key map: every type of `values()` under its key. The
      source fills it by `PutAll`; `KeysMapIsPutAll` shows the two agree. */
  const KEYS_MAP: map<string, ComponentType> := KeyIndex(VALUES)

  /** Putting types with distinct keys into an empty map, one after the
      other, indexes each of them by its key. */
  lemma PutAllIndexes(cts: seq<ComponentType>)
    ensures PutAll(map[], cts) == KeyIndex(cts)
  {
    var m := PutAll(map[], cts);
    PutAllShape(cts);
    KeysDistinct();
    forall k | k in m ensures k in KeyIndex(cts) && m[k] == KeyIndex(cts)[k] {
      var ct :| ct in cts && Key(ct) == k;
      PutAllFinds(map[], cts, ct);
    }
  }

  /** Filling an empty map from `values()`, as the static initializer does,
      gives the key map. */
  lemma KeysMapIsPutAll()
    ensures PutAll(map[], VALUES) == KEYS_MAP
  {
    PutAllIndexes(VALUES);
  }

  /** `getFromKey`: `null` (None) for a string that is no type's key. */
  function GetFromKey(key: string): (r: Option<ComponentType>)
    ensures r.Some? ==> Key(r.value) == key
    ensures r.None? ==> forall ct :: Key(ct) != key
  {
    KeysMapShape();
    if key in KEYS_MAP then Some(KEYS_MAP[key]) else None
  }

  /** Every type is in `values()`, so the map's keys are exactly the keys of
      the types, and each maps to a type with that key. */
  lemma KeysMapShape()
    ensures KEYS_MAP.Keys == set ct | ct in VALUES :: Key(ct)
    ensures forall k :: k in KEYS_MAP ==> Key(KEYS_MAP[k]) == k
    ensures forall ct :: Key(ct) in KEYS_MAP
  {
    KeysDistinct();
    forall ct ensures Key(ct) in KEYS_MAP {
      assert VALUES[Ordinal(ct)] == ct;
    }
    forall k | k in KEYS_MAP ensures Key(KEYS_MAP[k]) == k {
      var ct :| ct in VALUES && Key(ct) == k;
      assert KEYS_MAP[k] == ct;
    }
  }

  lemma PutAllShape(cts: seq<ComponentType>)
    ensures PutAll(map[], cts).Keys == set ct | ct in cts :: Key(ct)
    ensures forall k :: k in PutAll(map[], cts) ==> Key(PutAll(map[], cts)[k]) == k
  {
  }

  lemma {:induction false} PutAllFinds(m: map<string, ComponentType>, cts: seq<ComponentType>, ct: ComponentType)
    requires ct in cts
    requires forall a, b :: Key(a) == Key(b) ==> a == b
    ensures Key(ct) in PutAll(m, cts) && PutAll(m, cts)[Key(ct)] == ct
    decreases |cts|
  {
    var m' := m[Key(cts[0]) := cts[0]];
    if ct in cts[1..] {
      PutAllFinds(m', cts[1..], ct);
    } else {
      assert ct == cts[0];
      PutAllKeeps(m', cts[1..], Key(ct));
    }
  }

  lemma {:induction false} PutAllKeeps(m: map<string, ComponentType>, cts: seq<ComponentType>, k: string)
    requires k in m && forall c :: c in cts ==> Key(c) != k
    ensures k in PutAll(m, cts) && PutAll(m, cts)[k] == m[k]
    decreases |cts|
  {
    if |cts| > 0 {
      PutAllKeeps(m[Key(cts[0]) := cts[0]], cts[1..], k);
    }
  }

  /** The key map finds every type by its key (keys are distinct, so no
      later `put` overwrites an earlier one). */
  lemma FromKeyOfKey(ct: ComponentType)
    ensures GetFromKey(Key(ct)) == Some(ct)
  {
    assert VALUES[Ordinal(ct)] == ct;
    KeysDistinct();
  }

  // ---------------------------------------------------------------------
  // The bit set

  datatype Error = IndexOutOfBounds(index: int)

  /** A `ComponentTypes` bit set. */
  datatype Mask = Mask(bits: seq<bool>)

  predicate Has(m: Mask, i: int) {
    0 <= i < |m.bits| && m.bits[i]
  }

  /** `new ComponentTypes()`. */
  function New(): (m: Mask)
    ensures forall i :: !Has(m, i)
  {
    Mask(seq(CT_SIZE, _ => false))
  }

  /** `BitSet.set(i)`, growing the set as needed. */
  function Set(m: Mask, i: nat): (r: Mask)
    ensures forall j :: Has(r, j) <==> j == i || Has(m, j)
  {
    var bits := if i < |m.bits| then m.bits else m.bits + seq(i + 1 - |m.bits|, _ => false);
    Mask(bits[i := true])
  }

  /** `new ComponentTypes(ordinal)`: `BitSet.set` throws for a negative
      index. */
  function FromOrdinal(ordinal: int): (r: Result<Mask, Error>)
    ensures r.Err? <==> ordinal < 0
    ensures r.Err? ==> r.error == IndexOutOfBounds(ordinal)
    ensures r.Ok? ==> forall i :: Has(r.value, i) <==> i == ordinal
  {
    if ordinal < 0 then Err(IndexOutOfBounds(ordinal)) else Ok(Set(New(), ordinal))
  }

  /** `new ComponentTypes(ComponentType... cts)`. */
  function FromTypes(cts: seq<ComponentType>): (m: Mask)
    ensures forall i :: Has(m, i) <==> exists k :: 0 <= k < |cts| && Ordinal(cts[k]) == i
    decreases |cts|
  {
    if |cts| == 0 then Mask([])
    else
      var front := cts[..|cts| - 1];
      var m := Set(FromTypes(front), Ordinal(cts[|cts| - 1]));
      assert forall k :: 0 <= k < |front| ==> cts[k] == front[k];
      m
  }

  /** `isEnabled(ct)`. */
  function IsEnabled(m: Mask, ct: ComponentType): (r: bool)
    ensures r ==> !IsEmpty(m) && 0 <= FirstOrdinal(m) <= Ordinal(ct)
  {
    Has(m, Ordinal(ct))
  }

  /** A set built from a list of types enables exactly those types. */
  lemma EnabledIffListed(cts: seq<ComponentType>, ct: ComponentType)
    ensures IsEnabled(FromTypes(cts), ct) <==> ct in cts
  {
    if ct in cts {
      var k :| 0 <= k < |cts| && cts[k] == ct;
      assert Ordinal(cts[k]) == Ordinal(ct);
    }
    if IsEnabled(FromTypes(cts), ct) {
      var k :| 0 <= k < |cts| && Ordinal(cts[k]) == Ordinal(ct);
      assert VALUES[Ordinal(cts[k])] == cts[k];
    }
  }

  /** `isEmpty()`. */
  function IsEmpty(m: Mask): (b: bool)
    ensures b <==> forall i :: !Has(m, i)
  {
    NextSetBit(m, 0) == -1
  }

  /** `nextSetBit(from)`: the lowest set index at or above `from`, or -1. */
  function NextSetBit(m: Mask, from: nat): (r: int)
    ensures r == -1 || (from <= r && Has(m, r))
    ensures forall i :: from <= i && (r == -1 || i < r) ==> !Has(m, i)
    decreases |m.bits| - from
  {
    if from >= |m.bits| then -1
    else if m.bits[from] then from
    else NextSetBit(m, from + 1)
  }

  /** `getFirstOrdinal()`: the lowest enabled ordinal, or -1 for none. */
  function FirstOrdinal(m: Mask): (r: int)
    ensures r == -1 <==> IsEmpty(m)
    ensures r >= 0 ==> Has(m, r) && forall i :: 0 <= i < r ==> !Has(m, i)
  {
    NextSetBit(m, 0)
  }

  /** `toLongArray()[0]` as 64 bits; the array is empty, and the access
      throws, when no bit is set. */
  function LowWord(m: Mask): (r: Result<seq<bool>, Error>)
    ensures r.Err? <==> IsEmpty(m)
    ensures r.Ok? ==> |r.value| == 64 && forall i :: 0 <= i < 64 ==> r.value[i] == Has(m, i)
  {
    if IsEmpty(m) then Err(IndexOutOfBounds(0)) else Ok(seq(64, i => Has(m, i)))
  }

  function And(a: seq<bool>, b: seq<bool>): (r: seq<bool>)
    requires |a| == |b|
    ensures |r| == |a| && forall i :: 0 <= i < |a| ==> r[i] == (a[i] && b[i])
  {
    seq(|a|, i requires 0 <= i < |a| => a[i] && b[i])
  }

  /** `allSetLike(other)`: `(this & other) == this` on the first 64-bit
      words; either set being empty makes the word access throw. */
  function AllSetLike(m: Mask, other: Mask): (r: Result<bool, Error>)
    ensures r.Err? <==> IsEmpty(m) || IsEmpty(other)
    ensures r.Ok? ==> (r.value <==> forall i :: 0 <= i < 64 && Has(m, i) ==> Has(other, i))
  {
    var w := LowWord(m);
    if w.Err? then Err(w.error)
    else
      var v := LowWord(other);
      if v.Err? then Err(v.error)
      else
        var both := And(w.value, v.value);
        assert both == w.value <==> forall i :: 0 <= i < 64 ==> both[i] == w.value[i];
        Ok(both == w.value)
  }

  /** The names of the set bits from `from` on, in index order; a set bit
      past the last type makes `values[i]` throw. */
  function SetNames(m: Mask, from: nat): (r: Result<seq<string>, Error>)
    ensures r.Err? <==> exists i :: from <= i && Has(m, i) && i >= |VALUES|
    ensures r.Ok? ==> forall k :: 0 <= k < |r.value| ==> r.value[k] != "" && ' ' !in r.value[k]
    decreases |m.bits| - from
  {
    var i := NextSetBit(m, from);
    if i == -1 then Ok([])
    else if i >= |VALUES| then Err(IndexOutOfBounds(i))
    else
      var rest := SetNames(m, i + 1);
      NoOutOfRangeBelow(m, from, i);
      NameIsWord(VALUES[i]);
      if rest.Err? then rest else Ok([Name(VALUES[i])] + rest.value)
  }

  lemma NoOutOfRangeBelow(m: Mask, from: nat, i: nat)
    requires from <= i < |VALUES| && forall j :: from <= j < i ==> !Has(m, j)
    ensures (exists j :: from <= j && Has(m, j) && j >= |VALUES|) <==> (exists j :: i + 1 <= j && Has(m, j) && j >= |VALUES|)
  {
  }

  /** Types listed in strictly increasing ordinal order. */
  predicate Increasing(cts: seq<ComponentType>) {
    forall a, b :: 0 <= a < b < |cts| ==> Ordinal(cts[a]) < Ordinal(cts[b])
  }

  /** The names of a list of types, in list order. */
  function TypeNames(cts: seq<ComponentType>): (r: seq<string>)
    ensures |r| == |cts| && forall k :: 0 <= k < |cts| ==> r[k] == Name(cts[k])
  {
    seq(|cts|, k requires 0 <= k < |cts| => Name(cts[k]))
  }

  /** The bits set from `from` on are exactly the ordinals of `cts`. */
  ghost predicate SetFrom(m: Mask, from: nat, cts: seq<ComponentType>) {
    forall i :: from <= i ==> (Has(m, i) <==> exists k :: 0 <= k < |cts| && Ordinal(cts[k]) == i)
  }

  /** The first set bit is the ordinal of the first listed type. */
  lemma NextIsFirstListed(m: Mask, from: nat, cts: seq<ComponentType>)
    requires Increasing(cts) && |cts| > 0
    requires forall k :: 0 <= k < |cts| ==> from <= Ordinal(cts[k])
    requires SetFrom(m, from, cts)
    ensures NextSetBit(m, from) == Ordinal(cts[0])
  {
    assert Has(m, Ordinal(cts[0]));
  }

  /** Past the first listed type, the set bits are the rest of the list. */
  lemma SetFromTail(m: Mask, from: nat, cts: seq<ComponentType>)
    requires Increasing(cts) && |cts| > 0
    requires forall k :: 0 <= k < |cts| ==> from <= Ordinal(cts[k])
    requires SetFrom(m, from, cts)
    ensures Increasing(cts[1..])
    ensures forall k :: 0 <= k < |cts| - 1 ==> Ordinal(cts[0]) + 1 <= Ordinal(cts[1..][k])
    ensures SetFrom(m, Ordinal(cts[0]) + 1, cts[1..])
  {
    var tail := cts[1..];
    var o := Ordinal(cts[0]);
    assert forall k :: 0 <= k < |tail| ==> tail[k] == cts[k + 1];
    forall j | o + 1 <= j
      ensures Has(m, j) <==> exists k :: 0 <= k < |tail| && Ordinal(tail[k]) == j
    {
      if Has(m, j) {
        var k :| 0 <= k < |cts| && Ordinal(cts[k]) == j;
        assert k != 0;
        assert Ordinal(tail[k - 1]) == j;
      }
    }
  }

  lemma TypeNamesCons(cts: seq<ComponentType>)
    requires |cts| > 0
    ensures TypeNames(cts) == [Name(VALUES[Ordinal(cts[0])])] + TypeNames(cts[1..])
  {
  }

  /** When the bits set from `from` on are exactly the ordinals of an
      increasing list of types, the names collected are those types' names
      in list order: one name per set bit, in increasing bit order. */
  lemma {:induction false} SetNamesLists(m: Mask, from: nat, cts: seq<ComponentType>)
    requires Increasing(cts)
    requires forall k :: 0 <= k < |cts| ==> from <= Ordinal(cts[k])
    requires SetFrom(m, from, cts)
    ensures SetNames(m, from) == Ok(TypeNames(cts))
    decreases |cts|
  {
    if |cts| == 0 {
      assert NextSetBit(m, from) == -1;
    } else {
      var i := Ordinal(cts[0]);
      NextIsFirstListed(m, from, cts);
      SetFromTail(m, from, cts);
      SetNamesLists(m, i + 1, cts[1..]);
      TypeNamesCons(cts);
      SetNamesStep(m, from, i, TypeNames(cts[1..]));
    }
  }

  /** One step of the collection: the first set bit's name, then the rest. */
  lemma SetNamesStep(m: Mask, from: nat, i: nat, tail: seq<string>)
    requires i < |VALUES| && NextSetBit(m, from) == i
    requires SetNames(m, i + 1) == Ok(tail)
    ensures SetNames(m, from) == Ok([Name(VALUES[i])] + tail)
  {
  }

  /** A set built from an increasing list of types collects exactly those
      types' names, in that order. */
  lemma SetNamesOfTypes(cts: seq<ComponentType>)
    requires Increasing(cts)
    ensures SetNames(FromTypes(cts), 0) == Ok(TypeNames(cts))
  {
    SetNamesLists(FromTypes(cts), 0, cts);
  }

  /** Each name followed by a space, as the string builder collects them. */
  function Spaced(names: seq<string>): (s: string)
    ensures |names| > 0 ==> |s| > 0 && s[|s| - 1] == ' '
  {
    if |names| == 0 then "" else names[0] + " " + Spaced(names[1..])
  }

  /** `toString()`: "Empty" for the empty set, otherwise the names of the
      enabled types with the builder's trailing space removed. */
  function ToString(m: Mask): (r: Result<string, Error>)
    ensures IsEmpty(m) ==> r == Ok("Empty")
    ensures r.Err? <==> exists i :: Has(m, i) && i >= |VALUES|
  {
    if IsEmpty(m) then Ok("Empty")
    else
      var names := SetNames(m, 0);
      if names.Err? then Err(names.error)
      else
        var s := Spaced(names.value);
        Ok(s[..|s| - 1])
  }

  /** A set built from a non-empty increasing list of types prints as
      those types' names, in that order, separated by single spaces. */
  lemma ToStringOfTypes(cts: seq<ComponentType>)
    requires Increasing(cts) && |cts| > 0
    ensures ToString(FromTypes(cts)) == Ok(Join(TypeNames(cts), ' '))
  {
    FromTypesNotEmpty(cts);
    SetNamesOfTypes(cts);
    ToStringOfNames(FromTypes(cts), TypeNames(cts));
  }

  /** A set built from a non-empty list of types is not empty. */
  lemma FromTypesNotEmpty(cts: seq<ComponentType>)
    requires |cts| > 0
    ensures !IsEmpty(FromTypes(cts))
  {
    assert Has(FromTypes(cts), Ordinal(cts[0]));
  }

  /** A non-empty set whose names collect without error prints as those
      names joined by single spaces. */
  lemma ToStringOfNames(m: Mask, names: seq<string>)
    requires !IsEmpty(m) && |names| > 0
    requires SetNames(m, 0) == Ok(names)
    ensures ToString(m) == Ok(Join(names, ' '))
  {
    SpacedIsJoin(names);
    var s := Spaced(names);
    assert s[..|s| - 1] == Join(names, ' ');
  }

  lemma {:induction false} SpacedIsJoin(names: seq<string>)
    requires |names| > 0
    ensures Spaced(names) == Join(names, ' ') + " "
  {
    if |names| > 1 {
      SpacedIsJoin(names[1..]);
    }
  }

  /** A non-empty set prints as its type names joined by single spaces,
      and splitting the text at spaces gives those names back. */
  lemma ToStringSplits(m: Mask)
    requires !IsEmpty(m) && ToString(m).Ok?
    ensures SetNames(m, 0).Ok? && |SetNames(m, 0).value| > 0
    ensures ToString(m).value == Join(SetNames(m, 0).value, ' ')
    ensures Split(ToString(m).value, ' ') == SetNames(m, 0).value
  {
    var names := SetNames(m, 0).value;
    var i := NextSetBit(m, 0);
    assert |names| > 0;
    SpacedIsJoin(names);
    var s := Spaced(names);
    assert s[..|s| - 1] == Join(names, ' ');
    SplitJoin(names, ' ');
  }
}

=== FILE: dataset_manager_window.dfy ===
/** The data-keeping parts of `gaiasky.interafce.DatasetManagerWindow`:
    the dataset type weights and icons, the grouping of local datasets into
    types sorted by weight, enabling and disabling a catalog, the update
    counter kept after a successful update, and the selection reset. The
    dialog widgets, downloads and file-system scans are not modelled. */
module DatasetManagerWindow {
  import opened Wrappers

  // ---------------------------------------------------------------------
  // Types, weights and icons

  /** `getTypeWeight`: the rank of a dataset type in the list; unknown types
      go last. A null type is not modelled (the string switch throws). */
  function TypeWeight(t: string): (w: int)
    ensures 0 <= w <= 10 && w != 7 && w != 9
    ensures w == 10 <==> t !in KNOWN_TYPES
    ensures forall i :: 0 <= i < |KNOWN_TYPES| && t == KNOWN_TYPES[i] ==> w == if i < 7 then i else 8
  {
    match t
    case "catalog-lod" => 0
    case "catalog-gaia" => 1
    case "catalog-star" => 2
    case "catalog-gal" => 3
    case "catalog-cluster" => 4
    case "catalog-other" => 5
    case "mesh" => 6
    case "other" => 8
    case _ => 10
  }

  /** The types the weight switch knows, in rank order. */
  const KNOWN_TYPES: seq<string> :=
    ["catalog-lod", "catalog-gaia", "catalog-star", "catalog-gal", "catalog-cluster",
     "catalog-other", "mesh", "other"]

  /** Different known types never share a weight, so the order among them
      is fixed. */
  lemma KnownWeightsDistinct(a: string, b: string)
    requires a in KNOWN_TYPES && b in KNOWN_TYPES && a != b
    ensures TypeWeight(a) != TypeWeight(b)
  {
    var i :| 0 <= i < |KNOWN_TYPES| && KNOWN_TYPES[i] == a;
    var j :| 0 <= j < |KNOWN_TYPES| && KNOWN_TYPES[j] == b;
    assert i != j;
  }

  const OTHERS_ICON: string := "icon-elem-others"

  /** `getIcon`: the icon of a mapped type; null and unmapped types get the
      generic icon. */
  function Icon(t: Option<string>): (r: string)
    ensures t.None? ==> r == OTHERS_ICON
    ensures t.Some? && t.value in ["catalog-lod", "catalog-gaia", "catalog-star"] ==> r == "icon-elem-stars"
    ensures t.Some? && t.value in ["other", "data-pack", "catalog-other"] ==> r == OTHERS_ICON
    ensures t.Some? && t.value !in KNOWN_TYPES && t.value !in ["data-pack", "texture-pack"] ==> r == OTHERS_ICON
  {
    if t.None? then OTHERS_ICON
    else
      match t.value
      case "other" => OTHERS_ICON
      case "data-pack" => OTHERS_ICON
      case "catalog-lod" => "icon-elem-stars"
      case "catalog-gaia" => "icon-elem-stars"
      case "catalog-star" => "icon-elem-stars"
      case "catalog-gal" => "icon-elem-galaxies"
      case "catalog-cluster" => "icon-elem-clusters"
      case "catalog-other" => OTHERS_ICON
      case "mesh" => "icon-elem-meshes"
      case "texture-pack" => "icon-elem-moons"
      case _ => OTHERS_ICON
  }

  /** The icon map and the weight switch disagree on two types: data packs
      and texture packs have icons of their own kind but the weight of an
      unknown type. */
  lemma PacksRankAsUnknown()
    ensures TypeWeight("texture-pack") == 10 && Icon(Some("texture-pack")) != OTHERS_ICON
    ensures TypeWeight("data-pack") == 10
  {
  }

  // ---------------------------------------------------------------------
  // Local dataset types

  predicate Distinct(s: seq<string>) {
    forall i, j :: 0 <= i < j < |s| ==> s[i] != s[j]
  }

  /** The `typeMap`/`types` pair of the local-catalog loop: one entry per
      dataset type, in order of first appearance. */
  function GroupTypes(ts: seq<string>): (r: seq<string>)
    ensures Distinct(r)
    ensures forall t :: t in r <==> t in ts
    ensures |r| <= |ts|
  {
    if |ts| == 0 then []
    else
      var p := GroupTypes(ts[..|ts| - 1]);
      var last := ts[|ts| - 1];
      assert forall t :: t in ts <==> t in ts[..|ts| - 1] || t == last by {
        assert ts == ts[..|ts| - 1] + [last];
      }
      if last in p then p else p + [last]
  }

  predicate SortedByWeight(s: seq<string>) {
    forall i, j :: 0 <= i < j < |s| ==> TypeWeight(s[i]) <= TypeWeight(s[j])
  }

  /** Places `x` after every element of weight up to its own. */
  function Insert(x: string, s: seq<string>): (r: seq<string>)
    requires SortedByWeight(s)
    ensures SortedByWeight(r)
    ensures multiset(r) == multiset(s) + multiset{x}
  {
    if |s| == 0 then [x]
    else if TypeWeight(x) < TypeWeight(s[0]) then [x] + s
    else
      var rest := Insert(x, s[1..]);
      InsertHead(x, s, rest);
      [s[0]] + rest
  }

  lemma InsertHead(x: string, s: seq<string>, rest: seq<string>)
    requires |s| > 0 && SortedByWeight(s) && TypeWeight(s[0]) <= TypeWeight(x)
    requires SortedByWeight(rest) && multiset(rest) == multiset(s[1..]) + multiset{x}
    ensures SortedByWeight([s[0]] + rest)
    ensures multiset([s[0]] + rest) == multiset(s) + multiset{x}
  {
    assert s == [s[0]] + s[1..];
    forall k | 0 <= k < |rest| ensures TypeWeight(s[0]) <= TypeWeight(rest[k]) {
      assert rest[k] in multiset(rest);
      if rest[k] != x {
        assert rest[k] in multiset(s[1..]);
        var m :| 0 <= m < |s[1..]| && s[1..][m] == rest[k];
        assert s[m + 1] == rest[k];
      }
    }
    var r := [s[0]] + rest;
    forall i, j | 0 <= i < j < |r| ensures TypeWeight(r[i]) <= TypeWeight(r[j]) {
      if i > 0 {
        assert r[i] == rest[i - 1] && r[j] == rest[j - 1];
      } else {
        assert r[j] == rest[j - 1];
      }
    }
  }

  /** `types.sort(byType)`: a stable sort by weight (`List.sort` is stable). */
  function SortByWeight(s: seq<string>): (r: seq<string>)
    ensures SortedByWeight(r)
    ensures multiset(r) == multiset(s)
  {
    if |s| == 0 then []
    else
      assert s == s[..|s| - 1] + [s[|s| - 1]];
      Insert(s[|s| - 1], SortByWeight(s[..|s| - 1]))
  }

  /** The elements of weight `w`, in order. */
  function OfWeight(s: seq<string>, w: int): seq<string> {
    if |s| == 0 then []
    else (if TypeWeight(s[0]) == w then [s[0]] else []) + OfWeight(s[1..], w)
  }

  lemma {:induction false} OfWeightAppend(a: seq<string>, b: seq<string>, w: int)
    ensures OfWeight(a + b, w) == OfWeight(a, w) + OfWeight(b, w)
  {
    if |a| == 0 {
      assert a + b == b;
    } else {
      assert (a + b)[1..] == a[1..] + b;
      OfWeightAppend(a[1..], b, w);
    }
  }

  lemma {:induction false} OfWeightNone(s: seq<string>, w: int)
    requires forall k :: 0 <= k < |s| ==> TypeWeight(s[k]) > w
    ensures OfWeight(s, w) == []
  {
    if |s| > 0 {
      OfWeightNone(s[1..], w);
    }
  }

  lemma OfWeightSingle(x: string, w: int)
    ensures OfWeight([x], w) == if TypeWeight(x) == w then [x] else []
  {
    assert [x][1..] == [];
  }

  lemma {:induction false} InsertStable(x: string, s: seq<string>, w: int)
    requires SortedByWeight(s)
    ensures OfWeight(Insert(x, s), w) == OfWeight(s, w) + OfWeight([x], w)
  {
    if |s| == 0 {
      assert Insert(x, s) == [x];
    } else if TypeWeight(x) < TypeWeight(s[0]) {
      InsertFrontStable(x, s, w);
    } else {
      InsertStable(x, s[1..], w);
      assert Insert(x, s) == [s[0]] + Insert(x, s[1..]);
      ConsStable(s[0], s[1..], Insert(x, s[1..]), x, w);
      assert [s[0]] + s[1..] == s;
    }
  }

  /** An element lighter than the head goes first, and is the last of its
      weight. */
  lemma InsertFrontStable(x: string, s: seq<string>, w: int)
    requires SortedByWeight(s) && |s| > 0 && TypeWeight(x) < TypeWeight(s[0])
    ensures OfWeight(Insert(x, s), w) == OfWeight(s, w) + OfWeight([x], w)
  {
    OfWeightSingle(x, w);
    assert Insert(x, s) == [x] + s;
    OfWeightAppend([x], s, w);
    if TypeWeight(x) == w {
      assert forall k :: 0 <= k < |s| ==> TypeWeight(s[k]) > w by {
        forall k | 0 <= k < |s| ensures TypeWeight(s[k]) > w {
          assert k == 0 || TypeWeight(s[0]) <= TypeWeight(s[k]);
        }
      }
      OfWeightNone(s, w);
    }
  }

  /** Putting the same head before two lists keeps an equation between
      their elements of one weight. */
  lemma ConsStable(h: string, t: seq<string>, rest: seq<string>, x: string, w: int)
    requires OfWeight(rest, w) == OfWeight(t, w) + OfWeight([x], w)
    ensures OfWeight([h] + rest, w) == OfWeight([h] + t, w) + OfWeight([x], w)
  {
    var hw := OfWeight([h], w);
    OfWeightAppend([h], rest, w);
    OfWeightAppend([h], t, w);
    ConcatAssoc(hw, OfWeight(t, w), OfWeight([x], w));
  }

  lemma ConcatAssoc(a: seq<string>, b: seq<string>, c: seq<string>)
    ensures a + (b + c) == (a + b) + c
  {
  }

  /** Sorting is stable: the types of each weight keep their order. */
  lemma {:induction false} SortStable(s: seq<string>, w: int)
    ensures OfWeight(SortByWeight(s), w) == OfWeight(s, w)
  {
    if |s| > 0 {
      var p := s[..|s| - 1];
      var x := s[|s| - 1];
      SortStable(p, w);
      InsertStable(x, SortByWeight(p), w);
      OfWeightAppend(p, [x], w);
      DropLast(s);
    }
  }

  lemma DropLast(s: seq<string>)
    requires |s| > 0
    ensures s[..|s| - 1] + [s[|s| - 1]] == s
  {
  }

  /** The local dataset types as listed: each type once, known types first
      in their fixed rank order, unknown types last in order of first
      appearance. */
  function LocalTypes(datasetTypes: seq<string>): (r: seq<string>)
    ensures SortedByWeight(r) && Distinct(r)
    ensures forall t :: t in r <==> t in datasetTypes
  {
    var g := GroupTypes(datasetTypes);
    var r := SortByWeight(g);
    assert forall t :: t in r <==> t in g by {
      forall t ensures t in r <==> t in g {
        assert t in r <==> t in multiset(r);
      }
    }
    SortKeepsDistinct(g, r);
    r
  }

  lemma SortKeepsDistinct(g: seq<string>, r: seq<string>)
    requires Distinct(g) && multiset(r) == multiset(g)
    ensures Distinct(r)
  {
    forall i, j | 0 <= i < j < |r| ensures r[i] != r[j] {
      if r[i] == r[j] {
        assert multiset(r)[r[i]] >= 2 by {
          assert r == r[..i] + [r[i]] + r[i + 1..j] + [r[j]] + r[j + 1..];
        }
        DistinctMultiplicity(g, r[i]);
        assert false;
      }
    }
  }

  lemma {:induction false} DistinctMultiplicity(g: seq<string>, t: string)
    requires Distinct(g)
    ensures multiset(g)[t] <= 1
  {
    if |g| > 0 {
      assert g == [g[0]] + g[1..];
      DistinctMultiplicity(g[1..], t);
      if g[0] == t {
        assert t !in g[1..];
      }
    }
  }

  // ---------------------------------------------------------------------
  // Enabling and disabling catalogs

  /** `actionEnableDataset`: the catalog path is appended to the enabled
      catalog files unless it is already there. */
  function Enable(files: seq<string>, path: string): (r: seq<string>)
    ensures path in r
    ensures path in files ==> r == files
    ensures path !in files ==> r == files + [path]
  {
    if path in files then files else files + [path]
  }

  /** The position of the first occurrence of `path`, or the length when
      there is none. */
  function FirstIndex(files: seq<string>, path: string): (i: nat)
    ensures i <= |files|
    ensures i < |files| ==> files[i] == path
    ensures forall j :: 0 <= j < i ==> files[j] != path
  {
    if |files| == 0 then 0
    else if files[0] == path then 0
    else 1 + FirstIndex(files[1..], path)
  }

  /** `actionDisableDataset`: `List.remove` takes out the first occurrence,
      and leaves a list without the path unchanged. */
  function Disable(files: seq<string>, path: string): (r: seq<string>)
    ensures path !in files ==> r == files
    ensures var i := FirstIndex(files, path); i < |files| ==> r == files[..i] + files[i + 1..]
  {
    if |files| == 0 then []
    else if files[0] == path then
      assert files[1..] == files[..0] + files[0 + 1..];
      files[1..]
    else
      var rest := Disable(files[1..], path);
      DisableStep(files, path, rest);
      [files[0]] + rest
  }

  /** Removing from the tail removes from the list when the head differs. */
  lemma DisableStep(files: seq<string>, path: string, rest: seq<string>)
    requires |files| > 0 && files[0] != path
    requires path !in files[1..] ==> rest == files[1..]
    requires var k := FirstIndex(files[1..], path); k < |files[1..]| ==> rest == files[1..][..k] + files[1..][k + 1..]
    ensures path !in files ==> [files[0]] + rest == files
    ensures var i := FirstIndex(files, path); i < |files| ==> [files[0]] + rest == files[..i] + files[i + 1..]
  {
    var h, t := files[0], files[1..];
    assert files == [h] + t;
    var k := FirstIndex(t, path);
    assert FirstIndex(files, path) == k + 1;
    if k < |t| {
      assert files[..k + 1] == [h] + t[..k];
      assert files[k + 1 + 1..] == t[k + 1..];
    } else {
      assert path !in t;
    }
  }

  /** Enabling a catalog that was disabled and disabling it again gives back
      the same list. */
  lemma EnableDisable(files: seq<string>, path: string)
    requires path !in files
    ensures Disable(Enable(files, path), path) == files
  {
    var f := files + [path];
    var i := FirstIndex(f, path);
    assert f[|files|] == path;
    assert i == |files|;
    assert f[..i] == files && f[i + 1..] == [];
  }

  /** On a list without repeats (which enabling alone builds), disabling
      leaves the catalog disabled and enabling keeps the list without
      repeats. */
  lemma DisableRemoves(files: seq<string>, path: string)
    requires Distinct(files)
    ensures path !in Disable(files, path)
    ensures Distinct(Enable(files, path))
  {
    var i := FirstIndex(files, path);
    if i < |files| {
      assert path !in files[i + 1..] by {
        forall j | i + 1 <= j < |files| ensures files[j] != path {
          assert files[j] != files[i];
        }
      }
    }
  }

  // ---------------------------------------------------------------------
  // Update counter

  /** The server descriptor's counter of outdated datasets. */
  datatype Counter = Counter(numUpdates: int, updatesAvailable: bool)

  /** A dataset's server-side twin. */
  datatype Remote = Remote(outdated: bool, myVersion: int, serverVersion: int)

  datatype Dataset = Dataset(outdated: bool, myVersion: int, serverVersion: int, server: Option<Remote>)

  /** The success callback of `actionUpdateDataset`: the dataset is no
      longer outdated and is now at the server version; when it has a server
      twin the twin is updated too and the counter (if any) drops by one,
      never below zero, with the flag recomputed from it. */
  function UpdateSucceeded(d: Dataset, serverDd: Option<Counter>): (r: (Dataset, Option<Counter>))
    ensures !r.0.outdated && r.0.server.Some? == d.server.Some?
    ensures d.server.Some? ==>
              r.0.myVersion == d.server.value.serverVersion &&
              r.0.server.value == d.server.value.(outdated := false, myVersion := d.server.value.serverVersion)
    ensures d.server.None? ==> r.0.myVersion == d.serverVersion && r.1 == serverDd
    ensures r.1.Some? == serverDd.Some?
    ensures d.server.Some? && serverDd.Some? ==>
              r.1.value.numUpdates == (if serverDd.value.numUpdates > 0 then serverDd.value.numUpdates - 1 else 0) &&
              (r.1.value.updatesAvailable <==> r.1.value.numUpdates > 0)
  {
    match d.server
    case None => (d.(outdated := false, myVersion := d.serverVersion), serverDd)
    case Some(s) =>
      var s' := s.(outdated := false, myVersion := s.serverVersion);
      var d' := d.(outdated := false, server := Some(s'), myVersion := s.serverVersion);
      var c := match serverDd
               case None => None
               case Some(c) =>
                 var n := if c.numUpdates - 1 > 0 then c.numUpdates - 1 else 0;
                 Some(Counter(n, n > 0));
      (d', c)
  }

  /** Counting down: after `k` successful updates of server-backed datasets
      the counter is `max(n - k, 0)` and the flag says whether any remain. */
  function UpdateMany(c: Counter, ds: seq<Dataset>): Counter
    decreases |ds|
  {
    if |ds| == 0 then c
    else UpdateMany(UpdateSucceeded(ds[0], Some(c)).1.value, ds[1..])
  }

  lemma {:induction false} UpdatesCountDown(c: Counter, ds: seq<Dataset>)
    requires c.numUpdates >= 0 && |ds| > 0
    requires forall i :: 0 <= i < |ds| ==> ds[i].server.Some?
    ensures var r := UpdateMany(c, ds);
            r.numUpdates == (if c.numUpdates > |ds| then c.numUpdates - |ds| else 0) &&
            (r.updatesAvailable <==> r.numUpdates > 0)
    decreases |ds|
  {
    var c' := UpdateSucceeded(ds[0], Some(c)).1.value;
    if |ds| > 1 {
      UpdatesCountDown(c', ds[1..]);
    }
  }

  // ---------------------------------------------------------------------
  // Selection

  /** `selectedDataset` (server and local tab) and the two scroll positions
      of each tab. */
  datatype Selection<D> = Selection(selected: seq<Option<D>>, scroll: seq<seq<real>>)

  /** `resetSelectedDataset`: both selections cleared and every scroll
      position back to zero. */
  function ResetSelectedDataset<D>(s: Selection<D>): (r: Selection<D>)
    ensures |r.selected| == 2 && forall i :: 0 <= i < 2 ==> r.selected[i].None?
    ensures |r.scroll| == 2 && forall i :: 0 <= i < 2 ==> |r.scroll[i]| == 2
    ensures forall i, j :: 0 <= i < 2 && 0 <= j < 2 ==> r.scroll[i][j] == 0.0
  {
    Selection([None, None], [[0.0, 0.0], [0.0, 0.0]])
  }
}

=== FILE: event_manager.dfy ===
/** The observer registry and delayed-message queues of
    `gaiasky.event.EventManager`. Observers are numbered; observer `SELF` is the
    manager itself, which listens for the time-frame command. Subscriber sets
    are `LinkedHashSet`s: duplicate-free sequences in insertion order. */
module EventManager {
  type Observer = nat

  /** The event type. Only the time-frame command matters to the manager;
      every other event is known by its ordinal. */
  datatype Event = TimeFrameCmd | Ev(ordinal: nat)

  datatype TimeFrame = RealTime | SimulationTime

  /** One element of a message's data array. */
  datatype Datum = FrameDatum(frame: TimeFrame) | Opaque(code: int)

  /** A queued message due at `timestamp` (milliseconds in its time frame). */
  datatype Telegram = Telegram(event: Event, data: seq<Datum>, timestamp: int)

  /** One call `observer.notify(event, data)`. */
  datatype Delivery = Delivery(observer: Observer, event: Event, data: seq<Datum>)

  /** The current time of each frame, read from the clocks outside. */
  datatype Clock = Clock(realMs: int, simMs: int)

  datatype Manager = Manager(
    subscriptions: map<Event, seq<Observer>>,
    realQueue: seq<Telegram>,
    simQueue: seq<Telegram>,
    defaultFrame: TimeFrame)

  /** The outcome of a post: who was notified, and the manager afterwards. */
  datatype Posted = Posted(deliveries: seq<Delivery>, next: Manager)

  const SELF: Observer := 0

  function Now(c: Clock, f: TimeFrame): int {
    match f
    case RealTime => c.realMs
    case SimulationTime => c.simMs
  }

  function Queue(m: Manager, f: TimeFrame): seq<Telegram> {
    match f
    case RealTime => m.realQueue
    case SimulationTime => m.simQueue
  }

  function WithQueue(m: Manager, f: TimeFrame, q: seq<Telegram>): (r: Manager)
    ensures Queue(r, f) == q
    ensures forall g :: g != f ==> Queue(r, g) == Queue(m, g)
    ensures r.subscriptions == m.subscriptions && r.defaultFrame == m.defaultFrame
  {
    match f
    case RealTime => m.(realQueue := q)
    case SimulationTime => m.(simQueue := q)
  }

  // ---------------------------------------------------------------------
  // Sequences as ordered sets

  predicate NoDup(s: seq<Observer>) {
    forall i, j :: 0 <= i < j < |s| ==> s[i] != s[j]
  }

  /** `s` without every element of `xs`, order kept. */
  function Without(s: seq<Observer>, xs: seq<Observer>): (r: seq<Observer>)
    ensures forall y :: y in r <==> y in s && y !in xs
    ensures |r| <= |s|
    ensures NoDup(s) ==> NoDup(r)
    ensures (forall y :: y in s ==> y !in xs) ==> r == s
  {
    if |s| == 0 then []
    else if s[0] in xs then Without(s[1..], xs)
    else [s[0]] + Without(s[1..], xs)
  }

  /** Well-formedness: subscriber sets without duplicates and both queues in
      timestamp order. */
  predicate SortedQueue(q: seq<Telegram>) {
    forall i, j :: 0 <= i < j < |q| ==> q[i].timestamp <= q[j].timestamp
  }

  predicate Valid(m: Manager) {
    (forall e :: e in m.subscriptions ==> NoDup(m.subscriptions[e]))
    && SortedQueue(m.realQueue) && SortedQueue(m.simQueue)
  }

  /** The constructor: empty queues, real time by default, and the manager
      subscribed to the time-frame command. */
  function Create(): (m: Manager)
    ensures Valid(m)
    ensures m.defaultFrame == RealTime && m.realQueue == [] && m.simQueue == []
    ensures IsSubscribedTo(m, SELF, TimeFrameCmd)
    ensures forall o, e :: IsSubscribedTo(m, o, e) ==> o == SELF && e == TimeFrameCmd
  {
    Manager(map[TimeFrameCmd := [SELF]], [], [], RealTime)
  }

  // ---------------------------------------------------------------------
  // Subscriptions

  /** `isSubscribedTo`: the observer is among the event's subscribers, so
      the event has some. */
  function IsSubscribedTo(m: Manager, o: Observer, e: Event): (r: bool)
    ensures r <==> o in Subscribers(m, e)
    ensures r ==> HasSubscribers(m, e)
  {
    e in m.subscriptions && o in m.subscriptions[e]
  }

  /** `hasSubscriptors`: the event's subscriber list is not empty. */
  function HasSubscribers(m: Manager, e: Event): (r: bool)
    ensures r <==> |Subscribers(m, e)| > 0
  {
    e in m.subscriptions && |m.subscriptions[e]| > 0
  }

  /** The observers of an event in notification order. */
  function Subscribers(m: Manager, e: Event): seq<Observer> {
    if e in m.subscriptions then m.subscriptions[e] else []
  }

  /** `subscribe(listener, msg)`: adds the observer at the end of the event's
      set unless it is already there. */
  function Subscribe(m: Manager, o: Observer, e: Event): (r: Manager)
    requires Valid(m)
    ensures Valid(r)
    ensures Subscribers(r, e) == if o in Subscribers(m, e) then Subscribers(m, e) else Subscribers(m, e) + [o]
    ensures forall e' :: e' != e ==> Subscribers(r, e') == Subscribers(m, e')
    ensures r.realQueue == m.realQueue && r.simQueue == m.simQueue && r.defaultFrame == m.defaultFrame
  {
    var old_ := Subscribers(m, e);
    var s := if o in old_ then old_ else old_ + [o];
    m.(subscriptions := m.subscriptions[e := s])
  }

  /** `subscribe(observer, events...)`. */
  function SubscribeAll(m: Manager, o: Observer, es: seq<Event>): (r: Manager)
    requires Valid(m)
    ensures Valid(r)
    ensures forall e :: e in es ==> IsSubscribedTo(r, o, e)
    ensures forall o', e :: IsSubscribedTo(r, o', e) <==> IsSubscribedTo(m, o', e) || (o' == o && e in es)
    decreases |es|
  {
    if |es| == 0 then m
    else SubscribeAll(Subscribe(m, o, es[0]), o, es[1..])
  }

  /** `unsubscribe(listener, event)`: an event without a set is left alone. */
  function Unsubscribe(m: Manager, o: Observer, e: Event): (r: Manager)
    requires Valid(m)
    ensures Valid(r)
    ensures forall o', e' :: IsSubscribedTo(r, o', e') <==> IsSubscribedTo(m, o', e') && !(o' == o && e' == e)
    ensures e !in m.subscriptions ==> r == m
    ensures r.realQueue == m.realQueue && r.simQueue == m.simQueue && r.defaultFrame == m.defaultFrame
  {
    if e in m.subscriptions then
      m.(subscriptions := m.subscriptions[e := Without(m.subscriptions[e], [o])])
    else m
  }

  /** `removeAllSubscriptions(listeners...)`: every event keeps its other
      observers. */
  function RemoveAllSubscriptions(m: Manager, os: seq<Observer>): (r: Manager)
    requires Valid(m)
    ensures Valid(r)
    ensures forall o, e :: IsSubscribedTo(r, o, e) <==> IsSubscribedTo(m, o, e) && o !in os
    ensures r.realQueue == m.realQueue && r.simQueue == m.simQueue && r.defaultFrame == m.defaultFrame
  {
    m.(subscriptions := map e | e in m.subscriptions :: Without(m.subscriptions[e], os))
  }

  /** `clearSubscriptions(msg)`: forgets one event's observers only. */
  function ClearSubscriptions(m: Manager, e: Event): (r: Manager)
    requires Valid(m)
    ensures Valid(r)
    ensures !HasSubscribers(r, e)
    ensures forall o, e' :: e' != e ==> (IsSubscribedTo(r, o, e') <==> IsSubscribedTo(m, o, e'))
  {
    m.(subscriptions := m.subscriptions - {e})
  }

  /** `clearAllSubscriptions`. */
  function ClearAllSubscriptions(m: Manager): (r: Manager)
    requires Valid(m)
    ensures Valid(r)
    ensures forall o, e :: !IsSubscribedTo(r, o, e)
  {
    m.(subscriptions := map[])
  }

  // ---------------------------------------------------------------------
  // Posting

  /** The manager's own `notify`: a time-frame command makes its first datum
      the default time frame; the command is always sent with one. */
  function Notify(m: Manager, e: Event, data: seq<Datum>): (r: Manager)
    requires e == TimeFrameCmd ==> |data| > 0 && data[0].FrameDatum?
    ensures e == TimeFrameCmd ==> r == m.(defaultFrame := data[0].frame)
    ensures e != TimeFrameCmd ==> r == m
  {
    if e == TimeFrameCmd then m.(defaultFrame := data[0].frame) else m
  }

  /** Delivers one message to each observer in `os`, in order. Other
      observers' reactions are outside this model; the manager's own one is
      applied. */
  function Deliver(m: Manager, os: seq<Observer>, e: Event, data: seq<Datum>): (p: Posted)
    requires e == TimeFrameCmd ==> |data| > 0 && data[0].FrameDatum?
    ensures |p.deliveries| == |os|
    ensures forall i :: 0 <= i < |os| ==> p.deliveries[i] == Delivery(os[i], e, data)
    ensures p.next == if SELF in os then Notify(m, e, data) else m
    decreases |os|
  {
    if |os| == 0 then Posted([], m)
    else
      var m' := if os[0] == SELF then Notify(m, e, data) else m;
      var rest := Deliver(m', os[1..], e, data);
      Posted([Delivery(os[0], e, data)] + rest.deliveries, rest.next)
  }

  /** `post(event, data...)`: notifies exactly the current subscribers of the
      event, in insertion order. */
  function Post(m: Manager, e: Event, data: seq<Datum>): (p: Posted)
    requires Valid(m)
    requires e == TimeFrameCmd ==> |data| > 0 && data[0].FrameDatum?
    ensures Valid(p.next)
    ensures |p.deliveries| == |Subscribers(m, e)|
    ensures forall i :: 0 <= i < |p.deliveries| ==>
      p.deliveries[i] == Delivery(Subscribers(m, e)[i], e, data)
    ensures p.next.subscriptions == m.subscriptions
    ensures p.next.realQueue == m.realQueue && p.next.simQueue == m.simQueue
    ensures e != TimeFrameCmd ==> p.next == m
  {
    Deliver(m, Subscribers(m, e), e, data)
  }

  /** Where a new telegram goes: in front of the first one due strictly later. */
  function InsertPos(q: seq<Telegram>, t: Telegram): (k: nat)
    ensures k <= |q|
    ensures forall i :: 0 <= i < k ==> q[i].timestamp <= t.timestamp
    ensures k < |q| ==> q[k].timestamp > t.timestamp
  {
    if |q| == 0 || q[0].timestamp > t.timestamp then 0 else 1 + InsertPos(q[1..], t)
  }

  /** Inserts a telegram behind every one due no later than it. */
  function Enqueue(q: seq<Telegram>, t: Telegram): (r: seq<Telegram>)
    requires SortedQueue(q)
    ensures SortedQueue(r)
    ensures multiset(r) == multiset(q) + multiset{t}
  {
    var k := InsertPos(q, t);
    InsertedSorted(q, k, t);
    InsertedMultiset(q, k, t);
    q[..k] + [t] + q[k..]
  }

  /** The element at each position of `q` with `t` inserted at `k`. */
  lemma InsertedAt(q: seq<Telegram>, k: nat, t: Telegram, i: nat)
    requires k <= |q| && i <= |q|
    ensures (q[..k] + [t] + q[k..])[i] == if i < k then q[i] else if i == k then t else q[i - 1]
  {
  }

  /** Inserting a telegram between the ones due no later and the ones due
      later keeps the queue sorted. */
  lemma InsertedSorted(q: seq<Telegram>, k: nat, t: Telegram)
    requires SortedQueue(q) && k <= |q|
    requires forall i :: 0 <= i < k ==> q[i].timestamp <= t.timestamp
    requires k < |q| ==> q[k].timestamp > t.timestamp
    ensures SortedQueue(q[..k] + [t] + q[k..])
  {
    var r := q[..k] + [t] + q[k..];
    forall i, j | 0 <= i < j < |r| ensures r[i].timestamp <= r[j].timestamp {
      InsertedAt(q, k, t, i);
      InsertedAt(q, k, t, j);
      if i == k && j > k {
        assert q[k].timestamp <= q[j - 1].timestamp;
      }
    }
  }

  lemma InsertedMultiset(q: seq<Telegram>, k: nat, t: Telegram)
    requires k <= |q|
    ensures multiset(q[..k] + [t] + q[k..]) == multiset(q) + multiset{t}
  {
    assert q == q[..k] + q[k..];
  }

  /** `postDelayed(event, delay, frame, data...)`: a delay of at most zero
      posts at once, a positive one queues the message in that frame, due at
      the frame's current time plus the delay. */
  function PostDelayedIn(m: Manager, e: Event, delayMs: int, f: TimeFrame, data: seq<Datum>, clock: Clock): (p: Posted)
    requires Valid(m)
    requires e == TimeFrameCmd ==> |data| > 0 && data[0].FrameDatum?
    ensures Valid(p.next)
    ensures delayMs <= 0 ==> p == Post(m, e, data)
    ensures delayMs > 0 ==> p.deliveries == []
    ensures delayMs > 0 ==>
      multiset(Queue(p.next, f)) == multiset(Queue(m, f)) + multiset{Telegram(e, data, Now(clock, f) + delayMs)}
    ensures delayMs > 0 ==> forall g :: g != f ==> Queue(p.next, g) == Queue(m, g)
    ensures delayMs > 0 ==> p.next.subscriptions == m.subscriptions && p.next.defaultFrame == m.defaultFrame
  {
    if delayMs <= 0 then Post(m, e, data)
    else
      var t := Telegram(e, data, Now(clock, f) + delayMs);
      Posted([], WithQueue(m, f, Enqueue(Queue(m, f), t)))
  }

  /** `postDelayed(event, delay, data...)`: the same in the default frame. */
  function PostDelayed(m: Manager, e: Event, delayMs: int, data: seq<Datum>, clock: Clock): (p: Posted)
    requires Valid(m)
    requires e == TimeFrameCmd ==> |data| > 0 && data[0].FrameDatum?
    ensures p == PostDelayedIn(m, e, delayMs, m.defaultFrame, data, clock)
  {
    PostDelayedIn(m, e, delayMs, m.defaultFrame, data, clock)
  }

  // ---------------------------------------------------------------------
  // Dispatching

  /** The messages that are due: the longest prefix of a queue stamped no later
      than `now`. */
  function DueCount(q: seq<Telegram>, now: int): (n: nat)
    ensures n <= |q|
    ensures forall i :: 0 <= i < n ==> q[i].timestamp <= now
    ensures n < |q| ==> q[n].timestamp > now
  {
    if |q| == 0 || q[0].timestamp > now then 0 else 1 + DueCount(q[1..], now)
  }

  /** Every telegram in the queue carries data fit for its event. */
  predicate WellFormedTelegrams(q: seq<Telegram>) {
    forall i :: 0 <= i < |q| ==> (q[i].event == TimeFrameCmd ==> |q[i].data| > 0 && q[i].data[0].FrameDatum?)
  }

  /** Posts the telegrams of `q` one after another. */
  function PostAll(m: Manager, q: seq<Telegram>): (p: Posted)
    requires Valid(m) && WellFormedTelegrams(q)
    ensures Valid(p.next)
    ensures p.next.subscriptions == m.subscriptions
    ensures p.next.realQueue == m.realQueue && p.next.simQueue == m.simQueue
    ensures (forall i :: 0 <= i < |q| ==> q[i].event != TimeFrameCmd) ==> p.next == m
    decreases |q|
  {
    if |q| == 0 then Posted([], m)
    else
      var first := Post(m, q[0].event, q[0].data);
      var rest := PostAll(first.next, q[1..]);
      Posted(first.deliveries + rest.deliveries, rest.next)
  }

  /** `dispatch(queue, currentTime)`: posts and removes every due telegram
      from the front of one frame's queue, stopping at the first future one. */
  function Dispatch(m: Manager, f: TimeFrame, now: int): (p: Posted)
    requires Valid(m) && WellFormedTelegrams(Queue(m, f))
    ensures Valid(p.next)
    ensures Queue(p.next, f) == Queue(m, f)[DueCount(Queue(m, f), now)..]
    ensures p.deliveries == PostAll(m, Queue(m, f)[..DueCount(Queue(m, f), now)]).deliveries
    ensures forall g :: g != f ==> Queue(p.next, g) == Queue(m, g)
  {
    var q := Queue(m, f);
    var n := DueCount(q, now);
    var m' := WithQueue(m, f, q[n..]);
    PostAllIgnoresQueues(m', m, q[..n]);
    PostAll(m', q[..n])
  }

  /** What posting does depends on the subscriptions and the default frame,
      not on the queues. */
  lemma {:induction false} PostAllIgnoresQueues(m: Manager, m2: Manager, q: seq<Telegram>)
    requires Valid(m) && Valid(m2) && WellFormedTelegrams(q)
    requires m.subscriptions == m2.subscriptions && m.defaultFrame == m2.defaultFrame
    ensures PostAll(m, q).deliveries == PostAll(m2, q).deliveries
    ensures PostAll(m, q).next.defaultFrame == PostAll(m2, q).next.defaultFrame
    decreases |q|
  {
    if |q| > 0 {
      var a := Post(m, q[0].event, q[0].data);
      var b := Post(m2, q[0].event, q[0].data);
      assert Subscribers(m, q[0].event) == Subscribers(m2, q[0].event);
      assert a.deliveries == b.deliveries;
      assert a.next.defaultFrame == b.next.defaultFrame;
      assert a.next.subscriptions == b.next.subscriptions;
      PostAllIgnoresQueues(a.next, b.next, q[1..]);
      assert PostAll(m, q).deliveries == a.deliveries + PostAll(a.next, q[1..]).deliveries;
      assert PostAll(m2, q).deliveries == b.deliveries + PostAll(b.next, q[1..]).deliveries;
    }
  }

  /** `dispatchDelayedMessages`: both frames, each at its own current time. */
  function DispatchDelayedMessages(m: Manager, clock: Clock): (p: Posted)
    requires Valid(m) && WellFormedTelegrams(m.realQueue) && WellFormedTelegrams(m.simQueue)
    ensures Valid(p.next)
    ensures p.next.realQueue == m.realQueue[DueCount(m.realQueue, clock.realMs)..]
    ensures p.next.simQueue == m.simQueue[DueCount(m.simQueue, clock.simMs)..]
  {
    var a := Dispatch(m, RealTime, clock.realMs);
    var b := Dispatch(a.next, SimulationTime, clock.simMs);
    Posted(a.deliveries + b.deliveries, b.next)
  }

  // ---------------------------------------------------------------------
  // Relations between operations

  /** With nothing due at the front, dispatching delivers nothing and changes
      nothing. */
  lemma DispatchStopsAtFirstFuture(m: Manager, f: TimeFrame, now: int)
    requires Valid(m) && WellFormedTelegrams(Queue(m, f))
    requires |Queue(m, f)| == 0 || Queue(m, f)[0].timestamp > now
    ensures Dispatch(m, f, now) == Posted([], m)
  {
  }

  /** Subscribing twice is subscribing once. */
  lemma SubscribeIdempotent(m: Manager, o: Observer, e: Event)
    requires Valid(m)
    ensures Subscribe(Subscribe(m, o, e), o, e) == Subscribe(m, o, e)
  {
  }

  /** Unsubscribing undoes a subscription of a new observer. */
  lemma UnsubscribeUndoesSubscribe(m: Manager, o: Observer, e: Event, o': Observer, e': Event)
    requires Valid(m) && !IsSubscribedTo(m, o, e)
    ensures IsSubscribedTo(Unsubscribe(Subscribe(m, o, e), o, e), o', e') <==> IsSubscribedTo(m, o', e')
  {
  }

  /** A posted message reaches an observer iff it is subscribed. */
  lemma PostReachesExactlySubscribers(m: Manager, e: Event, data: seq<Datum>, o: Observer)
    requires Valid(m)
    requires e == TimeFrameCmd ==> |data| > 0 && data[0].FrameDatum?
    ensures Delivery(o, e, data) in Post(m, e, data).deliveries <==> IsSubscribedTo(m, o, e)
  {
    var p := Post(m, e, data);
    if IsSubscribedTo(m, o, e) {
      var i :| 0 <= i < |Subscribers(m, e)| && Subscribers(m, e)[i] == o;
      assert p.deliveries[i] == Delivery(o, e, data);
    }
  }

  /** A time-frame command posted through the manager changes its default
      frame as long as the manager is still subscribed to it. */
  lemma TimeFrameCommandSwitchesFrame(m: Manager, f: TimeFrame)
    requires Valid(m) && IsSubscribedTo(m, SELF, TimeFrameCmd)
    ensures Post(m, TimeFrameCmd, [FrameDatum(f)]).next.defaultFrame == f
  {
  }
}

=== FILE: event_scripting_interface.dfy ===
/** The argument checks and small conversions of
    `gaiasky.script.EventScriptingInterface`: range, length and string
    checks, the camera-position guard, internal-unit conversion, the HIP
    name aliasing of `getObject`, and the frame count `sleep` waits in
    frame-output mode. The unit factor is a parameter, since the constants
    class is not part of this model. */
module EventScriptingInterface {
  import opened Wrappers
  import opened Text

  // ---------------------------------------------------------------------
  // Checks

  /** `checkNum`: false exactly when the value lies outside `[min, max]`. */
  function CheckNum(value: real, min: real, max: real): (r: bool)
    ensures r <==> !(value < min || value > max)
  {
    !(value < min || value > max)
  }

  /** `checkLengths`: the array length is one of the two allowed lengths. */
  function CheckLengths(length: nat, length1: int, length2: int): (r: bool)
    ensures r <==> length == length1 || length == length2
  {
    !(length != length1 && length != length2)
  }

  /** `checkString`: false for null and for the empty string. */
  function CheckString(value: Option<string>): (r: bool)
    ensures r <==> value.Some? && value.value != ""
  {
    !(value.None? || |value.value| == 0)
  }

  /** `checkString(value, possibleValues)`: a non-empty value equal to one
      of the allowed values. The empty string is refused even when it is
      listed. */
  method CheckStringIn(value: Option<string>, possible: seq<string>) returns (r: bool)
    ensures r <==> value.Some? && value.value != "" && value.value in possible
  {
    if !CheckString(value) {
      return false;
    }
    var i := 0;
    while i < |possible|
      invariant 0 <= i <= |possible|
      invariant value.value !in possible[..i]
    {
      if value.value == possible[i] {
        return true;
      }
      assert possible[..i + 1] == possible[..i] + [possible[i]];
      i := i + 1;
    }
    assert possible[..i] == possible;
    return false;
  }

  /** Some enum constant's text equals the value, ignoring case. */
  predicate EnumListed(names: seq<string>, value: string) {
    exists i :: 0 <= i < |names| && EqualsIgnoreCase(value, names[i])
  }

  /** `checkStringEnum(value, clazz)`: a non-empty value that equals the
      `toString()` of one of the enum's constants, ignoring case. `names`
      are those texts, in the order `EnumSet.allOf` gives them. */
  method CheckStringEnum(value: Option<string>, names: seq<string>) returns (r: bool)
    ensures r <==> value.Some? && value.value != "" && EnumListed(names, value.value)
  {
    if !CheckString(value) {
      return false;
    }
    var i := 0;
    while i < |names|
      invariant 0 <= i <= |names|
      invariant forall j :: 0 <= j < i ==> !EqualsIgnoreCase(value.value, names[j])
    {
      if EqualsIgnoreCase(value.value, names[i]) {
        return true;
      }
      i := i + 1;
    }
    return false;
  }

  /** The enum check does not care how the value is cased: a value and its
      upper-case form are accepted alike. */
  lemma EnumCheckIgnoresCase(names: seq<string>, value: string)
    ensures (Upper(value) != "" && EnumListed(names, Upper(value))) <==> (value != "" && EnumListed(names, value))
  {
    LowerOfUpper(value);
  }

  /** Every value the exact list check accepts, the enum check accepts for
      the same texts; the converse fails, since "fxaa" matches only the
      constant FXAA ignoring case. */
  lemma EnumCheckExtendsExactCheck(names: seq<string>, value: string)
    ensures value in names ==> EnumListed(names, value)
    ensures EnumListed(["FXAA"], "fxaa") && "fxaa" !in ["FXAA"]
  {
    if value in names {
      var i :| 0 <= i < |names| && names[i] == value;
      assert EqualsIgnoreCase(value, names[i]);
    }
    assert Lower("fxaa") == Lower("FXAA");
    assert EqualsIgnoreCase("fxaa", ["FXAA"][0]);
  }

  // ---------------------------------------------------------------------
  // Units and positions

  datatype Error = WrongLength | ClassCast

  /** `internalUnitsToKilometres(double[])`: a new array of the same length
      with every element converted. */
  method InternalUnitsToKilometres(internalUnits: seq<real>, uToKm: real) returns (result: seq<real>)
    ensures |result| == |internalUnits|
    ensures forall i :: 0 <= i < |result| ==> result[i] == internalUnits[i] * uToKm
  {
    result := [];
    var i := 0;
    while i < |internalUnits|
      invariant 0 <= i <= |internalUnits|
      invariant |result| == i
      invariant forall j :: 0 <= j < i ==> result[j] == internalUnits[j] * uToKm
    {
      result := result + [internalUnits[i] * uToKm];
      i := i + 1;
    }
  }

  /** `setCameraPosition(vec)`: anything but three components throws;
      otherwise the position is converted from kilometres to internal
      units, component by component. */
  function SetCameraPosition(vec: seq<real>, kmToU: real): (r: Result<seq<real>, Error>)
    ensures r.Ok? <==> |vec| == 3
    ensures r.Ok? ==> |r.value| == 3 && forall i :: 0 <= i < 3 ==> r.value[i] == vec[i] * kmToU
  {
    if |vec| != 3 then Err(WrongLength)
    else Ok([vec[0] * kmToU, vec[1] * kmToU, vec[2] * kmToU])
  }

  /** With reciprocal factors, a camera position set in kilometres reads
      back in kilometres. */
  method CameraPositionRoundTrip(vec: seq<real>, uToKm: real) returns (back: seq<real>)
    requires uToKm != 0.0 && |vec| == 3
    ensures back == vec
  {
    var pos := SetCameraPosition(vec, 1.0 / uToKm);
    back := InternalUnitsToKilometres(pos.value, uToKm);
    forall i | 0 <= i < 3 ensures back[i] == vec[i] {
      calc {
        back[i];
        pos.value[i] * uToKm;
        vec[i] * (1.0 / uToKm) * uToKm;
        vec[i];
      }
    }
  }

  // ---------------------------------------------------------------------
  // Script lists

  /** An element of a list handed over from a script: a boxed `Double`, a
      boxed `Integer`, or any other object. */
  datatype Boxed = BoxedDouble(d: real) | BoxedInteger(n: int) | BoxedOther

  /** A list holding exactly the given doubles, boxed. */
  function BoxDoubles(xs: seq<real>): (l: seq<Boxed>)
    ensures |l| == |xs| && forall i :: 0 <= i < |xs| ==> l[i] == BoxedDouble(xs[i])
  {
    seq(|xs|, i requires 0 <= i < |xs| => BoxedDouble(xs[i]))
  }

  /** What `dArray` gives back: the array, null, or the cast error. */
  type DoubleArrayResult = Result<Option<seq<real>>, Error>

  /** `dArray(List)`: null gives null; otherwise each element is cast to
      `Double` and unboxed into a new array, in order, and the first element
      that is not a `Double` (an `Integer` included) throws. */
  method DoubleArray(l: Option<seq<Boxed>>) returns (r: DoubleArrayResult)
    ensures l.None? ==> r == Ok(None)
    ensures l.Some? ==> (r.Err? <==> exists i :: 0 <= i < |l.value| && !l.value[i].BoxedDouble?)
    ensures r.Err? ==> r.error == ClassCast
    ensures l.Some? && r.Ok? ==> r.value.Some? && BoxDoubles(r.value.value) == l.value
  {
    if l.None? {
      return Ok(None);
    }
    var xs := l.value;
    var res: seq<real> := [];
    var i := 0;
    while i < |xs|
      invariant 0 <= i <= |xs| && |res| == i
      invariant forall j :: 0 <= j < i ==> xs[j] == BoxedDouble(res[j])
    {
      if !xs[i].BoxedDouble? {
        return Err(ClassCast);
      }
      res := res + [xs[i].d];
      i := i + 1;
    }
    return Ok(Some(res));
  }

  /** A script list of doubles comes back as those doubles, and one holding
      an integer, however written, is refused. */
  method DoubleArrayOfDoubles(xs: seq<real>, k: nat, n: int) returns (back: DoubleArrayResult, mixed: DoubleArrayResult)
    requires k <= |xs|
    ensures back == Ok(Some(xs))
    ensures mixed == Err(ClassCast)
  {
    back := DoubleArray(Some(BoxDoubles(xs)));
    BoxDoublesInjective(back.value.value, xs);
    var l := BoxDoubles(xs[..k]) + [BoxedInteger(n)] + BoxDoubles(xs[k..]);
    assert l[k] == BoxedInteger(n);
    mixed := DoubleArray(Some(l));
  }

  /** Boxing loses nothing. */
  lemma BoxDoublesInjective(a: seq<real>, b: seq<real>)
    requires BoxDoubles(a) == BoxDoubles(b)
    ensures a == b
  {
    assert |a| == |BoxDoubles(a)|;
    forall i | 0 <= i < |a| ensures a[i] == b[i] {
      assert BoxDoubles(a)[i] == BoxDoubles(b)[i];
    }
  }

  // ---------------------------------------------------------------------
  // HIP aliasing

  predicate Number(s: string) {
    |s| > 0 && AllDigits(s)
  }

  /** `name.matches("hip [0-9]+") || name.matches("HIP [0-9]+")`. */
  function HipName(s: string): (r: bool)
    ensures r ==> |s| >= 5 && IsDigit(s[4]) && IsDigit(s[|s| - 1]) && !Number(s)
  {
    assert |s| > 4 ==> s[..4][0] == s[0];
    |s| > 4 && (s[..4] == "hip " || s[..4] == "HIP ") && Number(s[4..])
  }

  /** The two patterns exclude each other: a HIP name starts with a letter. */
  lemma HipNameIsNotNumber(s: string)
    ensures HipName(s) ==> !Number(s)
  {
    if HipName(s) {
      assert s[0] == s[..4][0];
    }
  }

  /** The second name `getObject` tries when the first is unknown: a bare
      number is tried as "hip N", and "hip N" or "HIP N" as "N". */
  function Alias(name: string): (r: Option<string>)
    ensures Number(name) ==> r == Some("hip " + name)
    ensures HipName(name) ==> r == Some(name[4..])
    ensures !Number(name) && !HipName(name) ==> r.None?
  {
    HipNameIsNotNumber(name);
    if Number(name) then Some("hip " + name)
    else if HipName(name) then Some(name[4..])
    else None
  }

  /** `getObject(name)` without waiting: the node under the name, else the
      node under its alias. The scene graph lookup is a map. */
  function GetObject<N>(nodes: map<string, N>, name: string): (r: Option<N>)
    ensures name in nodes ==> r == Some(nodes[name])
    ensures r.Some? ==> name in nodes || (Alias(name).Some? && Alias(name).value in nodes &&
                                          r.value == nodes[Alias(name).value])
  {
    if name in nodes then Some(nodes[name])
    else
      match Alias(name)
      case None => None
      case Some(a) => if a in nodes then Some(nodes[a]) else None
  }

  /** A Hipparcos star is found by its number with or without the "hip "
      prefix, whichever of the two it is registered under. */
  lemma HipAliasesMeet<N>(nodes: map<string, N>, digits: string)
    requires Number(digits)
    ensures "hip " + digits in nodes ==> GetObject(nodes, digits).Some?
    ensures digits in nodes ==> GetObject(nodes, "hip " + digits).Some?
    ensures "HIP " + digits !in nodes && digits in nodes ==> GetObject(nodes, "HIP " + digits).Some?
  {
    var h := "hip " + digits;
    var u := "HIP " + digits;
    assert h[..4] == "hip " && h[4..] == digits;
    assert u[..4] == "HIP " && u[4..] == digits;
    assert !Number(h) by { assert h[0] == 'h'; }
    assert !Number(u) by { assert u[0] == 'H'; }
  }

  // ---------------------------------------------------------------------
  // sleep

  /** Java `Math.round(float)`: the floor of `x + 1/2`. */
  function Round(x: real): (r: int)
    ensures (r as real) <= x + 0.5 < (r as real) + 1.0
  {
    (x + 0.5).Floor
  }

  /** The largest finite `float`. */
  const FLOAT_MAX: real := 340282346638528859811704183484516925440.0

  /** What `sleep(seconds)` does. */
  datatype Sleep =
    | Rejected          // out of range: logged, no wait
    | NoWait            // zero seconds
    | Frames(n: int)    // frame-output mode: wait this many frames
    | Millis(ms: int)   // otherwise: a thread sleep

  /** `sleep(seconds)`: a value outside `[0, Float.MAX_VALUE]` is rejected,
      zero returns at once, frame-output mode waits `max(1, round(fps *
      seconds))` frames, and otherwise the thread sleeps the rounded number
      of milliseconds. */
  function SleepFor(seconds: real, frameOutput: bool, fps: real): (r: Sleep)
    ensures r.Rejected? <==> !CheckNum(seconds, 0.0, FLOAT_MAX)
    ensures r.NoWait? <==> seconds == 0.0
    ensures r.Frames? <==> frameOutput && 0.0 < seconds <= FLOAT_MAX
    ensures r.Frames? ==> r.n >= 1 && (r.n as real) >= fps * seconds - 0.5
    ensures r.Frames? && fps * seconds >= 0.5 ==> (r.n as real) - 0.5 <= fps * seconds
    ensures r.Millis? ==> (r.ms as real) <= seconds * 1000.0 + 0.5 < (r.ms as real) + 1.0
  {
    if !CheckNum(seconds, 0.0, FLOAT_MAX) then Rejected
    else if seconds == 0.0 then NoWait
    else if frameOutput then Frames(if Round(fps * seconds) > 1 then Round(fps * seconds) else 1)
    else Millis(Round(seconds * 1000.0))
  }

  /** In frame-output mode any positive wait, however short, lasts at least
      one frame; and a longer wait never waits fewer frames. */
  lemma SleepFramesMonotone(s1: real, s2: real, fps: real)
    requires 0.0 < s1 <= s2 <= FLOAT_MAX && fps >= 0.0
    ensures SleepFor(s1, true, fps).Frames? && SleepFor(s2, true, fps).Frames?
    ensures SleepFor(s1, true, fps).n <= SleepFor(s2, true, fps).n
  {
    assert fps * s1 <= fps * s2;
    assert (fps * s1 + 0.5).Floor <= (fps * s2 + 0.5).Floor;
  }
}

=== FILE: file_data_loader.dfy ===
/** The line filter, tokeniser and timestamp de-duplication of
    `gaiasky.data.orbit.FileDataLoader.load`. The input is the sequence of lines
    the reader yields. A timestamp is a count of nanoseconds, as
    `java.sql.Timestamp` keeps it; `Timestamp.valueOf` (with its time zone) and
    `Parser.parseDouble` are parameters. */
module FileDataLoader {
  import opened Wrappers
  import opened Text

  type Stamp = int

  datatype Error = BadTimestamp(text: string)

  /** The loaded point cloud: one instant and one x, y, z value per accepted
      line. */
  datatype Orbit = Orbit(time: seq<Stamp>, x: seq<real>, y: seq<real>, z: seq<real>)

  /** The loop state: the data so far and the `last` timestamp. */
  datatype Loader = Loader(data: Orbit, last: Stamp)

  const NANOS_PER_MILLI: int := 1_000_000

  predicate Aligned(o: Orbit) {
    |o.time| == |o.x| == |o.y| == |o.z|
  }

  /** `last.setTime(t.getTime())`: `getTime` gives whole milliseconds and
      `setTime` stores those, so the sub-millisecond part is lost. */
  function MillisPrecision(t: Stamp): (r: Stamp)
    ensures r <= t < r + NANOS_PER_MILLI
    ensures r % NANOS_PER_MILLI == 0
  {
    (t / NANOS_PER_MILLI) * NANOS_PER_MILLI
  }

  /** The text handed to `Timestamp.valueOf`: the first token, trimmed, with
      underscores turned into spaces. */
  function TimestampText(token: string): (r: string)
    ensures '_' !in r
  {
    ReplaceChar(Trim(token), '_', ' ')
  }

  /** A line the loader skips outright: blank after trimming, or a comment. */
  predicate Skipped(line: string) {
    var l := Trim(line);
    l == "" || StartsWith(l, "#")
  }

  /** The tokens of a line: `line.trim().split("\\s+")`. */
  function Tokens(line: string): (ts: seq<string>)
    ensures forall k :: 0 <= k < |ts| ==> |ts[k]| > 0
  {
    Words(Trim(line))
  }

  /** `next` is `st` with the data line `tokens` appended: a timestamp that
      parses and differs from `last`, and its coordinates in internal units. */
  predicate Appended(st: Loader, next: Loader, tokens: seq<string>, parseTime: string -> Option<Stamp>, parseNum: string -> real, kmToU: real)
  {
    |tokens| >= 4
    && parseTime(TimestampText(tokens[0])).Some?
    && var t := parseTime(TimestampText(tokens[0])).value;
    t != st.last
    && next.data == Orbit(st.data.time + [t],
                          st.data.x + [kmToU * parseNum(tokens[1])],
                          st.data.y + [kmToU * parseNum(tokens[2])],
                          st.data.z + [kmToU * parseNum(tokens[3])])
    && next.last == MillisPrecision(t)
  }

  /** One data line of at least four tokens: a timestamp equal to `last`
      drops it, any other appends its time and its three coordinates scaled by
      `kmToU`. */
  function StepTokens(st: Loader, tokens: seq<string>, parseTime: string -> Option<Stamp>, parseNum: string -> real, kmToU: real)
    : (r: Result<Loader, Error>)
    requires Aligned(st.data) && |tokens| >= 4
    ensures r.Ok? ==> Aligned(r.value.data)
    ensures r.Err? <==> parseTime(TimestampText(tokens[0])).None?
    ensures r.Ok? && r.value != st ==> Appended(st, r.value, tokens, parseTime, parseNum, kmToU)
    ensures r.Ok? && r.value != st ==> |r.value.data.time| == |st.data.time| + 1
    ensures r.Ok? && r.value == st ==> parseTime(TimestampText(tokens[0])) == Some(st.last)
  {
    var pt := parseTime(TimestampText(tokens[0]));
    if pt.None? then Err(BadTimestamp(tokens[0]))
    else if pt.value == st.last then Ok(st)
    else
      Ok(Loader(Orbit(st.data.time + [pt.value],
                      st.data.x + [kmToU * parseNum(tokens[1])],
                      st.data.y + [kmToU * parseNum(tokens[2])],
                      st.data.z + [kmToU * parseNum(tokens[3])]),
                MillisPrecision(pt.value)))
  }

  /** One line of `load`: skipped lines and lines of fewer than four tokens
      change nothing. */
  function Step(st: Loader, line: string, parseTime: string -> Option<Stamp>, parseNum: string -> real, kmToU: real)
    : (r: Result<Loader, Error>)
    requires Aligned(st.data)
    ensures r.Ok? ==> Aligned(r.value.data)
    ensures Skipped(line) ==> r == Ok(st)
    ensures !Skipped(line) && |Tokens(line)| < 4 ==> r == Ok(st)
    ensures !Skipped(line) && |Tokens(line)| >= 4 ==> r == StepTokens(st, Tokens(line), parseTime, parseNum, kmToU)
  {
    if Skipped(line) then Ok(st)
    else
      var tokens := Tokens(line);
      if |tokens| < 4 then Ok(st)
      else StepTokens(st, tokens, parseTime, parseNum, kmToU)
  }

  /** `load`: the lines in order from an empty cloud and `last` at the epoch;
      an unparsable timestamp aborts the load. With `exact` each line goes
      through the corrected step instead of the one as written. */
  function LoadFrom(st: Loader, lines: seq<string>, parseTime: string -> Option<Stamp>, parseNum: string -> real, kmToU: real,
                    exact: bool)
    : (r: Result<Loader, Error>)
    requires Aligned(st.data)
    ensures r.Ok? ==> Aligned(r.value.data)
    ensures r.Ok? ==> |r.value.data.time| <= |st.data.time| + |lines|
    ensures r.Ok? ==> st.data.time <= r.value.data.time
    decreases |lines|
  {
    if |lines| == 0 then Ok(st)
    else
      var step := if exact then StepExact(st, lines[0], parseTime, parseNum, kmToU)
                  else Step(st, lines[0], parseTime, parseNum, kmToU);
      match step
      case Err(e) => Err(e)
      case Ok(st') => LoadFrom(st', lines[1..], parseTime, parseNum, kmToU, exact)
  }

  function Load(lines: seq<string>, parseTime: string -> Option<Stamp>, parseNum: string -> real, kmToU: real, exact: bool)
    : (r: Result<Orbit, Error>)
    ensures r.Ok? ==> Aligned(r.value) && |r.value.time| <= |lines|
  {
    match LoadFrom(Loader(Orbit([], [], [], []), 0), lines, parseTime, parseNum, kmToU, exact)
    case Err(e) => Err(e)
    case Ok(st) => Ok(st.data)
  }

  /** No two consecutive samples share a timestamp. */
  predicate NoAdjacentRepeats(ts: seq<Stamp>) {
    forall i :: 0 < i < |ts| ==> ts[i - 1] != ts[i]
  }

  /** What the corrected load keeps true between lines: no repeats so far,
      and `last` is the final accepted timestamp. */
  predicate Tracks(st: Loader) {
    NoAdjacentRepeats(st.data.time) && (|st.data.time| > 0 ==> st.last == st.data.time[|st.data.time| - 1])
  }

  /** The corrected load never stores the same timestamp twice in a row,
      whatever the input. */
  lemma {:induction false} LoadExactNoAdjacentRepeats(st: Loader, lines: seq<string>, parseTime: string -> Option<Stamp>,
                                                     parseNum: string -> real, kmToU: real)
    requires Aligned(st.data) && Tracks(st)
    requires LoadFrom(st, lines, parseTime, parseNum, kmToU, true).Ok?
    ensures NoAdjacentRepeats(LoadFrom(st, lines, parseTime, parseNum, kmToU, true).value.data.time)
    decreases |lines|
  {
    if |lines| > 0 {
      var st' := StepExact(st, lines[0], parseTime, parseNum, kmToU).value;
      assert LoadFrom(st, lines, parseTime, parseNum, kmToU, true) == LoadFrom(st', lines[1..], parseTime, parseNum, kmToU, true);
      assert Aligned(st'.data) && Tracks(st') by {
        if st' != st {
          AppendKeepsTracks(st, st');
        }
      }
      LoadExactNoAdjacentRepeats(st', lines[1..], parseTime, parseNum, kmToU);
    }
  }

  /** Appending a timestamp other than the last one, and remembering it,
      keeps the load free of adjacent repeats. */
  lemma AppendKeepsTracks(st: Loader, st': Loader)
    requires Tracks(st)
    requires |st'.data.time| == |st.data.time| + 1 && st'.data.time[..|st.data.time|] == st.data.time
    requires st'.last == st'.data.time[|st'.data.time| - 1] && st'.last != st.last
    ensures Tracks(st')
  {
    var n := |st.data.time|;
    forall i | 0 < i < |st'.data.time| ensures st'.data.time[i - 1] != st'.data.time[i] {
      assert st'.data.time[i - 1] == st.data.time[i - 1];
      if i < n {
        assert st'.data.time[i] == st.data.time[i];
      }
    }
  }

  /** A whole file through the corrected load has no adjacent repeats. */
  lemma LoadExactHasNoRepeats(lines: seq<string>, parseTime: string -> Option<Stamp>, parseNum: string -> real, kmToU: real)
    requires Load(lines, parseTime, parseNum, kmToU, true).Ok?
    ensures NoAdjacentRepeats(Load(lines, parseTime, parseNum, kmToU, true).value.time)
  {
    LoadExactNoAdjacentRepeats(Loader(Orbit([], [], [], []), 0), lines, parseTime, parseNum, kmToU);
  }

  // ---------------------------------------------------------------------
  // Properties

  /** Consecutive lines with the same whole-millisecond timestamp keep only
      the first. */
  lemma RepeatedMillisecondStampDropped(st: Loader, line: string, parseTime: string -> Option<Stamp>, parseNum: string -> real, kmToU: real)
    requires Aligned(st.data)
    requires Step(st, line, parseTime, parseNum, kmToU).Ok?
    requires var st' := Step(st, line, parseTime, parseNum, kmToU).value;
      st' != st && st'.data.time[|st'.data.time| - 1] % NANOS_PER_MILLI == 0
    ensures var st' := Step(st, line, parseTime, parseNum, kmToU).value;
      Step(st', line, parseTime, parseNum, kmToU) == Ok(st')
  {
  }

  /** With `last` still at the epoch, a first data line stamped at the epoch
      is dropped. */
  lemma EpochStampDropped(line: string, parseTime: string -> Option<Stamp>, parseNum: string -> real, kmToU: real)
    requires !Skipped(line) && |Tokens(line)| >= 4
    requires parseTime(TimestampText(Tokens(line)[0])) == Some(0)
    ensures var st := Loader(Orbit([], [], [], []), 0);
      Step(st, line, parseTime, parseNum, kmToU) == Ok(st)
  {
  }

  /** A timestamp with a sub-millisecond part is not remembered exactly, so
      the same line straight after it is appended a second time. */
  lemma SubMillisecondStampRepeated(st: Loader, line: string, parseTime: string -> Option<Stamp>, parseNum: string -> real, kmToU: real)
    requires Aligned(st.data)
    requires !Skipped(line) && |Tokens(line)| >= 4
    requires var t := parseTime(TimestampText(Tokens(line)[0]));
      t.Some? && t.value != st.last && t.value % NANOS_PER_MILLI != 0
    ensures Step(st, line, parseTime, parseNum, kmToU).Ok?
    ensures var st' := Step(st, line, parseTime, parseNum, kmToU).value;
      Step(st', line, parseTime, parseNum, kmToU).Ok?
      && |Step(st', line, parseTime, parseNum, kmToU).value.data.time| == |st.data.time| + 2
  {
    var t := parseTime(TimestampText(Tokens(line)[0])).value;
    var st' := Step(st, line, parseTime, parseNum, kmToU).value;
    assert st'.last == MillisPrecision(t) != t;
  }

  /** The de-duplication the comparison intends: `last` keeps the full
      timestamp. */
  function StepExact(st: Loader, line: string, parseTime: string -> Option<Stamp>, parseNum: string -> real, kmToU: real)
    : (r: Result<Loader, Error>)
    requires Aligned(st.data)
    ensures r.Ok? ==> Aligned(r.value.data)
    ensures r.Ok? && r.value != st ==> |r.value.data.time| > 0 && r.value.last == r.value.data.time[|r.value.data.time| - 1]
    ensures r.Ok? && r.value != st ==> |r.value.data.time| == |st.data.time| + 1
    ensures r.Ok? && r.value != st ==>
              r.value.data.time[..|st.data.time|] == st.data.time && r.value.last != st.last
  {
    match Step(st, line, parseTime, parseNum, kmToU)
    case Err(e) => Err(e)
    case Ok(st') =>
      if st' == st then Ok(st) else Ok(st'.(last := st'.data.time[|st'.data.time| - 1]))
  }

  /** With the exact `last`, a line repeating the previously accepted
      timestamp is always dropped. */
  lemma StepExactDropsRepeats(st: Loader, line: string, parseTime: string -> Option<Stamp>, parseNum: string -> real, kmToU: real)
    requires Aligned(st.data)
    requires StepExact(st, line, parseTime, parseNum, kmToU).Ok?
    requires StepExact(st, line, parseTime, parseNum, kmToU).value != st
    ensures var st' := StepExact(st, line, parseTime, parseNum, kmToU).value;
      StepExact(st', line, parseTime, parseNum, kmToU) == Ok(st')
  {
  }
}

=== FILE: gaia_sky.dfy ===
/** Three pieces of the main loop of `gaiasky.GaiaSky`: the parked
    runnables (a run list plus a by-key map), the time step taken each
    frame, and the frame-buffer cache keyed by size. */
module GaiaSky {
  import opened Wrappers
  import opened Text

  // ---------------------------------------------------------------------
  // Parked runnables

  /** `parkedRunnables` (run order) and `parkedRunnablesMap`. Runnables are
      compared by identity. */
  datatype Parked<R> = Parked(list: seq<R>, byKey: map<string, R>)

  /** libGDX `Array.removeValue(v, true)`: the first occurrence goes. */
  function RemoveFirst<R(==)>(s: seq<R>, v: R): (r: seq<R>)
    ensures v !in s ==> r == s
    ensures v in s ==> |r| == |s| - 1
    ensures multiset(r) == multiset(s) - multiset{v}
  {
    if |s| == 0 then []
    else if s[0] == v then
      assert s == [s[0]] + s[1..];
      s[1..]
    else
      assert s == [s[0]] + s[1..];
      [s[0]] + RemoveFirst(s[1..], v)
  }

  /** `parkRunnable`: the key now names the runnable, which is appended to
      the run list. A runnable the key named before stays in the list. */
  function Park<R>(p: Parked<R>, key: string, run: R): (r: Parked<R>)
    ensures key in r.byKey && r.byKey[key] == run
    ensures forall k :: k in p.byKey && k != key ==> k in r.byKey && r.byKey[k] == p.byKey[k]
    ensures r.byKey.Keys == p.byKey.Keys + {key}
    ensures multiset(r.list) == multiset(p.list) + multiset{run}
    ensures |r.list| == |p.list| + 1 && r.list[..|p.list|] == p.list && r.list[|p.list|] == run
  {
    Parked(p.list + [run], p.byKey[key := run])
  }

  /** `unparkRunnable`: a known key loses its runnable from both the list
      and the map; an unknown key changes nothing. */
  function Unpark<R(==)>(p: Parked<R>, key: string): (r: Parked<R>)
    ensures key !in p.byKey ==> r == p
    ensures key !in r.byKey
    ensures r.byKey.Keys == p.byKey.Keys - {key}
    ensures forall k :: k in r.byKey ==> r.byKey[k] == p.byKey[k]
    ensures key in p.byKey ==> multiset(r.list) == multiset(p.list) - multiset{p.byKey[key]}
  {
    if key in p.byKey then
      Parked(RemoveFirst(p.list, p.byKey[key]), p.byKey - {key})
    else p
  }

  /** Parking a new runnable under a new key and unparking it restores the
      previous state. */
  lemma {:induction false} ParkUnpark<R>(p: Parked<R>, key: string, run: R)
    requires key !in p.byKey && run !in p.list
    ensures Unpark(Park(p, key, run), key) == p
  {
    RemoveLast(p.list, run);
    assert p.byKey[key := run] - {key} == p.byKey;
  }

  lemma {:induction false} RemoveLast<R>(s: seq<R>, v: R)
    requires v !in s
    ensures RemoveFirst(s + [v], v) == s
  {
    if |s| > 0 {
      assert (s + [v])[1..] == s[1..] + [v];
      RemoveLast(s[1..], v);
    }
  }

  /** The runnables that do not throw, in order. */
  function Survivors<R(==)>(list: seq<R>, throwing: set<R>): (r: seq<R>)
    ensures forall i :: 0 <= i < |r| ==> r[i] in list && r[i] !in throwing
    ensures forall i :: 0 <= i < |list| && list[i] !in throwing ==> list[i] in r
    ensures |r| <= |list|
  {
    if |list| == 0 then []
    else
      var rest := Survivors(list[1..], throwing);
      assert forall i :: 1 <= i < |list| ==> list[i] == list[1..][i - 1];
      if list[0] in throwing then rest else [list[0]] + rest
  }

  /** The filter works element by element, so it keeps the order: the
      survivors of a concatenation are the survivors of each part, in turn. */
  lemma {:induction false} SurvivorsConcat<R>(a: seq<R>, b: seq<R>, throwing: set<R>)
    ensures Survivors(a + b, throwing) == Survivors(a, throwing) + Survivors(b, throwing)
  {
    if |a| > 0 {
      assert (a + b)[0] == a[0] && (a + b)[1..] == a[1..] + b;
      SurvivorsConcat(a[1..], b, throwing);
      if a[0] !in throwing {
        var sa, sb := Survivors(a[1..], throwing), Survivors(b, throwing);
        assert [a[0]] + (sa + sb) == ([a[0]] + sa) + sb;
      }
    } else {
      assert a + b == b;
    }
  }

  /** A single runnable survives exactly when it does not throw. */
  lemma SurvivorsSingle<R>(x: R, throwing: set<R>)
    ensures Survivors([x], throwing) == if x in throwing then [] else [x]
  {
  }

  /** Each runnable that does not throw keeps every one of its occurrences,
      and each one that throws loses them all. */
  lemma {:induction false} SurvivorsMultiplicity<R>(list: seq<R>, throwing: set<R>, x: R)
    ensures multiset(Survivors(list, throwing))[x] == if x in throwing then 0 else multiset(list)[x]
  {
    if |list| > 0 {
      assert list == [list[0]] + list[1..];
      SurvivorsConcat([list[0]], list[1..], throwing);
      SurvivorsSingle(list[0], throwing);
      SurvivorsMultiplicity(list[1..], throwing, x);
    }
  }

  /** The parked-runnable pass of `render`: each parked runnable runs once;
      one that throws is removed from the run list, but its key still maps
      to it. After a crash nothing runs. Which runnables throw is a
      parameter. */
  function RunParked<R(==)>(p: Parked<R>, crashed: bool, throwing: set<R>): (r: Parked<R>)
    ensures r.byKey == p.byKey
    ensures crashed ==> r == p
    ensures !crashed ==> forall i :: 0 <= i < |r.list| ==> r.list[i] in p.list && r.list[i] !in throwing
    ensures !crashed ==> forall i :: 0 <= i < |p.list| && p.list[i] !in throwing ==> p.list[i] in r.list
  {
    if crashed then p else Parked(Survivors(p.list, throwing), p.byKey)
  }

  /** A runnable that threw is gone from the run list but its key keeps it;
      unparking that key afterwards only clears the map entry. */
  lemma ThrowingStaysMapped<R>(p: Parked<R>, key: string, throwing: set<R>)
    requires key in p.byKey && p.byKey[key] in throwing
    ensures var q := RunParked(p, false, throwing);
            p.byKey[key] !in q.list && key in q.byKey &&
            Unpark(q, key).list == q.list && key !in Unpark(q, key).byKey
  {
  }

  // ---------------------------------------------------------------------
  // Time step

  /** `1.0 / fps` in double arithmetic for an integer frame rate: zero
      gives infinity (`None`). */
  function PerFrame(fps: int): (r: Option<real>)
    ensures fps == 0 <==> r.None?
    ensures r.Some? ==> r.value * (fps as real) == 1.0
  {
    if fps == 0 then None else Some(1.0 / (fps as real))
  }

  /** The step `update` adds to the simulation time: one frame at the
      output rate while rendering frames to disk, one frame at the
      recording rate while the camera records, and otherwise the real
      frame time capped at 0.05 s. */
  function TimeStep(dt: real, renderOutput: bool, camRecording: bool, renderFps: int, recFps: int): (r: Option<real>)
    ensures renderOutput ==> r == PerFrame(renderFps)
    ensures !renderOutput && camRecording ==> r == PerFrame(recFps)
    ensures !renderOutput && !camRecording ==> r.Some? && r.value <= 0.05 && r.value <= dt
    ensures !renderOutput && !camRecording ==> (r.value == dt <==> dt <= 0.05)
  {
    if renderOutput then PerFrame(renderFps)
    else if camRecording then PerFrame(recFps)
    else Some(if dt < 0.05 then dt else 0.05)
  }

  /** In the free-running mode the simulation time advances by at most
      0.05 s per frame, however long the frames take. */
  lemma {:induction false} CappedSteps(dts: seq<real>, fps1: int, fps2: int)
    ensures var steps := seq(|dts|, i requires 0 <= i < |dts| => TimeStep(dts[i], false, false, fps1, fps2).value);
            Sum(steps) <= 0.05 * (|dts| as real)
  {
    if |dts| > 0 {
      var steps := seq(|dts|, i requires 0 <= i < |dts| => TimeStep(dts[i], false, false, fps1, fps2).value);
      var rest := seq(|dts| - 1, i requires 0 <= i < |dts| - 1 => TimeStep(dts[1..][i], false, false, fps1, fps2).value);
      CappedSteps(dts[1..], fps1, fps2);
      assert steps[1..] == rest;
    }
  }

  function Sum(xs: seq<real>): real {
    if |xs| == 0 then 0.0 else xs[0] + Sum(xs[1..])
  }

  // ---------------------------------------------------------------------
  // Frame buffers

  /** `getKey(w, h)`: `w + "x" + h`. */
  function Key(w: int, h: int): (k: string)
    ensures |k| >= 3
  {
    IntToString(w) + "x" + IntToString(h)
  }

  lemma NoXInNumber(i: int)
    ensures 'x' !in IntToString(i)
  {
    var s := IntToString(i);
    if i < 0 {
      assert forall k :: 1 <= k < |s| ==> s[k] == Digits(-i)[k - 1];
    }
  }

  /** The first 'x' of `a + "x" + b` is right after `a` when `a` has none. */
  lemma FirstX(a: string, b: string)
    requires 'x' !in a
    ensures var s := a + "x" + b; s[|a|] == 'x' && forall k :: 0 <= k < |a| ==> s[k] != 'x'
  {
    var s := a + "x" + b;
    assert forall k :: 0 <= k < |a| ==> s[k] == a[k];
  }

  /** Different sizes get different keys, so the cache holds one frame
      buffer per size. */
  lemma KeyInjective(w1: int, h1: int, w2: int, h2: int)
    requires IsInt32(w1) && IsInt32(h1) && IsInt32(w2) && IsInt32(h2)
    requires Key(w1, h1) == Key(w2, h2)
    ensures w1 == w2 && h1 == h2
  {
    var a1, a2 := IntToString(w1), IntToString(w2);
    var s := Key(w1, h1);
    NoXInNumber(w1);
    NoXInNumber(w2);
    FirstX(a1, IntToString(h1));
    FirstX(a2, IntToString(h2));
    assert a1 == s[..|a1|] == a2;
    assert IntToString(h1) == s[|a1| + 1..] == IntToString(h2);
    IntToStringInjective(w1, w2);
    IntToStringInjective(h1, h2);
  }

  /** `getFrameBuffer(w, h)`: the cached buffer for the size, creating (and
      caching) `created` only when there is none. Creating the buffer is
      graphics work, so the new buffer is a parameter. */
  function GetFrameBuffer<F>(cache: map<string, F>, w: int, h: int, created: F): (r: (map<string, F>, F))
    ensures Key(w, h) in cache ==> r == (cache, cache[Key(w, h)])
    ensures Key(w, h) !in cache ==> r == (cache[Key(w, h) := created], created)
    ensures Key(w, h) in r.0 && r.0[Key(w, h)] == r.1
  {
    var key := Key(w, h);
    if key !in cache then (cache[key := created], created) else (cache, cache[key])
  }

  /** Asking twice for the same size gives the same buffer and creates
      nothing the second time. */
  lemma OneBufferPerSize<F>(cache: map<string, F>, w: int, h: int, a: F, b: F)
    ensures var (c1, f1) := GetFrameBuffer(cache, w, h, a);
            GetFrameBuffer(c1, w, h, b) == (c1, f1)
  {
  }

  /** Asking for another size afterwards keeps the first size's buffer
      cached, and gives the buffer cached for the second size (or the new
      one), not a buffer looked up under the first size's key. */
  lemma OtherSizeKeepsBuffer<F>(cache: map<string, F>, w1: int, h1: int, w2: int, h2: int, a: F, b: F)
    requires IsInt32(w1) && IsInt32(h1) && IsInt32(w2) && IsInt32(h2)
    requires w1 != w2 || h1 != h2
    ensures var (c1, f1) := GetFrameBuffer(cache, w1, h1, a);
            var (c2, f2) := GetFrameBuffer(c1, w2, h2, b);
            && c2[Key(w1, h1)] == f1
            && f2 == (if Key(w2, h2) in cache then cache[Key(w2, h2)] else b)
  {
    if Key(w1, h1) == Key(w2, h2) {
      KeyInjective(w1, h1, w2, h2);
      assert false;
    }
  }
}

=== FILE: gaia_sky_frame_buffer.dfy ===
/** `gaiasky.render.util.GaiaSkyFrameBuffer`: a frame buffer whose texture
    attachments play up to five roles (colour, depth, layer, normal and
    reflection mask), each role given by an index into the attachment list.
    A negative index means the buffer has no target for that role. The
    textures themselves are opaque values of type `T`. */
module GaiaSkyFrameBuffer {
  import opened Wrappers

  /** The render targets, in the order the constructor's indices name them. */
  datatype Role = Color | Depth | Layer | Normal | ReflectionMask

  /** `Array.get` past the end (or, for a negative index, the backing array
      access) throws. */
  datatype Error = IndexOutOfBounds

  datatype FrameBuffer<T> = FrameBuffer(attachments: seq<T>, colorIndex: int, depthIndex: int,
                                        layerIndex: int, normalIndex: int, reflectionMaskIndex: int)

  /** The position of a role among the constructor's indices. */
  function Ordinal(r: Role): (k: nat)
    ensures k < 5
  {
    match r
    case Color => 0
    case Depth => 1
    case Layer => 2
    case Normal => 3
    case ReflectionMask => 4
  }

  /** The role named by the `k`-th constructor index. */
  function RoleAt(k: nat): (r: Role)
    requires k < 5
    ensures Ordinal(r) == k
  {
    if k == 0 then Color else if k == 1 then Depth else if k == 2 then Layer
    else if k == 3 then Normal else ReflectionMask
  }

  /** Distinct roles read distinct constructor indices. */
  lemma OrdinalRoundTrip(r: Role)
    ensures RoleAt(Ordinal(r)) == r
  {
  }

  /** The index the buffer holds for a role. */
  function RoleIndex<T>(fb: FrameBuffer<T>, r: Role): int {
    match r
    case Color => fb.colorIndex
    case Depth => fb.depthIndex
    case Layer => fb.layerIndex
    case Normal => fb.normalIndex
    case ReflectionMask => fb.reflectionMaskIndex
  }

  /** The `k`-th vararg, or -1 when fewer were passed. */
  function IndexOr(indices: seq<int>, k: nat): int {
    if k < |indices| then indices[k] else -1
  }

  /** The constructor: every index starts at -1 and the `k`-th vararg, when
      present, replaces the `k`-th one; varargs past the fifth are ignored. */
  function New<T>(attachments: seq<T>, indices: seq<int>): (fb: FrameBuffer<T>)
    ensures fb.attachments == attachments
    ensures forall r: Role :: RoleIndex(fb, r) == (if Ordinal(r) < |indices| then indices[Ordinal(r)] else -1)
  {
    FrameBuffer(attachments, IndexOr(indices, 0), IndexOr(indices, 1), IndexOr(indices, 2),
                IndexOr(indices, 3), IndexOr(indices, 4))
  }

  /** `Array.get(index)`. */
  function Get<T>(items: seq<T>, index: int): (r: Result<T, Error>)
    ensures r.Ok? <==> 0 <= index < |items|
    ensures r.Ok? ==> r.value == items[index]
  {
    if 0 <= index < |items| then Ok(items[index]) else Err(IndexOutOfBounds)
  }

  /** `getColorBufferTexture` and its four siblings: null for a negative
      index, otherwise the attachment at the index, which throws when the
      index is past the end. */
  function BufferTexture<T>(fb: FrameBuffer<T>, r: Role): (t: Result<Option<T>, Error>)
    ensures RoleIndex(fb, r) < 0 ==> t == Ok(None)
    ensures 0 <= RoleIndex(fb, r) < |fb.attachments| ==> t == Ok(Some(fb.attachments[RoleIndex(fb, r)]))
    ensures RoleIndex(fb, r) >= |fb.attachments| ==> t.Err?
  {
    var i := RoleIndex(fb, r);
    if i >= 0 then
      match Get(fb.attachments, i)
      case Ok(x) => Ok(Some(x))
      case Err(e) => Err(e)
    else Ok(None)
  }

  /** `getTextureAttachment(index)`: null when the index is not below the
      size. A negative index is not guarded and throws. */
  function TextureAttachment<T>(fb: FrameBuffer<T>, index: int): (t: Result<Option<T>, Error>)
    ensures index >= |fb.attachments| ==> t == Ok(None)
    ensures 0 <= index < |fb.attachments| ==> t == Ok(Some(fb.attachments[index]))
    ensures index < 0 ==> t.Err?
  {
    if |fb.attachments| > index then
      match Get(fb.attachments, index)
      case Ok(x) => Ok(Some(x))
      case Err(e) => Err(e)
    else Ok(None)
  }

  /** The two kinds of getter agree on every index inside the list, and
      differ at both ends: past the end the role getter throws where
      `getTextureAttachment` gives null, and for a negative index the role
      getter gives null where `getTextureAttachment` throws. */
  lemma RoleGetterVersusAttachment<T>(fb: FrameBuffer<T>, r: Role)
    ensures var i := RoleIndex(fb, r);
            (0 <= i < |fb.attachments| ==> BufferTexture(fb, r) == TextureAttachment(fb, i) && BufferTexture(fb, r).Ok?) &&
            (i >= |fb.attachments| ==> BufferTexture(fb, r).Err? && TextureAttachment(fb, i) == Ok(None)) &&
            (i < 0 ==> BufferTexture(fb, r) == Ok(None) && TextureAttachment(fb, i).Err?)
  {
  }

  /** A buffer built with in-range indices answers each role with the
      attachment its vararg names, and each role without a vararg with null;
      no getter throws. */
  lemma {:induction false} ConstructedGetters<T>(attachments: seq<T>, indices: seq<int>, r: Role)
    requires forall k :: 0 <= k < |indices| ==> 0 <= indices[k] < |attachments|
    ensures var t := BufferTexture(New(attachments, indices), r);
            t.Ok? &&
            (Ordinal(r) < |indices| ==> t.value == Some(attachments[indices[Ordinal(r)]])) &&
            (Ordinal(r) >= |indices| ==> t.value == None)
  {
    var fb := New(attachments, indices);
    var k := Ordinal(r);
    assert RoleIndex(fb, r) == IndexOr(indices, k) by {
      match r
      case Color =>
      case Depth =>
      case Layer =>
      case Normal =>
      case ReflectionMask =>
    }
    if k < |indices| {
      assert 0 <= indices[k] < |attachments|;
    }
  }
}

=== FILE: global_conf.dfy ===
/** The pure parts of the legacy configuration holder
    `gaia.cu9.ari.gaiaorbit.util.GlobalConf`: the thread count, antialiasing
    codes, the controller blacklist, the time and recording toggles, screen
    sizes, stereo profiles, UI theme names, graphics quality levels and the
    component visibility command. */
module GlobalConf {
  import opened Wrappers
  import opened Text
  import ComponentTypes

  // ---------------------------------------------------------------------
  // PerformanceConf

  /** `NUMBER_THREADS()`: a configured count of zero or less means "let the
      program decide", and the processor count is used instead. */
  function NumberThreads(configured: int, processors: nat): (r: int)
    ensures configured > 0 ==> r == configured
    ensures configured <= 0 ==> r == processors
    ensures processors > 0 ==> r > 0
  {
    if configured <= 0 then processors else configured
  }

  // ---------------------------------------------------------------------
  // PostprocessConf.Antialias

  datatype Antialias = NoAntialias | Fxaa | Nfaa | Ssaa

  /** `getAACode`: zero for none, negative for the post-process modes and
      positive for supersampling; no two modes share a code. */
  function AaCode(a: Antialias): (r: int)
    ensures -2 <= r <= 1
    ensures r == 0 <==> a == NoAntialias
    ensures r < 0 <==> a == Fxaa || a == Nfaa
    ensures r > 0 <==> a == Ssaa
    ensures r == -1 <==> a == Fxaa
  {
    match a
    case NoAntialias => 0
    case Fxaa => -1
    case Nfaa => -2
    case Ssaa => 1
  }

  /** `isPostProcessAntialias`: the negative codes are the post-process
      modes. */
  function IsPostProcessAntialias(a: Antialias): (r: bool)
    ensures r <==> a == Fxaa || a == Nfaa
  {
    AaCode(a) < 0
  }

  /** `getAntialias(code)`: the mode with that code, and no antialiasing for
      a code no mode has. */
  function GetAntialias(code: int): (a: Antialias)
    ensures code in {0, -1, -2, 1} ==> AaCode(a) == code
    ensures code !in {0, -1, -2, 1} ==> a == NoAntialias
  {
    if code == -1 then Fxaa
    else if code == -2 then Nfaa
    else if code == 1 then Ssaa
    else NoAntialias
  }

  /** Decoding a mode's code gives the mode back, and exactly FXAA and NFAA
      are post-process modes. */
  lemma AntialiasRoundTrip(a: Antialias)
    ensures GetAntialias(AaCode(a)) == a
    ensures IsPostProcessAntialias(a) <==> a == Fxaa || a == Nfaa
  {
  }

  // ---------------------------------------------------------------------
  // ControlsConf

  /** Some blacklist entry equals the name, ignoring case. */
  predicate Listed(blacklist: seq<string>, name: string) {
    exists i :: 0 <= i < |blacklist| && EqualsIgnoreCase(name, blacklist[i])
  }

  /** `isControllerBlacklisted`: false for a null or empty list, otherwise
      whether some entry equals the name ignoring case. */
  method IsControllerBlacklisted(blacklist: Option<seq<string>>, name: string) returns (r: bool)
    ensures r <==> blacklist.Some? && Listed(blacklist.value, name)
  {
    if blacklist.None? || |blacklist.value| == 0 {
      return false;
    }
    var bl := blacklist.value;
    var i := 0;
    while i < |bl|
      invariant 0 <= i <= |bl|
      invariant forall j :: 0 <= j < i ==> !EqualsIgnoreCase(name, bl[j])
    {
      if EqualsIgnoreCase(name, bl[i]) {
        return true;
      }
      i := i + 1;
    }
    return false;
  }

  /** The blacklist does not care how the controller name is cased. */
  lemma BlacklistIgnoresCase(blacklist: seq<string>, name: string)
    ensures Listed(blacklist, Upper(name)) <==> Listed(blacklist, name)
  {
    LowerOfUpper(name);
  }

  // ---------------------------------------------------------------------
  // RuntimeConf toggles

  /** `toggleTimeOn(Boolean)` / `toggleRecord(Boolean)`: a given value is
      stored; null negates the current flag. */
  function Toggle(flag: bool, arg: Option<bool>): (r: bool)
    ensures arg.Some? ==> r == arg.value
    ensures arg.None? ==> r != flag
  {
    if arg.Some? then arg.value else !flag
  }

  /** Two null toggles restore the flag; an explicit value is idempotent. */
  lemma ToggleTwice(flag: bool, arg: Option<bool>)
    ensures arg.None? ==> Toggle(Toggle(flag, arg), arg) == flag
    ensures arg.Some? ==> Toggle(Toggle(flag, arg), arg) == Toggle(flag, arg)
  {
  }

  // ---------------------------------------------------------------------
  // ScreenConf

  datatype ScreenConf = ScreenConf(screenWidth: int, screenHeight: int,
                                   fullscreenWidth: int, fullscreenHeight: int, fullscreen: bool)

  /** `getScreenWidth` and `getScreenHeight`: the full-screen size in full
      screen, the windowed size otherwise. */
  function ScreenSize(c: ScreenConf): (r: (int, int))
    ensures c.fullscreen ==> r == (c.fullscreenWidth, c.fullscreenHeight)
    ensures !c.fullscreen ==> r == (c.screenWidth, c.screenHeight)
  {
    (if c.fullscreen then c.fullscreenWidth else c.screenWidth,
     if c.fullscreen then c.fullscreenHeight else c.screenHeight)
  }

  // ---------------------------------------------------------------------
  // ProgramConf stereo profiles and UI theme

  datatype StereoProfile = VrHeadset | Hd3dtvHorizontal | Hd3dtvVertical | Crosseye | ParallelView | Anaglyphic

  /** `isHorizontal`: the side-by-side profiles, i.e. neither vertical nor
      anaglyphic. */
  function IsHorizontal(p: StereoProfile): (r: bool)
    ensures r <==> !IsVertical(p) && !IsAnaglyphic(p)
  {
    p == VrHeadset || p == Hd3dtvHorizontal || p == Crosseye || p == ParallelView
  }

  /** `isVertical`: only the top-bottom 3DTV profile, which is not
      anaglyphic. */
  function IsVertical(p: StereoProfile): (r: bool)
    ensures r <==> p == Hd3dtvVertical
    ensures r ==> !IsAnaglyphic(p)
  {
    p == Hd3dtvVertical
  }

  /** `isAnaglyphic`: only the red-cyan profile, no split-screen one. */
  function IsAnaglyphic(p: StereoProfile): (r: bool)
    ensures r <==> p !in {VrHeadset, Hd3dtvHorizontal, Hd3dtvVertical, Crosseye, ParallelView}
  {
    p == Anaglyphic
  }

  /** `correctAspect`: every profile except side-by-side 3DTV and anaglyph. */
  function CorrectAspect(p: StereoProfile): (r: bool)
    ensures r <==> IsVertical(p) || (IsHorizontal(p) && p != Hd3dtvHorizontal)
  {
    p != Hd3dtvHorizontal && p != Anaglyphic
  }

  /** Every profile is exactly one of horizontal, vertical and anaglyphic. */
  lemma ProfileKinds(p: StereoProfile)
    ensures IsHorizontal(p) || IsVertical(p) || IsAnaglyphic(p)
    ensures !(IsHorizontal(p) && IsVertical(p)) && !(IsHorizontal(p) && IsAnaglyphic(p))
    ensures !(IsVertical(p) && IsAnaglyphic(p))
  {
  }

  /** `isStereoHalfWidth`: stereo is on and the profile corrects the aspect. */
  function IsStereoHalfWidth(stereo: bool, p: StereoProfile): (r: bool)
    ensures r <==> stereo && p in {VrHeadset, Hd3dtvVertical, Crosseye, ParallelView}
  {
    stereo && CorrectAspect(p)
  }

  /** `isStereoFullWidth`: the negation of half width. */
  function IsStereoFullWidth(stereo: bool, p: StereoProfile): (r: bool)
    ensures r <==> !stereo || p == Hd3dtvHorizontal || p == Anaglyphic
  {
    !IsStereoHalfWidth(stereo, p)
  }

  /** `isStereoHalfViewport`: stereo is on and the profile is not anaglyphic. */
  function IsStereoHalfViewport(stereo: bool, p: StereoProfile): (r: bool)
    ensures r <==> stereo && !IsAnaglyphic(p)
  {
    stereo && p != Anaglyphic
  }

  /** A half-width profile always renders into half viewports. */
  lemma HalfWidthIsHalfViewport(stereo: bool, p: StereoProfile)
    ensures IsStereoHalfWidth(stereo, p) ==> IsStereoHalfViewport(stereo, p)
    ensures IsStereoHalfViewport(stereo, p) && !IsStereoHalfWidth(stereo, p) <==> stereo && p == Hd3dtvHorizontal
  {
  }

  const HI_DPI_SUFFIX: string := "-x2"

  /** `isHiDPITheme`: the theme name ends in "-x2". */
  function IsHiDpiTheme(theme: string): (r: bool)
    ensures r <==> |theme| >= 3 && theme[|theme| - 3] == '-' && theme[|theme| - 2] == 'x' && theme[|theme| - 1] == '2'
  {
    EndsWith(theme, HI_DPI_SUFFIX)
  }

  /** `getUIThemeBase`: the theme name without its "-x2" suffix. */
  function UiThemeBase(theme: string): (r: string)
    ensures IsHiDpiTheme(theme) ==> r + HI_DPI_SUFFIX == theme
    ensures !IsHiDpiTheme(theme) ==> r == theme
    ensures |r| == |theme| - (if IsHiDpiTheme(theme) then 3 else 0)
  {
    if IsHiDpiTheme(theme) then theme[..|theme| - 3] else theme
  }

  /** The suffix is stripped exactly when the theme is a high-DPI one, and
      adding it to any base name gives a high-DPI theme with that base. */
  lemma UiThemeBaseSuffix(theme: string, base: string)
    ensures UiThemeBase(theme) != theme <==> IsHiDpiTheme(theme)
    ensures IsHiDpiTheme(base + HI_DPI_SUFFIX) && UiThemeBase(base + HI_DPI_SUFFIX) == base
  {
    var t := base + HI_DPI_SUFFIX;
    assert t[|t| - 3..] == HI_DPI_SUFFIX;
    assert t[..|t| - 3] == base;
  }

  // ---------------------------------------------------------------------
  // SceneConf.GraphicsQuality

  datatype GraphicsQuality = Low | Normal | High | Ultra

  function QualityOrdinal(q: GraphicsQuality): nat {
    match q
    case Low => 0
    case Normal => 1
    case High => 2
    case Ultra => 3
  }

  /** The file-name suffix of each quality level. */
  function QualitySuffix(q: GraphicsQuality): string {
    match q
    case Low => "-low"
    case Normal => "-med"
    case High => "-high"
    case Ultra => "-ultra"
  }

  predicate IsAtLeast(q: GraphicsQuality, gq: GraphicsQuality) {
    QualityOrdinal(q) >= QualityOrdinal(gq)
  }

  predicate IsAtMost(q: GraphicsQuality, gq: GraphicsQuality) {
    QualityOrdinal(q) <= QualityOrdinal(gq)
  }

  /** The quality levels are totally ordered, `isAtLeast` is the mirror of
      `isAtMost`, and different levels have different suffixes. */
  lemma QualityOrder(a: GraphicsQuality, b: GraphicsQuality)
    ensures IsAtLeast(a, b) || IsAtMost(a, b)
    ensures IsAtLeast(a, b) <==> IsAtMost(b, a)
    ensures IsAtLeast(a, b) && IsAtMost(a, b) <==> a == b
    ensures QualitySuffix(a) == QualitySuffix(b) ==> a == b
  {
  }

  // ---------------------------------------------------------------------
  // SceneConf visibility command

  datatype Error = IndexOutOfBounds

  /** The visibility update for a looked-up type (`None` when the key is
      unknown). */
  function ToggleType(visibility: seq<bool>, ct: Option<ComponentTypes.ComponentType>, state: Option<bool>): (r: Result<seq<bool>, Error>)
    ensures ct.None? ==> r == Ok(visibility)
    ensures r.Ok? ==> |r.value| == |visibility|
    ensures r.Ok? && ct.Some? ==>
              var i := ComponentTypes.Ordinal(ct.value);
              i < |visibility| && r.value[i] == Toggle(visibility[i], state) &&
              forall j :: 0 <= j < |visibility| && j != i ==> r.value[j] == visibility[j]
    ensures r.Err? <==> ct.Some? && ComponentTypes.Ordinal(ct.value) >= |visibility|
  {
    match ct
    case None => Ok(visibility)
    case Some(t) =>
      var i := ComponentTypes.Ordinal(t);
      if i < |visibility| then Ok(visibility[i := Toggle(visibility[i], state)])
      else Err(IndexOutOfBounds)
  }

  /** The `TOGGLE_VISIBILITY_CMD` handler: the key names a component type;
      its entry of the visibility array is set to the given state, or
      negated when no state is given. An unknown key changes nothing, and a
      visibility array too short for the type's ordinal throws. */
  function ToggleVisibility(visibility: seq<bool>, key: string, state: Option<bool>): (r: Result<seq<bool>, Error>)
    ensures ComponentTypes.GetFromKey(key).None? ==> r == Ok(visibility)
    ensures r.Ok? ==> |r.value| == |visibility|
  {
    ToggleType(visibility, ComponentTypes.GetFromKey(key), state)
  }

  /** Toggling a type with no explicit state flips exactly its own entry,
      and doing it twice restores the array. */
  lemma ToggleTypeTwice(visibility: seq<bool>, ct: ComponentTypes.ComponentType)
    requires ComponentTypes.Ordinal(ct) < |visibility|
    ensures var r := ToggleType(visibility, Some(ct), None);
            var i := ComponentTypes.Ordinal(ct);
            r.Ok? && r.value[i] == !visibility[i] &&
            ToggleType(r.value, Some(ct), None) == Ok(visibility)
  {
    var i := ComponentTypes.Ordinal(ct);
    var r := ToggleType(visibility, Some(ct), None);
    assert r.value == visibility[i := !visibility[i]];
    assert ToggleType(r.value, Some(ct), None).value == visibility;
  }

  /** Toggling a component type by its key flips exactly its own entry, and
      toggling it twice restores the array; an array too short for the
      type's ordinal throws instead. */
  lemma ToggleVisibilityByKey(visibility: seq<bool>, ct: ComponentTypes.ComponentType)
    ensures var r := ToggleVisibility(visibility, ComponentTypes.Key(ct), None);
            var i := ComponentTypes.Ordinal(ct);
            if i < |visibility| then
              r.Ok? && r.value[i] == !visibility[i] &&
              ToggleVisibility(r.value, ComponentTypes.Key(ct), None) == Ok(visibility)
            else r == Err(IndexOutOfBounds)
  {
    ComponentTypes.FromKeyOfKey(ct);
    if ComponentTypes.Ordinal(ct) < |visibility| {
      ToggleTypeTwice(visibility, ct);
    }
  }
}

=== FILE: gui_registry.dfy ===
/** The GUI switching of `gaiasky.gui.GuiRegistry`: the current and
    previous GUI, the list of registered GUIs, and the input multiplexer's
    processors (GUI stages, front first). GUIs are identified by number and
    compared by identity, as the source does; `null` is `None`. */
module GuiRegistry {
  import opened Wrappers

  type Gui = nat

  datatype Registry = Registry(
    current: Option<Gui>,
    previous: Option<Gui>,
    guis: seq<Gui>,
    processors: seq<Gui>)

  predicate NoDup(s: seq<Gui>) {
    forall i, j :: 0 <= i < j < |s| ==> s[i] != s[j]
  }

  /** The position of the first `x` in `s`. */
  function IndexOf(s: seq<Gui>, x: Gui): (k: nat)
    requires x in s
    ensures k < |s| && s[k] == x && x !in s[..k]
  {
    if s[0] == x then 0 else 1 + IndexOf(s[1..], x)
  }

  /** `Array.removeValue(x, true)`: drops the first `x`, reporting whether
      there was one. */
  function RemoveValue(s: seq<Gui>, x: Gui): (r: (seq<Gui>, bool))
    ensures r.1 <==> x in s
    ensures !r.1 ==> r.0 == s
    ensures r.1 ==> r.0 == s[..IndexOf(s, x)] + s[IndexOf(s, x) + 1..]
  {
    if x in s then (s[..IndexOf(s, x)] + s[IndexOf(s, x) + 1..], true) else (s, false)
  }

  /** Removing from a list without duplicates removes every copy. */
  lemma RemoveValueNoDup(s: seq<Gui>, x: Gui)
    requires NoDup(s)
    ensures NoDup(RemoveValue(s, x).0)
    ensures forall y :: y in RemoveValue(s, x).0 <==> y in s && y != x
  {
    if x in s {
      var k := IndexOf(s, x);
      var r := RemoveValue(s, x).0;
      assert forall i :: 0 <= i < |r| ==> r[i] == (if i < k then s[i] else s[i + 1]);
    }
  }

  /** `registerGui`: adds the GUI unless it is already there. */
  function RegisterGui(r: Registry, gui: Gui): (s: Registry)
    ensures gui in s.guis
    ensures forall g :: g in s.guis <==> g in r.guis || g == gui
    ensures NoDup(r.guis) ==> NoDup(s.guis)
    ensures s.current == r.current && s.previous == r.previous && s.processors == r.processors
  {
    if gui in r.guis then r else r.(guis := r.guis + [gui])
  }

  /** `unregisterGui`: removes the GUI and reports whether it was there. */
  function UnregisterGui(r: Registry, gui: Gui): (s: (Registry, bool))
    ensures s.1 <==> gui in r.guis
    ensures s.0.guis == RemoveValue(r.guis, gui).0
    ensures s.0.current == r.current && s.0.previous == r.previous && s.0.processors == r.processors
  {
    var (guis, removed) := RemoveValue(r.guis, gui);
    (r.(guis := guis), removed)
  }

  /** `unregisterAll`: empties the list and returns true. */
  function UnregisterAll(r: Registry): (s: (Registry, bool))
    ensures s.0.guis == [] && s.1
    ensures s.0.current == r.current && s.0.previous == r.previous
  {
    (r.(guis := []), true)
  }

  /** Registering a new GUI and unregistering it restores the list. */
  lemma RegisterThenUnregister(r: Registry, gui: Gui)
    requires gui !in r.guis
    ensures UnregisterGui(RegisterGui(r, gui), gui) == (r, true)
  {
    var s := r.guis + [gui];
    assert s[..|r.guis|] == r.guis;
    assert IndexOf(s, gui) == |r.guis|;
    assert s[..|r.guis|] == r.guis;
    assert s[|r.guis| + 1..] == [];
    assert RemoveValue(s, gui).0 == r.guis;
  }

  /** `unset(gui)`: a non-null GUI is unregistered and its stage leaves the
      multiplexer; either way it becomes the previous GUI. */
  function Unset(r: Registry, gui: Option<Gui>): (s: Registry)
    ensures s.previous == gui && s.current == r.current
    ensures gui.Some? ==> s.guis == RemoveValue(r.guis, gui.value).0 && s.processors == RemoveValue(r.processors, gui.value).0
    ensures gui.None? ==> s.guis == r.guis && s.processors == r.processors
  {
    match gui
    case None => r.(previous := None)
    case Some(g) =>
      var u := UnregisterGui(r, g).0;
      u.(processors := RemoveValue(r.processors, g).0, previous := gui)
  }

  /** `set(gui)`: a non-null GUI is registered and its stage goes to the
      front of the multiplexer; either way it becomes the current GUI. */
  function Set(r: Registry, gui: Option<Gui>): (s: Registry)
    ensures s.current == gui && s.previous == r.previous
    ensures gui.Some? ==> gui.value in s.guis && s.processors == [gui.value] + r.processors
    ensures gui.None? ==> s.guis == r.guis && s.processors == r.processors
  {
    match gui
    case None => r.(current := None)
    case Some(g) =>
      var reg := RegisterGui(r, g);
      reg.(processors := [g] + r.processors, current := gui)
  }

  /** `setPrevious`. */
  function SetPrevious(r: Registry, gui: Option<Gui>): (s: Registry)
    ensures s.previous == gui && s.current == r.current && s.guis == r.guis && s.processors == r.processors
  {
    r.(previous := gui)
  }

  /** `change(gui, previous)`: nothing when `gui` is already current;
      otherwise `previous` is unset and `gui` set. */
  function ChangeWithPrevious(r: Registry, gui: Option<Gui>, previous: Option<Gui>): (s: Registry)
    ensures r.current == gui ==> s == r
    ensures r.current != gui ==> s.current == gui && s.previous == previous
    ensures r.current != gui && gui.Some? ==> gui.value in s.guis
  {
    if r.current != gui then Set(Unset(r, previous), gui) else r
  }

  /** `change(gui)`: nothing when `gui` is already current; otherwise the
      current GUI is unset (becoming previous) and `gui` set. */
  function Change(r: Registry, gui: Option<Gui>): (s: Registry)
    ensures r.current == gui ==> s == r
    ensures r.current != gui ==> s.current == gui && s.previous == r.current
    ensures r.current != gui && gui.Some? ==> gui.value in s.guis
  {
    if r.current != gui then Set(Unset(r, r.current), gui) else r
  }

  /** In a list without duplicates, the GUI switched away from is no longer
      registered, and the list stays free of duplicates. */
  lemma ChangeUnregistersOld(r: Registry, gui: Option<Gui>)
    requires r.current != gui && r.current.Some? && NoDup(r.guis)
    ensures r.current.value !in Change(r, gui).guis
    ensures NoDup(Change(r, gui).guis)
  {
    RemoveValueNoDup(r.guis, r.current.value);
  }

  /** Switching to another GUI and back restores the current GUI and
      leaves the other one as previous. */
  lemma ChangeAndBack(r: Registry, gui: Option<Gui>)
    requires r.current != gui
    ensures Change(Change(r, gui), r.current).current == r.current
    ensures Change(Change(r, gui), r.current).previous == gui
  {
  }
}

=== FILE: immediate_render_system.dfy ===
/** The mesh bookkeeping of `gaiasky.render.system.ImmediateRenderSystem`:
    the per-mesh write cursors, the array of mesh slots with first-free-slot
    allocation, and the scratch arrays that are grown on demand. The GPU
    mesh itself is reduced to whether one has been built (`hasMesh`). */
module ImmediateRenderSystem {
  import opened Wrappers

  datatype Error = NullPointer | IndexOutOfBounds | NegativeArraySize

  /** `MeshData`. `vertices` is usually a reference to a scratch array and
      may be null. */
  datatype MeshData = MeshData(
    hasMesh: bool,
    colorOffset: int,
    vertexIdx: int,
    vertexSize: int,
    vertices: Option<seq<real>>,
    indexIdx: int,
    indexVert: int,
    numVertices: int,
    capacity: int)

  /** `new MeshData()`: every field at its Java default. */
  const NEW_MESH_DATA: MeshData := MeshData(false, 0, 0, 0, None, 0, 0, 0, 0)

  type Meshes = seq<Option<MeshData>>

  /** `MeshData.clear`: all four write counters go back to zero and the rest
      stays. */
  function Clear(md: MeshData): (r: MeshData)
    ensures r.vertexIdx == 0 && r.indexIdx == 0 && r.indexVert == 0 && r.numVertices == 0
    ensures r.vertices == md.vertices && r.vertexSize == md.vertexSize && r.hasMesh == md.hasMesh
    ensures r.colorOffset == md.colorOffset && r.capacity == md.capacity
  {
    md.(vertexIdx := 0, indexIdx := 0, indexVert := 0, numVertices := 0)
  }

  /** Slot `i` is the first empty slot, or the end of the array when every
      slot is taken. */
  predicate IsFirstFree(meshes: Meshes, i: nat) {
    i <= |meshes| &&
    (i < |meshes| ==> meshes[i].None?) &&
    forall j :: 0 <= j < i ==> meshes[j].Some?
  }

  /** `createMeshData`: a fresh mesh data goes into the first empty slot; the
      array grows by one when there is none. Its index is returned. */
  method CreateMeshData(meshes: Meshes) returns (r: Meshes, mdi: nat)
    ensures IsFirstFree(meshes, mdi)
    ensures |r| == if mdi < |meshes| then |meshes| else |meshes| + 1
    ensures r[mdi] == Some(NEW_MESH_DATA)
    ensures forall j :: 0 <= j < |meshes| && j != mdi ==> r[j] == meshes[j]
  {
    mdi := 0;
    while mdi < |meshes|
      invariant mdi <= |meshes|
      invariant forall j :: 0 <= j < mdi ==> meshes[j].Some?
    {
      if meshes[mdi].None? {
        break;
      }
      mdi := mdi + 1;
    }
    r := meshes;
    if mdi >= |meshes| {
      r := r + [None];
    }
    r := r[mdi := Some(NEW_MESH_DATA)];
  }

  /** The first free slot is unique. */
  lemma FirstFreeUnique(meshes: Meshes, i: nat, k: nat)
    requires IsFirstFree(meshes, i) && IsFirstFree(meshes, k)
    ensures i == k
  {
  }

  /** `clearMeshData(i)`: a slot holding built mesh data is emptied; a slot
      whose mesh was never built, an empty slot, and an index out of range
      (whose exception is swallowed) change nothing. */
  function ClearMeshData(meshes: Meshes, i: int): (r: Meshes)
    ensures |r| == |meshes|
    ensures 0 <= i < |meshes| && meshes[i].Some? && meshes[i].value.hasMesh ==> r[i].None?
    ensures forall j :: 0 <= j < |meshes| && j != i ==> r[j] == meshes[j]
    ensures !(0 <= i < |meshes| && meshes[i].Some? && meshes[i].value.hasMesh) ==> r == meshes
  {
    if 0 <= i < |meshes| && meshes[i].Some? && meshes[i].value.hasMesh then meshes[i := None]
    else meshes
  }

  /** Emptying a slot makes it available again: if every slot before it is
      occupied, the next allocation reuses it. */
  lemma ClearedSlotIsReused(meshes: Meshes, i: nat)
    requires i < |meshes| && meshes[i].Some? && meshes[i].value.hasMesh
    requires forall j :: 0 <= j < i ==> meshes[j].Some?
    ensures IsFirstFree(ClearMeshData(meshes, i), i)
  {
  }

  /** A freshly created mesh data has no built mesh, so clearing its slot
      right away leaves it in place. */
  lemma ClearingFreshSlotKeepsIt(meshes: Meshes, i: int)
    requires 0 <= i < |meshes| && meshes[i] == Some(NEW_MESH_DATA)
    ensures ClearMeshData(meshes, i) == meshes
  {
  }

  /** `clearMeshes`: every slot is cleared and the array is then emptied; a
      null array stays null. */
  function ClearMeshes(meshes: Option<Meshes>): (r: Option<Meshes>)
    ensures meshes.None? <==> r.None?
    ensures r.Some? ==> r.value == []
  {
    match meshes
    case None => None
    case Some(_) => Some([])
  }

  /** `ensureTempVertsSize` / `ensureTempIndicesSize`: a null or too short
      array is replaced by a new zero-filled one of exactly `size`; a long
      enough array is kept. A negative size only matters when a new array
      is needed, and then throws. */
  function EnsureSize<T>(arr: Option<seq<T>>, size: int, zero: T): (r: Result<seq<T>, Error>)
    ensures r.Ok? <==> (arr.Some? && |arr.value| >= size) || size >= 0
    ensures r.Ok? ==> |r.value| >= size
    ensures arr.Some? && |arr.value| >= size ==> r == Ok(arr.value)
  {
    if arr.Some? && |arr.value| >= size then Ok(arr.value)
    else if size < 0 then Err(NegativeArraySize)
    else Ok(seq(size, _ => zero))
  }

  /** Ensuring a size twice is the same as ensuring it once. */
  lemma EnsureSizeIdempotent<T>(arr: Option<seq<T>>, size: int, zero: T)
    requires EnsureSize(arr, size, zero).Ok?
    ensures EnsureSize(Some(EnsureSize(arr, size, zero).value), size, zero) == EnsureSize(arr, size, zero)
  {
  }

  /** The three coordinates fit at the write cursor. */
  predicate CanWriteVertex(md: MeshData) {
    md.vertices.Some? && 0 <= md.vertexIdx && md.vertexIdx + 2 < |md.vertices.value|
  }

  /** `vertex(x, y, z)`: writes the coordinates at the cursor, advances the
      cursor by the vertex size and counts one more vertex. A null array or a
      cursor too close to its end throws. */
  function Vertex(md: MeshData, x: real, y: real, z: real): (r: Result<MeshData, Error>)
    ensures r.Ok? <==> CanWriteVertex(md)
    ensures r.Ok? ==> r.value.vertices.Some? && |r.value.vertices.value| == |md.vertices.value|
    ensures r.Ok? ==> var v := r.value.vertices.value;
                      v[md.vertexIdx] == x && v[md.vertexIdx + 1] == y && v[md.vertexIdx + 2] == z
    ensures r.Ok? ==> forall j :: 0 <= j < |md.vertices.value| && !(md.vertexIdx <= j <= md.vertexIdx + 2) ==>
                        r.value.vertices.value[j] == md.vertices.value[j]
    ensures r.Ok? ==> r.value.vertexIdx == md.vertexIdx + md.vertexSize && r.value.numVertices == md.numVertices + 1
    ensures r.Ok? ==> r.value.vertexSize == md.vertexSize
  {
    if md.vertices.None? then Err(NullPointer)
    else if !(0 <= md.vertexIdx && md.vertexIdx + 2 < |md.vertices.value|) then Err(IndexOutOfBounds)
    else
      var i := md.vertexIdx;
      var v := md.vertices.value[i := x][i + 1 := y][i + 2 := z];
      Ok(md.(vertices := Some(v), vertexIdx := i + md.vertexSize, numVertices := md.numVertices + 1))
  }

  /** With a vertex size of at least three, a second vertex does not
      overwrite the first: both triples are in the array afterwards, one
      vertex size apart. */
  lemma ConsecutiveVertices(md: MeshData, a: (real, real, real), b: (real, real, real))
    requires md.vertexSize >= 3
    requires CanWriteVertex(md) && md.vertexIdx + md.vertexSize + 2 < |md.vertices.value|
    ensures var r1 := Vertex(md, a.0, a.1, a.2);
            r1.Ok? && Vertex(r1.value, b.0, b.1, b.2).Ok? &&
            var v := Vertex(r1.value, b.0, b.1, b.2).value.vertices.value;
            var i := md.vertexIdx;
            var k := md.vertexSize;
            v[i] == a.0 && v[i + 1] == a.1 && v[i + 2] == a.2 &&
            v[i + k] == b.0 && v[i + k + 1] == b.1 && v[i + k + 2] == b.2
  {
    var r1 := Vertex(md, a.0, a.1, a.2);
    assert CanWriteVertex(r1.value);
    var r2 := Vertex(r1.value, b.0, b.1, b.2);
    var i := md.vertexIdx;
    assert r2.value.vertices.value[i] == r1.value.vertices.value[i];
    assert r2.value.vertices.value[i + 1] == r1.value.vertices.value[i + 1];
    assert r2.value.vertices.value[i + 2] == r1.value.vertices.value[i + 2];
  }

  /** After `clear`, vertices are written from the start of the array again. */
  lemma ClearRestartsVertices(md: MeshData, x: real, y: real, z: real)
    requires md.vertices.Some? && |md.vertices.value| >= 3
    ensures var r := Vertex(Clear(md), x, y, z);
            r.Ok? && r.value.vertices.value[0] == x && r.value.numVertices == 1
  {
  }
}

=== FILE: libration.dfy ===
/** The camera-tracking runnable of the lunar-libration showcase script.

    Every tick it reads the predicted and current positions of the Earth (A)
    and the Moon (B), the camera position, direction and up vector, the wall
    clock and the simulation clock. From the Earth-Moon vector and its change
    over the tick it builds a co-rotating orthonormal frame; the first time the
    bodies move, it records the camera in that frame, and on every moving tick
    it writes the camera back from those recorded coordinates, so that the
    camera co-rotates with the Earth-Moon system.

    Floating point is replaced by the reals, and `sqrt` by an inverse square
    root `inv` that is a parameter of every operation. */
module Libration {
  import opened Vec3
  import opened Wrappers

  /** The relative-motion threshold `eps = 1e-32`. */
  const EPS: real := 1.0 / 100000000000000000000000000000000.0

  /** Camera positions are in units of 1e6 object-position units. */
  const UNITS: real := 1000000.0

  /** Wall-clock seconds between two pause checks. */
  const REFRESH: real := 0.1

  /** An orthonormal frame that co-rotates with the Earth-Moon vector. */
  datatype Triad = Triad(r1: Vec, r2: Vec, r3: Vec)

  /** The camera recorded in a frame: position and direction components along
      the three frame vectors, and up-vector components along the two
      up-basis vectors. */
  datatype Tied = Tied(pos: Vec, dir: Vec, up1: real, up2: real)

  /** The runnable's fields. `tied` is None until the first capture. */
  datatype Runner = Runner(lastt: real, camCoo: bool, simT: real, tied: Option<Tied>)

  /** What one tick reads. Positions of the bodies are in object units; the
      camera position is in camera units. */
  datatype Sample = Sample(
    earth: Vec, moon: Vec,      // predicted positions
    earth0: Vec, moon0: Vec,    // current positions
    camPos: Vec, camUp: Vec, camDir: Vec,
    now: real,                  // wall clock, seconds
    simTime: real)              // simulation clock

  datatype Pose = Pose(pos: Vec, dir: Vec, up: Vec)

  /** What a tick does to the camera: nothing, a full write of position,
      direction and up vector, or a failure on an unbound frame vector. */
  datatype Effect = NoWrite | Write(pose: Pose) | Failed

  datatype Step = Step(next: Runner, effect: Effect)

  /** A recorded camera exists whenever the runner says it has one. */
  predicate Valid(st: Runner) {
    st.camCoo ==> st.tied.Some?
  }

  /** The constructor: nothing captured yet, and the simulation clock as it
      stands. */
  function Init(simTime: real): (st: Runner)
    ensures Valid(st) && !st.camCoo
    ensures st.simT == simTime
    ensures st.lastt == 0.0 && st.tied.None?
  {
    Runner(0.0, false, simTime, None)
  }

  // ---------------------------------------------------------------------
  // The pieces of a tick

  /** The relative-motion test `|d|^2 / |rBA|^2 > eps`. When `rBA` is zero the
      quotient is +infinity for a non-zero change and NaN for none. Either
      way the test passes exactly when the change is non-zero and, for a
      non-zero `rBA`, its square length exceeds `eps` times that of `rBA`. */
  predicate Moved(rBA: Vec, delta: Vec)
    ensures Moved(rBA, delta) <==>
      Dot(delta, delta) > 0.0 && (Dot(rBA, rBA) > 0.0 ==> Dot(delta, delta) > EPS * Dot(rBA, rBA))
  {
    if Dot(rBA, rBA) > 0.0 then
      QuotientAbove(Dot(delta, delta), Dot(rBA, rBA), EPS);
      Dot(delta, delta) / Dot(rBA, rBA) > EPS
    else Dot(delta, delta) > 0.0
  }

  lemma QuotientAbove(x: real, y: real, e: real)
    requires y > 0.0
    ensures x / y > e <==> x > e * y
  {
    assert x / y * y == x;
    if x / y > e {
      assert (x / y - e) * y > 0.0;
    }
    if x > e * y {
      assert (x / y - e) * y == x - e * y;
    }
  }

  /** Normalise `a` and `d`, take r2 = a x d, and if it is long enough
      normalise it and complete the frame with r3 = r1 x r2. None stands for
      the branch in which r2 is too short and r3 stays unassigned; that is
      the branch taken whenever either vector is zero. */
  function Frame(inv: real -> real, a: Vec, d: Vec): (r: Option<Triad>)
    ensures r.Some? ==> Dot(a, a) > 0.0 && Dot(d, d) > 0.0
  {
    var r1 := Normalize(inv, a);
    var c := Cross(r1, Normalize(inv, d));
    CrossZero(r1);
    CrossZero(Normalize(inv, d));
    if Dot(c, c) > EPS then
      var r2 := Normalize(inv, c);
      Some(Triad(r1, r2, Normalize(inv, Cross(r1, r2))))
    else None
  }

  /** The two vectors orthogonal to the direction from which the up vector is
      expressed: u1 = n(ra x rdir), u2 = n(u1 x rdir), with ra the normalised
      sum of the frame vectors and rdir the normalised direction. The two are
      orthogonal to each other. */
  function UpBasis(inv: real -> real, t: Triad, dir: Vec): (r: (Vec, Vec))
    ensures Dot(r.0, r.1) == 0.0
  {
    var rdir := Normalize(inv, dir);
    var ra := Normalize(inv, Add(Add(t.r1, t.r2), t.r3));
    var u1 := Normalize(inv, Cross(ra, rdir));
    DotCross(u1, rdir);
    NormalizeKeepsOrthogonal(inv, u1, Cross(u1, rdir));
    (u1, Normalize(inv, Cross(u1, rdir)))
  }

  /** Record the camera (position relative to the Earth, in object units)
      in the reference frame. In an orthonormal frame the recorded position
      coordinates rebuild the position exactly. */
  function Capture(inv: real -> real, rCA0: Vec, camDir: Vec, camUp: Vec, t: Triad): (r: Tied)
    ensures IsFrame(t.r1, t.r2, t.r3) ==>
      Combine(r.pos.x, r.pos.y, r.pos.z, t.r1, t.r2, t.r3) == rCA0
  {
    var rdir := Normalize(inv, camDir);
    var (u1, u2) := UpBasis(inv, t, camDir);
    FrameExpansionIf(rCA0, t.r1, t.r2, t.r3);
    Tied(Vec(Dot(rCA0, t.r1), Dot(rCA0, t.r2), Dot(rCA0, t.r3)),
         Vec(Dot(rdir, t.r1), Dot(rdir, t.r2), Dot(rdir, t.r3)),
         Dot(u1, camUp), Dot(u2, camUp))
  }

  /** Rebuild the camera from its recorded coordinates in the current frame;
      the position goes back to camera units. The up basis is computed from
      the direction just written, so the up vector written is orthogonal to
      the direction written. */
  function Project(inv: real -> real, tied: Tied, t: Triad, earth: Vec): (r: Pose)
    ensures Dot(r.up, r.dir) == 0.0
  {
    var pos := Add(Combine(tied.pos.x, tied.pos.y, tied.pos.z, t.r1, t.r2, t.r3), earth);
    var dir := Combine(tied.dir.x, tied.dir.y, tied.dir.z, t.r1, t.r2, t.r3);
    var (u1, u2) := UpBasis(inv, t, dir);
    UpBasisOrthogonal(inv, t, dir);
    DotScaleLeft(tied.up1, u1, dir);
    DotScaleLeft(tied.up2, u2, dir);
    DotAddLeft(Scale(tied.up1, u1), Scale(tied.up2, u2), dir);
    Pose(Scale(UNITS, pos), dir, Add(Scale(tied.up1, u1), Scale(tied.up2, u2)))
  }

  // ---------------------------------------------------------------------
  // One tick

  function EarthMoon(s: Sample): Vec { Sub(s.moon, s.earth) }
  function EarthMoon0(s: Sample): Vec { Sub(s.moon0, s.earth0) }
  function Delta(s: Sample): Vec { Sub(EarthMoon(s), EarthMoon0(s)) }

  /** The camera position relative to the current Earth, in object units. */
  function CameraFromEarth(s: Sample): Vec { Sub(Scale(1.0 / UNITS, s.camPos), s.earth0) }

  predicate Paused(st: Runner, s: Sample) { s.simTime - st.simT == 0.0 }

  /** The pause check: at least REFRESH seconds since `lastt` with the
      simulation clock standing still. */
  predicate PauseReset(st: Runner, s: Sample)
    ensures PauseReset(st, s) ==> s.simTime == st.simT && s.now >= st.lastt + REFRESH
  {
    s.now - st.lastt >= REFRESH && Paused(st, s)
  }

  /** The frame of the predicted Earth-Moon vector; none when the predicted
      bodies coincide. */
  function CurrentFrame(inv: real -> real, s: Sample): (r: Option<Triad>)
    ensures s.moon == s.earth ==> r.None?
  {
    Frame(inv, EarthMoon(s), Delta(s))
  }

  /** The frame of the current Earth-Moon vector; none when the current
      bodies coincide. */
  function ReferenceFrame(inv: real -> real, s: Sample): (r: Option<Triad>)
    ensures s.moon0 == s.earth0 ==> r.None?
  {
    Frame(inv, EarthMoon0(s), Delta(s))
  }

  /** The `do` flag at the end of the motion block: the clock moved, the
      bodies moved relative to each other, and at least one of the two frames
      could be built. It never holds when the Earth-Moon vector did not
      change. */
  predicate Go(inv: real -> real, st: Runner, s: Sample)
    ensures Go(inv, st, s) ==> s.simTime != st.simT && Dot(Delta(s), Delta(s)) > 0.0
  {
    !Paused(st, s) && Moved(EarthMoon(s), Delta(s))
    && (CurrentFrame(inv, s).Some? || ReferenceFrame(inv, s).Some?)
  }

  function Tick(inv: real -> real, st: Runner, s: Sample): (r: Step)
    requires Valid(st)
    ensures Valid(r.next)
    ensures r.next.simT == s.simTime
    ensures r.next.tied != st.tied ==>
      ReferenceFrame(inv, s).Some? && r.next.tied == Some(Capture(inv, CameraFromEarth(s), s.camDir, s.camUp,
                                  ReferenceFrame(inv, s).value))
    ensures r.effect.Write? ==>
      CurrentFrame(inv, s).Some? && r.next.tied.Some? &&
      r.effect.pose == Project(inv, r.next.tied.value, CurrentFrame(inv, s).value, s.earth)
  {
    var reset := PauseReset(st, s);
    var camCoo := if reset then false else st.camCoo;
    var lastt := if !Paused(st, s) || reset then s.now else st.lastt;
    var st1 := Runner(lastt, camCoo, s.simTime, st.tied);
    if !Go(inv, st, s) then Step(st1, NoWrite)
    else
      var ref := ReferenceFrame(inv, s);
      var cur := CurrentFrame(inv, s);
      if !camCoo && ref.None? then Step(st1, Failed)
      else
        var st2 :=
          if camCoo then st1
          else st1.(camCoo := true,
                    tied := Some(Capture(inv, CameraFromEarth(s), s.camDir, s.camUp, ref.value)));
        if cur.None? then Step(st2, Failed)
        else Step(st2, Write(Project(inv, st2.tied.value, cur.value, s.earth)))
  }

  // ---------------------------------------------------------------------
  // Properties of a tick

  /** A tick on which the simulation clock has not moved writes nothing and
      captures nothing. */
  lemma PausedTickWritesNothing(inv: real -> real, st: Runner, s: Sample)
    requires Valid(st)
    requires s.simTime == st.simT
    ensures Tick(inv, st, s).effect == NoWrite
    ensures Tick(inv, st, s).next.tied == st.tied
  {
  }

  /** The pause check: after REFRESH seconds of wall time with the simulation
      clock still, the capture is dropped and `lastt` moves to now; before
      that, both are kept. */
  lemma PauseDropsCapture(inv: real -> real, st: Runner, s: Sample)
    requires Valid(st)
    requires s.simTime == st.simT
    ensures var n := Tick(inv, st, s).next;
      if s.now - st.lastt >= REFRESH then !n.camCoo && n.lastt == s.now
      else n.camCoo == st.camCoo && n.lastt == st.lastt
  {
    assert Paused(st, s) && !Go(inv, st, s);
  }

  /** A tick on which the simulation clock moved stamps `lastt` with now and
      keeps any capture it already had. */
  lemma MovingTickStampsClock(inv: real -> real, st: Runner, s: Sample)
    requires Valid(st)
    requires s.simTime != st.simT
    ensures Tick(inv, st, s).next.lastt == s.now
    ensures st.camCoo ==> Tick(inv, st, s).next.camCoo && Tick(inv, st, s).next.tied == st.tied
  {
    assert !Paused(st, s) && !PauseReset(st, s);
    var st1 := Runner(s.now, st.camCoo, s.simTime, st.tied);
    var n := Tick(inv, st, s).next;
    if !Go(inv, st, s) {
      assert n == st1;
    } else if !st.camCoo {
      assert n.lastt == s.now;
    } else {
      assert n == st1;
    }
  }

  /** The camera is touched exactly when `do` holds: the clock moved, the
      motion test passed, and the current OR the reference frame was built. */
  lemma TouchesCameraIffGo(inv: real -> real, st: Runner, s: Sample)
    requires Valid(st)
    ensures Tick(inv, st, s).effect != NoWrite <==> Go(inv, st, s)
  {
    if Go(inv, st, s) {
      assert !PauseReset(st, s);
      if !st.camCoo && ReferenceFrame(inv, s).None? {
        assert Tick(inv, st, s).effect == Failed;
      } else if CurrentFrame(inv, s).None? {
        assert Tick(inv, st, s).effect == Failed;
      } else {
        assert Tick(inv, st, s).effect.Write?;
      }
    } else {
      assert Tick(inv, st, s).effect == NoWrite;
    }
  }

  /** The tick fails exactly when `do` holds but a frame it needs is missing:
      the reference frame for a capture, or the current frame for the write.
      In particular, when only the reference frame was built, the write
      always fails. */
  lemma FailsIffFrameMissing(inv: real -> real, st: Runner, s: Sample)
    requires Valid(st)
    ensures Tick(inv, st, s).effect == Failed <==>
      Go(inv, st, s)
      && ((!st.camCoo && ReferenceFrame(inv, s).None?) || CurrentFrame(inv, s).None?)
  {
  }

  /** A capture happens exactly on a moving tick that starts without one
      and can build the reference frame, and leaves the runner marked as
      captured; a runner that has a capture keeps it until the pause check
      drops it. */
  lemma CaptureOnce(inv: real -> real, st: Runner, s: Sample)
    requires Valid(st)
    ensures var n := Tick(inv, st, s).next;
      n.tied != st.tied ==> !st.camCoo && n.camCoo
    ensures !st.camCoo && Go(inv, st, s) && ReferenceFrame(inv, s).Some? ==>
      Tick(inv, st, s).next.camCoo && Tick(inv, st, s).next.tied.Some?
    ensures st.camCoo && !PauseReset(st, s) ==> Tick(inv, st, s).next.tied == st.tied
  {
    if Go(inv, st, s) {
      if !st.camCoo && ReferenceFrame(inv, s).Some? {
        CaptureTick(inv, st, s);
      }
    } else {
    }
  }

  /** A second moving tick right after a capture does not capture again. */
  lemma NoSecondCapture(inv: real -> real, st: Runner, s1: Sample, s2: Sample)
    requires Valid(st)
    requires Tick(inv, st, s1).next.camCoo
    requires s2.simTime != s1.simTime
    ensures Tick(inv, Tick(inv, st, s1).next, s2).next.tied == Tick(inv, st, s1).next.tied
  {
    MovingTickStampsClock(inv, Tick(inv, st, s1).next, s2);
  }

  /** A moving tick that starts without a capture and can build the
      reference frame records the camera there: its position relative to the
      current Earth, its direction and its up vector, in that frame. The same
      tick then writes the camera back from the recorded coordinates in the
      current frame, or fails when the current frame is missing. */
  lemma CaptureTick(inv: real -> real, st: Runner, s: Sample)
    requires Valid(st)
    requires Go(inv, st, s) && !st.camCoo && ReferenceFrame(inv, s).Some?
    ensures var r := Tick(inv, st, s);
      r.next.camCoo
      && r.next.tied == Some(Capture(inv, CameraFromEarth(s), s.camDir, s.camUp,
                                     ReferenceFrame(inv, s).value))
      && (CurrentFrame(inv, s).Some? ==>
            r.effect == Write(Project(inv, r.next.tied.value, CurrentFrame(inv, s).value, s.earth)))
      && (CurrentFrame(inv, s).None? ==> r.effect == Failed)
  {
  }

  /** On a capture tick that builds both frames, the camera written has, in
      the current frame, the coordinates the camera had in the reference
      frame: position relative to the Earth and normalised direction. */
  lemma CaptureTickCoRotates(inv: real -> real, st: Runner, s: Sample)
    requires IsInvSqrt(inv)
    requires Valid(st)
    requires Go(inv, st, s) && !st.camCoo
    requires ReferenceFrame(inv, s).Some? && CurrentFrame(inv, s).Some?
    ensures Tick(inv, st, s).effect.Write?
    ensures var p := Tick(inv, st, s).effect.pose;
            var t, t0 := CurrentFrame(inv, s).value, ReferenceFrame(inv, s).value;
            var rel, cam, dir := Sub(Scale(1.0 / UNITS, p.pos), s.earth), CameraFromEarth(s), Normalize(inv, s.camDir);
            Dot(rel, t.r1) == Dot(cam, t0.r1) && Dot(rel, t.r2) == Dot(cam, t0.r2) && Dot(rel, t.r3) == Dot(cam, t0.r3) &&
            Dot(p.dir, t.r1) == Dot(dir, t0.r1) && Dot(p.dir, t.r2) == Dot(dir, t0.r2) && Dot(p.dir, t.r3) == Dot(dir, t0.r3)
  {
    CaptureTick(inv, st, s);
    var t := CurrentFrame(inv, s).value;
    FrameIsOrthonormal(inv, EarthMoon(s), Delta(s));
    var tied := Tick(inv, st, s).next.tied.value;
    ProjectKeepsCoordinates(inv, tied, t, s.earth);
  }

  // ---------------------------------------------------------------------
  // Geometry

  /** A frame that could be built is orthonormal and right-handed: r1, r2
      unit and orthogonal, and r3 exactly r1 x r2. */
  lemma FrameIsOrthonormal(inv: real -> real, a: Vec, d: Vec)
    requires IsInvSqrt(inv)
    requires Frame(inv, a, d).Some?
    ensures var t := Frame(inv, a, d).value; IsFrame(t.r1, t.r2, t.r3)
  {
    var r1 := Normalize(inv, a);
    var c := Cross(r1, Normalize(inv, d));
    if Dot(a, a) <= 0.0 {
      FrameNeedsSeparation(inv, a, d);
    }
    NormalizeUnit(inv, a);
    assert Dot(c, c) > 0.0;
    NormalizeUnit(inv, c);
    var r2 := Normalize(inv, c);
    var k := NormalizeIsMultiple(inv, c);
    DotCross(r1, Normalize(inv, d));
    DotScaleRight(k, r1, c);
    assert Dot(r1, r2) == 0.0;
    Lagrange(r1, r2);
    assert IsUnit(Cross(r1, r2));
    NormalizeOfUnit(inv, Cross(r1, r2));
  }

  /** No frame can be built from a zero Earth-Moon vector. */
  lemma FrameNeedsSeparation(inv: real -> real, a: Vec, d: Vec)
    requires Dot(a, a) <= 0.0
    ensures Frame(inv, a, d).None?
  {
    CrossZero(Normalize(inv, d));
  }

  /** No frame can be built when the change is parallel to the vector
      itself (the bodies move straight towards or away from each other):
      r1 x r2 vanishes. */
  lemma FrameNeedsTurn(inv: real -> real, a: Vec, c: real)
    ensures Frame(inv, a, Scale(c, a)).None?
  {
    var r1, n := Normalize(inv, a), Normalize(inv, Scale(c, a));
    var k := NormalizeIsMultiple(inv, a);
    var m := NormalizeIsMultiple(inv, Scale(c, a));
    ScaleScale(m, c, a);
    CrossParallel(k, m * c, a);
    assert Cross(r1, n) == Zero;
  }

  /** The frame built from a vector has that vector's direction as r1, and r2
      orthogonal to it. */
  lemma FrameFollowsEarthMoon(inv: real -> real, a: Vec, d: Vec)
    requires IsInvSqrt(inv)
    requires Frame(inv, a, d).Some?
    ensures Frame(inv, a, d).value.r1 == Normalize(inv, a)
    ensures Dot(Frame(inv, a, d).value.r2, a) == 0.0
  {
    if Dot(a, a) <= 0.0 {
      FrameNeedsSeparation(inv, a, d);
    }
    var q := Dot(a, a);
    var r1 := Normalize(inv, a);
    var c := Cross(r1, Normalize(inv, d));
    var k := NormalizeIsMultiple(inv, c);
    assert r1 == Scale(inv(q), a);
    DotCross(r1, Normalize(inv, d));
    DotSymmetric(c, r1);
    DotScaleRight(inv(q), c, a);
    assert inv(q) * Dot(c, a) == 0.0;
    assert Dot(c, a) == 0.0;
    DotScaleLeft(k, c, a);
  }

  /** If the bodies coincide in the predicted positions, neither frame can be
      built. */
  lemma CoincidentBodiesHaveNoFrame(inv: real -> real, s: Sample)
    requires s.moon == s.earth
    ensures CurrentFrame(inv, s).None? && ReferenceFrame(inv, s).None?
  {
    assert EarthMoon(s) == Zero;
    FrameNeedsSeparation(inv, EarthMoon(s), Delta(s));
    assert Delta(s) == Scale(-1.0, EarthMoon0(s));
    FrameNeedsTurn(inv, EarthMoon0(s), -1.0);
  }

  /** If the bodies coincide in the predicted positions, the camera is never
      touched. */
  lemma CoincidentBodiesLeaveCamera(inv: real -> real, st: Runner, s: Sample)
    requires Valid(st)
    requires s.moon == s.earth
    ensures Tick(inv, st, s).effect == NoWrite
  {
    CoincidentBodiesHaveNoFrame(inv, s);
    TouchesCameraIffGo(inv, st, s);
  }

  /** The up basis can be built from `dir`: the direction is not zero and
      not along the diagonal r1 + r2 + r3 of the frame, so the cross product
      the script normalises first does not vanish. */
  predicate UpBasisDefined(inv: real -> real, t: Triad, dir: Vec) {
    var c := Cross(Normalize(inv, Add(Add(t.r1, t.r2), t.r3)), Normalize(inv, dir));
    Dot(c, c) > 0.0
  }

  /** For a direction the up basis can be built from, the two up-basis
      vectors, the normalised direction and nothing else span space: an up
      vector orthogonal to the direction is rebuilt exactly from its two
      recorded components, whether the basis comes from the direction or
      from its normalised copy. */
  lemma CapturedUpRestored(inv: real -> real, t: Triad, camDir: Vec, camUp: Vec)
    requires IsInvSqrt(inv)
    requires Dot(camUp, camDir) == 0.0
    requires UpBasisDefined(inv, t, camDir)
    ensures var (u1, u2) := UpBasis(inv, t, camDir);
            UpBasis(inv, t, Normalize(inv, camDir)) == (u1, u2) &&
            Add(Scale(Dot(u1, camUp), u1), Scale(Dot(u2, camUp), u2)) == camUp
  {
    var rdir := Normalize(inv, camDir);
    var kd := NormalizeIsMultiple(inv, camDir);
    if Dot(camDir, camDir) <= 0.0 {
      CrossZero(Normalize(inv, Add(Add(t.r1, t.r2), t.r3)));
      assert false;
    }
    NormalizeUnit(inv, camDir);
    NormalizeOfUnit(inv, rdir);
    var ra := Normalize(inv, Add(Add(t.r1, t.r2), t.r3));
    var c := Cross(ra, rdir);
    var u1 := Normalize(inv, c);
    NormalizeUnit(inv, c);
    var k := NormalizeIsMultiple(inv, c);
    DotCross(ra, rdir);
    DotScaleRight(k, rdir, c);
    DotSymmetric(rdir, u1);
    Lagrange(u1, rdir);
    NormalizeOfUnit(inv, Cross(u1, rdir));
    var u2 := Cross(u1, rdir);
    assert IsFrame(u1, rdir, u2);
    FrameExpansion(camUp, u1, rdir, u2);
    DotScaleRight(kd, camUp, camDir);
    DotSymmetric(u1, camUp);
    DotSymmetric(u2, camUp);
    assert Combine(Dot(camUp, u1), 0.0, Dot(camUp, u2), u1, rdir, u2)
        == Add(Scale(Dot(camUp, u1), u1), Scale(Dot(camUp, u2), u2));
  }

  /** Recording the camera in a frame and writing it back from the same frame
      gives the original camera position (the 1e6 unit scalings cancel) and
      the normalised original direction; an up vector orthogonal to the
      direction comes back unchanged whenever the up basis can be built. */
  lemma ReprojectionRestoresCamera(inv: real -> real, t: Triad, camPos: Vec, camDir: Vec,
                                   camUp: Vec, earth: Vec)
    requires IsFrame(t.r1, t.r2, t.r3)
    ensures var p := Project(inv, Capture(inv, Sub(Scale(1.0 / UNITS, camPos), earth),
                                          camDir, camUp, t), t, earth);
      p.pos == camPos && p.dir == Normalize(inv, camDir)
      && (IsInvSqrt(inv) && Dot(camUp, camDir) == 0.0 && UpBasisDefined(inv, t, camDir) ==>
            p.up == camUp)
  {
    var rCA0 := Sub(Scale(1.0 / UNITS, camPos), earth);
    var rdir := Normalize(inv, camDir);
    FrameExpansion(rCA0, t.r1, t.r2, t.r3);
    FrameExpansion(rdir, t.r1, t.r2, t.r3);
    var back := Add(Combine(Dot(rCA0, t.r1), Dot(rCA0, t.r2), Dot(rCA0, t.r3), t.r1, t.r2, t.r3), earth);
    assert back == Scale(1.0 / UNITS, camPos);
    assert Scale(UNITS, back) == camPos;
    if IsInvSqrt(inv) && Dot(camUp, camDir) == 0.0 && UpBasisDefined(inv, t, camDir) {
      CapturedUpRestored(inv, t, camDir, camUp);
    }
  }

  /** The two frames of one tick never share their first vector: if the
      normalised Earth-Moon vectors before and after coincided, the change
      would be parallel to them and the current frame could not be built. */
  lemma FramesNeverShareDirection(inv: real -> real, s: Sample)
    requires IsInvSqrt(inv)
    requires CurrentFrame(inv, s).Some? && ReferenceFrame(inv, s).Some?
    ensures CurrentFrame(inv, s).value.r1 != ReferenceFrame(inv, s).value.r1
  {
    var a, a0, d := EarthMoon(s), EarthMoon0(s), Delta(s);
    FrameFollowsEarthMoon(inv, a, d);
    FrameFollowsEarthMoon(inv, a0, d);
    if Normalize(inv, a) == Normalize(inv, a0) {
      var k, k0 := inv(Dot(a, a)), inv(Dot(a0, a0));
      ScaleCancel(k, k0, a, a0);
      SubMultiple(a, k / k0);
      FrameNeedsTurn(inv, a, 1.0 - k / k0);
      assert false;
    }
  }

  /** Writing a recorded camera back from an orthonormal frame gives a
      position (relative to the Earth, in object units) and a direction whose
      coordinates in that frame are the recorded ones. */
  lemma ProjectKeepsCoordinates(inv: real -> real, tied: Tied, t: Triad, earth: Vec)
    requires IsFrame(t.r1, t.r2, t.r3)
    ensures var p := Project(inv, tied, t, earth);
            var rel := Sub(Scale(1.0 / UNITS, p.pos), earth);
            Dot(rel, t.r1) == tied.pos.x && Dot(rel, t.r2) == tied.pos.y && Dot(rel, t.r3) == tied.pos.z &&
            Dot(p.dir, t.r1) == tied.dir.x && Dot(p.dir, t.r2) == tied.dir.y && Dot(p.dir, t.r3) == tied.dir.z
  {
    var c := Combine(tied.pos.x, tied.pos.y, tied.pos.z, t.r1, t.r2, t.r3);
    assert Sub(Scale(1.0 / UNITS, Scale(UNITS, Add(c, earth))), earth) == c;
    CombineCoordinates(tied.pos.x, tied.pos.y, tied.pos.z, t.r1, t.r2, t.r3);
    CombineCoordinates(tied.dir.x, tied.dir.y, tied.dir.z, t.r1, t.r2, t.r3);
  }

  /** The camera co-rotates: whenever a tick writes the camera, it writes it
      back from the recorded coordinates in the current frame, and that
      frame is orthonormal, so the written camera has exactly the recorded
      coordinates there. */
  lemma WrittenCameraKeepsCoordinates(inv: real -> real, st: Runner, s: Sample)
    requires IsInvSqrt(inv)
    requires Valid(st)
    requires Tick(inv, st, s).effect.Write?
    ensures CurrentFrame(inv, s).Some? && Tick(inv, st, s).next.tied.Some?
    ensures var t := CurrentFrame(inv, s).value;
            IsFrame(t.r1, t.r2, t.r3) &&
            Tick(inv, st, s).effect.pose == Project(inv, Tick(inv, st, s).next.tied.value, t, s.earth)
  {
    FrameIsOrthonormal(inv, EarthMoon(s), Delta(s));
  }

  /** n(a x n(dir)) is orthogonal to dir. */
  lemma NormalizedCrossOrthogonal(inv: real -> real, a: Vec, dir: Vec)
    ensures Dot(Normalize(inv, Cross(a, Normalize(inv, dir))), dir) == 0.0
  {
    var kd := NormalizeIsMultiple(inv, dir);
    var c := Cross(a, dir);
    CrossScaleRight(kd, a, dir);
    var k := NormalizeIsMultiple(inv, Scale(kd, c));
    DotCross(a, dir);
    DotScaleLeft(kd, c, dir);
    DotScaleLeft(k, Scale(kd, c), dir);
  }

  /** Both up-basis vectors are orthogonal to the direction they are built
      from. */
  lemma UpBasisOrthogonal(inv: real -> real, t: Triad, dir: Vec)
    ensures Dot(UpBasis(inv, t, dir).0, dir) == 0.0
    ensures Dot(UpBasis(inv, t, dir).1, dir) == 0.0
  {
    var ra := Normalize(inv, Add(Add(t.r1, t.r2), t.r3));
    NormalizedCrossOrthogonal(inv, ra, dir);
    var u1 := Normalize(inv, Cross(ra, Normalize(inv, dir)));
    NormalizedCrossOrthogonal(inv, u1, dir);
  }

  /** The up vector written is orthogonal to the direction written. */
  lemma UpOrthogonalToDirection(inv: real -> real, tied: Tied, t: Triad, earth: Vec)
    ensures var p := Project(inv, tied, t, earth); Dot(p.up, p.dir) == 0.0
  {
    var p := Project(inv, tied, t, earth);
    var dir := p.dir;
    var (u1, u2) := UpBasis(inv, t, dir);
    var a, b := Scale(tied.up1, u1), Scale(tied.up2, u2);
    assert p.up == Add(a, b);
    UpBasisOrthogonal(inv, t, dir);
    assert Dot(a, dir) == 0.0 by {
      DotScaleLeft(tied.up1, u1, dir);
    }
    assert Dot(b, dir) == 0.0 by {
      DotScaleLeft(tied.up2, u2, dir);
    }
    DotAddLeft(a, b, dir);
  }
}

=== FILE: logger.dfy ===
/** The legacy logger `gaia.cu9.ari.gaiaorbit.util.Logger`: level gating,
    and the `{}` placeholder formatter used before a message is posted as a
    notification. `parse` substitutes with `String.replaceFirst`, so every
    argument is read as a regular-expression REPLACEMENT string: a backslash
    escapes the next character, `$0` (with any further zeros) stands for the
    matched `{}`, and any other `$` reference throws. `FormatLiteral` is the
    intended literal substitution. */
module Logger {
  import opened Wrappers

  datatype Level = Error | Warn | Info | Debug

  /** `LoggerLevel.val`: the levels count up from error to debug, so each
      level has its own value. */
  function Val(l: Level): (r: nat)
    ensures r <= 3
    ensures r == 0 <==> l == Error
    ensures r == 3 <==> l == Debug
    ensures l == Warn ==> r == 1
    ensures l == Info ==> r == 2
  {
    match l
    case Error => 0
    case Warn => 1
    case Info => 2
    case Debug => 3
  }

  /** `inLevel`: a message of level `l` passes when its value is at most the
      current level's. */
  function InLevel(l: Level, current: Level): (r: bool)
    ensures r <==> Val(l) <= Val(current)
  {
    Val(l) <= Val(current)
  }

  /** Errors always pass; a message passing at some level passes at every
      more verbose level; debug messages pass only at debug level. */
  lemma InLevelMonotone(l: Level, current: Level, more: Level)
    requires Val(current) <= Val(more)
    ensures InLevel(Error, current)
    ensures InLevel(l, current) ==> InLevel(l, more)
    ensures InLevel(Debug, current) <==> current == Debug
  {
  }

  /** A message argument: null, a string, or another object with the text
      its `toString` gives. */
  datatype Obj = Null | Str(s: string) | Other(text: string)

  /** The text `parse` substitutes for an argument. */
  function ArgText(o: Obj): string {
    match o
    case Null => "null"
    case Str(s) => s
    case Other(t) => t
  }

  // ---------------------------------------------------------------------
  // Placeholders

  predicate PlaceholderAt(s: string, k: int) {
    0 <= k && k + 1 < |s| && s[k] == '{' && s[k + 1] == '}'
  }

  predicate NoPlaceholder(s: string) {
    forall k :: 0 <= k < |s| ==> !PlaceholderAt(s, k)
  }

  /** The first `{}` in `s`, as the regular expression `\{\}` finds it. */
  function FindPlaceholder(s: string): (r: Option<nat>)
    ensures r.Some? ==> PlaceholderAt(s, r.value) && forall k :: 0 <= k < r.value ==> !PlaceholderAt(s, k)
    ensures r.None? ==> NoPlaceholder(s)
  {
    if |s| < 2 then None
    else if s[0] == '{' && s[1] == '}' then Some(0)
    else
      assert forall k :: 1 <= k < |s| ==> (PlaceholderAt(s, k) <==> PlaceholderAt(s[1..], k - 1));
      match FindPlaceholder(s[1..])
      case None => None
      case Some(i) => Some(i + 1)
  }

  // ---------------------------------------------------------------------
  // parse, as written

  datatype Failure =
    | MissingEscapedChar    // a trailing backslash
    | IllegalGroupReference // `$` not followed by a digit, or a named group
    | NoSuchGroup           // `$n` with n > 0: the pattern has no groups

  predicate IsDigit(c: char) { '0' <= c <= '9' }

  /** The replacement string expanded for one match of `\{\}` (whose text
      is `matched`), as `Matcher.appendReplacement` does. */
  function Expand(rep: string, matched: string): (r: Result<string, Failure>)
    decreases |rep|
  {
    if |rep| == 0 then Ok("")
    else if rep[0] == '\\' then
      if |rep| == 1 then Err(MissingEscapedChar)
      else
        match Expand(rep[2..], matched)
        case Ok(t) => Ok([rep[1]] + t)
        case Err(e) => Err(e)
    else if rep[0] == '$' then
      if |rep| == 1 || !IsDigit(rep[1]) then Err(IllegalGroupReference)
      else if rep[1] != '0' then Err(NoSuchGroup)
      else
        var rest := SkipZeros(rep[2..]);
        match Expand(rest, matched)
        case Ok(t) => Ok(matched + t)
        case Err(e) => Err(e)
    else
      match Expand(rep[1..], matched)
      case Ok(t) => Ok([rep[0]] + t)
      case Err(e) => Err(e)
  }

  /** Further zeros after `$0` still name group 0 and are consumed. */
  function SkipZeros(s: string): (r: string)
    ensures |r| <= |s|
    ensures |r| > 0 ==> r[0] != '0'
    ensures r == s[|s| - |r|..]
  {
    if |s| > 0 && s[0] == '0' then SkipZeros(s[1..]) else s
  }

  /** A replacement without dollars or backslashes. */
  predicate NoEscapes(a: string) {
    forall k :: 0 <= k < |a| ==> a[k] != '$' && a[k] != '\\'
  }

  /** An argument without braces, dollars or backslashes. */
  predicate Plain(a: string) {
    NoEscapes(a) && forall k :: 0 <= k < |a| ==> a[k] != '{' && a[k] != '}'
  }

  /** A replacement without dollars or backslashes expands to itself. */
  lemma {:induction false} ExpandVerbatim(a: string, matched: string)
    requires NoEscapes(a)
    ensures Expand(a, matched) == Ok(a)
  {
    if |a| > 0 {
      ExpandVerbatim(a[1..], matched);
      assert [a[0]] + a[1..] == a;
    }
  }

  /** `msg.replaceFirst("\\{\\}", rep)`: without a match the text comes back
      unchanged and the replacement is never looked at. */
  function ReplaceFirst(msg: string, rep: string): (r: Result<string, Failure>)
    ensures FindPlaceholder(msg).None? ==> r == Ok(msg)
  {
    match FindPlaceholder(msg)
    case None => Ok(msg)
    case Some(i) =>
      match Expand(rep, "{}")
      case Ok(t) => Ok(msg[..i] + t + msg[i + 2..])
      case Err(e) => Err(e)
  }

  /** `parse(msg, args)`: one `replaceFirst` per argument, each on the text
      the previous one produced. */
  function Parse(msg: string, args: seq<Obj>): (r: Result<string, Failure>)
    ensures (forall i :: 0 <= i < |args| ==> Plain(ArgText(args[i]))) && NoPlaceholder(msg) ==> r == Ok(msg)
    decreases |args|
  {
    if |args| == 0 then Ok(msg)
    else
      match ReplaceFirst(msg, ArgText(args[0]))
      case Ok(m) => Parse(m, args[1..])
      case Err(e) => Err(e)
  }

  // ---------------------------------------------------------------------
  // The intended formatter

  /** Each argument's text replaces the next `{}` of the template, scanning
      only the part of the template not yet consumed; arguments are copied
      literally. */
  function FormatLiteral(msg: string, args: seq<string>): (r: string)
    ensures |args| == 0 || NoPlaceholder(msg) ==> r == msg
  {
    if |args| == 0 then msg
    else
      match FindPlaceholder(msg)
      case None => msg
      case Some(i) => msg[..i] + args[0] + FormatLiteral(msg[i + 2..], args[1..])
  }

  /** A template assembled from placeholder-free pieces with `{}` between
      them. */
  function JoinPieces(pieces: seq<string>): string
    requires |pieces| > 0
  {
    if |pieces| == 1 then pieces[0] else pieces[0] + "{}" + JoinPieces(pieces[1..])
  }

  /** The intended result: pieces and arguments alternate while both last;
      then the remaining pieces keep their `{}` separators. Exactly
      `min(|args|, |pieces| - 1)` placeholders are substituted. */
  function Render(pieces: seq<string>, args: seq<string>): string
    requires |pieces| > 0
  {
    if |pieces| == 1 || |args| == 0 then JoinPieces(pieces)
    else pieces[0] + args[0] + Render(pieces[1..], args[1..])
  }

  lemma {:induction false} FindInPiece(p: string, tail: string)
    requires NoPlaceholder(p)
    ensures FindPlaceholder(p + "{}" + tail) == Some(|p|)
  {
    var s := p + "{}" + tail;
    assert PlaceholderAt(s, |p|);
    assert forall k :: 0 <= k < |p| ==> !PlaceholderAt(s, k) by {
      forall k | 0 <= k < |p| ensures !PlaceholderAt(s, k) {
        if k + 1 < |p| {
          assert !PlaceholderAt(p, k);
        } else {
          assert s[k + 1] == '{' && s[k + 2] == '}';
        }
      }
    }
    FirstPlaceholderUnique(s, |p|);
  }

  lemma FirstPlaceholderUnique(s: string, i: nat)
    requires PlaceholderAt(s, i) && forall k :: 0 <= k < i ==> !PlaceholderAt(s, k)
    ensures FindPlaceholder(s) == Some(i)
  {
  }

  /** The literal formatter renders any template built from
      placeholder-free pieces into exactly the intended alternation. */
  lemma {:induction false} FormatLiteralRenders(pieces: seq<string>, args: seq<string>)
    requires |pieces| > 0
    requires forall i :: 0 <= i < |pieces| ==> NoPlaceholder(pieces[i])
    ensures FormatLiteral(JoinPieces(pieces), args) == Render(pieces, args)
  {
    if |pieces| == 1 {
    } else if |args| == 0 {
    } else {
      var tail := JoinPieces(pieces[1..]);
      var s := pieces[0] + "{}" + tail;
      FindInPiece(pieces[0], tail);
      assert s[..|pieces[0]|] == pieces[0];
      assert s[|pieces[0]| + 2..] == tail;
      FormatLiteralRenders(pieces[1..], args[1..]);
    }
  }

  // ---------------------------------------------------------------------
  // Agreement on plain arguments

  /** `p` and `r` glue without creating a placeholder across the seam. */
  predicate Seam(p: string, r: string) {
    !(|p| > 0 && |r| > 0 && p[|p| - 1] == '{' && r[0] == '}')
  }

  lemma NoPlaceholderConcat(x: string, y: string)
    requires NoPlaceholder(x) && NoPlaceholder(y) && Seam(x, y)
    ensures NoPlaceholder(x + y)
  {
    var s := x + y;
    forall k | 0 <= k < |s| ensures !PlaceholderAt(s, k) {
      if k + 1 < |x| {
        assert !PlaceholderAt(x, k);
      } else if k >= |x| {
        assert !PlaceholderAt(y, k - |x|);
      }
    }
  }

  lemma {:induction false} FindShift(p: string, r: string)
    requires NoPlaceholder(p) && Seam(p, r)
    ensures FindPlaceholder(r).None? ==> FindPlaceholder(p + r).None?
    ensures FindPlaceholder(r).Some? ==> FindPlaceholder(p + r) == Some(|p| + FindPlaceholder(r).value)
  {
    var s := p + r;
    forall k | 0 <= k < |p| ensures !PlaceholderAt(s, k) {
      if k + 1 < |p| {
        assert !PlaceholderAt(p, k);
      }
    }
    match FindPlaceholder(r)
    case None =>
      forall k | 0 <= k < |s| ensures !PlaceholderAt(s, k) {
        if k >= |p| {
          assert !PlaceholderAt(r, k - |p|);
        }
      }
    case Some(j) =>
      assert PlaceholderAt(s, |p| + j);
      forall k | |p| <= k < |p| + j ensures !PlaceholderAt(s, k) {
        assert !PlaceholderAt(r, k - |p|);
      }
      FirstPlaceholderUnique(s, |p| + j);
  }

  lemma {:induction false} ParseAgrees(p: string, r: string, args: seq<Obj>)
    requires NoPlaceholder(p) && Seam(p, r)
    requires forall i :: 0 <= i < |args| ==> Plain(ArgText(args[i])) && |ArgText(args[i])| > 0
    ensures Parse(p + r, args) == Ok(p + FormatLiteral(r, Texts(args)))
    decreases |args|
  {
    if |args| > 0 {
      FindShift(p, r);
      if FindPlaceholder(r).None? {
        assert NoPlaceholder(p + r);
      } else {
        var a := ArgText(args[0]);
        var j := FindPlaceholder(r).value;
        var p' := p + r[..j] + a;
        var r' := r[j + 2..];
        var rest := args[1..];
        ParseStep(p, r, args, j);
        PrefixStaysPlain(p, r, a, j);
        assert forall i :: 0 <= i < |rest| ==> Plain(ArgText(rest[i])) && |ArgText(rest[i])| > 0;
        ParseAgrees(p', r', rest);
        var f := FormatLiteral(r', Texts(rest));
        assert Parse(p + r, args) == Ok(p' + f);
        assert FormatLiteral(r, Texts(args)) == r[..j] + a + f;
        Associate(p + r[..j], a, f);
        Associate(p, r[..j], a + f);
        Associate(r[..j], a, f);
      }
    }
  }

  lemma Associate(x: string, y: string, z: string)
    ensures x + y + z == x + (y + z)
  {
  }

  /** One substitution step of `parse`, seen through the split `p + r`. */
  lemma ParseStep(p: string, r: string, args: seq<Obj>, j: nat)
    requires NoPlaceholder(p) && Seam(p, r) && |args| > 0 && NoEscapes(ArgText(args[0]))
    requires FindPlaceholder(r) == Some(j)
    ensures Parse(p + r, args) == Parse(p + r[..j] + ArgText(args[0]) + r[j + 2..], args[1..])
    ensures FormatLiteral(r, Texts(args)) == r[..j] + ArgText(args[0]) + FormatLiteral(r[j + 2..], Texts(args[1..]))
  {
    var a := ArgText(args[0]);
    FindShift(p, r);
    ExpandVerbatim(a, "{}");
    var s := p + r;
    assert s[..|p| + j] == p + r[..j];
    assert s[|p| + j + 2..] == r[j + 2..];
    assert ReplaceFirst(s, a) == Ok(p + r[..j] + a + r[j + 2..]);
    assert Texts(args)[1..] == Texts(args[1..]);
  }

  /** The consumed prefix (with the argument copied in) has no placeholder
      and does not form one with what follows. */
  lemma PrefixStaysPlain(p: string, r: string, a: string, j: nat)
    requires NoPlaceholder(p) && Seam(p, r) && Plain(a) && |a| > 0
    requires FindPlaceholder(r) == Some(j)
    ensures NoPlaceholder(p + r[..j] + a) && Seam(p + r[..j] + a, r[j + 2..])
  {
    var p' := p + r[..j] + a;
    assert p'[|p'| - 1] == a[|a| - 1];
    assert NoPlaceholder(r[..j]) by {
      forall k | 0 <= k < j ensures !PlaceholderAt(r[..j], k) {
        assert !PlaceholderAt(r, k);
      }
    }
    assert Seam(p, r[..j]) by {
      if j > 0 {
        assert r[..j][0] == r[0];
      }
    }
    NoPlaceholderConcat(p, r[..j]);
    NoPlaceholderConcat(p + r[..j], a);
  }

  function Texts(args: seq<Obj>): (ts: seq<string>)
    ensures |ts| == |args| && forall i :: 0 <= i < |args| ==> ts[i] == ArgText(args[i])
  {
    seq(|args|, i requires 0 <= i < |args| => ArgText(args[i]))
  }

  /** For non-empty arguments free of braces, `$` and backslashes, `parse`
      is exactly the literal formatter. */
  lemma ParsePlainIsLiteral(msg: string, args: seq<Obj>)
    requires forall i :: 0 <= i < |args| ==> Plain(ArgText(args[i])) && |ArgText(args[i])| > 0
    ensures Parse(msg, args) == Ok(FormatLiteral(msg, Texts(args)))
  {
    ParseAgrees("", msg, args);
    assert "" + msg == msg;
    assert "" + FormatLiteral(msg, Texts(args)) == FormatLiteral(msg, Texts(args));
  }

  /** Where `parse` departs from the literal formatter (1): an argument
      that itself reads "{}" is filled by the next argument. */
  lemma PlaceholderArgumentRefilled()
    ensures Parse("{} {}", [Str("{}"), Str("x")]) == Ok("x {}")
    ensures FormatLiteral("{} {}", ["{}", "x"]) == "{} x"
  {
    var t := "{} {}";
    assert PlaceholderAt(t, 0);
    assert FindPlaceholder(t) == Some(0);
    ExpandVerbatim("{}", "{}");
    assert t[..0] + "{}" + t[2..] == t;
    assert ReplaceFirst(t, "{}") == Ok(t);
    ExpandVerbatim("x", "{}");
    assert t[..0] + "x" + t[2..] == "x {}";
    assert ReplaceFirst(t, "x") == Ok("x {}");
    assert Parse("x {}", []) == Ok("x {}");
    assert [Str("{}"), Str("x")][1..] == [Str("x")];
    assert [Str("x")][1..] == [];
    var rest := t[2..];
    assert rest == " {}";
    assert PlaceholderAt(rest, 1) && !PlaceholderAt(rest, 0);
    FirstPlaceholderUnique(rest, 1);
    assert rest[..1] + "x" + FormatLiteral(rest[3..], []) == " x";
  }

  /** Where `parse` departs from the literal formatter (2): a `$5`
      argument throws, since the pattern has no group 5. */
  lemma DollarArgumentThrows()
    ensures Parse("cost {}", [Str("$5")]) == Err(NoSuchGroup)
    ensures FormatLiteral("cost {}", ["$5"]) == "cost $5"
  {
    var t := "cost {}";
    assert PlaceholderAt(t, 5);
    assert forall k :: 0 <= k < 5 ==> !PlaceholderAt(t, k);
    FirstPlaceholderUnique(t, 5);
    assert Expand("$5", "{}") == Err(NoSuchGroup);
    assert t[..5] + "$5" + FormatLiteral(t[7..], []) == "cost $5";
  }

  /** Where `parse` departs from the literal formatter (3): a backslash in
      an argument (a Windows path, say) is dropped. */
  lemma BackslashArgumentDropped()
    ensures Parse("{}", [Str("C:\\d")]) == Ok("C:d")
    ensures FormatLiteral("{}", ["C:\\d"]) == "C:\\d"
  {
    assert PlaceholderAt("{}", 0);
    FirstPlaceholderUnique("{}", 0);
    assert Expand("\\d", "{}") == Ok(['d'] + "") by {
      assert "\\d"[2..] == "";
    }
    assert ['d'] + "" == "d";
    assert Expand(":\\d", "{}") == Ok([':'] + "d") by {
      assert ":\\d"[1..] == "\\d";
    }
    assert [':'] + "d" == ":d";
    assert Expand("C:\\d", "{}") == Ok(['C'] + ":d") by {
      assert "C:\\d"[1..] == ":\\d";
    }
    assert ['C'] + ":d" == "C:d";
    assert "{}"[..0] == "" && "{}"[2..] == "";
    assert "" + "C:d" + "" == "C:d";
    assert ReplaceFirst("{}", "C:\\d") == Ok("C:d");
    assert Parse("C:d", []) == Ok("C:d");
    assert "{}"[..0] + "C:\\d" + FormatLiteral("{}"[2..], []) == "C:\\d";
  }

  // ---------------------------------------------------------------------
  // log

  /** `removeFirst`: the array without its first element. */
  method RemoveFirst(arr: seq<Obj>) returns (res: seq<Obj>)
    requires |arr| >= 1
    ensures |res| == |arr| - 1
    ensures forall i :: 0 <= i < |res| ==> res[i] == arr[i + 1]
  {
    res := [];
    var i := 0;
    while i < |arr| - 1
      invariant 0 <= i <= |arr| - 1
      invariant |res| == i && forall j :: 0 <= j < i ==> res[j] == arr[j + 1]
    {
      res := res + [arr[i + 1]];
      i := i + 1;
    }
  }

  /** The template case of `log`: more than one message and a first one that
      is a string containing "{}". */
  predicate IsTemplate(messages: seq<Obj>) {
    |messages| > 1 && messages[0].Str? && FindPlaceholder(messages[0].s).Some?
  }

  /** `log`: the payload posted as a notification. A template is formatted
      with the remaining messages into a single string; anything else is
      posted as it is. */
  function Log(messages: seq<Obj>, corrected: bool): (r: Result<seq<Obj>, Failure>)
    ensures !IsTemplate(messages) ==> r == Ok(messages)
    ensures IsTemplate(messages) && r.Ok? ==> |r.value| == 1 && r.value[0].Str?
    ensures IsTemplate(messages) && corrected ==> r == Ok([Str(FormatLiteral(messages[0].s, Texts(messages[1..])))])
  {
    if IsTemplate(messages) then
      if corrected then Ok([Str(FormatLiteral(messages[0].s, Texts(messages[1..])))])
      else
        match Parse(messages[0].s, messages[1..])
        case Ok(m) => Ok([Str(m)])
        case Err(e) => Err(e)
    else Ok(messages)
  }

  /** With plain, non-empty arguments the notification `log` posts is the
      literally formatted template. */
  lemma LogPlainAgrees(messages: seq<Obj>)
    requires forall i :: 1 <= i < |messages| ==> Plain(ArgText(messages[i])) && |ArgText(messages[i])| > 0
    ensures Log(messages, false) == Log(messages, true)
  {
    if IsTemplate(messages) {
      var rest := messages[1..];
      assert forall i :: 0 <= i < |rest| ==> Plain(ArgText(rest[i])) && |ArgText(rest[i])| > 0 by {
        forall i | 0 <= i < |rest| ensures Plain(ArgText(rest[i])) && |ArgText(rest[i])| > 0 {
          assert rest[i] == messages[i + 1];
        }
      }
      ParsePlainIsLiteral(messages[0].s, rest);
    }
  }

  /** `warn`, `info` and `debug`: nothing is posted below the current level
      (`None`); warnings and infos go through `log`, debug messages are
      posted unformatted. */
  function Post(l: Level, current: Level, messages: seq<Obj>, corrected: bool): (r: Result<Option<seq<Obj>>, Failure>)
    requires l != Error
    ensures !InLevel(l, current) ==> r == Ok(None)
    ensures InLevel(l, current) && l == Debug ==> r == Ok(Some(messages))
    ensures InLevel(l, current) && !IsTemplate(messages) ==> r == Ok(Some(messages))
  {
    if !InLevel(l, current) then Ok(None)
    else if l == Debug then Ok(Some(messages))
    else
      match Log(messages, corrected)
      case Ok(p) => Ok(Some(p))
      case Err(e) => Err(e)
  }
}

=== FILE: music_component.dfy ===
/** The music widget of `gaiasky.interafce.components.MusicComponent`: the
    `mm:ss` position label and the marquee that slides a long track name
    through a window of 20 characters, bouncing at both ends. */
module MusicComponent {
  import opened Wrappers
  import opened Text

  /** `getTrackWindowSize`. */
  const W: nat := 20

  // ---------------------------------------------------------------------
  // Position label

  /** Java's `(int)` cast of a float: truncation toward zero. */
  function Trunc(x: real): (r: int)
    ensures x >= 0.0 ==> r == x.Floor
    ensures x < 0.0 ==> r == -((-x).Floor)
  {
    if x >= 0.0 then x.Floor else -((-x).Floor)
  }

  /** A digit string padded with a leading zero to at least two digits. */
  function ZeroPad(d: string): (r: string)
    requires AllDigits(d) && |d| >= 1
    ensures AllDigits(r) && |r| >= 2 && |r| >= |d|
    ensures DigitsValue(r) == DigitsValue(d)
  {
    if |d| < 2 then LeadingZero(d); "0" + d else d
  }

  lemma {:induction false} LeadingZero(d: string)
    requires AllDigits(d)
    ensures AllDigits("0" + d) && DigitsValue("0" + d) == DigitsValue(d)
  {
    var z := "0" + d;
    assert AllDigits(z) by {
      forall k | 0 <= k < |z| ensures IsDigit(z[k]) {
        if k > 0 { assert z[k] == d[k - 1]; }
      }
    }
    if |d| > 0 {
      assert z[..|z| - 1] == "0" + d[..|d| - 1];
      LeadingZero(d[..|d| - 1]);
    }
  }

  /** The `#00` number format: at least two integer digits, with a minus
      sign in front of negative numbers. */
  function Format00(n: int): (r: string)
    ensures |r| >= 2
    ensures 0 <= n < 100 ==> |r| == 2 && AllDigits(r) && DigitsValue(r) == n
    ensures IsInt32(n) ==> ParseInt(r) == Some(n)
  {
    var a := if n < 0 then -n else n;
    var d := ZeroPad(Digits(a));
    DigitsValueOf(a);
    if 0 <= n < 100 then
      DigitsLength(a, 2);
      assert Pow10(2) == 100;
      d
    else if n < 0 then
      assert ("-" + d)[1..] == d;
      "-" + d
    else d
  }

  /** `toMinutesSeconds`: whole minutes and the whole seconds left over, as
      Java's `(int)` casts and float `%` give them, each in `#00` format. */
  function ToMinutesSeconds(seconds: real): (r: string)
    ensures 0.0 <= seconds < 6000.0 ==>
              |r| == 5 && r[2] == ':' && AllDigits(r[..2]) && AllDigits(r[3..]) &&
              DigitsValue(r[3..]) < 60 &&
              DigitsValue(r[..2]) * 60 + DigitsValue(r[3..]) == seconds.Floor
  {
    var minutes := Trunc(seconds / 60.0);
    var secs := Trunc(seconds - 60.0 * (minutes as real));
    var r := Format00(minutes) + ":" + Format00(secs);
    if 0.0 <= seconds < 6000.0 then
      MinutesSeconds(seconds);
      assert r[..2] == Format00(minutes) && r[3..] == Format00(secs);
      r
    else r
  }

  /** For a non-negative time the two casts split the whole seconds into
      minutes and seconds below 60. */
  lemma MinutesSeconds(seconds: real)
    requires seconds >= 0.0
    ensures var m := Trunc(seconds / 60.0);
            var s := Trunc(seconds - 60.0 * (m as real));
            0 <= s < 60 && 0 <= m && m * 60 + s == seconds.Floor &&
            (seconds < 6000.0 ==> m < 100)
  {
    var m := (seconds / 60.0).Floor;
    assert (m as real) <= seconds / 60.0 < (m as real) + 1.0;
    assert 60.0 * (m as real) <= seconds < 60.0 * (m as real) + 60.0;
    var rest := seconds - 60.0 * (m as real);
    var s := rest.Floor;
    assert (s as real) <= rest < (s as real) + 1.0;
    assert ((m * 60 + s) as real) <= seconds < ((m * 60 + s) as real) + 1.0;
  }

  // ---------------------------------------------------------------------
  // Track-name marquee

  datatype Error = StringIndexOutOfBounds

  /** `currentTrack` (null before the first track), the window start `si`
      and the step `sp`. */
  datatype Marquee = Marquee(track: Option<string>, si: int, sp: int)

  const INITIAL: Marquee := Marquee(None, 0, 1)

  /** The window always lies inside a long name, the step is one character
      either way, and a short name is shown from its start. */
  predicate Inv(m: Marquee) {
    (m.sp == 1 || m.sp == -1) && 0 <= m.si &&
    (m.track.Some? ==> m.si + W <= |m.track.value| || m.si == 0)
  }

  /** `capStr(in, start, end)`: the whole string when it fits in the window,
      otherwise `substring(start, end)`, which throws for bounds outside the
      string. */
  function CapStr(s: string, start: int, end: int): (r: Result<string, Error>)
    ensures |s| <= end - start ==> r == Ok(s)
    ensures |s| > end - start ==> (r.Ok? <==> 0 <= start <= end <= |s|)
    ensures |s| > end - start && r.Ok? ==>
              |r.value| == end - start && forall k :: 0 <= k < |r.value| ==> r.value[k] == s[start + k]
  {
    if |s| <= end - start then Ok(s)
    else if 0 <= start <= end <= |s| then Ok(s[start..end])
    else Err(StringIndexOutOfBounds)
  }

  /** The label text for the current state. */
  function Shown(m: Marquee): Result<string, Error>
    requires m.track.Some?
  {
    CapStr(m.track.value, m.si, m.si + W)
  }

  /** `slideTrackName`: a name longer than the window moves one step; the
      step reverses when the window has reached the end going right, or
      the start going left. Shorter names and no track leave it still. */
  function Slide(m: Marquee): (r: Marquee)
    ensures !(m.track.Some? && W < |m.track.value|) ==> r == m
    ensures m.track.Some? && W < |m.track.value| ==>
              r.track == m.track && r.si == m.si + r.sp && (r.sp == m.sp || r.sp == -m.sp)
    ensures m.track.Some? && m.sp > 0 && m.si + W == |m.track.value| && W < |m.track.value| ==> r.sp == -m.sp
    ensures m.track.Some? && m.sp < 0 && m.si <= 0 && W < |m.track.value| ==> r.sp == -m.sp
    ensures Inv(m) ==> Inv(r)
  {
    if m.track.Some? && W < |m.track.value| then
      var l := |m.track.value|;
      var sp := if m.si + W == l && m.sp > 0 then -m.sp
                else if m.si <= 0 && m.sp < 0 then -m.sp
                else m.sp;
      Marquee(m.track, m.si + sp, sp)
    else m
  }

  /** `notify(MUSIC_TRACK_INFO, name)`: the new name is shown from its start,
      moving right. The event always carries a name. */
  function NewTrack(m: Marquee, name: string): (r: Marquee)
    ensures r.track == Some(name) && r.si == 0 && r.sp == 1
    ensures Inv(r)
  {
    Marquee(Some(name), 0, 1)
  }

  /** While the invariant holds the label never throws: it shows the whole
      name when it fits, and otherwise exactly a window of it. */
  lemma ShownIsWindow(m: Marquee)
    requires Inv(m) && m.track.Some?
    ensures Shown(m).Ok?
    ensures |m.track.value| <= W ==> Shown(m) == Ok(m.track.value)
    ensures |m.track.value| > W ==> Shown(m) == Ok(m.track.value[m.si..m.si + W])
  {
  }

  /** Starting from a new long name, the window reaches the end of the name
      after `|name| - W` slides and then turns back. */
  lemma {:induction false} SlideReachesEnd(name: string, k: nat)
    requires |name| > W && k <= |name| - W
    ensures SlideN(NewTrack(INITIAL, name), k) == Marquee(Some(name), k, 1)
  {
    if k > 0 {
      SlideReachesEnd(name, k - 1);
    }
  }

  /** `k` timer ticks. */
  function SlideN(m: Marquee, k: nat): (r: Marquee)
    ensures Inv(m) ==> Inv(r)
    ensures r.track == m.track
  {
    if k == 0 then m else Slide(SlideN(m, k - 1))
  }

  /** At the end, the next tick turns the window back one step. */
  lemma TurnsAtEnd(name: string)
    requires |name| > W
    ensures Slide(SlideN(NewTrack(INITIAL, name), |name| - W)) == Marquee(Some(name), |name| - W - 1, -1)
  {
    SlideReachesEnd(name, |name| - W);
  }
}

=== FILE: name_index.dfy ===
/** The name index shared by particle and star sets: a `HashMap<String,
    Integer>` filled by walking the particles in order and putting every key
    of particle `i` to `i`. Because later `put`s overwrite earlier ones, a key
    ends up at the LAST particle that carries it. `keys[i]` is the list of
    keys particle `i` contributes (already lower-cased by the caller). */
module NameIndex {

  type Index = map<string, nat>

  /** No particle after `i` carries `k`. */
  predicate LastCarrier(keys: seq<seq<string>>, k: string, i: nat) {
    forall j :: i < j < |keys| ==> k !in keys[j]
  }

  /** The puts of one particle: each of its keys now maps to `i`. */
  function PutKeys(m: Index, ks: seq<string>, i: nat): (r: Index)
    ensures r.Keys == m.Keys + set k | k in ks
    ensures forall k :: k in ks ==> r[k] == i
    ensures forall k :: k in m && k !in ks ==> r[k] == m[k]
  {
    m + map k | k in ks :: i
  }

  /** The loop over all particles. */
  function Build(keys: seq<seq<string>>): (r: Index)
    ensures forall k :: k in r ==> r[k] < |keys|
  {
    if |keys| == 0 then map[]
    else PutKeys(Build(keys[..|keys| - 1]), keys[|keys| - 1], |keys| - 1)
  }

  /** Some particle carries `k`. */
  ghost predicate Carried(keys: seq<seq<string>>, k: string) {
    exists i :: 0 <= i < |keys| && k in keys[i]
  }

  /** A key maps to `i` exactly when particle `i` carries it and no later
      particle does. */
  lemma {:induction false} BuildLast(keys: seq<seq<string>>, k: string, i: nat)
    requires i < |keys|
    ensures (k in Build(keys) && Build(keys)[k] == i) <==> (k in keys[i] && LastCarrier(keys, k, i))
  {
    var n := |keys| - 1;
    var p := keys[..n];
    if i < n && k !in keys[n] {
      BuildLast(p, k, i);
      assert LastCarrier(keys, k, i) <==> LastCarrier(p, k, i) by {
        assert forall j :: i < j < n ==> keys[j] == p[j];
      }
    }
  }

  /** The index holds exactly the keys some particle carries. */
  lemma {:induction false} BuildKeys(keys: seq<seq<string>>, k: string)
    ensures k in Build(keys) <==> Carried(keys, k)
  {
    if |keys| > 0 {
      var n := |keys| - 1;
      var p := keys[..n];
      BuildKeys(p, k);
      if Carried(p, k) {
        var i :| 0 <= i < |p| && k in p[i];
        assert keys[i] == p[i];
      }
      if Carried(keys, k) && k !in keys[n] {
        var i :| 0 <= i < |keys| && k in keys[i];
        assert p[i] == keys[i];
      }
    }
  }
}

=== FILE: notifications_interface.dfy ===
/** The message side of `gaiasky.gui.NotificationsInterface`: how a posted
    notification's arguments become one message, how a message is
    formatted, and what adding a message does to the two message lines and
    the history. Times are milliseconds passed in by the caller; the
    formatted date is a parameter. Widgets are reduced to each line's text
    and whether its cell shows it. */
module NotificationsInterface {
  import opened Wrappers
  import opened Logger

  const TAG_SEPARATOR: string := " - "

  /** libGDX `Application.LOG_DEBUG`. */
  const LOG_DEBUG: int := 3

  // ---------------------------------------------------------------------
  // POST_NOTIFICATION

  /** A notification argument: a `Boolean`, or any other object with the
      text of its `toString`. */
  datatype Arg = Flag(b: bool) | Obj(text: string)

  function ArgText(a: Arg): string {
    match a
    case Flag(b) => if b then "true" else "false"
    case Obj(t) => t
  }

  /** The texts joined with the separator between consecutive ones. */
  function JoinTags(ts: seq<string>): (r: string)
    ensures |ts| == 1 ==> r == ts[0]
  {
    if |ts| == 0 then "" else if |ts| == 1 then ts[0] else ts[0] + TAG_SEPARATOR + JoinTags(ts[1..])
  }

  function Texts(args: seq<Arg>): (r: seq<string>)
    ensures |r| == |args| && forall i :: 0 <= i < |args| ==> r[i] == ArgText(args[i])
  {
    seq(|args|, i requires 0 <= i < |args| => ArgText(args[i]))
  }

  predicate TrailingFlag(args: seq<Arg>) {
    |args| > 0 && args[|args| - 1].Flag?
  }

  /** The notification as the design describes it: a trailing `Boolean` is
      the permanence flag and no part of the text; the other arguments are
      joined with " - ". */
  function Assemble(args: seq<Arg>): (r: (string, bool))
    ensures !TrailingFlag(args) ==> r == (JoinTags(Texts(args)), false)
  {
    if TrailingFlag(args) then (JoinTags(Texts(args[..|args| - 1])), args[|args| - 1].b)
    else (JoinTags(Texts(args)), false)
  }

  /** Appending a flag to any argument list sets the permanence and leaves
      the text of the earlier arguments as it would be with no flag at all
      (an earlier flag then counts as text). */
  lemma TrailingFlagIsPermanence(args: seq<Arg>, b: bool)
    ensures Assemble(args + [Flag(b)]) == (JoinTags(Texts(args)), b)
  {
    assert (args + [Flag(b)])[..|args|] == args;
  }

  lemma {:induction false} JoinTagsSnoc(ts: seq<string>, x: string)
    requires |ts| >= 1
    ensures JoinTags(ts + [x]) == JoinTags(ts) + TAG_SEPARATOR + x
  {
    if |ts| == 1 {
      assert (ts + [x])[1..] == [x];
    } else {
      assert (ts + [x])[1..] == ts[1..] + [x];
      JoinTagsSnoc(ts[1..], x);
    }
  }

  /** The message after the first `i` texts: each followed by the
      separator while more texts follow, the whole join once they are all
      in. */
  function Partial(parts: seq<string>, i: nat): string {
    if i == 0 then "" else if i < |parts| then JoinTags(parts[..i]) + TAG_SEPARATOR else JoinTags(parts)
  }

  /** Adding the next text, and the separator when another follows. */
  lemma PartialStep(parts: seq<string>, i: nat, piece: string)
    requires i < |parts| && piece == parts[i]
    ensures Partial(parts, i + 1)
         == Partial(parts, i) + piece + (if i + 1 < |parts| then TAG_SEPARATOR else "")
  {
    if i > 0 {
      JoinTagsSnoc(parts[..i], piece);
      assert parts[..i + 1] == parts[..i] + [piece];
    } else {
      assert parts[..1] == [piece];
    }
    if i + 1 == |parts| {
      assert parts[..i + 1] == parts;
    }
  }

  /** The `POST_NOTIFICATION` loop over the argument array. */
  method PostNotification(dat: seq<Arg>) returns (message: string, perm: bool)
    ensures (message, perm) == Assemble(dat)
  {
    var n := |dat|;
    var m := if TrailingFlag(dat) then n - 1 else n;
    var parts := Texts(dat[..m]);
    message := "";
    perm := false;
    var i := 0;
    while i < n
      invariant 0 <= i <= n
      invariant i <= m ==> perm == false
      invariant message == Partial(parts, i)
      invariant i == n && m < n ==> perm == dat[n - 1].b
    {
      if i == n - 1 && dat[i].Flag? {
        perm := dat[i].b;
        assert m == i;
      } else {
        assert i < m;
        var piece := ArgText(dat[i]);
        PartialStep(parts, i, piece);
        message := message + piece;
        if i < n - 1 && !(i == n - 2 && dat[n - 1].Flag?) {
          assert i + 1 < m;
          message := message + TAG_SEPARATOR;
        } else {
          assert i + 1 == m;
        }
      }
      i := i + 1;
    }
    assert dat[..n] == dat;
  }

  // ---------------------------------------------------------------------
  // Formatting

  /** `formatMessage`: with dates on, the date, a " DEBUG" tag for debug
      messages and the separator go first; with dates off only debug
      messages get a prefix, " DEBUG - ". */
  function FormatMessage(date: string, msg: string, level: Level, writeDates: bool): (r: string)
    ensures !writeDates && level != Debug ==> r == msg
    ensures !writeDates && level == Debug ==> r == " DEBUG - " + msg
    ensures writeDates ==> r == date + (if level == Debug then " DEBUG" else "") + TAG_SEPARATOR + msg
    ensures |r| >= |msg| && r[|r| - |msg|..] == msg
  {
    var lvl := if level == Debug then " DEBUG" else "";
    var prefix := if writeDates then date + lvl + TAG_SEPARATOR
                  else if lvl == "" then "" else lvl + TAG_SEPARATOR;
    assert (prefix + msg)[|prefix|..] == msg;
    prefix + msg
  }

  // ---------------------------------------------------------------------
  // Adding messages

  /** A history entry: the message and when it was created. */
  datatype Bean = Bean(msg: string, date: int)

  /** `finished(timeout)`: more than `timeout` ms have passed since the
      bean was created, so with a non-negative timeout a bean is never
      finished at its own creation time. */
  function Finished(b: Bean, timeout: int, now: int): (r: bool)
    ensures r <==> b.date < now - timeout
    ensures timeout >= 0 && r ==> b.date < now
  {
    now - b.date > timeout
  }

  /** The settings fixed at construction, and the application log level. */
  datatype Config = Config(multiple: bool, historicalLog: bool, writeDates: bool, msTimeout: int, appLogLevel: int)

  /** Each line is a label text and whether its cell currently shows it. */
  datatype State = State(history: seq<Bean>, text1: string, shown1: bool, text2: string, shown2: bool,
                         displaying: bool, permanent: bool, visible: bool)

  /** `addMessage(msg, permanent, level)`: a debug message is dropped unless
      the application logs at debug level. Otherwise, with two lines
      enabled and the latest history entry still on screen, the first
      line's text moves to the second line; the new message takes the first
      line, the display is on with the given permanence, and the message
      joins the history only when history is kept. */
  function AddMessage(cfg: Config, s: State, msg: string, permanent: bool, level: Level, now: int, date: string): (r: State)
    ensures level == Debug && cfg.appLogLevel < LOG_DEBUG ==> r == s
    ensures level != Debug || cfg.appLogLevel >= LOG_DEBUG ==>
              r.text1 == FormatMessage(date, msg, level, cfg.writeDates) && r.shown1 &&
              r.displaying && r.permanent == permanent && r.visible &&
              r.history == s.history + (if cfg.historicalLog then [Bean(msg, now)] else [])
    ensures level != Debug || cfg.appLogLevel >= LOG_DEBUG ==>
              (if cfg.multiple && |s.history| > 0 && !Finished(s.history[|s.history| - 1], cfg.msTimeout, now)
               then r.text2 == s.text1 && r.shown2
               else r.text2 == s.text2 && r.shown2 == s.shown2)
  {
    var debug := level == Debug;
    var add := !debug || (debug && cfg.appLogLevel >= LOG_DEBUG);
    if !add then s
    else
      var bean := Bean(msg, now);
      var s1 := if cfg.multiple && |s.history| > 0 && !Finished(s.history[|s.history| - 1], cfg.msTimeout, now)
                then s.(text2 := s.text1, shown2 := true, visible := true)
                else s;
      var s2 := s1.(text1 := FormatMessage(date, msg, level, cfg.writeDates), shown1 := true, visible := true);
      var s3 := s2.(displaying := true, permanent := permanent);
      if cfg.historicalLog then s3.(history := s3.history + [bean]) else s3
  }

  /** Two quick messages on a two-line display show the newer one first and
      the older one below it; on a one-line display only the newer one. */
  lemma TwoQuickMessages(cfg: Config, s: State, a: string, b: string, now: int, da: string, db: string)
    requires cfg.historicalLog && cfg.msTimeout >= 0
    ensures var s1 := AddMessage(cfg, s, a, false, Info, now, da);
            var s2 := AddMessage(cfg, s1, b, false, Info, now, db);
            s2.text1 == FormatMessage(db, b, Info, cfg.writeDates) &&
            (cfg.multiple ==> s2.text2 == FormatMessage(da, a, Info, cfg.writeDates) && s2.shown2) &&
            (!cfg.multiple ==> s2.text2 == s.text2)
  {
    var s1 := AddMessage(cfg, s, a, false, Info, now, da);
    assert s1.history[|s1.history| - 1] == Bean(a, now);
  }

  // ---------------------------------------------------------------------
  // Expiry

  /** How `update()` can fail: `historical.getLast()` on an empty list, or
      a call on the second line's cell, which a one-line interface never
      creates. */
  datatype Failure = NoSuchElement | NullSecondCell

  /** The clearing half of `update()`: with two lines, the second line is
      cleared once the second-latest history entry has timed out; the first
      line is cleared and the display stops once the latest entry has timed
      out. */
  function Expire(cfg: Config, s: State, now: int): (r: State)
    requires |s.history| > 0
    ensures r.history == s.history && r.permanent == s.permanent
    ensures var last := s.history[|s.history| - 1];
            (if Finished(last, cfg.msTimeout, now)
             then !r.displaying && r.text1 == "" && !r.shown1
             else r.displaying == s.displaying && r.text1 == s.text1 && r.shown1 == s.shown1)
    ensures var h := s.history;
            if cfg.multiple && |h| > 1 && Finished(h[|h| - 2], cfg.msTimeout, now)
            then r.text2 == "" && !r.shown2
            else r.text2 == s.text2 && r.shown2 == s.shown2
  {
    var h := s.history;
    var s1 := if cfg.multiple && |h| > 1 && Finished(h[|h| - 2], cfg.msTimeout, now)
              then s.(text2 := "", shown2 := false) else s;
    if Finished(h[|h| - 1], cfg.msTimeout, now)
    then s1.(displaying := false, text1 := "", shown1 := false) else s1
  }

  /** `update()` as written: nothing happens unless a non-permanent message
      is displayed; then the lines expire, and the visibility test asks the
      second cell for its actor whenever the first cell has none. On a
      one-line interface that cell does not exist, so the call fails
      exactly when the first line is not shown after the expiry. Otherwise
      the panel stays visible exactly while some line is shown. */
  function Update(cfg: Config, s: State, now: int): (r: Result<State, Failure>)
    ensures !s.displaying || s.permanent ==> r == Ok(s)
    ensures r == Err(NoSuchElement) <==> s.displaying && !s.permanent && |s.history| == 0
    ensures r == Err(NullSecondCell) <==>
              s.displaying && !s.permanent && |s.history| > 0 && !cfg.multiple &&
              (Finished(s.history[|s.history| - 1], cfg.msTimeout, now) || !s.shown1)
    ensures r.Ok? ==> r.value.history == s.history && r.value.permanent == s.permanent
    ensures r.Ok? && s.displaying && !s.permanent ==>
              var last := s.history[|s.history| - 1];
              (r.value.displaying <==> !Finished(last, cfg.msTimeout, now)) &&
              (if Finished(last, cfg.msTimeout, now) then r.value.text1 == "" && !r.value.shown1
               else r.value.text1 == s.text1 && r.value.shown1 == s.shown1) &&
              r.value.visible == (r.value.shown1 || r.value.shown2)
    ensures r.Ok? && s.displaying && !s.permanent ==>
              var h := s.history;
              if cfg.multiple && |h| > 1 && Finished(h[|h| - 2], cfg.msTimeout, now)
              then r.value.text2 == "" && !r.value.shown2
              else r.value.text2 == s.text2 && r.value.shown2 == s.shown2
  {
    if !s.displaying || s.permanent then Ok(s)
    else if |s.history| == 0 then Err(NoSuchElement)
    else
      var s2 := Expire(cfg, s, now);
      if !cfg.multiple && !s2.shown1 then Err(NullSecondCell)
      else Ok(s2.(visible := s2.shown1 || s2.shown2))
  }

  /** `update()` as evidently intended: a missing second cell holds no
      actor, so a one-line panel hides once its line is cleared. */
  function UpdateFixed(cfg: Config, s: State, now: int): (r: Result<State, Failure>)
    ensures !s.displaying || s.permanent ==> r == Ok(s)
    ensures r.Err? <==> s.displaying && !s.permanent && |s.history| == 0
    ensures r.Ok? && s.displaying && !s.permanent ==>
              r.value == Expire(cfg, s, now).(visible := r.value.shown1 || (cfg.multiple && r.value.shown2))
  {
    if !s.displaying || s.permanent then Ok(s)
    else if |s.history| == 0 then Err(NoSuchElement)
    else
      var s2 := Expire(cfg, s, now);
      Ok(s2.(visible := s2.shown1 || (cfg.multiple && s2.shown2)))
  }

  /** The two agree on every two-line interface, and wherever the source
      does not fail. */
  lemma UpdateFixedAgrees(cfg: Config, s: State, now: int)
    ensures cfg.multiple ==> UpdateFixed(cfg, s, now) == Update(cfg, s, now)
    ensures Update(cfg, s, now).Ok? ==> UpdateFixed(cfg, s, now) == Update(cfg, s, now)
  {
  }

  /** A message just added survives an update at the same instant: it stays
      on the first line and on display. Once its time is up, an update takes
      it off the screen, and a one-line panel hides. */
  lemma AddedMessageLifetime(cfg: Config, s: State, msg: string, now: int, later: int, date: string)
    requires cfg.historicalLog && cfg.msTimeout >= 0 && later - now > cfg.msTimeout
    ensures var s1 := AddMessage(cfg, s, msg, false, Info, now, date);
            UpdateFixed(cfg, s1, now).Ok? &&
            UpdateFixed(cfg, s1, now).value.text1 == FormatMessage(date, msg, Info, cfg.writeDates) &&
            UpdateFixed(cfg, s1, now).value.displaying && UpdateFixed(cfg, s1, now).value.visible
    ensures var s1 := AddMessage(cfg, s, msg, false, Info, now, date);
            UpdateFixed(cfg, s1, later).Ok? &&
            !UpdateFixed(cfg, s1, later).value.displaying && !UpdateFixed(cfg, s1, later).value.shown1 &&
            (!cfg.multiple ==> !UpdateFixed(cfg, s1, later).value.visible)
  {
    var s1 := AddMessage(cfg, s, msg, false, Info, now, date);
    assert s1.history[|s1.history| - 1] == Bean(msg, now);
  }

  /** The source's one-line interface fails on the first update after its
      message times out: a non-permanent message, then an update past the
      timeout, calls into the missing second cell. */
  lemma OneLineExpiryFails(cfg: Config, s: State, msg: string, now: int, later: int, date: string)
    requires !cfg.multiple && cfg.historicalLog && cfg.msTimeout >= 0 && later - now > cfg.msTimeout
    ensures Update(cfg, AddMessage(cfg, s, msg, false, Info, now, date), later) == Err(NullSecondCell)
  {
    var s1 := AddMessage(cfg, s, msg, false, Info, now, date);
    assert s1.history[|s1.history| - 1] == Bean(msg, now);
  }

  /** A permanent message is never taken down by an update. */
  lemma PermanentMessageStays(cfg: Config, s: State, msg: string, level: Level, now: int, later: int, date: string)
    requires level != Debug
    ensures var s1 := AddMessage(cfg, s, msg, true, level, now, date);
            Update(cfg, s1, later) == Ok(s1) && UpdateFixed(cfg, s1, later) == Ok(s1) && s1.displaying
  {
  }
}

=== FILE: particle_set.dfy ===
/** The particle-set component (`gaiasky.scene.component.ParticleSet`):
    a list of particle records, the name index over them, a per-particle
    visibility array, the focus index, and the particle size limits. */
module ParticleSet {
  import opened Wrappers
  import opened Text
  import opened Vec3
  import NameIndex

  /** A particle record: its names (the array may be null) and position. */
  datatype Particle = Particle(names: Option<seq<string>>, pos: Vec)

  datatype Error = IndexOutOfBounds

  datatype ParticleSet = ParticleSet(
    data: seq<Particle>,
    index: NameIndex.Index,
    /** `visibilityArray`; `None` until data is set. Entries are byte values. */
    visibility: Option<seq<int>>,
    focusIndex: int,
    candidateFocusIndex: int,
    /** `focus`: the focused record, null when there is none. */
    focus: Option<Particle>,
    focusPosition: Vec)

  /** `name` is one of the particle's names. */
  predicate HasName(p: Particle, name: string) {
    p.names.Some? && name in p.names.value
  }

  /** Each name, lower-cased. */
  function LowerAll(ns: seq<string>): (r: seq<string>)
    ensures |r| == |ns|
    ensures forall name :: name in ns ==> Lower(name) in r
  {
    if |ns| == 0 then [] else [Lower(ns[0])] + LowerAll(ns[1..])
  }

  /** The keys a particle contributes to the index: its lower-cased names. */
  function NameKeys(p: Particle): (ks: seq<string>)
    ensures forall name :: HasName(p, name) ==> Lower(name) in ks
    ensures p.names.None? ==> ks == []
  {
    if p.names.None? then []
    else LowerAll(p.names.value)
  }

  function AllNameKeys(data: seq<Particle>): (keys: seq<seq<string>>)
    ensures |keys| == |data|
    ensures forall i :: 0 <= i < |data| ==> keys[i] == NameKeys(data[i])
  {
    seq(|data|, i requires 0 <= i < |data| => NameKeys(data[i]))
  }

  /** `generateIndex`: every lower-cased name maps to the last particle that
      carries it, and nothing else is indexed. */
  function GenerateIndex(data: seq<Particle>): (index: NameIndex.Index)
    ensures forall k :: k in index ==> index[k] < |data| && k in NameKeys(data[index[k]])
    ensures forall i, name :: 0 <= i < |data| && HasName(data[i], name) ==>
              Lower(name) in index && index[Lower(name)] >= i
  {
    var keys := AllNameKeys(data);
    var r := NameIndex.Build(keys);
    GenerateIndexFacts(data, keys, r);
    r
  }

  lemma GenerateIndexFacts(data: seq<Particle>, keys: seq<seq<string>>, r: NameIndex.Index)
    requires keys == AllNameKeys(data) && r == NameIndex.Build(keys)
    ensures forall k :: k in r ==> r[k] < |data| && k in NameKeys(data[r[k]])
    ensures forall i, name :: 0 <= i < |data| && HasName(data[i], name) ==>
              Lower(name) in r && r[Lower(name)] >= i
  {
    forall k | k in r
      ensures r[k] < |data| && k in NameKeys(data[r[k]])
    {
      NameIndex.BuildLast(keys, k, r[k]);
    }
    forall i, name | 0 <= i < |data| && HasName(data[i], name)
      ensures Lower(name) in r && r[Lower(name)] >= i
    {
      var k := Lower(name);
      assert k in keys[i];
      NameIndex.BuildKeys(keys, k);
      NameIndex.BuildLast(keys, k, r[k]);
    }
  }

  /** The particle an index entry names is the last one carrying that name. */
  lemma GenerateIndexLast(data: seq<Particle>, k: string, i: nat)
    requires i < |data|
    ensures (k in GenerateIndex(data) && GenerateIndex(data)[k] == i) <==>
            (k in NameKeys(data[i]) && forall j :: i < j < |data| ==> k !in NameKeys(data[j]))
  {
    NameIndex.BuildLast(AllNameKeys(data), k, i);
  }

  /** `setData(pointData, regenerateIndex)`: replaces the data, makes every
      particle visible, and rebuilds the index only when asked to. */
  function SetData(ps: ParticleSet, data: seq<Particle>, regenerateIndex: bool): (r: ParticleSet)
    ensures r.data == data
    ensures r.visibility.Some? && |r.visibility.value| == |data|
    ensures forall i :: 0 <= i < |data| ==> r.visibility.value[i] == 1
    ensures !regenerateIndex ==> r.index == ps.index
    ensures regenerateIndex ==> forall k :: k in r.index ==> r.index[k] < |data|
    ensures r.focusIndex == ps.focusIndex && r.focus == ps.focus
  {
    var index := if regenerateIndex then GenerateIndex(data) else ps.index;
    ps.(data := data, index := index, visibility := Some(seq(|data|, _ => 1)))
  }

  /** `isVisible(index)`: false without a visibility array, otherwise whether
      the byte is non-zero; an index outside the array throws. */
  function IsVisible(ps: ParticleSet, index: int): (r: Result<bool, Error>)
    ensures ps.visibility.None? ==> r == Ok(false)
    ensures ps.visibility.Some? ==> (r.Ok? <==> 0 <= index < |ps.visibility.value|)
    ensures r == Ok(true) ==> ps.visibility.Some? && ps.visibility.value[index] != 0
  {
    match ps.visibility
    case None => Ok(false)
    case Some(v) =>
      if 0 <= index < |v| then Ok(v[index] != 0) else Err(IndexOutOfBounds)
  }

  /** After `setData`, every particle is visible. */
  lemma SetDataAllVisible(ps: ParticleSet, data: seq<Particle>, regenerateIndex: bool, i: int)
    requires 0 <= i < |data|
    ensures IsVisible(SetData(ps, data, regenerateIndex), i) == Ok(true)
  {
    var r := SetData(ps, data, regenerateIndex);
    assert r.visibility.value[i] == 1;
  }

  /** `setParticlesizelimits`: the minimum is lowered to the maximum when it
      exceeds it; an array shorter than two entries throws. */
  function SetParticleSizeLimits(limits: seq<real>): (r: Result<seq<real>, Error>)
    ensures r.Ok? <==> |limits| >= 2
    ensures r.Ok? ==> |r.value| == |limits| && r.value[1] == limits[1] && r.value[0] <= r.value[1]
    ensures r.Ok? ==> r.value[2..] == limits[2..]
    ensures r.Ok? ==> (r.value[0] == limits[0] <==> limits[0] <= limits[1])
  {
    if |limits| < 2 then Err(IndexOutOfBounds)
    else if limits[0] > limits[1] then Ok(limits[0 := limits[1]])
    else Ok(limits)
  }

  /** `updateFocusDataPos`: a negative focus index clears the focus record;
      otherwise the record and its position are taken from the data, and an
      index past the end throws. The camera-dependent angles are left out. */
  function UpdateFocusDataPos(ps: ParticleSet): (r: Result<ParticleSet, Error>)
    ensures ps.focusIndex < 0 ==> r == Ok(ps.(focus := None))
    ensures ps.focusIndex >= 0 ==> (r.Ok? <==> ps.focusIndex < |ps.data|)
    ensures r.Ok? && ps.focusIndex >= 0 ==>
              r.value.focus == Some(ps.data[ps.focusIndex]) &&
              r.value.focusPosition == ps.data[ps.focusIndex].pos
    ensures r.Ok? ==> r.value.data == ps.data && r.value.focusIndex == ps.focusIndex
  {
    if ps.focusIndex < 0 then Ok(ps.(focus := None))
    else if ps.focusIndex >= |ps.data| then Err(IndexOutOfBounds)
    else
      var p := ps.data[ps.focusIndex];
      Ok(ps.(focus := Some(p), focusPosition := p.pos))
  }

  /** `makeFocus`: the candidate becomes the focus index. */
  function MakeFocus(ps: ParticleSet): (r: Result<ParticleSet, Error>)
    ensures r.Ok? ==> r.value.focusIndex == ps.candidateFocusIndex
    ensures r.Ok? <==> ps.candidateFocusIndex < |ps.data|
  {
    UpdateFocusDataPos(ps.(focusIndex := ps.candidateFocusIndex))
  }

  /** `setFocusIndex(index)`: acts only for an index inside the data, and
      then focuses that particle; any other index changes nothing. */
  function SetFocusIndex(ps: ParticleSet, index: int): (r: ParticleSet)
    ensures 0 <= index < |ps.data| ==>
              r.focusIndex == index && r.candidateFocusIndex == index &&
              r.focus == Some(ps.data[index]) && r.focusPosition == ps.data[index].pos
    ensures !(0 <= index < |ps.data|) ==> r == ps
    ensures r.data == ps.data && r.index == ps.index && r.visibility == ps.visibility
  {
    if 0 <= index < |ps.data| then
      var m := MakeFocus(ps.(candidateFocusIndex := index));
      if m.Ok? then m.value else ps
    else ps
  }

  /** `getAbsolutePosition(name)`: the position of the indexed particle, or
      null for a name that is not in the index. The lookup is exact: the
      name is not lower-cased here. An entry pointing past the data (the data
      was replaced without rebuilding the index) throws. */
  function GetAbsolutePosition(ps: ParticleSet, name: string): (r: Result<Option<Vec>, Error>)
    ensures name !in ps.index ==> r == Ok(None)
    ensures name in ps.index ==> (r.Ok? <==> ps.index[name] < |ps.data|)
    ensures r.Ok? && r.value.Some? ==> name in ps.index && r.value.value == ps.data[ps.index[name]].pos
  {
    if name !in ps.index then Ok(None)
    else if ps.index[name] < |ps.data| then Ok(Some(ps.data[ps.index[name]].pos))
    else Err(IndexOutOfBounds)
  }

  /** After `setData` with a rebuilt index, every lower-cased name of every
      particle resolves to the position of a particle with that name, at or
      after it; a key that is no particle's lower-cased name resolves to null. */
  lemma PositionAfterSetData(ps: ParticleSet, data: seq<Particle>, k: string)
    ensures var r := GetAbsolutePosition(SetData(ps, data, true), k);
            r.Ok? &&
            (r.value.Some? <==> exists i :: 0 <= i < |data| && k in NameKeys(data[i])) &&
            (r.value.Some? ==> exists j :: 0 <= j < |data| && k in NameKeys(data[j]) && r.value.value == data[j].pos)
  {
    var s := SetData(ps, data, true);
    var keys := AllNameKeys(data);
    NameIndex.BuildKeys(keys, k);
    if k in s.index {
      var j := s.index[k];
      assert k in NameKeys(data[j]);
    } else if exists i :: 0 <= i < |data| && k in NameKeys(data[i]) {
      var i :| 0 <= i < |data| && k in NameKeys(data[i]);
      assert k in keys[i];
    }
  }
}

=== FILE: particle_set_initializer.dfy ===
/** The initialisation of particle and star sets
    (`gaiasky.scene.system.initialize.ParticleSetInitializer`): common
    defaults, the distance statistics, the mean and label positions, the
    star-set epoch defaults and the sorting buffers. Distances arrive already
    computed (`None` stands for a non-finite distance); the square root that
    produces them is floating point and not modelled. */
module ParticleSetInitializer {
  import opened Wrappers
  import opened Vec3
  import Proximity
  import AstroUtils

  datatype Error = IndexOutOfBounds

  // ---------------------------------------------------------------------
  // initializeCommon

  datatype Common = Common(factor: real, lastSortTime: int, proximity: Proximity.Slots)

  /** `initializeCommon`: an unset factor becomes 1, the last sort time
      starts at -1, and the proximity array has one empty slot per
      directional light (`nDirLights` stands for `Constants.N_DIR_LIGHTS`). */
  function InitializeCommon(factor: Option<real>, nDirLights: nat): (c: Common)
    ensures factor.None? ==> c.factor == 1.0
    ensures factor.Some? ==> c.factor == factor.value
    ensures c.lastSortTime == -1
    ensures |c.proximity| == nDirLights && forall j :: 0 <= j < nDirLights ==> c.proximity[j].None?
  {
    Common(factor.GetOr(1.0), -1, Proximity.Create(nDirLights))
  }

  // ---------------------------------------------------------------------
  // computeMinMeanMaxDistances

  /** The finite distances, in data order. */
  function Finite(ds: seq<Option<real>>): (r: seq<real>)
    ensures forall x :: x in r <==> Some(x) in ds
  {
    if |ds| == 0 then []
    else
      match ds[0]
      case Some(d) => [d] + Finite(ds[1..])
      case None => Finite(ds[1..])
  }

  predicate Sorted(s: seq<real>) {
    forall i, j :: 0 <= i < j < |s| ==> s[i] <= s[j]
  }

  /** How many entries are below `v`, and how many are at most `v`. */
  function CountBelow(s: seq<real>, v: real): nat {
    if |s| == 0 then 0 else (if s[0] < v then 1 else 0) + CountBelow(s[1..], v)
  }

  function CountAtMost(s: seq<real>, v: real): nat {
    if |s| == 0 then 0 else (if s[0] <= v then 1 else 0) + CountAtMost(s[1..], v)
  }

  lemma HalfDoubles(d: real)
    ensures 2.0 * (d / 2.0) == d
  {
  }

  /** Inserting into a sorted list keeps it sorted and adds exactly `x`. */
  function Insert(x: real, s: seq<real>): (r: seq<real>)
    requires Sorted(s)
    ensures Sorted(r) && |r| == |s| + 1
    ensures forall y :: y in r <==> y == x || y in s
  {
    if |s| == 0 then [x]
    else if x <= s[0] then
      var r := [x] + s;
      assert r[1..] == s;
      r
    else
      var t := Insert(x, s[1..]);
      var r := [s[0]] + t;
      assert r[1..] == t;
      assert forall j :: 0 <= j < |t| ==> s[0] <= t[j] by {
        forall j | 0 <= j < |t| ensures s[0] <= t[j] {
          assert t[j] in t;
          if t[j] != x {
            var m :| 0 <= m < |s[1..]| && s[1..][m] == t[j];
            assert s[m + 1] == t[j];
          }
        }
      }
      r
  }

  /** `distances.sort(Double::compare)`, as an insertion sort: the sorted
      order of a list is unique, so any stable sort gives the same list. */
  function Sort(s: seq<real>): (r: seq<real>)
    ensures Sorted(r) && |r| == |s|
    ensures forall y :: y in r <==> y in s
  {
    if |s| == 0 then [] else Insert(s[0], Sort(s[1..]))
  }

  /** Inserting `x` adds one entry below `v` when `x < v`, and one entry at
      most `v` when `x <= v`, and changes no other count. */
  lemma {:induction false} InsertCounts(x: real, s: seq<real>, v: real)
    requires Sorted(s)
    ensures CountBelow(Insert(x, s), v) == CountBelow(s, v) + (if x < v then 1 else 0)
    ensures CountAtMost(Insert(x, s), v) == CountAtMost(s, v) + (if x <= v then 1 else 0)
  {
    var r := Insert(x, s);
    if |s| == 0 {
      assert r == [x] && r[1..] == [];
    } else if x <= s[0] {
      assert r == [x] + s && r[1..] == s;
    } else {
      assert r == [s[0]] + Insert(x, s[1..]);
      assert r[1..] == Insert(x, s[1..]);
      InsertCounts(x, s[1..], v);
    }
  }

  /** Sorting keeps, for every value, how many entries lie below it and how
      many lie at or below it. */
  lemma {:induction false} SortCounts(s: seq<real>, v: real)
    ensures CountBelow(Sort(s), v) == CountBelow(s, v)
    ensures CountAtMost(Sort(s), v) == CountAtMost(s, v)
  {
    if |s| > 0 {
      SortCounts(s[1..], v);
      InsertCounts(s[0], Sort(s[1..]), v);
    }
  }

  /** In a sorted list, at most `j` entries are below entry `j`, and at
      least `j + 1` entries are at most entry `j`. */
  lemma {:induction false} SortedRank(s: seq<real>, j: nat)
    requires Sorted(s) && j < |s|
    ensures CountBelow(s, s[j]) <= j
    ensures CountAtMost(s, s[j]) >= j + 1
  {
    if j == 0 {
      NoneBelow(s, s[0]);
    } else {
      assert s[1..][j - 1] == s[j];
      SortedRank(s[1..], j - 1);
    }
  }

  lemma {:induction false} NoneBelow(s: seq<real>, v: real)
    requires forall i :: 0 <= i < |s| ==> v <= s[i]
    ensures CountBelow(s, v) == 0
  {
    if |s| > 0 {
      NoneBelow(s[1..], v);
    }
  }

  /** `(int) Math.ceil(0.9 * n)`, taken exactly: the rounding of `0.9 * n`
      in double precision is not modelled. */
  function NinetiethRank(n: nat): (k: nat)
    ensures 9 * n <= 10 * k < 9 * n + 10
  {
    (9 * n + 9) / 10
  }

  /** The smallest and largest finite distance, starting from the given
      initial values. */
  function MinMax(fs: seq<real>, lo: real, hi: real): (r: (real, real))
    ensures r.0 <= lo && r.1 >= hi
    ensures forall d :: d in fs ==> r.0 <= d <= r.1
    ensures r.0 == lo || r.0 in fs
    ensures r.1 == hi || r.1 in fs
  {
    if |fs| == 0 then (lo, hi)
    else
      var r := MinMax(fs[1..], if fs[0] < lo then fs[0] else lo, if fs[0] > hi then fs[0] else hi);
      assert forall d :: d in fs ==> d == fs[0] || d in fs[1..];
      r
  }

  /** The `⌈0.9·n⌉`-th smallest value: the entry at rank `k - 1` of the
      sorted list. It exists exactly when the list is not empty, and fewer
      than `k` values lie below it while at least `k` lie at or below it. */
  function NinetiethPercentile(fs: seq<real>): (r: Option<real>)
    ensures r.Some? <==> |fs| > 0
    ensures r.Some? ==> r.value in fs
    ensures r.Some? ==> CountBelow(fs, r.value) < NinetiethRank(|fs|) <= CountAtMost(fs, r.value)
  {
    var sorted := Sort(fs);
    var k := NinetiethRank(|fs|);
    if k == 0 then None
    else
      assert sorted[k - 1] in sorted;
      SortedRank(sorted, k - 1);
      SortCounts(fs, sorted[k - 1]);
      Some(sorted[k - 1])
  }

  datatype Distances = Distances(min: real, mean: real, max: real)

  /** `computeMinMeanMaxDistances`: the minimum and maximum of the finite
      distances (starting from `maxDouble` and `minDouble`, which stand for
      `Double.MAX_VALUE` and `Double.MIN_VALUE`), and as mean distance half
      the `⌈0.9·n⌉`-th smallest finite distance. With no finite distance the
      rank is 0 and `get(-1)` throws. */
  function ComputeMinMeanMaxDistances(ds: seq<Option<real>>, minDouble: real, maxDouble: real): (r: Result<Distances, Error>)
    ensures r.Ok? <==> exists d :: Some(d) in ds
    ensures r.Ok? ==> Some(2.0 * r.value.mean) in ds
    ensures r.Ok? ==> CountBelow(Finite(ds), 2.0 * r.value.mean) < NinetiethRank(|Finite(ds)|)
    ensures r.Ok? ==> NinetiethRank(|Finite(ds)|) <= CountAtMost(Finite(ds), 2.0 * r.value.mean)
    ensures r.Ok? ==> forall d :: Some(d) in ds ==> r.value.min <= d <= r.value.max
    ensures r.Ok? ==> r.value.min <= maxDouble && r.value.max >= minDouble
  {
    var fs := Finite(ds);
    var mm := MinMax(fs, maxDouble, minDouble);
    match NinetiethPercentile(fs)
    case None =>
      assert forall d :: Some(d) !in ds by {
        forall d ensures Some(d) !in ds { assert d !in fs; }
      }
      Err(IndexOutOfBounds)
    case Some(d) =>
      HalfDoubles(d);
      Ok(Distances(mm.0, d / 2.0, mm.1))
  }


  // ---------------------------------------------------------------------
  // computeMeanPosition and setLabelPosition

  /** The body position after adding every point to it. */
  function Accumulate(start: Vec, points: seq<Vec>): Vec
    decreases |points|
  {
    if |points| == 0 then start else Accumulate(Add(start, points[0]), points[1..])
  }

  /** `computeMeanPosition`: an explicit mean position is used verbatim;
      otherwise every point is added to the body position, which is then
      scaled by `1/n`. With no points the scale factor is infinite (`None`). */
  function ComputeMeanPosition(meanPosition: Option<Vec>, bodyPos: Vec, points: seq<Vec>): (r: Option<Vec>)
    ensures meanPosition.Some? ==> r == meanPosition
    ensures meanPosition.None? ==> (r.Some? <==> |points| > 0)
    ensures meanPosition.None? && r.Some? ==> Scale(|points| as real, r.value) == Accumulate(bodyPos, points)
  {
    if meanPosition.Some? then meanPosition
    else if |points| == 0 then None
    else
      var n := |points| as real;
      var s := Accumulate(bodyPos, points);
      assert n * (1.0 / n) == 1.0;
      Some(Scale(1.0 / n, s))
  }

  lemma {:induction false} AccumulateCopies(start: Vec, p: Vec, points: seq<Vec>)
    requires forall i :: 0 <= i < |points| ==> points[i] == p
    ensures Accumulate(start, points) == Add(start, Scale(|points| as real, p))
    decreases |points|
  {
    if |points| > 0 {
      AccumulateCopies(Add(start, p), p, points[1..]);
    }
  }

  lemma MulInverse(n: real, x: real)
    requires n > 0.0
    ensures (1.0 / n) * (n * x) == x
  {
    assert (1.0 / n) * n == 1.0;
    calc {
      (1.0 / n) * (n * x);
      ((1.0 / n) * n) * x;
    }
  }

  /** Starting from the origin, the mean of copies of one point is that point. */
  lemma MeanOfCopies(p: Vec, points: seq<Vec>)
    requires |points| > 0
    requires forall i :: 0 <= i < |points| ==> points[i] == p
    ensures ComputeMeanPosition(None, Vec(0.0, 0.0, 0.0), points) == Some(p)
  {
    var o := Vec(0.0, 0.0, 0.0);
    AccumulateCopies(o, p, points);
    var n := |points| as real;
    var s := Accumulate(o, points);
    assert s == Vec(n * p.x, n * p.y, n * p.z);
    MulInverse(n, p.x);
    MulInverse(n, p.y);
    MulInverse(n, p.z);
    assert Scale(1.0 / n, s) == p;
  }

  /** `setLabelPosition`: with both a label and a body, an unset label
      position is taken from the body position; anything else leaves the
      label position as it is (the missing-component warning is not
      modelled). */
  function SetLabelPosition(hasLabel: bool, hasBody: bool, labelPosition: Option<Vec>, bodyPos: Vec): (r: Option<Vec>)
    ensures labelPosition.Some? ==> r == labelPosition
    ensures labelPosition.None? ==> (r.Some? <==> hasLabel && hasBody)
    ensures r.Some? && labelPosition.None? ==> r.value == bodyPos
  {
    if hasLabel && hasBody && labelPosition.None? then Some(bodyPos) else labelPosition
  }

  /** Setting the label position a second time changes nothing. */
  lemma SetLabelPositionIdempotent(hasLabel: bool, hasBody: bool, labelPosition: Option<Vec>, bodyPos: Vec, bodyPos': Vec)
    ensures var once := SetLabelPosition(hasLabel, hasBody, labelPosition, bodyPos);
            SetLabelPosition(hasLabel, hasBody, once, bodyPos') == once
  {
  }

  // ---------------------------------------------------------------------
  // initializeStarSet epochs and initSortingData

  /** The default epochs of a star set: a non-positive `epochJd` becomes
      J2015.5 and a non-positive variability epoch becomes J2010. */
  function DefaultEpochs(epochJd: real, variabilityEpochJd: real): (r: (real, real))
    ensures r.0 > 0.0 && r.1 > 0.0
    ensures epochJd > 0.0 ==> r.0 == epochJd
    ensures variabilityEpochJd > 0.0 ==> r.1 == variabilityEpochJd
    ensures epochJd <= 0.0 ==> r.0 == 2457206.125
    ensures variabilityEpochJd <= 0.0 ==> r.1 == 2455197.5
  {
    AstroUtils.ReferenceEpochs();
    (if epochJd <= 0.0 then AstroUtils.JD_J2015_5 else epochJd,
     if variabilityEpochJd <= 0.0 then AstroUtils.JD_J2010 else variabilityEpochJd)
  }

  /** Applying the defaults twice is the same as once. */
  lemma DefaultEpochsIdempotent(epochJd: real, variabilityEpochJd: real)
    ensures var r := DefaultEpochs(epochJd, variabilityEpochJd);
            DefaultEpochs(r.0, r.1) == r
  {
  }

  /** The sorting buffers of a star set: two index arrays and the metadata
      array; `active` is the first array and `background` the second. */
  datatype SortingData = SortingData(metadata: seq<real>, indices1: seq<int>, indices2: seq<int>,
                                     active: seq<int>, background: seq<int>)

  /** Each index in `[0, n)` appears exactly at its own position. */
  predicate IsIdentity(ix: seq<int>, n: nat) {
    |ix| == n && forall i :: 0 <= i < n ==> ix[i] == i
  }

  /** `initSortingData`: both index arrays start as the identity
      permutation over the `n` particles and the metadata array has one
      zero per particle. */
  method InitSortingData(n: nat) returns (s: SortingData)
    ensures |s.metadata| == n && forall i :: 0 <= i < n ==> s.metadata[i] == 0.0
    ensures IsIdentity(s.indices1, n) && IsIdentity(s.indices2, n)
    ensures s.active == s.indices1 && s.background == s.indices2
  {
    var a1: seq<int> := [];
    var a2: seq<int> := [];
    var i := 0;
    while i < n
      invariant 0 <= i <= n
      invariant IsIdentity(a1, i) && IsIdentity(a2, i)
    {
      a1 := a1 + [i];
      a2 := a2 + [i];
      i := i + 1;
    }
    s := SortingData(seq(n, _ => 0.0), a1, a2, a1, a2);
  }

  /** The identity is a permutation: every particle index occurs once. */
  lemma IdentityIsPermutation(ix: seq<int>, n: nat)
    requires IsIdentity(ix, n)
    ensures forall i :: 0 <= i < n ==> i in ix
    ensures forall i, j :: 0 <= i < j < n ==> ix[i] != ix[j]
  {
    forall i | 0 <= i < n ensures i in ix { assert ix[i] == i; }
  }
}

=== FILE: portable_float_map.dfy ===
/** The Portable FloatMap reader and writer of
    `gaiasky.util.gdx.loader.PortableFloatMap`, over byte sequences. A pixel
    is the 32-bit pattern of its float (`Float.floatToIntBits` /
    `Float.intBitsToFloat`). Reading the scale line goes through
    `Double.parseDouble`, which is a parameter here: `classify` says whether
    the text is a non-negative number, a negative one, NaN, or no number. */
module PortableFloatMap {
  import opened Wrappers
  import opened Text

  type Byte = bv8
  type Word = bv32

  datatype Mode = Color | Grayscale

  datatype ScaleSign = NonNegative | Negative | NaN | Malformed

  datatype Error =
    | LineTooLong
    | UnrecognizedFormat
    | InvalidDimensions
    | DimensionsNotPositive
    | MalformedScale
    | TooLarge
    | EndOfStream
    | WidthNotPositive
    | HeightNotPositive
    | ModeNotSet
    | PixelsNotSet
    | LengthMismatch

  datatype Pfm = Pfm(width: int, height: int, mode: Option<Mode>, pixels: Option<seq<Word>>, bigEndian: bool)

  /** A successful read: the image and the bytes after it. */
  datatype Parsed = Parsed(image: Pfm, rest: seq<Byte>)

  const NEWLINE: Byte := 10
  const MAX_LINE: nat := 100

  /** The blank image: big-endian, nothing else set. */
  function Blank(): (p: Pfm)
    ensures p.bigEndian && p.mode.None? && p.pixels.None?
  {
    Pfm(0, 0, None, None, true)
  }

  // ---------------------------------------------------------------------
  // Lines

  /** US-ASCII decoding: bytes above 127 become the replacement character. */
  function AsciiChar(b: Byte): char {
    if b < 128 then b as int as char else '\U{FFFD}'
  }

  function Ascii(bs: seq<Byte>): (s: string)
    ensures |s| == |bs|
    ensures forall k :: 0 <= k < |bs| ==> s[k] == AsciiChar(bs[k])
  {
    seq(|bs|, k requires 0 <= k < |bs| => AsciiChar(bs[k]))
  }

  /** The bytes of an ASCII text. */
  function Bytes(s: string): (bs: seq<Byte>)
    requires forall k :: 0 <= k < |s| ==> s[k] as int < 128
    ensures |bs| == |s| && Ascii(bs) == s
  {
    var bs := seq(|s|, k requires 0 <= k < |s| => s[k] as int as bv8);
    assert Ascii(bs) == s by {
      forall k | 0 <= k < |s| ensures Ascii(bs)[k] == s[k] {
        AsciiByte(s[k]);
      }
    }
    bs
  }

  /** An ASCII character survives the trip through its byte. */
  lemma AsciiByte(c: char)
    requires c as int < 128
    ensures AsciiChar(c as int as bv8) == c
  {
    SmallByte(c as int);
  }

  /** A number below 128 survives the trip through a byte. */
  lemma SmallByte(n: int)
    requires 0 <= n < 128
    ensures (n as bv8) as int == n && n as bv8 < 128
  {
  }

  /** Where the current line ends: the first newline, or the end of input. */
  function LineEnd(input: seq<Byte>): (e: nat)
    ensures e <= |input|
    ensures NEWLINE !in input[..e]
    ensures e < |input| ==> input[e] == NEWLINE
  {
    if |input| == 0 || input[0] == NEWLINE then 0
    else
      var e := 1 + LineEnd(input[1..]);
      assert input[..e] == [input[0]] + input[1..][..e - 1];
      e
  }

  /** `readLine`: the text before the newline or the end of input, with the
      newline consumed; a line of 100 or more bytes is rejected. */
  function ReadLine(input: seq<Byte>): (r: Result<(string, seq<Byte>), Error>)
    ensures r.Ok? <==> LineEnd(input) < MAX_LINE
    ensures r.Err? ==> r.error == LineTooLong
    ensures r.Ok? ==> r.value.0 == Ascii(input[..LineEnd(input)])
    ensures r.Ok? && LineEnd(input) < |input| ==> r.value.1 == input[LineEnd(input) + 1..]
    ensures r.Ok? && LineEnd(input) == |input| ==> r.value.1 == []
  {
    var e := LineEnd(input);
    if e >= MAX_LINE then Err(LineTooLong)
    else if e < |input| then Ok((Ascii(input[..e]), input[e + 1..]))
    else Ok((Ascii(input), []))
  }

  /** A line as the writer puts it: ASCII text and a newline. */
  lemma ReadLineOfWritten(s: string, rest: seq<Byte>)
    requires |s| < MAX_LINE
    requires forall k :: 0 <= k < |s| ==> s[k] as int < 128 && s[k] != '\n'
    ensures ReadLine(Bytes(s) + [NEWLINE] + rest) == Ok((s, rest))
  {
    var input := Bytes(s) + [NEWLINE] + rest;
    assert NEWLINE !in Bytes(s);
    LineEndAt(input, |s|);
    assert input[..|s|] == Bytes(s);
    assert input[|s| + 1..] == rest;
  }

  lemma {:induction false} LineEndAt(input: seq<Byte>, e: nat)
    requires e < |input| && input[e] == NEWLINE && NEWLINE !in input[..e]
    ensures LineEnd(input) == e
    decreases e
  {
    if e > 0 {
      assert input[0] in input[..e];
      assert input[1..][..e - 1] == input[1..e];
      assert forall x :: x in input[1..e] ==> x in input[..e];
      LineEndAt(input[1..], e - 1);
    }
  }

  // ---------------------------------------------------------------------
  // Header fields

  /** The magic line: "PF" is colour, "Pf" grayscale. */
  function ParseMagic(line: string): (r: Result<Mode, Error>)
    ensures r == Ok(Color) <==> line == "PF"
    ensures r == Ok(Grayscale) <==> line == "Pf"
    ensures r.Err? <==> line != "PF" && line != "Pf"
  {
    if line == "PF" then Ok(Color)
    else if line == "Pf" then Ok(Grayscale)
    else Err(UnrecognizedFormat)
  }

  /** The dimensions line: two integers split at the first space, both
      positive. */
  function ParseDimensions(line: string): (r: Result<(int, int), Error>)
    ensures r.Ok? ==> r.value.0 > 0 && r.value.1 > 0 && IsInt32(r.value.0) && IsInt32(r.value.1)
    ensures r.Ok? ==> ' ' in line
    ensures r.Ok? ==> ParseInt(Split2(line, ' ')[0]) == Some(r.value.0)
    ensures r.Ok? ==> ParseInt(Split2(line, ' ')[1]) == Some(r.value.1)
    ensures ' ' !in line ==> r == Err(InvalidDimensions)
  {
    var tokens := Split2(line, ' ');
    if |tokens| != 2 then Err(InvalidDimensions)
    else
      match (ParseInt(tokens[0]), ParseInt(tokens[1]))
      case (Some(w), Some(h)) =>
        if w <= 0 || h <= 0 then Err(DimensionsNotPositive) else Ok((w, h))
      case _ => Err(InvalidDimensions)
  }

  /** The scale line: non-negative is big-endian, negative little-endian. */
  function ParseEndianness(sign: ScaleSign): (r: Result<bool, Error>)
    ensures sign == NonNegative <==> r == Ok(true)
    ensures sign == Negative <==> r == Ok(false)
    ensures sign == NaN ==> r == Err(UnrecognizedFormat)
    ensures sign == Malformed ==> r == Err(MalformedScale)
  {
    match sign
    case NonNegative => Ok(true)
    case Negative => Ok(false)
    case NaN => Err(UnrecognizedFormat)
    case Malformed => Err(MalformedScale)
  }

  function Channels(mode: Mode): (c: nat)
    ensures c == 1 || c == 3
  {
    match mode
    case Color => 3
    case Grayscale => 1
  }

  /** Nested floor divisions of positive numbers are one division by the
      product. */
  lemma NestedDivision(a: nat, b: nat, c: nat)
    requires b > 0 && c > 0
    ensures a / b / c == a / (b * c)
  {
    var q, r := a / b, a % b;
    var q2, r2 := q / c, q % c;
    var bc := b * c;
    var low := b * r2 + r;
    assert a == bc * q2 + low by {
      assert a == b * q + r;
      assert q == c * q2 + r2;
      SplitProduct(b, c, q2, r2);
    }
    assert 0 <= low < bc by {
      assert 0 <= r < b && 0 <= r2 < c;
      BelowProduct(b, c, r2, r);
    }
    DivUnique(a, bc, q2, low);
  }

  /** `b·(c·q + r) = (b·c)·q + b·r`. */
  lemma SplitProduct(b: int, c: int, q: int, r: int)
    ensures b * (c * q + r) == (b * c) * q + b * r
  {
    assert b * (c * q + r) == b * (c * q) + b * r;
    assert b * (c * q) == (b * c) * q;
  }

  /** A digit below `c` in base `b` with a low digit below `b` stays below
      `b·c`. */
  lemma BelowProduct(b: nat, c: nat, r2: nat, r: nat)
    requires r2 < c && r < b
    ensures b * r2 + r < b * c
  {
    var d := c - 1 - r2;
    assert b * (c - 1) == b * r2 + b * d;
    assert b * d >= 0;
    assert b * (c - 1) == b * c - b;
  }

  /** A quotient is zero exactly when the divisor exceeds the dividend. */
  lemma DivZero(a: nat, d: nat)
    requires d > 0
    ensures a / d == 0 <==> a < d
  {
    if a < d {
      DivUnique(a, d, 0, a);
    }
  }

  /** `calcPixelArrayLength`: width·height·channels, rejected when that
      exceeds `Integer.MAX_VALUE` (the source detects it by nested divisions
      reaching zero). */
  function CalcPixelArrayLength(width: int, height: int, mode: Mode): (r: Result<nat, Error>)
    requires width > 0 && height > 0
    ensures r.Ok? <==> width * height * Channels(mode) <= INT_MAX
    ensures r.Ok? ==> r.value == width * height * Channels(mode)
    ensures r.Err? ==> r.error == TooLarge
  {
    var c := Channels(mode);
    NestedDivision(INT_MAX, width, height);
    NestedDivision(INT_MAX, width * height, c);
    DivZero(INT_MAX, width * height * c);
    if INT_MAX / width / height / c == 0 then Err(TooLarge)
    else Ok(width * height * c)
  }

  // ---------------------------------------------------------------------
  // Pixel words

  /** The four bytes of a word, most significant first. */
  function WordBytesBig(w: Word): (bs: seq<Byte>)
    ensures |bs| == 4
  {
    [(w >> 24) as bv8, ((w >> 16) & 0xff) as bv8, ((w >> 8) & 0xff) as bv8, (w & 0xff) as bv8]
  }

  function BytesWordBig(b0: Byte, b1: Byte, b2: Byte, b3: Byte): Word {
    (b0 as bv32 << 24) | (b1 as bv32 << 16) | (b2 as bv32 << 8) | b3 as bv32
  }

  /** `Integer.reverseBytes`. */
  function ReverseBytes(w: Word): (r: Word)
    ensures WordBytesBig(r) == [WordBytesBig(w)[3], WordBytesBig(w)[2], WordBytesBig(w)[1], WordBytesBig(w)[0]]
  {
    var bs := WordBytesBig(w);
    WordBytesBigOf(bs[3], bs[2], bs[1], bs[0]);
    BytesWordBig(bs[3], bs[2], bs[1], bs[0])
  }

  lemma WordBytesBigOf(b0: Byte, b1: Byte, b2: Byte, b3: Byte)
    ensures WordBytesBig(BytesWordBig(b0, b1, b2, b3)) == [b0, b1, b2, b3]
  {
  }

  lemma BytesWordBigOf(w: Word)
    ensures var bs := WordBytesBig(w); BytesWordBig(bs[0], bs[1], bs[2], bs[3]) == w
  {
  }

  /** The word of a float NaN: all exponent bits set and a non-zero
      fraction. */
  predicate IsNaNWord(w: Word) {
    (w >> 23) & 0xff == 0xff && w & 0x7fffff != 0
  }

  /** The one NaN word `Float.floatToIntBits` produces. */
  const CANONICAL_NAN: Word := 0x7fc00000

  /** `Float.floatToIntBits`: every NaN collapses to the canonical NaN word,
      every other float keeps its bits. */
  function FloatToIntBits(w: Word): (r: Word)
    ensures IsNaNWord(w) ==> r == CANONICAL_NAN
    ensures !IsNaNWord(w) ==> r == w
    ensures IsNaNWord(r) <==> IsNaNWord(w)
  {
    if IsNaNWord(w) then CANONICAL_NAN else w
  }

  /** The pixels as written: each word through `floatToIntBits`. */
  function Canonical(ws: seq<Word>): (r: seq<Word>)
    ensures |r| == |ws|
    ensures forall i :: 0 <= i < |ws| ==> r[i] == FloatToIntBits(ws[i])
  {
    seq(|ws|, i requires 0 <= i < |ws| => FloatToIntBits(ws[i]))
  }

  lemma CanonicalCons(ws: seq<Word>)
    requires |ws| > 0
    ensures Canonical(ws) == [FloatToIntBits(ws[0])] + Canonical(ws[1..])
  {
  }

  /** Canonicalising is idempotent, and changes nothing in an image without
      a non-canonical NaN word. */
  lemma CanonicalStable(ws: seq<Word>)
    ensures Canonical(Canonical(ws)) == Canonical(ws)
    ensures (forall i :: 0 <= i < |ws| ==> !IsNaNWord(ws[i]) || ws[i] == CANONICAL_NAN) ==>
      Canonical(ws) == ws
  {
  }

  /** One pixel as written: `writeFloat` big-endian, or the byte-reversed
      word written big-endian; in both cases the word is
      `floatToIntBits` of the float, so a NaN is written as the canonical
      NaN word. */
  function EncodePixel(w: Word, bigEndian: bool): (bs: seq<Byte>)
    ensures |bs| == 4
    ensures IsNaNWord(w) ==> bs == (if bigEndian then [0x7f, 0xc0, 0, 0] else [0, 0, 0xc0, 0x7f])
    ensures !IsNaNWord(w) ==> bs == (if bigEndian then WordBytesBig(w) else WordBytesBig(ReverseBytes(w)))
  {
    var c := FloatToIntBits(w);
    if bigEndian then WordBytesBig(c) else WordBytesBig(ReverseBytes(c))
  }

  function EncodePixels(ws: seq<Word>, bigEndian: bool): (bs: seq<Byte>)
    ensures |bs| == 4 * |ws|
  {
    if |ws| == 0 then [] else EncodePixel(ws[0], bigEndian) + EncodePixels(ws[1..], bigEndian)
  }

  /** One pixel as read: `readFloat`, or `readInt` byte-reversed. */
  function DecodePixel(b0: Byte, b1: Byte, b2: Byte, b3: Byte, bigEndian: bool): (r: Word)
    ensures WordBytesBig(r) == if bigEndian then [b0, b1, b2, b3] else [b3, b2, b1, b0]
  {
    var w := BytesWordBig(b0, b1, b2, b3);
    WordBytesBigOf(b0, b1, b2, b3);
    if bigEndian then w else ReverseBytes(w)
  }

  /** `n` pixels from the front of the input; running out is an
      end-of-stream error. */
  function DecodePixels(input: seq<Byte>, n: nat, bigEndian: bool): (r: Result<(seq<Word>, seq<Byte>), Error>)
    ensures r.Ok? <==> |input| >= 4 * n
    ensures r.Err? ==> r.error == EndOfStream
    ensures r.Ok? ==> |r.value.0| == n && r.value.1 == input[4 * n..]
  {
    if n == 0 then Ok(([], input))
    else if |input| < 4 then Err(EndOfStream)
    else
      var w := DecodePixel(input[0], input[1], input[2], input[3], bigEndian);
      match DecodePixels(input[4..], n - 1, bigEndian)
      case Ok((ws, rest)) => Ok(([w] + ws, rest))
      case Err(e) => Err(e)
  }

  /** A pixel written and read back gives `floatToIntBits` of its word:
      the word itself unless it is a non-canonical NaN. */
  lemma DecodeEncodePixel(w: Word, bigEndian: bool)
    ensures var bs := EncodePixel(w, bigEndian);
            DecodePixel(bs[0], bs[1], bs[2], bs[3], bigEndian) == FloatToIntBits(w)
    ensures !IsNaNWord(w) || w == CANONICAL_NAN ==>
            var bs := EncodePixel(w, bigEndian); DecodePixel(bs[0], bs[1], bs[2], bs[3], bigEndian) == w
  {
    var c := FloatToIntBits(w);
    BytesWordBigOf(c);
    if !bigEndian {
      var r := ReverseBytes(c);
      BytesWordBigOf(r);
      var bs := WordBytesBig(c);
      WordBytesBigOf(bs[3], bs[2], bs[1], bs[0]);
      BytesWordBigOf(ReverseBytes(r));
      assert WordBytesBig(ReverseBytes(r)) == bs;
    }
  }

  /** Pixel words round-trip in either byte order, up to the NaN
      canonicalisation of `floatToIntBits`. */
  lemma {:induction false} DecodeEncodePixels(ws: seq<Word>, bigEndian: bool, rest: seq<Byte>)
    ensures DecodePixels(EncodePixels(ws, bigEndian) + rest, |ws|, bigEndian) == Ok((Canonical(ws), rest))
    decreases |ws|
  {
    if |ws| > 0 {
      var bs := EncodePixel(ws[0], bigEndian);
      var tail := EncodePixels(ws[1..], bigEndian) + rest;
      var input := EncodePixels(ws, bigEndian) + rest;
      assert input == bs + tail;
      assert input[4..] == tail;
      assert DecodePixel(input[0], input[1], input[2], input[3], bigEndian) == FloatToIntBits(ws[0]) by {
        assert input[0] == bs[0] && input[1] == bs[1] && input[2] == bs[2] && input[3] == bs[3];
        DecodeEncodePixel(ws[0], bigEndian);
      }
      assert DecodePixels(tail, |ws| - 1, bigEndian) == Ok((Canonical(ws[1..]), rest)) by {
        DecodeEncodePixels(ws[1..], bigEndian, rest);
      }
      CanonicalCons(ws);
    } else {
      assert Canonical(ws) == [];
    }
  }

  // ---------------------------------------------------------------------
  // Reading and writing

  /** The three header lines' content. */
  datatype Header = Header(mode: Mode, width: int, height: int, bigEndian: bool)

  /** The header lines of `read`: magic, dimensions, scale. */
  function ReadHeader(input: seq<Byte>, classify: string -> ScaleSign): (r: Result<(Header, seq<Byte>), Error>)
    ensures r.Ok? ==> r.value.0.width > 0 && r.value.0.height > 0
    ensures r.Ok? ==> IsInt32(r.value.0.width) && IsInt32(r.value.0.height)
    ensures ReadLine(input).Ok? && ParseMagic(ReadLine(input).value.0).Err? ==> r == Err(UnrecognizedFormat)
  {
    match ReadLine(input)
    case Err(e) => Err(e)
    case Ok((format, t1)) =>
      match ParseMagic(format)
      case Err(e) => Err(e)
      case Ok(mode) =>
        match ReadLine(t1)
        case Err(e) => Err(e)
        case Ok((dims, t2)) =>
          match ParseDimensions(dims)
          case Err(e) => Err(e)
          case Ok((w, h)) =>
            match ReadLine(t2)
            case Err(e) => Err(e)
            case Ok((scale, in3)) =>
              match ParseEndianness(classify(scale))
              case Err(e) => Err(e)
              case Ok(big) => Ok((Header(mode, w, h, big), in3))
  }

  /** `read(InputStream)`: the header, then the pixel words in the byte order
      the scale selects. */
  function Read(input: seq<Byte>, classify: string -> ScaleSign): (r: Result<Parsed, Error>)
    ensures r.Ok? ==> ValidImage(r.value.image)
    ensures ReadHeader(input, classify).Err? ==> r.Err? && r.error == ReadHeader(input, classify).error
  {
    match ReadHeader(input, classify)
    case Err(e) => Err(e)
    case Ok((hd, in3)) =>
      match CalcPixelArrayLength(hd.width, hd.height, hd.mode)
      case Err(e) => Err(e)
      case Ok(n) =>
        match DecodePixels(in3, n, hd.bigEndian)
        case Err(e) => Err(e)
        case Ok((px, rest)) => Ok(Parsed(Pfm(hd.width, hd.height, Some(hd.mode), Some(px), hd.bigEndian), rest))
  }

  /** Positive dimensions, mode and pixels set, and exactly as many pixel
      values as the dimensions and mode ask for, within `int` range. */
  predicate ValidImage(p: Pfm) {
    p.width > 0 && p.height > 0 && p.mode.Some? && p.pixels.Some?
    && p.width * p.height * Channels(p.mode.value) <= INT_MAX
    && |p.pixels.value| == p.width * p.height * Channels(p.mode.value)
  }

  /** `checkData`: the writer's preconditions, in the order the source checks
      them. */
  function CheckData(p: Pfm): (r: Result<nat, Error>)
    ensures r.Ok? <==> ValidImage(p)
    ensures p.width <= 0 ==> r == Err(WidthNotPositive)
    ensures p.width > 0 && p.height <= 0 ==> r == Err(HeightNotPositive)
  {
    if p.width <= 0 then Err(WidthNotPositive)
    else if p.height <= 0 then Err(HeightNotPositive)
    else if p.mode.None? then Err(ModeNotSet)
    else if p.pixels.None? then Err(PixelsNotSet)
    else
      match CalcPixelArrayLength(p.width, p.height, p.mode.value)
      case Err(e) => Err(e)
      case Ok(n) => if |p.pixels.value| != n then Err(LengthMismatch) else Ok(n)
  }

  function MagicLine(mode: Mode): string {
    match mode
    case Color => "PF"
    case Grayscale => "Pf"
  }

  function DimensionsLine(w: int, h: int): string {
    IntToString(w) + " " + IntToString(h)
  }

  function ScaleLine(bigEndian: bool): string {
    if bigEndian then "1.0" else "-1.0"
  }

  lemma IntToStringAscii(i: int)
    ensures forall k :: 0 <= k < |IntToString(i)| ==>
      (IsDigit(IntToString(i)[k]) || IntToString(i)[k] == '-')
  {
  }

  lemma DimensionsLineAscii(w: int, h: int)
    requires IsInt32(w) && IsInt32(h)
    ensures |DimensionsLine(w, h)| < MAX_LINE
    ensures forall k :: 0 <= k < |DimensionsLine(w, h)| ==>
      DimensionsLine(w, h)[k] as int < 128 && DimensionsLine(w, h)[k] != '\n'
  {
    IntToStringShort(w);
    IntToStringShort(h);
    IntToStringAscii(w);
    IntToStringAscii(h);
    var s := DimensionsLine(w, h);
    forall k | 0 <= k < |s| ensures s[k] as int < 128 && s[k] != '\n' {
      if k < |IntToString(w)| {
        assert s[k] == IntToString(w)[k];
      } else if k > |IntToString(w)| {
        assert s[k] == IntToString(h)[k - |IntToString(w)| - 1];
      }
    }
  }

  /** The three header lines as the writer prints them: the ASCII magic
      "PF" or "Pf" on the first line, and a newline at the end. */
  function WriteHeader(hd: Header): (bs: seq<Byte>)
    requires IsInt32(hd.width) && IsInt32(hd.height)
    ensures |bs| > 3 && bs[0] == 0x50 && bs[1] == (if hd.mode == Color then 0x46 else 0x66)
    ensures bs[2] == NEWLINE && bs[|bs| - 1] == NEWLINE
  {
    DimensionsLineAscii(hd.width, hd.height);
    MagicLineBytes(hd.mode);
    ScaleLineAscii(hd.bigEndian);
    var magic := Bytes(MagicLine(hd.mode)) + [NEWLINE];
    var dims := Bytes(DimensionsLine(hd.width, hd.height)) + [NEWLINE];
    var scale := Bytes(ScaleLine(hd.bigEndian)) + [NEWLINE];
    assert |magic| == 3 && magic[2] == NEWLINE;
    var bs := magic + (dims + scale);
    assert bs[..3] == magic;
    assert bs[|bs| - 1] == scale[|scale| - 1];
    bs
  }

  /** The magic line's bytes: 'P' then 'F' or 'f'. */
  lemma MagicLineBytes(mode: Mode)
    ensures forall k :: 0 <= k < |MagicLine(mode)| ==> MagicLine(mode)[k] as int < 128
    ensures Bytes(MagicLine(mode)) == if mode == Color then [0x50, 0x46] else [0x50, 0x66]
  {
  }

  lemma ScaleLineAscii(bigEndian: bool)
    ensures forall k :: 0 <= k < |ScaleLine(bigEndian)| ==> ScaleLine(bigEndian)[k] as int < 128
  {
  }

  /** `write(OutputStream)`: refused unless `checkData` passes; otherwise the
      three header lines and the pixel words. */
  function Write(p: Pfm): (r: Result<seq<Byte>, Error>)
    ensures r.Ok? <==> ValidImage(p)
    ensures r.Err? ==> CheckData(p).Err? && r.error == CheckData(p).error
  {
    match CheckData(p)
    case Err(e) => Err(e)
    case Ok(_) =>
      Ok(WriteHeader(Header(p.mode.value, p.width, p.height, p.bigEndian))
         + EncodePixels(p.pixels.value, p.bigEndian))
  }

  lemma MagicLineReads(mode: Mode, rest: seq<Byte>)
    ensures ReadLine(Bytes(MagicLine(mode)) + [NEWLINE] + rest) == Ok((MagicLine(mode), rest))
    ensures ParseMagic(MagicLine(mode)) == Ok(mode)
  {
    ReadLineOfWritten(MagicLine(mode), rest);
  }

  lemma DimensionsLineReads(w: int, h: int, rest: seq<Byte>)
    requires IsInt32(w) && IsInt32(h) && w > 0 && h > 0
    ensures ReadLine(Bytes(DimensionsLine(w, h)) + [NEWLINE] + rest) == Ok((DimensionsLine(w, h), rest))
    ensures ParseDimensions(DimensionsLine(w, h)) == Ok((w, h))
  {
    DimensionsLineAscii(w, h);
    ReadLineOfWritten(DimensionsLine(w, h), rest);
    DimensionsRoundTrip(w, h);
  }

  lemma ScaleLineReads(bigEndian: bool, rest: seq<Byte>, classify: string -> ScaleSign)
    requires classify("1.0") == NonNegative && classify("-1.0") == Negative
    ensures ReadLine(Bytes(ScaleLine(bigEndian)) + [NEWLINE] + rest) == Ok((ScaleLine(bigEndian), rest))
    ensures ParseEndianness(classify(ScaleLine(bigEndian))) == Ok(bigEndian)
  {
    ReadLineOfWritten(ScaleLine(bigEndian), rest);
  }

  /** A written header reads back to the same mode, size and byte order. */
  lemma HeaderRoundTrip(hd: Header, rest: seq<Byte>, classify: string -> ScaleSign)
    requires IsInt32(hd.width) && IsInt32(hd.height) && hd.width > 0 && hd.height > 0
    requires classify("1.0") == NonNegative && classify("-1.0") == Negative
    ensures ReadHeader(WriteHeader(hd) + rest, classify) == Ok((hd, rest))
  {
    DimensionsLineAscii(hd.width, hd.height);
    MagicLineBytes(hd.mode);
    ScaleLineAscii(hd.bigEndian);
    var magic := Bytes(MagicLine(hd.mode)) + [NEWLINE];
    var dims := Bytes(DimensionsLine(hd.width, hd.height)) + [NEWLINE];
    var scale := Bytes(ScaleLine(hd.bigEndian)) + [NEWLINE];
    var t2 := scale + rest;
    var t1 := dims + t2;
    var t0 := magic + t1;
    assert WriteHeader(hd) + rest == t0 by {
      assert WriteHeader(hd) == magic + (dims + scale);
      AppendAssoc3(magic, dims, scale, rest);
    }
    assert t2 == Bytes(ScaleLine(hd.bigEndian)) + [NEWLINE] + rest;
    assert t1 == Bytes(DimensionsLine(hd.width, hd.height)) + [NEWLINE] + t2;
    assert t0 == Bytes(MagicLine(hd.mode)) + [NEWLINE] + t1;
    MagicLineReads(hd.mode, t1);
    DimensionsLineReads(hd.width, hd.height, t2);
    ScaleLineReads(hd.bigEndian, rest, classify);
    ReadHeaderOfLines(t0, t1, t2, rest, classify, MagicLine(hd.mode), DimensionsLine(hd.width, hd.height),
                      ScaleLine(hd.bigEndian), hd);
  }

  lemma AppendAssoc3<T>(a: seq<T>, b: seq<T>, c: seq<T>, d: seq<T>)
    ensures (a + (b + c)) + d == a + (b + (c + d))
  {
  }

  /** `read`'s header stage succeeds when each of its three lines reads and
      parses, with the header they give. */
  lemma ReadHeaderOfLines(t0: seq<Byte>, t1: seq<Byte>, t2: seq<Byte>, rest: seq<Byte>,
                          classify: string -> ScaleSign, l0: string, l1: string, l2: string, hd: Header)
    requires ReadLine(t0) == Ok((l0, t1)) && ParseMagic(l0) == Ok(hd.mode)
    requires ReadLine(t1) == Ok((l1, t2)) && ParseDimensions(l1) == Ok((hd.width, hd.height))
    requires ReadLine(t2) == Ok((l2, rest)) && ParseEndianness(classify(l2)) == Ok(hd.bigEndian)
    ensures ReadHeader(t0, classify) == Ok((hd, rest))
  {
  }

  /** An image written and read back has the same mode, size and byte
      order, and its pixel words through `floatToIntBits`: the same words
      unless a pixel is a non-canonical NaN. The bytes after it are left
      unread. */
  lemma WriteThenRead(p: Pfm, rest: seq<Byte>, classify: string -> ScaleSign)
    requires ValidImage(p)
    requires classify("1.0") == NonNegative && classify("-1.0") == Negative
    ensures Write(p).Ok?
    ensures Read(Write(p).value + rest, classify)
         == Ok(Parsed(p.(pixels := Some(Canonical(p.pixels.value))), rest))
    ensures (forall i :: 0 <= i < |p.pixels.value| ==>
               !IsNaNWord(p.pixels.value[i]) || p.pixels.value[i] == CANONICAL_NAN) ==>
      Read(Write(p).value + rest, classify) == Ok(Parsed(p, rest))
  {
    ValidDimensions(p);
    var hd := Header(p.mode.value, p.width, p.height, p.bigEndian);
    WriteValid(p, hd);
    ReadWritten(p, hd, rest, classify);
    CanonicalStable(p.pixels.value);
  }

  /** The bytes of a valid image, followed by anything, read back to its
      header and its canonical pixel words. */
  lemma ReadWritten(p: Pfm, hd: Header, rest: seq<Byte>, classify: string -> ScaleSign)
    requires ValidImage(p) && IsInt32(p.width) && IsInt32(p.height)
    requires CalcPixelArrayLength(p.width, p.height, p.mode.value) == Ok(|p.pixels.value|)
    requires hd == Header(p.mode.value, p.width, p.height, p.bigEndian)
    requires classify("1.0") == NonNegative && classify("-1.0") == Negative
    ensures Read(WriteHeader(hd) + EncodePixels(p.pixels.value, p.bigEndian) + rest, classify)
         == Ok(Parsed(p.(pixels := Some(Canonical(p.pixels.value))), rest))
  {
    var px := EncodePixels(p.pixels.value, p.bigEndian);
    var cs := Canonical(p.pixels.value);
    var input := WriteHeader(hd) + px + rest;
    assert input == WriteHeader(hd) + (px + rest);
    HeaderRoundTrip(hd, px + rest, classify);
    DecodeEncodePixels(p.pixels.value, p.bigEndian, rest);
    ReadOfParts(input, classify, hd, px + rest, |p.pixels.value|, cs, rest);
    assert Pfm(hd.width, hd.height, Some(hd.mode), Some(cs), hd.bigEndian) == p.(pixels := Some(cs));
  }

  /** A valid image's sides fit in an `int`, and its pixel count is the
      length `calcPixelArrayLength` asks for. */
  lemma ValidDimensions(p: Pfm)
    requires ValidImage(p)
    ensures IsInt32(p.width) && IsInt32(p.height)
    ensures CalcPixelArrayLength(p.width, p.height, p.mode.value) == Ok(|p.pixels.value|)
  {
    FactorsBelowProduct(p.width, p.height, Channels(p.mode.value));
  }

  /** A valid image is written as its header and its encoded pixels. */
  lemma WriteValid(p: Pfm, hd: Header)
    requires ValidImage(p) && IsInt32(p.width) && IsInt32(p.height)
    requires hd == Header(p.mode.value, p.width, p.height, p.bigEndian)
    ensures Write(p) == Ok(WriteHeader(hd) + EncodePixels(p.pixels.value, p.bigEndian))
  {
  }

  /** `read` succeeds when its three stages do, with their results. */
  lemma ReadOfParts(input: seq<Byte>, classify: string -> ScaleSign, hd: Header, body: seq<Byte>,
                    n: nat, px: seq<Word>, rest: seq<Byte>)
    requires ReadHeader(input, classify) == Ok((hd, body))
    requires CalcPixelArrayLength(hd.width, hd.height, hd.mode) == Ok(n)
    requires DecodePixels(body, n, hd.bigEndian) == Ok((px, rest))
    ensures Read(input, classify) == Ok(Parsed(Pfm(hd.width, hd.height, Some(hd.mode), Some(px), hd.bigEndian), rest))
  {
  }

  /** Each positive factor is at most the product. */
  lemma FactorsBelowProduct(w: int, h: int, c: int)
    requires w > 0 && h > 0 && c > 0
    ensures w <= w * h * c && h <= w * h * c
  {
    assert w * h >= w by { MulAtLeast(w, h); }
    assert w * h >= h by { MulAtLeast(h, w); }
    assert w * h * c >= w * h by { MulAtLeast(w * h, c); }
  }

  /** The dimensions line parses back to the same width and height. */
  lemma DimensionsRoundTrip(w: int, h: int)
    requires IsInt32(w) && IsInt32(h) && w > 0 && h > 0
    ensures ParseDimensions(DimensionsLine(w, h)) == Ok((w, h))
  {
    IntToStringAscii(w);
    var a := IntToString(w);
    var b := IntToString(h);
    assert ' ' !in a;
    SplitAtFirst(a, b, ' ');
    ParseIntToString(w);
    ParseIntToString(h);
  }

  lemma {:induction false} SplitAtFirst(a: string, b: string, sep: char)
    requires sep !in a
    ensures Split2(a + [sep] + b, sep) == [a, b]
    decreases |a|
  {
    if |a| == 0 {
      assert (a + [sep] + b)[1..] == b;
    } else {
      assert a[0] in a;
      assert (a + [sep] + b)[1..] == a[1..] + [sep] + b;
      assert forall x :: x in a[1..] ==> x in a;
      SplitAtFirst(a[1..], b, sep);
      assert [a[0]] + a[1..] == a;
    }
  }
}

=== FILE: preferences_window.dfy ===
/** Helpers of `gaiasky.interafce.PreferencesWindow`: the text of a key
    combination, the select-box index of an antialiasing code and of a
    language tag, and the pair of level-of-detail thresholds saved with the
    preferences. The libGDX key-name table and the `PLUS` key code are
    parameters. */
module PreferencesWindow {
  import opened Text

  // ---------------------------------------------------------------------
  // Key combinations

  /** The libGDX key table: `Keys.toString` and the code of `Keys.PLUS`. */
  datatype KeyTable = KeyTable(name: int -> string, plus: int)

  /** `keyToString`: the PLUS key is written "+", any other key by its
      libGDX name. */
  function KeyToString(t: KeyTable, key: int): (r: string)
    ensures key == t.plus ==> r == "+"
    ensures key != t.plus ==> r == t.name(key)
  {
    if key == t.plus then "+" else t.name(key)
  }

  /** One key as it appears in a combination: upper case, spaces as '_'. */
  function Render(t: KeyTable, key: int): (r: string)
    ensures |r| == |KeyToString(t, key)| && ' ' !in r
  {
    ReplaceChar(Upper(KeyToString(t, key)), ' ', '_')
  }

  function RenderAll(t: KeyTable, keys: seq<int>): (r: seq<string>)
    ensures |r| == |keys| && forall i :: 0 <= i < |keys| ==> r[i] == Render(t, keys[i])
  {
    seq(|keys|, i requires 0 <= i < |keys| => Render(t, keys[i]))
  }

  /** `keysToString`: the keys in `TreeSet` order (ascending), each rendered,
      with "+" between consecutive ones. */
  method KeysToString(t: KeyTable, keys: seq<int>) returns (s: string)
    ensures s == Join(RenderAll(t, keys), '+')
  {
    var rs := RenderAll(t, keys);
    var n := |keys|;
    s := "";
    var i := 0;
    while i < n
      invariant 0 <= i <= n
      invariant i == 0 ==> s == ""
      invariant 0 < i < n ==> s == Join(rs[..i], '+') + "+"
      invariant 0 < i == n ==> s == Join(rs[..i], '+')
    {
      var piece := Render(t, keys[i]);
      if i > 0 {
        JoinSnoc(rs[..i], piece, '+');
        assert rs[..i + 1] == rs[..i] + [piece];
      } else {
        assert rs[..1] == [piece];
      }
      s := s + piece;
      if i < n - 1 {
        s := s + "+";
      }
      i := i + 1;
    }
    assert rs[..n] == rs;
  }

  /** When no rendered key contains '+', the combination text splits back
      into exactly the rendered keys, one field per key. */
  lemma CombinationSplits(t: KeyTable, keys: seq<int>)
    requires |keys| >= 1
    requires forall i :: 0 <= i < |keys| ==> '+' !in Render(t, keys[i])
    ensures Fields(Join(RenderAll(t, keys), '+'), '+') == RenderAll(t, keys)
  {
    JoinFields(RenderAll(t, keys), '+');
  }

  /** The PLUS key breaks that: a combination of PLUS alone reads as two
      empty keys, and PLUS with another key `k` reads as three fields. */
  lemma PlusCollidesWithSeparator(t: KeyTable, k: int)
    requires k < t.plus && '+' !in Render(t, k)
    ensures Join(RenderAll(t, [t.plus]), '+') == "+"
    ensures Fields(Join(RenderAll(t, [t.plus]), '+'), '+') == ["", ""]
    ensures |Fields(Join(RenderAll(t, [k, t.plus]), '+'), '+')| == 3
  {
    assert Render(t, t.plus) == "+";
    assert Fields("+", '+') == [""] + Fields("", '+');
    var rk := Render(t, k);
    var rs := RenderAll(t, [k, t.plus]);
    assert rs == [rk, "+"];
    assert rs[1..] == ["+"];
    var s := Join(rs, '+');
    assert Join(rs[1..], '+') == "+";
    assert s == rk + ['+'] + "+";
    assert s == rk + "++";
    FieldsCount(s, '+');
    CountConcat(rk, "++", '+');
    CountAbsent(rk, '+');
    assert CountOf("++", '+') == 2 by {
      assert "++"[1..] == "+" && "+"[1..] == "";
    }
  }

  function CountOf(s: string, c: char): nat {
    if |s| == 0 then 0 else (if s[0] == c then 1 else 0) + CountOf(s[1..], c)
  }

  lemma {:induction false} CountAbsent(s: string, c: char)
    requires c !in s
    ensures CountOf(s, c) == 0
  {
    if |s| > 0 {
      CountAbsent(s[1..], c);
    }
  }

  lemma {:induction false} CountConcat(a: string, b: string, c: char)
    ensures CountOf(a + b, c) == CountOf(a, c) + CountOf(b, c)
  {
    if |a| == 0 {
      assert a + b == b;
    } else {
      assert (a + b)[1..] == a[1..] + b;
      CountConcat(a[1..], b, c);
    }
  }

  /** `k` separators give `k + 1` fields. */
  lemma {:induction false} FieldsCount(s: string, c: char)
    ensures |Fields(s, c)| == CountOf(s, c) + 1
    decreases |s|
  {
    if |s| > 0 {
      FieldsCount(s[1..], c);
    }
  }

  // ---------------------------------------------------------------------
  // Antialiasing

  function Pow(base: nat, k: nat): nat {
    if k == 0 then 1 else base * Pow(base, k - 1)
  }

  /** The whole part of `log(n) / log(base)`, computed exactly. */
  function IntLog(base: nat, n: nat): (k: nat)
    requires base >= 2 && n >= 1
    ensures Pow(base, k) <= n < Pow(base, k + 1)
    decreases n
  {
    if n < base then 0
    else
      DivShrinks(base, n);
      var k := IntLog(base, n / base);
      var lo, hi := Pow(base, k), Pow(base, k + 1);
      LogStep(base, n, lo, hi);
      PowSucc(base, k);
      PowSucc(base, k + 1);
      k + 1
  }

  /** Dividing by the base keeps a number of at least the base positive and
      makes it smaller. */
  lemma DivShrinks(base: nat, n: nat)
    requires 2 <= base <= n
    ensures 1 <= n / base < n
  {
    var q, r := n / base, n % base;
    assert n == base * q + r && r < base;
    MulMono(q, 2, base);
  }

  lemma PowSucc(base: nat, k: nat)
    ensures Pow(base, k + 1) == base * Pow(base, k)
  {
  }

  /** Dividing by the base moves `n` down one power. */
  lemma LogStep(base: nat, n: nat, lo: nat, hi: nat)
    requires base >= 2 && lo <= n / base < hi
    ensures base * lo <= n < base * hi
  {
    var q, r := n / base, n % base;
    assert n == base * q + r && r < base;
    MulMono(base, lo, q);
    MulMono(base, q + 1, hi);
  }

  lemma MulMono(b: nat, x: nat, y: nat)
    requires x <= y
    ensures b * x <= b * y
  {
  }

  /** `idxAa(base, aa)`: FXAA (-1) is entry 1, NFAA (-2) entry 2, no
      antialiasing (0) entry 0, and a positive code `base^k` entry `k + 2`.
      Other negative codes make the logarithm NaN, which the cast turns into
      0, so they land on entry 2 as well. */
  function IdxAa(base: nat, code: int): (r: int)
    requires base >= 2
    ensures code == -1 ==> r == 1
    ensures code == -2 ==> r == 2
    ensures code == 0 ==> r == 0
    ensures code < -2 ==> r == 2
    ensures code > 0 ==> r >= 2 && Pow(base, r - 2) <= code < Pow(base, r - 1)
  {
    if code == -1 then 1
    else if code == -2 then 2
    else if code == 0 then 0
    else if code < 0 then 2
    else IntLog(base, code) + 2
  }

  /** The codes of the antialiasing select box, in order. */
  const AA_CODES: seq<int> := [0, -1, -2]

  /** Each code of the select box selects its own entry. */
  lemma AaEntriesRoundTrip()
    ensures forall i :: 0 <= i < |AA_CODES| ==> IdxAa(2, AA_CODES[i]) == i
  {
  }

  /** Code 1, which the box does not list, selects the NFAA entry. */
  lemma AaCodeOneSelectsNfaa()
    ensures IdxAa(2, 1) == IdxAa(2, -2) == 2 && AA_CODES[2] == -2
  {
    assert Pow(2, 0) == 1;
  }

  // ---------------------------------------------------------------------
  // Languages

  /** `idxLang(code, langs)`: a null or empty code stands for the current
      locale; the result is the first entry whose tag equals the code, or
      -1. */
  method IdxLang(code: string, current: string, tags: seq<string>) returns (r: int)
    ensures var c := if code == "" then current else code;
            (r == -1 <==> c !in tags) &&
            (r != -1 ==> 0 <= r < |tags| && tags[r] == c && c !in tags[..r])
  {
    var c := if code == "" then current else code;
    var i := 0;
    while i < |tags|
      invariant 0 <= i <= |tags|
      invariant c !in tags[..i]
    {
      if tags[i] == c {
        return i;
      }
      assert tags[..i + 1] == tags[..i] + [tags[i]];
      i := i + 1;
    }
    assert tags[..i] == tags;
    return -1;
  }

  // ---------------------------------------------------------------------
  // Level-of-detail thresholds

  /** The saved thresholds: the second is 0.4 rad above the first when
      fading is on, and equal to it otherwise. The first comes from the
      slider through a linear map whose bounds are not part of this model. */
  function Thresholds(fade: bool, t0: real): (r: seq<real>)
    ensures |r| == 2 && r[0] == t0 && r[0] <= r[1]
    ensures r[1] - r[0] == if fade then 0.4 else 0.0
  {
    [t0, if fade then t0 + 0.4 else t0]
  }
}

=== FILE: proximity.dfy ===
/** The fixed-size array of nearby objects of `gaiasky.util.camera.Proximity`.
    A slot is empty (`None`) or holds a record; a record's identity is its
    `id`, standing for Java reference identity, and `dist` is its distance to
    the camera. */
module Proximity {
  import opened Wrappers

  datatype Record = Record(id: nat, dist: real)

  type Slots = seq<Option<Record>>

  const DEFAULT_SIZE: nat := 4

  /** `new Proximity(size)`: `size` empty slots. */
  function Create(size: nat): (a: Slots)
    ensures |a| == size
    ensures forall j :: 0 <= j < |a| ==> a[j].None?
  {
    seq(size, _ => None)
  }

  /** `new Proximity()`. */
  function CreateDefault(): (a: Slots)
    ensures |a| == 4
    ensures forall j :: 0 <= j < |a| ==> a[j].None?
  {
    Create(DEFAULT_SIZE)
  }

  /** `set(index, record)`: overwrites that slot and nothing else. */
  function Set(a: Slots, index: int, record: Option<Record>): (r: Slots)
    requires 0 <= index < |a|
    ensures |r| == |a| && r[index] == record
    ensures forall j :: 0 <= j < |a| && j != index ==> r[j] == a[j]
  {
    a[index := record]
  }

  /** `insert(index, record)`: the record goes to `index`, the slots from
      `index` on move one step right and the last entry falls off. An index at
      or past the end changes nothing. */
  method Insert(a: Slots, index: nat, record: Option<Record>) returns (r: Slots)
    ensures |r| == |a|
    ensures index < |a| ==> r == a[..index] + [record] + a[index..|a| - 1]
    ensures index >= |a| ==> r == a
  {
    r := a;
    if index >= |a| {
      return;
    }
    var carry := record;
    var i := index;
    while i < |r|
      invariant index <= i <= |a|
      invariant |r| == |a|
      invariant forall j :: 0 <= j < |a| && (j < index || j >= i) ==> r[j] == a[j]
      invariant forall j :: index < j < i ==> r[j] == a[j - 1]
      invariant index < i ==> r[index] == record
      invariant carry == if i == index then record else a[i - 1]
    {
      var displaced := r[i];
      r := r[i := carry];
      carry := displaced;
      i := i + 1;
    }
    assert r == a[..index] + [record] + a[index..|a| - 1];
  }

  /** `clear`: every slot empty, the length kept. */
  function Clear(a: Slots): (r: Slots)
    ensures |r| == |a|
    ensures forall j :: 0 <= j < |r| ==> r[j].None?
  {
    Create(|a|)
  }

  // ---------------------------------------------------------------------
  // update(NearbyRecord)

  /** The scan of `update` stops at a slot holding the same record or one
      farther from the camera than `obj`. */
  predicate StopsAt(slot: Option<Record>, obj: Record) {
    slot.Some? && (slot.value.id == obj.id || obj.dist < slot.value.dist)
  }

  /** The index where the scan of `update` stops, or the length when it runs
      off the end. */
  function FirstStop(a: Slots, obj: Record): (k: nat)
    ensures k <= |a|
    ensures forall j :: 0 <= j < k ==> !StopsAt(a[j], obj)
    ensures k < |a| ==> StopsAt(a[k], obj)
  {
    if |a| == 0 then 0
    else if StopsAt(a[0], obj) then 0
    else 1 + FirstStop(a[1..], obj)
  }

  /** Every empty slot written with `obj`. */
  function FillEmpty(s: Slots, obj: Record): (r: Slots)
    ensures |r| == |s|
    ensures forall j :: 0 <= j < |s| ==> r[j] == (if s[j].None? then Some(obj) else s[j])
  {
    seq(|s|, j requires 0 <= j < |s| => if s[j].None? then Some(obj) else s[j])
  }

  /** `update(object)`: scans the slots in order. An empty slot is written with
      the object and the scan goes on; the same record ends the scan with
      false; a farther record gets the object inserted before it and the call
      answers true. */
  method Update(a: Slots, obj: Record) returns (r: Slots, modified: bool)
    ensures |r| == |a|
    ensures modified <==> FirstStop(a, obj) < |a| && a[FirstStop(a, obj)].value.id != obj.id
    ensures var k := FirstStop(a, obj);
      if k == |a| then r == FillEmpty(a, obj)
      else if modified then r == FillEmpty(a[..k], obj) + [Some(obj)] + a[k..|a| - 1]
      else r == FillEmpty(a[..k], obj) + a[k..]
  {
    var k := FirstStop(a, obj);
    r := a;
    var i := 0;
    while i < |a|
      invariant 0 <= i <= k
      invariant |r| == |a|
      invariant forall j :: 0 <= j < i ==> r[j] == (if a[j].None? then Some(obj) else a[j])
      invariant forall j :: i <= j < |a| ==> r[j] == a[j]
    {
      if r[i].None? {
        r := Set(r, i, Some(obj));
      } else if r[i].value.id == obj.id {
        assert r == FillEmpty(a[..k], obj) + a[k..];
        return r, false;
      } else if obj.dist < r[i].value.dist {
        assert r[..i] == FillEmpty(a[..k], obj);
        assert r[i..] == a[k..];
        r := Insert(r, i, Some(obj));
        return r, true;
      }
      i := i + 1;
    }
    assert r == FillEmpty(a, obj);
    return r, false;
  }

  // ---------------------------------------------------------------------
  // Invariants of the nearest-objects array

  /** Records first, empty slots after them. */
  predicate Packed(a: Slots) {
    forall i, j :: 0 <= i < j < |a| && a[i].None? ==> a[j].None?
  }

  /** Ascending distance among the records. */
  predicate SortedByDistance(a: Slots) {
    forall i, j :: 0 <= i < j < |a| && a[i].Some? && a[j].Some? ==> a[i].value.dist <= a[j].value.dist
  }

  /** On a packed array the scan meets no empty slot before it stops, so a
      record that is already in stops it with nothing changed. */
  lemma UpdateSameRecordChangesNothing(a: Slots, obj: Record, r: Slots, modified: bool)
    requires Packed(a)
    requires FirstStop(a, obj) < |a| && a[FirstStop(a, obj)].value.id == obj.id
    requires |r| == |a|
    requires modified <==> FirstStop(a, obj) < |a| && a[FirstStop(a, obj)].value.id != obj.id
    requires r == FillEmpty(a[..FirstStop(a, obj)], obj) + a[FirstStop(a, obj)..]
    ensures !modified && r == a
  {
    var k := FirstStop(a, obj);
    assert forall j :: 0 <= j < k ==> a[j].Some?;
    assert FillEmpty(a[..k], obj) == a[..k];
    assert a[..k] + a[k..] == a;
  }

  /** On an all-empty array the object lands in every slot and the answer is
      false. */
  lemma UpdateFillsEmptyArray(a: Slots, obj: Record)
    requires forall j :: 0 <= j < |a| ==> a[j].None?
    ensures FirstStop(a, obj) == |a|
    ensures forall j :: 0 <= j < |a| ==> FillEmpty(a, obj)[j] == Some(obj)
  {
  }

  /** The outcome of `update` keeps a packed array packed and a sorted array
      sorted. */
  lemma UpdateKeepsOrder(a: Slots, obj: Record, r: Slots, modified: bool)
    requires Packed(a) && SortedByDistance(a)
    requires |r| == |a|
    requires modified <==> FirstStop(a, obj) < |a| && a[FirstStop(a, obj)].value.id != obj.id
    requires var k := FirstStop(a, obj);
      if k == |a| then r == FillEmpty(a, obj)
      else if modified then r == FillEmpty(a[..k], obj) + [Some(obj)] + a[k..|a| - 1]
      else r == FillEmpty(a[..k], obj) + a[k..]
    ensures Packed(r) && SortedByDistance(r)
  {
    var k := FirstStop(a, obj);
    if k == |a| {
      FilledKeepsOrder(a, obj);
    } else {
      assert forall j :: 0 <= j < k ==> a[j].Some?;
      assert FillEmpty(a[..k], obj) == a[..k];
      if modified {
        InsertedKeepsOrder(a, obj, k);
      } else {
        assert a[..k] + a[k..] == a;
      }
    }
  }

  /** A scan that runs off the end fills every empty slot, all of them after
      the records nearer than `obj`. */
  lemma FilledKeepsOrder(a: Slots, obj: Record)
    requires Packed(a) && SortedByDistance(a) && FirstStop(a, obj) == |a|
    ensures Packed(FillEmpty(a, obj)) && SortedByDistance(FillEmpty(a, obj))
  {
    var r := FillEmpty(a, obj);
    forall i, j | 0 <= i < j < |r| && r[i].Some? && r[j].Some?
      ensures r[i].value.dist <= r[j].value.dist
    {
      assert !StopsAt(a[i], obj) && !StopsAt(a[j], obj);
    }
  }

  /** Inserting `obj` before the first farther record keeps the order. */
  lemma InsertedKeepsOrder(a: Slots, obj: Record, k: nat)
    requires Packed(a) && SortedByDistance(a)
    requires k == FirstStop(a, obj) < |a| && a[k].value.id != obj.id
    ensures var r := a[..k] + [Some(obj)] + a[k..|a| - 1];
            Packed(r) && SortedByDistance(r)
  {
    var r := a[..k] + [Some(obj)] + a[k..|a| - 1];
    forall i | 0 <= i < |r| && r[i].Some?
      ensures i < k ==> r[i].value.dist <= obj.dist
      ensures i > k ==> obj.dist < r[i].value.dist
    {
      if i < k {
        assert r[i] == a[i];
        assert !StopsAt(a[i], obj);
      } else if i > k {
        assert r[i] == a[i - 1];
        assert a[k].value.dist <= a[i - 1].value.dist || i - 1 == k;
      }
    }
    forall i, j | 0 <= i < j < |r| && r[i].None?
      ensures r[j].None?
    {
      assert i > k && r[i] == a[i - 1] && r[j] == a[j - 1];
    }
  }
}

=== FILE: scene_graph_builder.dfy ===
/** `gaiasky.scene.system.initialize.SceneGraphBuilderSystem`: linking each
    entity to the parent named in its graph component, and counting children
    up the ancestor chain. Entities are numbers; the graph components are a
    map from entity to node, and the name index a map from lower-case name
    to entity. */
module SceneGraphBuilder {
  import opened Wrappers
  import opened Text

  type Entity = nat

  /** The `GraphNode` component fields the builder reads and writes. */
  datatype Node = Node(
    parentName: Option<string>,
    parent: Option<Entity>,
    children: Option<seq<Entity>>,
    numChildren: int)

  type Graph = map<Entity, Node>

  datatype Error =
    | ParentNotFound(entity: Entity, parentName: string)
      /** The ancestor walk meets a node twice and never reaches the root. */
    | Cycle

  /** Every parent link points at a node of the graph. */
  predicate Closed(g: Graph) {
    forall e :: e in g && g[e].parent.Some? ==> g[e].parent.value in g
  }

  /** `getNode(name)`: the index entry under the lower-cased, stripped name. */
  function GetNode(index: map<string, Entity>, name: string): (r: Option<Entity>)
    ensures r.Some? <==> Strip(Lower(name)) in index
    ensures r.Some? ==> r.value == index[Strip(Lower(name))]
  {
    var key := Strip(Lower(name));
    if key in index then Some(index[key]) else None
  }

  /** A name is found the same way with or without its case and its
      surrounding whitespace, in either order of removal. */
  lemma GetNodeNormalized(index: map<string, Entity>, name: string)
    ensures GetNode(index, Strip(Lower(name))) == GetNode(index, name)
    ensures GetNode(index, Lower(Strip(name))) == GetNode(index, name)
  {
    var k := Strip(Lower(name));
    assert Lower(k) == k by {
      LowerStrip(Lower(name));
      LowerIdempotent(name);
    }
    assert Strip(k) == k by {
      StripIdempotent(Lower(name));
    }
    assert Lower(Strip(name)) == k by {
      LowerStrip(name);
    }
  }

  // ---------------------------------------------------------------------
  // Ancestors

  /** The node `n` parent links above `e`, if the links go that far. */
  function Above(g: Graph, e: Entity, n: nat): Option<Entity> {
    if n == 0 then Some(e)
    else
      match Above(g, e, n - 1)
      case None => None
      case Some(a) => if a in g then g[a].parent else None
  }

  /** `a` is a strict ancestor of `e`. */
  ghost predicate IsAncestor(g: Graph, e: Entity, a: Entity) {
    exists n :: 1 <= n && Above(g, e, n) == Some(a)
  }

  /** The entities the `while (ancestor != null)` loop visits, starting at
      `start`, in order; `visited` are those already passed. A node met
      twice means the loop never ends. */
  function Walk(g: Graph, start: Option<Entity>, visited: set<Entity>): (r: Result<seq<Entity>, Error>)
    requires Closed(g) && (start.Some? ==> start.value in g) && visited <= g.Keys
    ensures r.Ok? ==> forall i :: 0 <= i < |r.value| ==> r.value[i] in g && r.value[i] !in visited
    ensures r.Ok? ==> forall i, j :: 0 <= i < j < |r.value| ==> r.value[i] != r.value[j]
    decreases |g.Keys - visited|
  {
    match start
    case None => Ok([])
    case Some(a) =>
      if a in visited then Err(Cycle)
      else
        assert g.Keys - (visited + {a}) == (g.Keys - visited) - {a};
        var rest := Walk(g, g[a].parent, visited + {a});
        if rest.Err? then rest else Ok([a] + rest.value)
  }

  /** The walk from `e`'s parent lists the strict ancestors of `e`, each in
      its place: the k-th entity is k+1 links above `e`. */
  lemma {:induction false} WalkFollowsLinks(g: Graph, e: Entity, n: nat, a: Entity, visited: set<Entity>)
    requires Closed(g) && visited <= g.Keys && a in g && Above(g, e, n) == Some(a)
    requires Walk(g, g[a].parent, visited).Ok?
    ensures var w := Walk(g, g[a].parent, visited).value;
      forall k :: 0 <= k < |w| ==> Above(g, e, n + 1 + k) == Some(w[k])
    ensures var w := Walk(g, g[a].parent, visited).value;
      Above(g, e, n + 1 + |w|).None?
    decreases |Walk(g, g[a].parent, visited).value|
  {
    var start := g[a].parent;
    var w := Walk(g, start, visited).value;
    match start
    case None =>
      assert w == [];
    case Some(b) =>
      WalkCons(g, b, visited);
      var rest := Walk(g, g[b].parent, visited + {b}).value;
      assert w == [b] + rest;
      assert Above(g, e, n + 1) == Some(b);
      WalkFollowsLinks(g, e, n + 1, b, visited + {b});
      assert forall k :: 0 <= k < |rest| ==> Above(g, e, n + 1 + 1 + k) == Some(rest[k]);
      assert Above(g, e, n + 1 + 1 + |rest|).None?;
      assert n + 1 + |w| == n + 1 + 1 + |rest|;
      forall k | 0 <= k < |w| ensures Above(g, e, n + 1 + k) == Some(w[k]) {
        if k > 0 {
          assert w[k] == rest[k - 1];
          assert n + 1 + k == n + 1 + 1 + (k - 1);
        }
      }
  }

  /** A walk that succeeds from `b` is `b` followed by the walk from its
      parent. */
  lemma WalkCons(g: Graph, b: Entity, visited: set<Entity>)
    requires Closed(g) && b in g && visited <= g.Keys
    requires Walk(g, Some(b), visited).Ok?
    ensures b !in visited && visited + {b} <= g.Keys && (g[b].parent.Some? ==> g[b].parent.value in g)
    ensures Walk(g, g[b].parent, visited + {b}).Ok?
    ensures Walk(g, Some(b), visited).value == [b] + Walk(g, g[b].parent, visited + {b}).value
  {
  }

  /** Everything strictly above `e` is on the walk from its parent. */
  lemma AncestorsOnWalk(g: Graph, e: Entity, a: Entity)
    requires Closed(g) && e in g
    requires Walk(g, g[e].parent, {}).Ok?
    ensures a in Walk(g, g[e].parent, {}).value <==> IsAncestor(g, e, a)
  {
    var w := Walk(g, g[e].parent, {}).value;
    assert Above(g, e, 0) == Some(e);
    WalkFollowsLinks(g, e, 0, e, {});
    if a in w {
      var k :| 0 <= k < |w| && w[k] == a;
      assert Above(g, e, 1 + k) == Some(a);
    }
    if IsAncestor(g, e, a) {
      var n :| 1 <= n && Above(g, e, n) == Some(a);
      if n - 1 >= |w| {
        AboveStaysNone(g, e, 1 + |w|, n);
      } else {
        assert Above(g, e, 1 + (n - 1)) == Some(w[n - 1]);
      }
    }
  }

  lemma {:induction false} AboveStaysNone(g: Graph, e: Entity, m: nat, n: nat)
    requires m <= n && Above(g, e, m).None?
    ensures Above(g, e, n).None?
    decreases n - m
  {
    if m < n {
      AboveStaysNone(g, e, m, n - 1);
    }
  }

  /** One more child counted on each listed entity. */
  function Bump(g: Graph, es: seq<Entity>): (r: Graph)
    requires forall i :: 0 <= i < |es| ==> es[i] in g
    requires forall i, j :: 0 <= i < j < |es| ==> es[i] != es[j]
    ensures r.Keys == g.Keys
    ensures forall e :: e in g ==> r[e] == g[e].(numChildren := g[e].numChildren + (if e in es then 1 else 0))
    decreases |es|
  {
    if |es| == 0 then g
    else
      var e := es[0];
      var r := Bump(g[e := g[e].(numChildren := g[e].numChildren + 1)], es[1..]);
      assert forall x :: x in es <==> x == e || x in es[1..];
      r
  }

  /** The three writes `addChild` makes before counting ancestors: the
      child appended to the parent's children, the child's parent link set,
      and the parent's count raised by one. */
  function Link(g: Graph, parent: Entity, child: Entity): (r: Graph)
    requires Closed(g) && parent in g && child in g
    ensures r.Keys == g.Keys && Closed(r)
    ensures r[parent].children == Some(g[parent].children.GetOr([]) + [child])
    ensures forall e :: e in g && e != parent ==> r[e].children == g[e].children
    ensures forall e :: e in g ==> r[e].parent == if e == child then Some(parent) else g[e].parent
    ensures forall e :: e in g ==> r[e].numChildren == g[e].numChildren + if e == parent then 1 else 0
  {
    var pn := g[parent];
    var withChild := g[parent := pn.(children := Some(pn.children.GetOr([]) + [child]))];
    var linked := withChild[child := withChild[child].(parent := Some(parent))];
    linked[parent := linked[parent].(numChildren := linked[parent].numChildren + 1)]
  }

  /** `addChild(parent, child, updateAncestorCount)`. */
  function AddChild(g: Graph, parent: Entity, child: Entity, updateAncestorCount: bool): (r: Result<Graph, Error>)
    requires Closed(g) && parent in g && child in g
    ensures r.Ok? ==> r.value.Keys == g.Keys && Closed(r.value)
    ensures r.Ok? ==> r.value[parent].children == Some(g[parent].children.GetOr([]) + [child])
    ensures r.Ok? ==> r.value[child].parent == Some(parent)
    ensures !updateAncestorCount ==> r.Ok?
  {
    var counted := Link(g, parent, child);
    if !updateAncestorCount then Ok(counted)
    else
      var ancestors := Walk(counted, counted[parent].parent, {});
      if ancestors.Err? then Err(Cycle) else Ok(Bump(counted, ancestors.value))
  }

  /** Adding a child counts one more child on the parent, and, when asked
      to, on every strict ancestor of the parent; every other node keeps its
      count, and the only links that change are the parent's children and
      the child's parent. */
  lemma AddChildCounts(g: Graph, parent: Entity, child: Entity, updateAncestorCount: bool, e: Entity)
    requires Closed(g) && parent in g && child in g && e in g
    requires AddChild(g, parent, child, updateAncestorCount).Ok?
    ensures var r := AddChild(g, parent, child, updateAncestorCount).value;
      var linked := g[child := g[child].(parent := Some(parent))];
      r[e].numChildren == g[e].numChildren + (if e == parent then 1 else 0)
        + (if updateAncestorCount && IsAncestor(linked, parent, e) then 1 else 0)
    ensures var r := AddChild(g, parent, child, updateAncestorCount).value;
      e != parent && e != child ==> r[e].children == g[e].children && r[e].parent == g[e].parent
  {
    var counted := Link(g, parent, child);
    var r := AddChild(g, parent, child, updateAncestorCount).value;
    assert counted[e].numChildren == g[e].numChildren + if e == parent then 1 else 0;
    if updateAncestorCount {
      var w := Walk(counted, counted[parent].parent, {}).value;
      assert r == Bump(counted, w);
      assert r[e].numChildren == counted[e].numChildren + if e in w then 1 else 0;
      assert r[e].children == counted[e].children && r[e].parent == counted[e].parent;
      var linkedG := g[child := g[child].(parent := Some(parent))];
      assert forall x :: x in linkedG ==> linkedG[x].parent == counted[x].parent;
      SameLinks(linkedG, counted, parent, e);
      AncestorsOnWalk(counted, parent, e);
    } else {
      assert r == counted;
    }
  }

  /** Graphs with the same keys and parent links have the same ancestors. */
  lemma SameLinks(g: Graph, h: Graph, x: Entity, a: Entity)
    requires g.Keys == h.Keys && forall e :: e in g ==> g[e].parent == h[e].parent
    ensures IsAncestor(g, x, a) <==> IsAncestor(h, x, a)
  {
    forall n: nat ensures Above(g, x, n) == Above(h, x, n) {
      AboveSame(g, h, x, n);
    }
  }

  lemma {:induction false} AboveSame(g: Graph, h: Graph, x: Entity, n: nat)
    requires g.Keys == h.Keys && forall e :: e in g ==> g[e].parent == h[e].parent
    ensures Above(g, x, n) == Above(h, x, n)
  {
    if n > 0 {
      AboveSame(g, h, x, n - 1);
    }
  }

  /** `initializeEntity`: an entity without a parent name is left alone; one
      whose parent name is not in the index is an error; otherwise it is
      added as a child of that parent, counting ancestors. */
  function InitializeEntity(g: Graph, index: map<string, Entity>, entity: Entity): (r: Result<Graph, Error>)
    requires Closed(g) && entity in g
    requires forall name :: name in index ==> index[name] in g
    ensures g[entity].parentName.None? ==> r == Ok(g)
    ensures g[entity].parentName.Some? && GetNode(index, g[entity].parentName.value).None? ==>
      r == Err(ParentNotFound(entity, g[entity].parentName.value))
    ensures g[entity].parentName.Some? && GetNode(index, g[entity].parentName.value).Some? ==>
      r == AddChild(g, GetNode(index, g[entity].parentName.value).value, entity, true)
  {
    match g[entity].parentName
    case None => Ok(g)
    case Some(name) =>
      match GetNode(index, name)
      case None => Err(ParentNotFound(entity, name))
      case Some(parent) => AddChild(g, parent, entity, true)
  }

  /** An entity whose parent name is indexed, in any case and with any
      surrounding whitespace, ends up as the last child of that parent and
      points back to it. */
  lemma InitializeEntityAttaches(g: Graph, index: map<string, Entity>, entity: Entity, key: string)
    requires Closed(g) && entity in g
    requires forall name :: name in index ==> index[name] in g
    requires g[entity].parentName.Some? && key in index
    requires Lower(Strip(g[entity].parentName.value)) == key
    requires InitializeEntity(g, index, entity).Ok?
    ensures var r := InitializeEntity(g, index, entity).value;
            var p := index[key];
            r[entity].parent == Some(p) && r[p].children.Some? &&
            |r[p].children.value| > 0 && r[p].children.value[|r[p].children.value| - 1] == entity
  {
    var name := g[entity].parentName.value;
    assert Strip(Lower(name)) == key by {
      LowerStrip(name);
    }
    var found := GetNode(index, name);
    assert found == Some(index[key]);
    var r := AddChild(g, index[key], entity, true);
    assert InitializeEntity(g, index, entity) == r;
    assert r.value[index[key]].children == Some(g[index[key]].children.GetOr([]) + [entity]);
  }
}

=== FILE: spacecraft_view.dfy ===
/** The spacecraft controls of `gaiasky.scene.view.SpacecraftView`: stopping
    all movement and stepping through the table of thrust factors. The
    engine component is reduced to the fields these operations touch, and
    its setters are plain assignments. */
module SpacecraftView {
  import opened Text

  datatype Engine = Engine(
    enginePower: real,
    yawPower: real,
    pitchPower: real,
    rollPower: real,
    leveling: bool,
    stopping: bool,
    thrustFactor: seq<real>,
    thrustFactorIndex: int)

  /** The engine after a control call, and whether the call returned
      normally. Each thrust-factor call assigns the index first and then
      reads `thrustFactor[index]` to log it, so an index outside the table
      throws with the assignment already made. */
  datatype Outcome = Outcome(engine: Engine, completed: bool)

  predicate InRange(e: Engine) {
    0 <= e.thrustFactorIndex < |e.thrustFactor|
  }

  /** `stopAllMovement`: every power goes to zero and the engine is neither
      levelling nor stopping; the thrust setting is kept. */
  function StopAllMovement(e: Engine): (r: Engine)
    ensures r.enginePower == 0.0 && r.yawPower == 0.0 && r.pitchPower == 0.0 && r.rollPower == 0.0
    ensures !r.leveling && !r.stopping
    ensures r.thrustFactor == e.thrustFactor && r.thrustFactorIndex == e.thrustFactorIndex
  {
    e.(enginePower := 0.0, yawPower := 0.0, pitchPower := 0.0, rollPower := 0.0,
       leveling := false, stopping := false)
  }

  /** `increaseThrustFactorIndex`: one step up, modulo the table length (Java
      remainder). An empty table divides by zero before anything is
      assigned. */
  function Increase(e: Engine): (r: Outcome)
    ensures |e.thrustFactor| == 0 ==> r == Outcome(e, false)
    ensures r.engine == e.(thrustFactorIndex := r.engine.thrustFactorIndex)
    ensures r.completed <==> InRange(r.engine)
    ensures InRange(e) ==>
              r.completed && r.engine.thrustFactorIndex == (e.thrustFactorIndex + 1) % |e.thrustFactor|
    ensures InRange(e) && e.thrustFactorIndex == |e.thrustFactor| - 1 ==> r.engine.thrustFactorIndex == 0
  {
    var n := |e.thrustFactor|;
    if n == 0 then Outcome(e, false)
    else
      var i := JRem(e.thrustFactorIndex + 1, n);
      StepUpWraps(e.thrustFactorIndex, n);
      Outcome(e.(thrustFactorIndex := i), 0 <= i < n)
  }

  /** From inside the table, one step up with the truncating remainder is
      the floored one, and wraps from the last entry to the first. */
  lemma StepUpWraps(i: int, n: int)
    requires n > 0
    ensures 0 <= i < n ==> JRem(i + 1, n) == (i + 1) % n
    ensures i == n - 1 ==> JRem(i + 1, n) == 0
  {
    if 0 <= i < n {
      var q := JDiv(i + 1, n);
      assert q == (i + 1) / n;
      if i == n - 1 {
        DivUnique(i + 1, n, 1, 0);
      }
    }
  }

  /** `decreaseThrustFactorIndex`: one step down, wrapping from below zero
      to the last entry. An empty table wraps to -1 and throws. */
  function Decrease(e: Engine): (r: Outcome)
    ensures r.engine == e.(thrustFactorIndex := r.engine.thrustFactorIndex)
    ensures r.completed <==> InRange(r.engine)
    ensures |e.thrustFactor| == 0 ==> !r.completed
    ensures InRange(e) ==>
              r.completed && r.engine.thrustFactorIndex == (e.thrustFactorIndex - 1 + |e.thrustFactor|) % |e.thrustFactor|
    ensures InRange(e) && e.thrustFactorIndex == 0 ==> r.engine.thrustFactorIndex == |e.thrustFactor| - 1
  {
    var i := e.thrustFactorIndex - 1;
    var i' := if i < 0 then |e.thrustFactor| - 1 else i;
    Outcome(e.(thrustFactorIndex := i'), 0 <= i' < |e.thrustFactor|)
  }

  /** `setThrustFactorIndex(i)`: the index is assigned as given (the Java
      `assert` is disabled at run time), and the call completes exactly for
      an index inside the table. */
  function SetThrustFactorIndex(e: Engine, i: int): (r: Outcome)
    ensures r.engine.thrustFactorIndex == i
    ensures r.engine == e.(thrustFactorIndex := i)
    ensures r.completed <==> 0 <= i < |e.thrustFactor|
  {
    Outcome(e.(thrustFactorIndex := i), 0 <= i < |e.thrustFactor|)
  }

  /** Stepping up and then down, or down and then up, restores a valid
      thrust setting. */
  lemma IncreaseDecreaseInverse(e: Engine)
    requires InRange(e)
    ensures Decrease(Increase(e).engine) == Outcome(e, true)
    ensures Increase(Decrease(e).engine) == Outcome(e, true)
  {
    var n := |e.thrustFactor|;
    var i := e.thrustFactorIndex;
    if i == n - 1 {
      assert Increase(e).engine.thrustFactorIndex == 0;
    } else {
      assert (i + 1) % n == i + 1;
    }
    if i == 0 {
      assert Decrease(e).engine.thrustFactorIndex == n - 1;
      assert JRem(n, n) == 0 by { DivUnique(n, n, 1, 0); }
    } else {
      assert JRem(i, n) == i by { DivUnique(i, n, 0, i); }
    }
  }

  /** Stopping keeps the thrust setting, so the steps still act the same
      way afterwards; stopping twice is stopping once. */
  lemma StopKeepsThrust(e: Engine)
    ensures Increase(StopAllMovement(e)).engine.thrustFactorIndex == Increase(e).engine.thrustFactorIndex
    ensures Decrease(StopAllMovement(e)).engine.thrustFactorIndex == Decrease(e).engine.thrustFactorIndex
    ensures StopAllMovement(StopAllMovement(e)) == StopAllMovement(e)
  {
  }
}

=== FILE: star_group.dfy ===
/** The star-set side of `gaiasky.scenegraph.StarGroup`: the name index,
    which besides the lower-cased names also holds the source id and the
    "hip N" designation of every named star, the focus lookup by name, and
    the absolute position of a named star at the current epoch (position
    plus proper motion times the elapsed years). */
module StarGroup {
  import opened Wrappers
  import opened Text
  import opened Vec3
  import NameIndex

  /** A star record: its names (the array may be null), source id,
      Hipparcos number, position and proper motion per year. */
  datatype Star = Star(names: Option<seq<string>>, id: int, hip: int, pos: Vec, pm: Vec)

  datatype Error = IndexOutOfBounds

  /** `Long.toString(id).toLowerCase()`: a number has no letters, so the
      key is the decimal text of the id. */
  function IdKey(s: Star): (r: string)
    ensures r == IntToString(s.id)
  {
    LowerOfNumber(s.id);
    Lower(IntToString(s.id))
  }

  /** `"hip " + hip`: the prefix, then the decimal text of the number. */
  function HipKey(s: Star): (r: string)
    ensures |r| >= 5 && r[..4] == "hip " && r[4..] == IntToString(s.hip)
  {
    "hip " + IntToString(s.hip)
  }

  /** The puts made for one lower-cased name `lc`: the name itself, then the
      id and the HIP designation, each only when positive and different from
      the name. */
  function PutsForName(s: Star, lc: string): (ks: seq<string>)
    ensures forall k :: k in ks <==>
              k == lc || (s.id > 0 && k == IdKey(s) && k != lc) || (s.hip > 0 && k == HipKey(s) && k != lc)
  {
    [lc] + (if s.id > 0 && IdKey(s) != lc then [IdKey(s)] else [])
         + (if s.hip > 0 && HipKey(s) != lc then [HipKey(s)] else [])
  }

  /** The puts of the inner loop over the names, in order. */
  function NameLoopKeys(s: Star, ns: seq<string>): (ks: seq<string>)
    ensures |ns| == 0 ==> ks == []
  {
    if |ns| == 0 then [] else PutsForName(s, Lower(ns[0])) + NameLoopKeys(s, ns[1..])
  }

  /** The keys star `s` contributes: none when its names are null. */
  function StarKeys(s: Star): (ks: seq<string>)
    ensures s.names.None? ==> ks == []
  {
    if s.names.None? then [] else NameLoopKeys(s, s.names.value)
  }

  /** `k` is one of the lower-cased names. */
  ghost predicate LowerOf(ns: seq<string>, k: string) {
    exists j :: 0 <= j < |ns| && Lower(ns[j]) == k
  }

  /** The keys a star answers to, stated directly: a star with at least one
      name answers to its lower-cased names, to its id when positive and to
      "hip N" when its HIP number is positive; a star without names answers
      to nothing. */
  ghost predicate Answers(s: Star, k: string) {
    s.names.Some? && |s.names.value| > 0 &&
    (LowerOf(s.names.value, k) || (s.id > 0 && k == IdKey(s)) || (s.hip > 0 && k == HipKey(s)))
  }

  /** The "differs from the name" guards never drop a key: when the id or
      the HIP designation equals the name, it is in the index as the name. */
  lemma {:induction false} NameLoopKeysExact(s: Star, ns: seq<string>, k: string)
    ensures k in NameLoopKeys(s, ns) <==>
            |ns| > 0 && (LowerOf(ns, k) || (s.id > 0 && k == IdKey(s)) || (s.hip > 0 && k == HipKey(s)))
  {
    if |ns| > 0 {
      var lc := Lower(ns[0]);
      var rest := ns[1..];
      NameLoopKeysExact(s, rest, k);
      assert LowerOf(ns, k) <==> lc == k || LowerOf(rest, k) by {
        if LowerOf(rest, k) {
          var j :| 0 <= j < |rest| && Lower(rest[j]) == k;
          assert ns[j + 1] == rest[j];
        }
        if LowerOf(ns, k) && lc != k {
          var j :| 0 <= j < |ns| && Lower(ns[j]) == k;
          assert rest[j - 1] == ns[j];
        }
        if lc == k {
          assert Lower(ns[0]) == k;
        }
      }
    }
  }

  lemma StarKeysExact(s: Star, k: string)
    ensures k in StarKeys(s) <==> Answers(s, k)
  {
    if s.names.Some? {
      NameLoopKeysExact(s, s.names.value, k);
    }
  }

  function AllKeys(data: seq<Star>): (keys: seq<seq<string>>)
    ensures |keys| == |data|
    ensures forall i :: 0 <= i < |data| ==> keys[i] == StarKeys(data[i])
  {
    seq(|data|, i requires 0 <= i < |data| => StarKeys(data[i]))
  }

  /** `generateIndex`: the puts of every star in order, later stars
      overwriting earlier ones. */
  function GenerateIndex(data: seq<Star>): (index: NameIndex.Index)
    ensures forall k :: k in index ==> index[k] < |data|
  {
    NameIndex.Build(AllKeys(data))
  }

  /** A key maps to star `i` exactly when star `i` answers to it and no
      later star does. */
  lemma GenerateIndexLast(data: seq<Star>, k: string, i: nat)
    requires i < |data|
    ensures (k in GenerateIndex(data) && GenerateIndex(data)[k] == i) <==>
            (Answers(data[i], k) && forall j :: i < j < |data| ==> !Answers(data[j], k))
  {
    var keys := AllKeys(data);
    NameIndex.BuildLast(keys, k, i);
    StarKeysExact(data[i], k);
    forall j | i < j < |data| ensures k in keys[j] <==> Answers(data[j], k) {
      StarKeysExact(data[j], k);
    }
  }

  /** The index holds exactly the keys some star answers to; in particular a
      star without names is reachable under no key. */
  lemma GenerateIndexKeys(data: seq<Star>, k: string)
    ensures k in GenerateIndex(data) <==> exists i :: 0 <= i < |data| && Answers(data[i], k)
  {
    var keys := AllKeys(data);
    NameIndex.BuildKeys(keys, k);
    if k in GenerateIndex(data) {
      var i :| 0 <= i < |keys| && k in keys[i];
      StarKeysExact(data[i], k);
    }
    if exists i :: 0 <= i < |data| && Answers(data[i], k) {
      var i :| 0 <= i < |data| && Answers(data[i], k);
      StarKeysExact(data[i], k);
      assert k in keys[i];
    }
  }

  /** `getFocus(name)`: the candidate focus index is the indexed star, or -1
      for a name the index does not hold. The name is not lower-cased. */
  function GetFocus(index: NameIndex.Index, name: string): (candidate: int)
    ensures candidate >= -1
    ensures candidate == -1 <==> name !in index
  {
    if name in index then index[name] else -1
  }

  /** A star's HIP designation focuses that star, unless a later star also
      answers to it. */
  lemma FocusByHip(data: seq<Star>, i: nat)
    requires i < |data|
    requires data[i].names.Some? && |data[i].names.value| > 0 && data[i].hip > 0
    requires forall j :: i < j < |data| ==> !Answers(data[j], HipKey(data[i]))
    ensures GetFocus(GenerateIndex(data), HipKey(data[i])) == i
  {
    GenerateIndexLast(data, HipKey(data[i]), i);
  }

  /** `fetchPosition` without a camera: the position moved by the proper
      motion over the elapsed years. */
  function PositionAt(s: Star, deltaYears: real): (r: Vec)
    ensures deltaYears == 0.0 ==> r == s.pos
    ensures Sub(r, s.pos) == Scale(deltaYears, s.pm)
  {
    Add(s.pos, Scale(deltaYears, s.pm))
  }

  /** `getAbsolutePosition(name)`: the epoch position of the indexed star,
      or null for an unknown name. An entry past the data throws. */
  function GetAbsolutePosition(data: seq<Star>, index: NameIndex.Index, name: string, deltaYears: real): (r: Result<Option<Vec>, Error>)
    ensures name !in index ==> r == Ok(None)
    ensures name in index ==> (r.Ok? <==> index[name] < |data|)
    ensures r.Ok? && r.value.Some? ==>
              name in index && r.value.value == PositionAt(data[index[name]], deltaYears)
  {
    if name !in index then Ok(None)
    else if index[name] < |data| then Ok(Some(PositionAt(data[index[name]], deltaYears)))
    else Err(IndexOutOfBounds)
  }

  /** With the index generated from the data, the position lookup never
      throws, and it finds a star exactly for the keys some star answers to,
      giving the epoch position of one of them. */
  lemma PositionByAnyKey(data: seq<Star>, k: string, deltaYears: real)
    ensures var r := GetAbsolutePosition(data, GenerateIndex(data), k, deltaYears);
            r.Ok? &&
            (r.value.Some? <==> exists i :: 0 <= i < |data| && Answers(data[i], k)) &&
            (r.value.Some? ==> exists j :: 0 <= j < |data| && Answers(data[j], k) &&
                                          r.value.value == PositionAt(data[j], deltaYears))
  {
    var index := GenerateIndex(data);
    GenerateIndexKeys(data, k);
    if k in index {
      GenerateIndexLast(data, k, index[k]);
    }
  }
}

=== FILE: svt_manager.dfy ===
/** The tile paging of `gaiasky.util.svt.SVTManager` (sparse virtual
    textures): the per-frame tile state machine, the queue of tiles to page
    in, and the square tile cache with its least-recently-used eviction.

    Tiles are numbers with their records in a map. The cache array
    `cacheBufferArray[i][j]` is one sequence of slots scanned the way the
    source scans it, `j` outer and `i` inner: slot `p` is column
    `i = p % cacheSize`, row `j = p / cacheSize`, so "first in scan order"
    is "lowest slot number". The asset manager enters as two sets of paths:
    those it holds (`contains`) and those it has finished (`isLoaded`);
    pixel data and textures are left out. */
module SvtManager {
  import opened Wrappers

  const MAX_TILES_PER_FRAME: nat := 3
  /** Capacity of the `ArrayBlockingQueue` of queued tiles. */
  const QUEUE_CAPACITY: nat := 150

  type TileId = nat

  datatype TileState = NotLoaded | Loading | Loaded | Queued | Cached

  datatype Tile = Tile(path: string, level: nat, parent: Option<TileId>, state: TileState, accessed: int)

  datatype Manager = Manager(
    tiles: map<TileId, Tile>,
    queue: seq<TileId>,
    location: map<TileId, nat>,
    slots: seq<Option<TileId>>,
    pixmaps: set<string>,
    requested: set<string>)

  datatype Error =
    | QueueFull
    | NullPointer
      /** The parent walk of `removeTileFromCache` never ends. */
    | Hang

  /** The location map and the slot array describe the same placement. */
  predicate Agree(m: Manager) {
    && (forall t :: t in m.location ==> m.location[t] < |m.slots| && m.slots[m.location[t]] == Some(t))
    && (forall p :: 0 <= p < |m.slots| && m.slots[p].Some? ==> m.slots[p].value in m.location && m.location[m.slots[p].value] == p)
  }

  /** Every tile the manager refers to has a record. */
  predicate Known(m: Manager) {
    && (forall k :: 0 <= k < |m.queue| ==> m.queue[k] in m.tiles)
    && (forall t :: t in m.location ==> t in m.tiles)
    && (forall t :: t in m.tiles && m.tiles[t].parent.Some? ==> m.tiles[t].parent.value in m.tiles)
  }

  predicate Valid(m: Manager) {
    Agree(m) && Known(m)
  }

  /** Every tile in a slot has a record. */
  predicate SlotsKnown(m: Manager) {
    forall p :: 0 <= p < |m.slots| && m.slots[p].Some? ==> m.slots[p].value in m.tiles
  }

  lemma ValidSlotsKnown(m: Manager)
    requires Valid(m)
    ensures SlotsKnown(m)
  {
  }

  // ---------------------------------------------------------------------
  // The tile state machine

  /** A loading tile whose path has finished, or a loaded tile: it joins
      the queue. */
  predicate Enqueues(tile: Tile, loaded: set<string>) {
    (tile.state == Loading && tile.path in loaded) || tile.state == Loaded
  }

  /** One observed tile: a tile not loaded is requested unless the asset
      manager already holds its path; a loading tile whose path has
      finished, and a loaded tile, join the queue; queued and cached tiles
      only have their access time refreshed. Adding to the full queue
      throws. */
  function Observe(m: Manager, t: TileId, now: int, loaded: set<string>): (r: Result<Manager, Error>)
    requires Valid(m) && t in m.tiles
    ensures r.Ok? ==> Valid(r.value) && r.value.tiles.Keys == m.tiles.Keys
    ensures r.Ok? ==> r.value.location == m.location && r.value.slots == m.slots
    ensures r.Err? ==> r.error == QueueFull
    ensures m.tiles[t].state == NotLoaded ==> r.Ok? && r.value.queue == m.queue
    ensures m.tiles[t].state == NotLoaded ==>
      r.value.tiles[t].state == (if m.tiles[t].path in m.requested then NotLoaded else Loading)
    ensures m.tiles[t].state == Loading && m.tiles[t].path !in loaded ==> r == Ok(m)
    ensures Enqueues(m.tiles[t], loaded) ==> (r.Ok? <==> |m.queue| < QUEUE_CAPACITY)
    ensures Enqueues(m.tiles[t], loaded) && r.Ok? ==>
      r.value.queue == m.queue + [t] && r.value.tiles[t] == m.tiles[t].(state := Queued)
    ensures m.tiles[t].state == Queued || m.tiles[t].state == Cached ==>
      r == Ok(m.(tiles := m.tiles[t := m.tiles[t].(accessed := now)]))
  {
    var tile := m.tiles[t];
    match tile.state
    case NotLoaded =>
      if tile.path !in m.requested then
        Ok(m.(requested := m.requested + {tile.path}, tiles := m.tiles[t := tile.(state := Loading)]))
      else Ok(m)
    case Loading =>
      if tile.path in loaded then
        if |m.queue| >= QUEUE_CAPACITY then Err(QueueFull)
        else Ok(m.(pixmaps := m.pixmaps + {tile.path}, queue := m.queue + [t], tiles := m.tiles[t := tile.(state := Queued)]))
      else Ok(m)
    case Loaded =>
      if |m.queue| >= QUEUE_CAPACITY then Err(QueueFull)
      else Ok(m.(queue := m.queue + [t], tiles := m.tiles[t := tile.(state := Queued)]))
    case Queued => Ok(m.(tiles := m.tiles[t := tile.(accessed := now)]))
    case Cached => Ok(m.(tiles := m.tiles[t := tile.(accessed := now)]))
  }

  /** The loop over the observed tiles, in iteration order. */
  function ObserveAll(m: Manager, observed: seq<TileId>, now: int, loaded: set<string>): (r: Result<Manager, Error>)
    requires Valid(m) && forall k :: 0 <= k < |observed| ==> observed[k] in m.tiles
    ensures r.Ok? ==> Valid(r.value) && r.value.tiles.Keys == m.tiles.Keys
    ensures r.Ok? ==> r.value.location == m.location && r.value.slots == m.slots
    decreases |observed|
  {
    if |observed| == 0 then Ok(m)
    else
      var first := Observe(m, observed[0], now, loaded);
      if first.Err? then first else ObserveAll(first.value, observed[1..], now, loaded)
  }

  // ---------------------------------------------------------------------
  // The cache

  /** The first empty slot at or after `from`, in scan order. */
  function FirstFree(slots: seq<Option<TileId>>, from: nat): (r: Option<nat>)
    ensures r.Some? ==> from <= r.value < |slots| && slots[r.value].None?
    ensures forall p :: from <= p < |slots| && (r.None? || p < r.value) ==> slots[p].Some?
    decreases |slots| - from
  {
    if from >= |slots| then None
    else if slots[from].None? then Some(from)
    else FirstFree(slots, from + 1)
  }

  /** The eviction scan from slot `p` on, with the best candidate so far:
      a tile of level above 0 replaces the candidate only when accessed
      strictly earlier, so ties keep the first in scan order. An empty slot
      throws, as `candidate.level` does on `null`. */
  function LruScan(m: Manager, p: nat, best: Option<TileId>): (r: Result<Option<TileId>, Error>)
    requires SlotsKnown(m) && p <= |m.slots| && (best.Some? ==> best.value in m.tiles)
    ensures r.Err? <==> exists q :: p <= q < |m.slots| && m.slots[q].None?
    ensures r.Ok? && r.value.Some? ==> r.value == best || (r.value in m.slots[p..] && m.tiles[r.value.value].level > 0)
    ensures r.Ok? && best.Some? ==> r.value.Some?
    decreases |m.slots| - p
  {
    if p >= |m.slots| then Ok(best)
    else if m.slots[p].None? then Err(NullPointer)
    else
      var c := m.slots[p].value;
      var best' := if m.tiles[c].level > 0 && (best.None? || m.tiles[c].accessed < m.tiles[best.value].accessed) then Some(c) else best;
      assert m.slots[p + 1..] == m.slots[p..][1..];
      LruScan(m, p + 1, best')
  }

  /** The scan's result is a tile of level above 0 accessed no later than
      the candidate it started with and than every such tile it passed; it
      finds none only when every tile it passed has level 0. */
  lemma LruScanMinimal(m: Manager, p: nat, best: Option<TileId>)
    requires SlotsKnown(m) && p <= |m.slots| && (best.Some? ==> best.value in m.tiles && m.tiles[best.value].level > 0)
    requires LruScan(m, p, best).Ok?
    ensures var r := LruScan(m, p, best).value;
      r.Some? ==> r.value in m.tiles && m.tiles[r.value].level > 0
    ensures var r := LruScan(m, p, best).value;
      r.Some? && best.Some? ==> m.tiles[r.value].accessed <= m.tiles[best.value].accessed
    ensures var r := LruScan(m, p, best).value;
      r.Some? ==> forall q :: p <= q < |m.slots| && m.tiles[m.slots[q].value].level > 0 ==>
        m.tiles[r.value].accessed <= m.tiles[m.slots[q].value].accessed
    ensures var r := LruScan(m, p, best).value;
      r.None? ==> best.None? && forall q :: p <= q < |m.slots| ==> m.tiles[m.slots[q].value].level == 0
  {
    LruScanPicked(m, p, best);
    LruScanBeatsPassed(m, p, best);
    LruScanNone(m, p, best);
  }

  /** The candidate after looking at slot `p`. */
  function NextBest(m: Manager, p: nat, best: Option<TileId>): (b: Option<TileId>)
    requires SlotsKnown(m) && p < |m.slots| && m.slots[p].Some? && (best.Some? ==> best.value in m.tiles)
    ensures b.Some? ==> b.value in m.tiles
    ensures LruScan(m, p, best) == LruScan(m, p + 1, b)
  {
    var c := m.slots[p].value;
    if m.tiles[c].level > 0 && (best.None? || m.tiles[c].accessed < m.tiles[best.value].accessed) then Some(c) else best
  }

  lemma {:induction false} LruScanPicked(m: Manager, p: nat, best: Option<TileId>)
    requires SlotsKnown(m) && p <= |m.slots| && (best.Some? ==> best.value in m.tiles && m.tiles[best.value].level > 0)
    requires LruScan(m, p, best).Ok?
    ensures var r := LruScan(m, p, best).value;
      r.Some? ==> r.value in m.tiles && m.tiles[r.value].level > 0
    ensures var r := LruScan(m, p, best).value;
      r.Some? && best.Some? ==> m.tiles[r.value].accessed <= m.tiles[best.value].accessed
    decreases |m.slots| - p
  {
    if p < |m.slots| {
      assert m.slots[p].Some?;
      var best' := NextBest(m, p, best);
      LruScanPicked(m, p + 1, best');
      assert best.Some? ==> best'.Some? && m.tiles[best'.value].accessed <= m.tiles[best.value].accessed;
    }
  }

  lemma {:induction false} LruScanBeatsPassed(m: Manager, p: nat, best: Option<TileId>)
    requires SlotsKnown(m) && p <= |m.slots| && (best.Some? ==> best.value in m.tiles && m.tiles[best.value].level > 0)
    requires LruScan(m, p, best).Ok?
    ensures var r := LruScan(m, p, best).value;
      r.Some? ==> forall q :: p <= q < |m.slots| && m.tiles[m.slots[q].value].level > 0 ==>
        m.tiles[r.value].accessed <= m.tiles[m.slots[q].value].accessed
    decreases |m.slots| - p
  {
    if p < |m.slots| {
      assert m.slots[p].Some?;
      var c := m.slots[p].value;
      var best' := NextBest(m, p, best);
      LruScanPicked(m, p + 1, best');
      LruScanBeatsPassed(m, p + 1, best');
      var r := LruScan(m, p + 1, best').value;
      if r.Some? && m.tiles[c].level > 0 {
        assert best'.Some? && m.tiles[best'.value].accessed <= m.tiles[c].accessed;
      }
    }
  }

  lemma {:induction false} LruScanNone(m: Manager, p: nat, best: Option<TileId>)
    requires SlotsKnown(m) && p <= |m.slots| && (best.Some? ==> best.value in m.tiles)
    requires LruScan(m, p, best).Ok?
    ensures var r := LruScan(m, p, best).value;
      r.None? ==> best.None? && forall q :: p <= q < |m.slots| ==> m.tiles[m.slots[q].value].level == 0
    decreases |m.slots| - p
  {
    if p < |m.slots| {
      assert m.slots[p].Some?;
      var best' := NextBest(m, p, best);
      LruScanNone(m, p + 1, best');
    }
  }

  /** The occupied slots. */
  function Occupied(slots: seq<Option<TileId>>): set<nat> {
    set p | 0 <= p < |slots| && slots[p].Some?
  }

  function Below(n: nat): (s: set<nat>)
    ensures |s| == n
    ensures forall p: nat :: p in s <==> p < n
  {
    if n == 0 then {} else Below(n - 1) + {n - 1}
  }

  /** Each placed tile has its own slot. */
  lemma {:induction false} LocationBound(m: Manager)
    requires Agree(m)
    ensures |m.location| <= |Occupied(m.slots)|
    decreases |m.location|
  {
    if |m.location| > 0 {
      var t :| t in m.location;
      var p := m.location[t];
      var m' := m.(location := m.location - {t}, slots := m.slots[p := None]);
      assert Agree(m');
      assert Occupied(m'.slots) == Occupied(m.slots) - {p};
      LocationBound(m');
    }
  }

  /** When the location map is as large as the cache, every slot holds a
      tile, so the eviction scan never meets an empty one. */
  lemma FullCacheHasNoGap(m: Manager)
    requires Agree(m) && |m.location| >= |m.slots|
    ensures NoEmptySlot(m)
  {
    LocationBound(m);
    forall q | 0 <= q < |m.slots| ensures m.slots[q].Some? {
      if m.slots[q].None? {
        assert Occupied(m.slots) <= Below(|m.slots|) - {q};
        assert |Below(|m.slots|) - {q}| == |m.slots| - 1;
        SubsetCard(Occupied(m.slots), Below(|m.slots|) - {q});
      }
    }
  }

  lemma SubsetCard(a: set<nat>, b: set<nat>)
    requires a <= b
    ensures |a| <= |b|
  {
    assert b == a + (b - a);
  }

  /** `putTileInCache(tile, i, j, now)` at slot `p`: the location map and
      the slot record the tile, which becomes cached, accessed now. */
  function PutTileInCache(m: Manager, t: TileId, p: nat, now: int): (r: Manager)
    requires Valid(m) && t in m.tiles && t !in m.location && p < |m.slots| && m.slots[p].None?
    ensures Valid(r)
    ensures r.location == m.location[t := p] && r.slots == m.slots[p := Some(t)]
    ensures r.tiles == m.tiles[t := m.tiles[t].(accessed := now, state := Cached)]
    ensures r.queue == m.queue
  {
    m.(location := m.location[t := p], slots := m.slots[p := Some(t)],
       tiles := m.tiles[t := m.tiles[t].(accessed := now, state := Cached)])
  }

  /** The slot is emptied, the location forgotten, and the tile reset to
      loaded with access time 0 (the part both removals share). */
  function Unplace(m: Manager, t: TileId): (r: Manager)
    requires Valid(m) && t in m.location
    ensures Valid(r) && t !in r.location && r.location == m.location - {t}
    ensures r.slots == m.slots[m.location[t] := None]
    ensures r.tiles == m.tiles[t := m.tiles[t].(accessed := 0, state := Loaded)]
    ensures r.queue == m.queue
  {
    var p := m.location[t];
    m.(location := m.location - {t}, slots := m.slots[p := None],
       tiles := m.tiles[t := m.tiles[t].(accessed := 0, state := Loaded)])
  }

  /** `removeTileFromCache` as written: the loop re-reads `tile.parent`
      without moving up, so it ends only when the tile has no parent or its
      parent is cached; otherwise it spins forever. On success it also
      reports the cached parent whose level is drawn into the indirection
      buffer. */
  function RemoveTileFromCache(m: Manager, t: TileId): (r: Result<(Manager, Option<TileId>), Error>)
    requires Valid(m) && t in m.location
    ensures r.Err? <==> m.tiles[t].parent.Some? && m.tiles[t].parent.value !in m.location - {t}
    ensures r.Err? ==> r.error == Hang
    ensures r.Ok? ==> r.value.0 == Unplace(m, t)
    ensures r.Ok? ==> r.value.1 == m.tiles[t].parent
  {
    var u := Unplace(m, t);
    match m.tiles[t].parent
    case None => Ok((u, None))
    case Some(parent) => if parent in u.location then Ok((u, Some(parent))) else Err(Hang)
  }

  /** A cached tile whose parent is not cached hangs the removal. */
  lemma RemovalHangs(m: Manager, t: TileId, parent: TileId)
    requires Valid(m) && t in m.location && t != parent
    requires m.tiles[t].parent == Some(parent) && parent !in m.location
    ensures RemoveTileFromCache(m, t) == Err(Hang)
  {
  }

  /** The closest cached strict ancestor reachable from `start` by parent
      links, never passing a tile twice. */
  function CachedAncestor(m: Manager, start: Option<TileId>, visited: set<TileId>): (r: Option<TileId>)
    requires Known(m) && (start.Some? ==> start.value in m.tiles) && visited <= m.tiles.Keys
    ensures r.Some? ==> r.value in m.location
    decreases |m.tiles.Keys - visited|
  {
    match start
    case None => None
    case Some(a) =>
      if a in m.location then Some(a)
      else if a in visited then None
      else
        assert m.tiles.Keys - (visited + {a}) == (m.tiles.Keys - visited) - {a};
        CachedAncestor(m, m.tiles[a].parent, visited + {a})
  }

  /** `removeTileFromCache` as its comment describes it: walk up the tree
      until a cached ancestor is found, or the root is passed. It always
      ends, and agrees with the source whenever the source ends. */
  function RemoveTileFromCacheFixed(m: Manager, t: TileId): (r: (Manager, Option<TileId>))
    requires Valid(m) && t in m.location
    ensures r.0 == Unplace(m, t)
    ensures r.1.Some? ==> r.1.value in r.0.location
    ensures m.tiles[t].parent.Some? && m.tiles[t].parent.value in r.0.location ==> r.1 == m.tiles[t].parent
    ensures m.tiles[t].parent.None? ==> r.1.None?
  {
    var u := Unplace(m, t);
    (u, CachedAncestor(u, m.tiles[t].parent, {t}))
  }

  lemma FixedAgreesWhenSourceEnds(m: Manager, t: TileId)
    requires Valid(m) && t in m.location && RemoveTileFromCache(m, t).Ok?
    ensures RemoveTileFromCache(m, t) == Ok(RemoveTileFromCacheFixed(m, t))
  {
  }

  // ---------------------------------------------------------------------
  // The paging loop

  datatype Paged = Paged(manager: Manager, added: nat, removed: nat, dropped: Option<TileId>)

  /** The `while ((tile = queuedTiles.poll()) != null && addedTiles < 3)`
      loop. A polled tile that is no longer queued is dropped; a queued
      tile already in the cache becomes cached; otherwise it takes the first
      free slot while the cache has room, or the slot of the least recently
      used tile of level above 0. The poll comes before the count test, so
      once three tiles are added the next tile is taken off the queue and
      dropped (`dropped`). With `fixed` set, eviction uses the corrected
      removal. */
  function Page(m: Manager, added: nat, removed: nat, now: int, fixed: bool): (r: Result<Paged, Error>)
    requires Valid(m) && added <= MAX_TILES_PER_FRAME
    ensures r.Ok? ==> Valid(r.value.manager) && r.value.manager.tiles.Keys == m.tiles.Keys
    ensures r.Ok? ==> added <= r.value.added <= MAX_TILES_PER_FRAME
    ensures r.Ok? ==> r.value.manager.queue == [] || r.value.added == MAX_TILES_PER_FRAME
    ensures r.Ok? ==> |r.value.manager.queue| <= |m.queue| && r.value.manager.queue == m.queue[|m.queue| - |r.value.manager.queue|..]
    ensures r.Ok? && r.value.dropped.Some? ==> r.value.added == MAX_TILES_PER_FRAME && r.value.dropped.value in m.queue
    ensures r.Ok? && added == MAX_TILES_PER_FRAME && |m.queue| > 0 ==>
      r.value.dropped == Some(m.queue[0]) && r.value.manager == m.(queue := m.queue[1..])
    ensures fixed ==> r.Ok?
    decreases |m.queue|
  {
    if |m.queue| == 0 then Ok(Paged(m, added, removed, None))
    else
      var t := m.queue[0];
      var polled := m.(queue := m.queue[1..]);
      if added >= MAX_TILES_PER_FRAME then Ok(Paged(polled, added, removed, Some(t)))
      else
        var step := PageIn(polled, t, now, fixed);
        if step.Err? then Err(step.error)
        else
          var (m', a, rm) := step.value;
          var rest := Page(m', added + a, removed + rm, now, fixed);
          if rest.Err? then rest
          else
            TailSuffix(m.queue, rest.value.manager.queue);
            rest
  }

  /** A suffix of a sequence's tail is a suffix of the sequence. */
  lemma TailSuffix<T>(q: seq<T>, s: seq<T>)
    requires |q| > 0 && |s| <= |q| - 1 && s == q[1..][|q| - 1 - |s|..]
    ensures s == q[|q| - |s|..]
  {
    assert q[1..][|q| - 1 - |s|..] == q[|q| - |s|..];
  }

  /** One iteration of the paging loop on the polled tile `t`: the new
      manager and how many tiles were added and removed. */
  function PageIn(m: Manager, t: TileId, now: int, fixed: bool): (r: Result<(Manager, nat, nat), Error>)
    requires Valid(m) && t in m.tiles
    ensures r.Ok? ==> Valid(r.value.0) && r.value.0.tiles.Keys == m.tiles.Keys && r.value.0.queue == m.queue
    ensures r.Ok? ==> r.value.1 <= 1 && r.value.2 <= r.value.1
    ensures m.tiles[t].state != Queued ==> r == Ok((m, 0, 0))
    ensures m.tiles[t].state == Queued && t in m.location ==> r == Ok((m.(tiles := m.tiles[t := m.tiles[t].(state := Cached)]), 0, 0))
    ensures r.Ok? && r.value.1 == 1 ==> t in r.value.0.location && r.value.0.tiles[t].state == Cached
    ensures fixed ==> r.Ok?
  {
    var tile := m.tiles[t];
    if tile.state != Queued then Ok((m, 0, 0))
    else if t in m.location then Ok((m.(tiles := m.tiles[t := tile.(state := Cached)]), 0, 0))
    else if |m.location| < |m.slots| then
      match FirstFree(m.slots, 0)
      case None => Ok((m, 0, 0))
      case Some(p) => Ok((PutTileInCache(m, t, p, now), 1, 0))
    else
      FullCacheHasNoGap(m);
      ValidSlotsKnown(m);
      var lru := LruScan(m, 0, None);
      if lru.Err? then Err(NullPointer)
      else if lru.value.None? then Ok((m, 0, 0))
      else
        var victim := lru.value.value;
        LruIsCached(m, victim);
        match Evict(m, t, victim, now, fixed)
        case Err(e) => Err(e)
        case Ok(v) => Ok((v, 1, 1))
  }

  /** The eviction branch of the paging loop: the victim is removed from the
      cache, by the removal as written or by the corrected one, and the
      polled tile takes over its slot. */
  function Evict(m: Manager, t: TileId, victim: TileId, now: int, fixed: bool): (r: Result<Manager, Error>)
    requires Valid(m) && t in m.tiles && t !in m.location && victim in m.location
    ensures r.Ok? ==> Valid(r.value) && r.value.tiles.Keys == m.tiles.Keys && r.value.queue == m.queue
    ensures r.Ok? ==> t in r.value.location && r.value.tiles[t].state == Cached
    ensures r.Ok? ==> r.value.location == (m.location - {victim})[t := m.location[victim]]
    ensures r.Ok? ==> r.value.tiles[victim] == m.tiles[victim].(accessed := 0, state := Loaded)
    ensures fixed ==> r.Ok?
  {
    var p := m.location[victim];
    var u :=
      if fixed then Ok(RemoveTileFromCacheFixed(m, victim).0)
      else
        var removal := RemoveTileFromCache(m, victim);
        if removal.Err? then Err(removal.error) else Ok(removal.value.0);
    if u.Err? then Err(u.error)
    else
      var v := u.value;
      assert v == Unplace(m, victim);
      assert t != victim;
      Ok(PutTileInCache(v, t, p, now))
  }

  /** While the cache has room, a queued uncached tile takes the first
      empty slot in scan order. */
  lemma PageInTakesFirstFree(m: Manager, t: TileId, now: int, fixed: bool)
    requires Valid(m) && t in m.tiles && m.tiles[t].state == Queued && t !in m.location
    requires |m.location| < |m.slots| && FirstFree(m.slots, 0).Some?
    ensures var p := FirstFree(m.slots, 0).value;
      && PageIn(m, t, now, fixed) == Ok((PutTileInCache(m, t, p, now), 1, 0))
      && forall q :: 0 <= q < p ==> m.slots[q].Some?
  {
  }

  /** With the cache full, a queued uncached tile takes the slot of the
      least recently accessed tile of level above 0, which goes back to
      loaded with access time 0; level-0 tiles are never evicted. */
  lemma PageInEvictsLru(m: Manager, t: TileId, now: int, fixed: bool)
    requires Valid(m) && t in m.tiles && m.tiles[t].state == Queued && t !in m.location
    requires |m.location| >= |m.slots|
    requires PageIn(m, t, now, fixed).Ok? && PageIn(m, t, now, fixed).value.1 == 1
    ensures NoEmptySlot(m)
    ensures LruScan(m, 0, None).Ok? && LruScan(m, 0, None).value.Some?
    ensures var v := LruScan(m, 0, None).value.value;
      var r := PageIn(m, t, now, fixed).value.0;
      && v in m.location && m.tiles[v].level > 0
      && (forall q :: 0 <= q < |m.slots| && m.tiles[m.slots[q].value].level > 0 ==> m.tiles[v].accessed <= m.tiles[m.slots[q].value].accessed)
      && r.location == (m.location - {v})[t := m.location[v]]
      && r.tiles[v] == m.tiles[v].(accessed := 0, state := Loaded)
  {
    FullCacheHasNoGap(m);
    ValidSlotsKnown(m);
    LruScanMinimal(m, 0, None);
    var v := LruScan(m, 0, None).value.value;
    LruIsCached(m, v);
    var e := Evict(m, t, v, now, fixed);
    assert e.Ok? && PageIn(m, t, now, fixed) == Ok((e.value, 1, 1));
  }

  /** Every slot of the cache holds a tile. */
  predicate NoEmptySlot(m: Manager) {
    forall q :: 0 <= q < |m.slots| ==> m.slots[q].Some?
  }

  /** The eviction candidate sits in a slot, so it is in the location map. */
  lemma LruIsCached(m: Manager, victim: TileId)
    requires Valid(m) && LruScan(m, 0, None) == Ok(Some(victim))
    ensures victim in m.location
  {
    assert Some(victim) in m.slots[0..];
    var q :| 0 <= q < |m.slots| && m.slots[q] == Some(victim);
  }

  /** `update`: the observed tiles step through their states, then the
      queue is paged in. */
  function Update(m: Manager, observed: seq<TileId>, now: int, loaded: set<string>, fixed: bool): (r: Result<Paged, Error>)
    requires Valid(m) && forall k :: 0 <= k < |observed| ==> observed[k] in m.tiles
    ensures r.Ok? ==> Valid(r.value.manager) && r.value.added <= MAX_TILES_PER_FRAME
  {
    var o := ObserveAll(m, observed, now, loaded);
    if o.Err? then Err(o.error) else Page(o.value, 0, 0, now, fixed)
  }
}

=== FILE: text.dfy ===
/** Character and string helpers with Java's semantics, restricted to ASCII:
    case mapping, `String.split` on a single literal character, joining,
    decimal `int` printing and `Integer.parseInt`, and Java's truncating
    integer division. */
module Text {
  import opened Wrappers

  const INT_MIN: int := -0x8000_0000
  const INT_MAX: int := 0x7fff_ffff
  const LONG_MIN: int := -0x8000_0000_0000_0000
  const LONG_MAX: int := 0x7fff_ffff_ffff_ffff

  predicate IsInt32(x: int) { INT_MIN <= x <= INT_MAX }

  // ---------------------------------------------------------------------
  // Case mapping (ASCII letters only)

  predicate IsUpper(c: char) { 'A' <= c <= 'Z' }
  predicate IsLower(c: char) { 'a' <= c <= 'z' }

  function LowerChar(c: char): char {
    if IsUpper(c) then (c as int + 32) as char else c
  }

  function UpperChar(c: char): char {
    if IsLower(c) then (c as int - 32) as char else c
  }

  function Lower(s: string): (r: string)
    ensures |r| == |s|
  {
    seq(|s|, i requires 0 <= i < |s| => LowerChar(s[i]))
  }

  function Upper(s: string): (r: string)
    ensures |r| == |s|
  {
    seq(|s|, i requires 0 <= i < |s| => UpperChar(s[i]))
  }

  /** Java `equalsIgnoreCase` on ASCII text. */
  predicate EqualsIgnoreCase(a: string, b: string) {
    Lower(a) == Lower(b)
  }

  lemma LowerIdempotent(s: string)
    ensures Lower(Lower(s)) == Lower(s)
  {
  }

  /** Upper-casing a character and lower-casing it again is lower-casing it,
      so `equalsIgnoreCase` cannot tell a string from its upper-case form. */
  lemma LowerOfUpper(s: string)
    ensures Lower(Upper(s)) == Lower(s)
  {
    assert forall i :: 0 <= i < |s| ==> LowerChar(UpperChar(s[i])) == LowerChar(s[i]);
  }

  // ---------------------------------------------------------------------
  // Prefixes, suffixes and replacement

  predicate StartsWith(s: string, p: string) {
    |p| <= |s| && s[..|p|] == p
  }

  predicate EndsWith(s: string, p: string) {
    |p| <= |s| && s[|s| - |p|..] == p
  }

  /** Java `String.replace(char, char)`: every occurrence of `a` becomes `b`. */
  function ReplaceChar(s: string, a: char, b: char): (r: string)
    ensures |r| == |s|
    ensures a != b ==> a !in r
    ensures forall i :: 0 <= i < |s| && s[i] != a ==> r[i] == s[i]
  {
    seq(|s|, i requires 0 <= i < |s| => if s[i] == a then b else s[i])
  }

  /** Java's whitespace for `trim`: every char up to and including U+0020. */
  predicate IsTrimmable(c: char) { c <= ' ' }

  /** The regex class `\s`: space, tab, newline, vertical tab, form feed, return. */
  predicate IsSpace(c: char) {
    c == ' ' || c == '\t' || c == '\n' || c == '\U{B}' || c == '\U{C}' || c == '\r'
  }

  function TrimStart(s: string): (r: string)
    ensures |r| <= |s| && r == s[|s| - |r|..]
    ensures |r| > 0 ==> !IsTrimmable(r[0])
  {
    if |s| > 0 && IsTrimmable(s[0]) then TrimStart(s[1..]) else s
  }

  function TrimEnd(s: string): (r: string)
    ensures |r| <= |s| && r == s[..|r|]
    ensures |r| > 0 ==> !IsTrimmable(r[|r| - 1])
  {
    if |s| > 0 && IsTrimmable(s[|s| - 1]) then TrimEnd(s[..|s| - 1]) else s
  }

  /** Java `String.trim`. */
  function Trim(s: string): (r: string)
    ensures |r| <= |s|
    ensures |r| > 0 ==> !IsTrimmable(r[0]) && !IsTrimmable(r[|r| - 1])
  {
    TrimEnd(TrimStart(s))
  }

  /** `Character.isWhitespace` on the ASCII range: the `\s` characters and
      the four separators U+001C to U+001F. */
  predicate IsWhitespace(c: char) {
    IsSpace(c) || ('\U{1C}' <= c <= '\U{1F}')
  }

  function StripStart(s: string): (r: string)
    ensures |r| <= |s| && r == s[|s| - |r|..]
    ensures |r| > 0 ==> !IsWhitespace(r[0])
    ensures forall i :: 0 <= i < |s| - |r| ==> IsWhitespace(s[i])
  {
    if |s| > 0 && IsWhitespace(s[0]) then StripStart(s[1..]) else s
  }

  function StripEnd(s: string): (r: string)
    ensures |r| <= |s| && r == s[..|r|]
    ensures |r| > 0 ==> !IsWhitespace(r[|r| - 1])
    ensures forall i :: |r| <= i < |s| ==> IsWhitespace(s[i])
  {
    if |s| > 0 && IsWhitespace(s[|s| - 1]) then StripEnd(s[..|s| - 1]) else s
  }

  /** Java `String.strip`. */
  function Strip(s: string): (r: string)
    ensures |r| <= |s|
    ensures |r| > 0 ==> !IsWhitespace(r[0]) && !IsWhitespace(r[|r| - 1])
  {
    StripEnd(StripStart(s))
  }

  /** Lower-casing touches no whitespace, so it commutes with stripping. */
  lemma {:induction false} LowerStripStart(s: string)
    ensures StripStart(Lower(s)) == Lower(StripStart(s))
    decreases |s|
  {
    if |s| > 0 {
      WhitespaceLower(s[0]);
      assert Lower(s)[0] == LowerChar(s[0]);
      assert Lower(s)[1..] == Lower(s[1..]);
      LowerStripStart(s[1..]);
    }
  }

  lemma WhitespaceLower(c: char)
    ensures IsWhitespace(LowerChar(c)) == IsWhitespace(c)
  {
  }

  lemma {:induction false} LowerStripEnd(s: string)
    ensures StripEnd(Lower(s)) == Lower(StripEnd(s))
    decreases |s|
  {
    if |s| > 0 {
      WhitespaceLower(s[|s| - 1]);
      assert Lower(s)[|s| - 1] == LowerChar(s[|s| - 1]);
      assert Lower(s)[..|s| - 1] == Lower(s[..|s| - 1]);
      LowerStripEnd(s[..|s| - 1]);
    }
  }

  lemma LowerStrip(s: string)
    ensures Strip(Lower(s)) == Lower(Strip(s))
  {
    LowerStripStart(s);
    LowerStripEnd(StripStart(s));
  }

  /** Stripping twice strips nothing more. */
  lemma StripIdempotent(s: string)
    ensures Strip(Strip(s)) == Strip(s)
  {
    var r := Strip(s);
    assert StripStart(r) == r;
    assert StripEnd(r) == r;
  }

  // ---------------------------------------------------------------------
  // Splitting on one literal separator character, and joining

  /** Every field between separators, empty ones included: `k` separators give
      `k + 1` fields. */
  function Fields(s: string, sep: char): (r: seq<string>)
    ensures |r| >= 1
    decreases |s|
  {
    if |s| == 0 then [""]
    else
      var rest := Fields(s[1..], sep);
      if s[0] == sep then [""] + rest else [[s[0]] + rest[0]] + rest[1..]
  }

  /** The fields glued back with the separator between consecutive ones. */
  function Join(ts: seq<string>, sep: char): string
  {
    if |ts| == 0 then ""
    else if |ts| == 1 then ts[0]
    else ts[0] + [sep] + Join(ts[1..], sep)
  }

  /** Joining one more token appends the separator and the token. */
  lemma {:induction false} JoinSnoc(ts: seq<string>, x: string, sep: char)
    requires |ts| >= 1
    ensures Join(ts + [x], sep) == Join(ts, sep) + [sep] + x
  {
    if |ts| == 1 {
      assert ts + [x] == [ts[0], x];
      assert [ts[0], x][1..] == [x];
    } else {
      assert (ts + [x])[1..] == ts[1..] + [x];
      JoinSnoc(ts[1..], x, sep);
    }
  }

  function DropTrailingEmpty(ts: seq<string>): (r: seq<string>)
    ensures |r| <= |ts| && r == ts[..|r|]
    ensures |r| > 0 ==> r[|r| - 1] != ""
    ensures forall k :: |r| <= k < |ts| ==> ts[k] == ""
  {
    if |ts| > 0 && ts[|ts| - 1] == "" then DropTrailingEmpty(ts[..|ts| - 1]) else ts
  }

  /** Java `s.split(sep)` for a separator that is not a regex metacharacter:
      the whole string when the separator does not occur, otherwise the fields
      with trailing empty ones removed (leading empty fields are kept). */
  function Split(s: string, sep: char): seq<string>
  {
    if sep !in s then [s] else DropTrailingEmpty(Fields(s, sep))
  }

  /** Java `s.split(sep, 2)`: at most two pieces, split at the first separator. */
  function Split2(s: string, sep: char): (r: seq<string>)
    ensures 1 <= |r| <= 2
    ensures |r| == 2 <==> sep in s
    ensures |r| == 2 ==> r[0] + [sep] + r[1] == s && sep !in r[0]
    ensures |r| == 1 ==> r[0] == s
  {
    if |s| == 0 then [s]
    else if s[0] == sep then ["", s[1..]]
    else
      var rest := Split2(s[1..], sep);
      if |rest| == 2 then [[s[0]] + rest[0], rest[1]] else [s]
  }

  lemma {:induction false} FieldsJoin(s: string, sep: char)
    ensures Join(Fields(s, sep), sep) == s
    ensures forall k :: 0 <= k < |Fields(s, sep)| ==> sep !in Fields(s, sep)[k]
    decreases |s|
  {
    if |s| > 0 {
      FieldsJoin(s[1..], sep);
      if s[0] != sep {
        FieldsJoinStep(s, sep);
      }
      assert [s[0]] + s[1..] == s;
    }
  }

  /** A first character that is not the separator joins the first field. */
  lemma FieldsJoinStep(s: string, sep: char)
    requires |s| > 0 && s[0] != sep
    requires Join(Fields(s[1..], sep), sep) == s[1..]
    requires forall k :: 0 <= k < |Fields(s[1..], sep)| ==> sep !in Fields(s[1..], sep)[k]
    ensures Join(Fields(s, sep), sep) == s
    ensures forall k :: 0 <= k < |Fields(s, sep)| ==> sep !in Fields(s, sep)[k]
  {
    var rest := Fields(s[1..], sep);
    var f := Fields(s, sep);
    assert f == [[s[0]] + rest[0]] + rest[1..];
    if |rest| > 1 {
      assert Join(rest, sep) == rest[0] + [sep] + Join(rest[1..], sep);
      assert Join(f, sep) == [s[0]] + rest[0] + [sep] + Join(rest[1..], sep);
    }
    assert [s[0]] + s[1..] == s;
    forall k | 0 <= k < |f| ensures sep !in f[k] {
      if k > 0 {
        assert f[k] == rest[k];
      }
    }
  }

  lemma {:induction false} JoinFields(ts: seq<string>, sep: char)
    requires |ts| >= 1
    requires forall k :: 0 <= k < |ts| ==> sep !in ts[k]
    ensures Fields(Join(ts, sep), sep) == ts
    decreases |ts|, |ts[0]|
  {
    if |ts[0]| == 0 {
      if |ts| > 1 {
        JoinFields(ts[1..], sep);
        JoinFieldsEmptyHead(ts, sep);
      } else {
        assert ts == [""];
      }
    } else {
      var ts' := [ts[0][1..]] + ts[1..];
      forall k | 0 <= k < |ts'| ensures sep !in ts'[k] {
        if k == 0 {
          assert forall x :: x in ts[0][1..] ==> x in ts[0];
        } else {
          assert ts'[k] == ts[k];
        }
      }
      JoinFields(ts', sep);
      JoinFieldsLetterHead(ts, sep);
    }
  }

  /** An empty first field is a leading separator. */
  lemma JoinFieldsEmptyHead(ts: seq<string>, sep: char)
    requires |ts| > 1 && ts[0] == ""
    requires Fields(Join(ts[1..], sep), sep) == ts[1..]
    ensures Fields(Join(ts, sep), sep) == ts
  {
    assert Join(ts, sep) == [sep] + Join(ts[1..], sep);
    assert ([sep] + Join(ts[1..], sep))[1..] == Join(ts[1..], sep);
    assert [""] + ts[1..] == ts;
  }

  /** A first field that starts with a letter other than the separator
      contributes that letter to the first field read back. */
  lemma JoinFieldsLetterHead(ts: seq<string>, sep: char)
    requires |ts| >= 1 && |ts[0]| > 0 && sep !in ts[0]
    requires Fields(Join([ts[0][1..]] + ts[1..], sep), sep) == [ts[0][1..]] + ts[1..]
    ensures Fields(Join(ts, sep), sep) == ts
  {
    var c := ts[0][0];
    var ts' := [ts[0][1..]] + ts[1..];
    assert c != sep by { assert c in ts[0]; }
    JoinHeadChar(ts, sep);
    FieldsConsChar(c, Join(ts', sep), sep);
    assert ts'[1..] == ts[1..];
    assert [c] + ts[0][1..] == ts[0];
    assert [ts[0]] + ts[1..] == ts;
  }

  /** The first letter of the first token is the first letter of the join. */
  lemma JoinHeadChar(ts: seq<string>, sep: char)
    requires |ts| >= 1 && |ts[0]| > 0
    ensures Join(ts, sep) == [ts[0][0]] + Join([ts[0][1..]] + ts[1..], sep)
  {
    var ts' := [ts[0][1..]] + ts[1..];
    assert ts'[0] == ts[0][1..] && ts'[1..] == ts[1..];
    assert [ts[0][0]] + ts[0][1..] == ts[0];
  }

  /** A leading letter other than the separator joins the first field. */
  lemma FieldsConsChar(c: char, s: string, sep: char)
    requires c != sep
    ensures Fields([c] + s, sep) == [[c] + Fields(s, sep)[0]] + Fields(s, sep)[1..]
  {
    assert ([c] + s)[1..] == s;
  }

  lemma {:induction false} SepInJoin(ts: seq<string>, sep: char)
    requires forall k :: 0 <= k < |ts| ==> sep !in ts[k]
    ensures sep in Join(ts, sep) <==> |ts| >= 2
    decreases |ts|
  {
    if |ts| >= 2 {
      assert Join(ts, sep)[|ts[0]|] == sep;
    } else if |ts| == 1 {
      assert Join(ts, sep) == ts[0];
    }
  }

  /** Splitting a join of non-empty, separator-free fields gives the fields back. */
  lemma SplitJoin(ts: seq<string>, sep: char)
    requires |ts| >= 1
    requires forall k :: 0 <= k < |ts| ==> ts[k] != "" && sep !in ts[k]
    ensures Split(Join(ts, sep), sep) == ts
  {
    JoinFields(ts, sep);
    SepInJoin(ts, sep);
    if |ts| == 1 {
      assert Join(ts, sep) == ts[0];
    }
  }

  /** Joining the split of a text without empty segments gives the text back. */
  lemma JoinSplit(s: string, sep: char)
    requires forall k :: 0 <= k < |Fields(s, sep)| ==> Fields(s, sep)[k] != ""
    ensures Join(Split(s, sep), sep) == s
  {
    FieldsJoin(s, sep);
    var fs := Fields(s, sep);
    if sep in s {
      assert fs[|fs| - 1] != "";
      assert DropTrailingEmpty(fs) == fs;
    }
  }

  // ---------------------------------------------------------------------
  // Words: Java `s.split("\\s+")` on a trimmed string

  /** The maximal runs of non-space characters, in order. */
  function Words(s: string): (r: seq<string>)
    ensures forall k :: 0 <= k < |r| ==> |r[k]| > 0
    decreases |s|
  {
    if |s| == 0 then []
    else if IsSpace(s[0]) then Words(s[1..])
    else
      var rest := Words(s[1..]);
      if |s| > 1 && !IsSpace(s[1]) then [[s[0]] + rest[0]] + rest[1..]
      else [[s[0]]] + rest
  }

  // ---------------------------------------------------------------------
  // Decimal integers

  predicate IsDigit(c: char) { '0' <= c <= '9' }

  predicate AllDigits(s: string) { forall k :: 0 <= k < |s| ==> IsDigit(s[k]) }

  function DigitChar(d: nat): char
    requires d < 10
  {
    ('0' as int + d) as char
  }

  function DigitValue(c: char): nat
    requires IsDigit(c)
  {
    c as int - '0' as int
  }

  /** The decimal digits of `n` without leading zeros ("0" for zero). */
  function Digits(n: nat): (r: string)
    ensures |r| >= 1 && AllDigits(r)
    ensures r[0] != '0' || n == 0
  {
    if n < 10 then [DigitChar(n)] else Digits(n / 10) + [DigitChar(n % 10)]
  }

  function DigitsValue(s: string): nat
    requires AllDigits(s)
  {
    if |s| == 0 then 0 else DigitsValue(s[..|s| - 1]) * 10 + DigitValue(s[|s| - 1])
  }

  lemma {:induction false} DigitsValueOf(n: nat)
    ensures DigitsValue(Digits(n)) == n
  {
    if n >= 10 {
      DigitsValueOf(n / 10);
      var d := Digits(n);
      assert d[..|d| - 1] == Digits(n / 10);
    }
  }

  function Pow10(k: nat): (p: nat)
    ensures p >= 1
  {
    if k == 0 then 1 else 10 * Pow10(k - 1)
  }

  /** A number below 10^k has at most k digits (and always at least one). */
  lemma {:induction false} DigitsLength(n: nat, k: nat)
    requires n < Pow10(k)
    ensures |Digits(n)| <= if k == 0 then 1 else k
  {
    if n >= 10 {
      assert Pow10(0) == 1 && Pow10(1) == 10;
      assert k >= 2;
      assert n / 10 < Pow10(k - 1);
      DigitsLength(n / 10, k - 1);
    }
  }

  /** A 32-bit integer prints in at most 11 characters. */
  lemma IntToStringShort(i: int)
    requires IsInt32(i)
    ensures |IntToString(i)| <= 11
  {
    assert Pow10(10) == 10_000_000_000;
    if i < 0 {
      DigitsLength(-i, 10);
    } else {
      DigitsLength(i, 10);
    }
  }

  /** Java `Integer.toString` / `Long.toString`. */
  function IntToString(i: int): (r: string)
    ensures |r| >= 1
  {
    if i < 0 then "-" + Digits(-i) else Digits(i)
  }

  /** Lower-casing the text of a number changes nothing. */
  lemma LowerOfNumber(i: int)
    ensures Lower(IntToString(i)) == IntToString(i)
  {
    var t := IntToString(i);
    forall k | 0 <= k < |t| ensures LowerChar(t[k]) == t[k] {
      if i < 0 {
        if k > 0 {
          assert t[k] == Digits(-i)[k - 1];
        }
      } else {
        assert IsDigit(Digits(i)[k]);
      }
    }
  }

  /** Java `Integer.parseInt` (ASCII digits): an optional sign, at least one
      digit, and a value that fits in 32 bits; anything else is rejected. */
  function ParseInt(s: string): (r: Option<int>)
    ensures r.Some? ==> IsInt32(r.value)
  {
    if |s| == 0 then None
    else
      var neg := s[0] == '-';
      var body := if s[0] == '-' || s[0] == '+' then s[1..] else s;
      if |body| == 0 || !AllDigits(body) then None
      else
        var v: int := if neg then -(DigitsValue(body) as int) else DigitsValue(body);
        if IsInt32(v) then Some(v) else None
  }

  /** Printing a 32-bit integer and parsing it back is the identity. */
  lemma ParseIntToString(i: int)
    requires IsInt32(i)
    ensures ParseInt(IntToString(i)) == Some(i)
  {
    var s := IntToString(i);
    if i < 0 {
      DigitsValueOf(-i);
      assert s[0] == '-';
      assert s[1..] == Digits(-i);
    } else {
      DigitsValueOf(i);
      assert s == Digits(i);
      assert IsDigit(s[0]);
    }
  }

  lemma IntToStringInjective(a: int, b: int)
    requires IsInt32(a) && IsInt32(b)
    requires IntToString(a) == IntToString(b)
    ensures a == b
  {
    ParseIntToString(a);
    ParseIntToString(b);
  }

  // ---------------------------------------------------------------------
  // Java integer division and remainder (truncation toward zero)

  function JDiv(a: int, b: int): (q: int)
    requires b != 0
  {
    if a >= 0 then (if b > 0 then a / b else -(a / -b))
    else (if b > 0 then -((-a) / b) else (-a) / (-b))
  }

  function JRem(a: int, b: int): (r: int)
    requires b != 0
    ensures a == b * JDiv(a, b) + r
    ensures a >= 0 ==> 0 <= r < (if b > 0 then b else -b)
    ensures a < 0 ==> -(if b > 0 then b else -b) < r <= 0
  {
    a - b * JDiv(a, b)
  }

  // Floored division by a positive divisor

  /** A positive multiple of `d` is at least `d`. */
  lemma MulAtLeast(d: int, k: int)
    requires d > 0 && k >= 1
    ensures d * k >= d
  {
    var j := k - 1;
    assert d * k == d * j + d;
    assert d * j >= 0;
  }

  /** Quotient and remainder are unique. */
  lemma DivUnique(a: int, d: int, q: int, r: int)
    requires d > 0 && 0 <= r < d && a == d * q + r
    ensures a / d == q && a % d == r
  {
    var q0 := a / d;
    var r0 := a % d;
    assert d * (q - q0) == r0 - r;
    if q > q0 {
      MulAtLeast(d, q - q0);
    } else if q < q0 {
      assert d * (q0 - q) == r - r0;
      MulAtLeast(d, q0 - q);
    }
  }
}

=== FILE: time_warp.dfy ===
/** The dyadic time-warp ladder of the time pane
    (`gaiasky.interafce.components.TimeComponent`): the ladder generator, the
    increase/decrease steps, the index lookup and the slider guard. Warp
    factors are reals; every value on the ladder is a power of two times
    1/8, which a double holds exactly. `Constants.WARP_STEPS` and
    `Double.MIN_VALUE` enter as parameters. */
module TimeWarp {

  /** `warpSteps`: steps per side, WARP_STEPS plus 0.125, 0.25, 0.5 and 1. */
  function StepsPerSide(warpStepsConstant: nat): nat {
    warpStepsConstant + 4
  }

  /** The k-th positive entry, k >= 1: 0.125 · 2^(k-1). */
  function PositiveEntry(k: nat): (w: real)
    requires k >= 1
    ensures w >= 0.125
  {
    if k == 1 then 0.125 else 2.0 * PositiveEntry(k - 1)
  }

  /** `increaseWarp`. */
  function Increase(w: real): (r: real)
    ensures w > 0.0 ==> r == 2.0 * w
    ensures w < -0.125 ==> r == w / 2.0 && w < r < 0.0
  {
    if w == 0.0 then 0.125
    else if w == -0.125 then 0.0
    else if w < 0.0 then w / 2.0
    else w * 2.0
  }

  /** `decreaseWarp`. */
  function Decrease(w: real): (r: real)
    ensures w < 0.0 ==> r == 2.0 * w
    ensures w > 0.125 ==> r == w / 2.0 && 0.0 < r < w
  {
    if w == 0.125 then 0.0
    else if w == 0.0 then -0.125
    else if w < 0.0 then w * 2.0
    else w / 2.0
  }

  /** Increasing a ladder entry gives the next entry. */
  lemma IncreaseSteps(k: nat)
    requires k >= 1
    ensures Increase(0.0) == PositiveEntry(1)
    ensures Increase(PositiveEntry(k)) == PositiveEntry(k + 1)
    ensures Increase(-PositiveEntry(1)) == 0.0
    ensures k >= 2 ==> Increase(-PositiveEntry(k)) == -PositiveEntry(k - 1)
  {
  }

  /** Decreasing a ladder entry gives the previous entry. */
  lemma DecreaseSteps(k: nat)
    requires k >= 1
    ensures Decrease(0.0) == -PositiveEntry(1)
    ensures Decrease(-PositiveEntry(k)) == -PositiveEntry(k + 1)
    ensures Decrease(PositiveEntry(1)) == 0.0
    ensures k >= 2 ==> Decrease(PositiveEntry(k)) == PositiveEntry(k - 1)
  {
  }

  /** What the generated ladder holds: zero in the middle, the positive
      entries above it and their negatives below it. */
  predicate IsLadder(v: seq<real>, steps: nat) {
    |v| == 2 * steps + 1
    && v[steps] == 0.0
    && (forall k :: 1 <= k <= steps ==> v[steps + k] == PositiveEntry(k))
    && (forall k :: 1 <= k <= steps ==> v[steps - k] == -PositiveEntry(k))
  }

  /** `generateTimeWarpVector(steps)`: the upper half by repeated
      `increaseWarp` from zero, the lower half by repeated `decreaseWarp`. */
  method GenerateTimeWarpVector(steps: nat) returns (v: seq<real>)
    ensures IsLadder(v, steps)
  {
    v := seq(2 * steps + 1, _ => 0.0);
    var w := 0.0;
    var i := steps + 1;
    while i < |v|
      invariant steps + 1 <= i <= |v| == 2 * steps + 1
      invariant v[steps] == 0.0
      invariant w == if i == steps + 1 then 0.0 else PositiveEntry(i - 1 - steps)
      invariant forall k :: 1 <= k < i - steps ==> v[steps + k] == PositiveEntry(k)
    {
      if i > steps + 1 {
        IncreaseSteps(i - 1 - steps);
      }
      v := v[i := Increase(w)];
      w := v[i];
      i := i + 1;
    }
    w := 0.0;
    var j := steps - 1;
    while j >= 0
      invariant -1 <= j <= steps - 1
      invariant |v| == 2 * steps + 1 && v[steps] == 0.0
      invariant forall k :: 1 <= k <= steps ==> v[steps + k] == PositiveEntry(k)
      invariant w == if j == steps - 1 then 0.0 else -PositiveEntry(steps - 1 - j)
      invariant forall k :: 1 <= k < steps - j ==> v[steps - k] == -PositiveEntry(k)
    {
      if j < steps - 1 {
        DecreaseSteps(steps - 1 - j);
      }
      v := v[j := Decrease(w)];
      w := v[j];
      j := j - 1;
    }
  }

  /** Along the ladder `increaseWarp` moves one entry up and `decreaseWarp`
      one entry down, so each undoes the other. */
  lemma {:induction false} LadderSteps(v: seq<real>, steps: nat, i: nat)
    requires IsLadder(v, steps) && i < 2 * steps
    ensures Increase(v[i]) == v[i + 1]
    ensures Decrease(v[i + 1]) == v[i]
  {
    if i < steps {
      var k := steps - i;
      IncreaseSteps(k);
      DecreaseSteps(k);
      if k >= 2 {
        DecreaseSteps(k - 1);
      }
    } else {
      var k := i - steps;
      if k == 0 {
        IncreaseSteps(1);
        DecreaseSteps(1);
      } else {
        IncreaseSteps(k);
        DecreaseSteps(k + 1);
      }
    }
  }

  lemma IncreaseDecreaseInverse(v: seq<real>, steps: nat, i: nat)
    requires IsLadder(v, steps) && 0 < i < 2 * steps
    ensures Decrease(Increase(v[i])) == v[i]
    ensures Increase(Decrease(v[i])) == v[i]
  {
    LadderSteps(v, steps, i);
    LadderSteps(v, steps, i - 1);
  }

  lemma {:induction false} PositiveEntryIncreasing(k: nat)
    requires k >= 1
    ensures PositiveEntry(k) < PositiveEntry(k + 1)
  {
  }

  /** The ladder is antisymmetric about the middle and strictly increasing. */
  lemma LadderShape(v: seq<real>, steps: nat)
    requires IsLadder(v, steps)
    ensures forall i, j :: 0 <= i < |v| && 0 <= j < |v| && i + j == 2 * steps ==> v[i] == -v[j]
    ensures forall i :: 0 <= i < |v| - 1 ==> v[i] < v[i + 1]
  {
    forall i, j | 0 <= i < |v| && 0 <= j < |v| && i + j == 2 * steps ensures v[i] == -v[j] {
      if i < steps {
        assert v[steps - (steps - i)] == -PositiveEntry(steps - i);
        assert v[steps + (steps - i)] == PositiveEntry(steps - i);
      } else if i > steps {
        assert v[steps + (i - steps)] == PositiveEntry(i - steps);
        assert v[steps - (i - steps)] == -PositiveEntry(i - steps);
      }
    }
    forall i | 0 <= i < |v| - 1 ensures v[i] < v[i + 1] {
      if i >= steps + 1 {
        PositiveEntryIncreasing(i - steps);
        assert v[steps + (i - steps)] == PositiveEntry(i - steps);
        assert v[steps + (i + 1 - steps)] == PositiveEntry(i + 1 - steps);
      } else if i == steps {
        assert v[steps + 1] == PositiveEntry(1);
      } else if i + 1 == steps {
        assert v[steps - 1] == -PositiveEntry(1);
      } else {
        PositiveEntryIncreasing(steps - i - 1);
        assert v[steps - (steps - i)] == -PositiveEntry(steps - i);
        assert v[steps - (steps - i - 1)] == -PositiveEntry(steps - i - 1);
      }
    }
  }

  // ---------------------------------------------------------------------
  // getWarpIndex

  /** The entry before `i`, with `minValue` before the first. */
  function Prev(v: seq<real>, minValue: real, i: nat): real
    requires i < |v|
  {
    if i == 0 then minValue else v[i - 1]
  }

  /** The loop of `getWarpIndex` stops at `i` on an exact match, or when `x`
      lies strictly between the previous entry and this one. */
  predicate Hit(v: seq<real>, minValue: real, x: real, i: nat)
    requires i < |v|
  {
    x == v[i] || (x > Prev(v, minValue, i) && x < v[i])
  }

  /** `getWarpIndex`: the first stopping index, or -1. */
  method GetWarpIndex(v: seq<real>, minValue: real, x: real) returns (index: int)
    ensures -1 <= index < |v|
    ensures index >= 0 ==> Hit(v, minValue, x, index) && forall j :: 0 <= j < index ==> !Hit(v, minValue, x, j)
    ensures index == -1 ==> forall j :: 0 <= j < |v| ==> !Hit(v, minValue, x, j)
  {
    index := -1;
    var prev := minValue;
    var i := 0;
    while i < |v|
      invariant 0 <= i <= |v|
      invariant i == |v| || prev == Prev(v, minValue, i)
      invariant forall j :: 0 <= j < i ==> !Hit(v, minValue, x, j)
    {
      if x == v[i] {
        return i;
      } else if x > prev && x < v[i] {
        return i;
      }
      prev := v[i];
      i := i + 1;
    }
  }

  /** On the ladder (with `Double.MIN_VALUE` positive) the lookup finds an
      exact entry, the upper entry for a value strictly between two, and
      nothing below the first or above the last entry. */
  lemma WarpIndexOnLadder(v: seq<real>, steps: nat, minValue: real, x: real, index: int)
    requires IsLadder(v, steps) && minValue > 0.0
    requires -1 <= index < |v|
    requires index >= 0 ==> Hit(v, minValue, x, index) && forall j :: 0 <= j < index ==> !Hit(v, minValue, x, j)
    requires index == -1 ==> forall j :: 0 <= j < |v| ==> !Hit(v, minValue, x, j)
    ensures forall i :: 0 <= i < |v| && x == v[i] ==> index == i
    ensures forall i :: 0 < i < |v| && v[i - 1] < x < v[i] ==> index == i
    ensures x < v[0] || x > v[|v| - 1] ==> index == -1
  {
    LadderShape(v, steps);
    assert v[0] <= 0.0 by {
      if steps > 0 {
        assert v[0] == -PositiveEntry(steps);
      }
    }
    forall i | 0 <= i < |v| && x == v[i] ensures index == i {
      Sorted(v);
      assert Hit(v, minValue, x, i);
    }
    forall i | 0 < i < |v| && v[i - 1] < x < v[i] ensures index == i {
      Sorted(v);
      assert Hit(v, minValue, x, i);
    }
    if x < v[0] || x > v[|v| - 1] {
      Sorted(v);
    }
  }

  /** Adjacent order extended to every pair. */
  lemma Sorted(v: seq<real>)
    requires forall i :: 0 <= i < |v| - 1 ==> v[i] < v[i + 1]
    ensures forall i, j :: 0 <= i < j < |v| ==> v[i] < v[j]
  {
    forall i, j | 0 <= i < j < |v| ensures v[i] < v[j] {
      SortedPair(v, i, j);
    }
  }

  lemma {:induction false} SortedPair(v: seq<real>, i: nat, j: nat)
    requires forall k :: 0 <= k < |v| - 1 ==> v[k] < v[k + 1]
    requires i < j < |v|
    ensures v[i] < v[j]
    decreases j - i
  {
    if j > i + 1 {
      SortedPair(v, i, j - 1);
    }
  }

  // ---------------------------------------------------------------------
  // The warp event

  /** A warp event (`TIME_WARP_CMD` / `TIME_WARP_CHANGED_INFO`): the slider
      moves to the found index minus `warpSteps`, unless the event came from
      the slider itself or the value matches no ladder entry. (The flag the
      source raises around the move only keeps the slider's own listener
      quiet; the listener is not part of this model.) */
  method OnWarpEvent(slider: int, fromSlider: bool, newWarp: real, v: seq<real>, steps: nat, minValue: real)
    returns (slider': int)
    ensures fromSlider ==> slider' == slider
    ensures !fromSlider && (forall j :: 0 <= j < |v| ==> !Hit(v, minValue, newWarp, j)) ==> slider' == slider
    ensures !fromSlider && slider' != slider ==> exists j :: 0 <= j < |v| && Hit(v, minValue, newWarp, j) && slider' == j - steps
    ensures !fromSlider && IsLadder(v, steps) && minValue > 0.0 ==>
      forall i :: 0 <= i < |v| && newWarp == v[i] ==> slider' == i - steps
  {
    slider' := slider;
    if !fromSlider {
      var index := GetWarpIndex(v, minValue, newWarp);
      if IsLadder(v, steps) && minValue > 0.0 {
        WarpIndexOnLadder(v, steps, minValue, newWarp, index);
      }
      if index >= 0 {
        slider' := index - steps;
      }
    }
  }
}

=== FILE: vec3.dfy ===
/** Three-dimensional vectors over the reals, with the dot and cross products
    written out as polynomials, and normalisation by an inverse square root
    that is passed in as a function. */
module Vec3 {

  datatype Vec = Vec(x: real, y: real, z: real)

  const Zero: Vec := Vec(0.0, 0.0, 0.0)

  function Add(a: Vec, b: Vec): Vec {
    Vec(a.x + b.x, a.y + b.y, a.z + b.z)
  }

  function Sub(a: Vec, b: Vec): Vec {
    Vec(a.x - b.x, a.y - b.y, a.z - b.z)
  }

  function Scale(k: real, v: Vec): Vec {
    Vec(k * v.x, k * v.y, k * v.z)
  }

  function Dot(a: Vec, b: Vec): real {
    a.x * b.x + a.y * b.y + a.z * b.z
  }

  function Cross(a: Vec, b: Vec): Vec {
    Vec(a.y * b.z - a.z * b.y, a.z * b.x - a.x * b.z, a.x * b.y - a.y * b.x)
  }

  /** `k0 * r0 + k1 * r1 + k2 * r2`. */
  function Combine(k0: real, k1: real, k2: real, r0: Vec, r1: Vec, r2: Vec): Vec {
    Add(Add(Scale(k0, r0), Scale(k1, r1)), Scale(k2, r2))
  }

  /** `inv` returns a positive inverse square root of every positive number. */
  ghost predicate IsInvSqrt(inv: real -> real) {
    forall q: real :: q > 0.0 ==> inv(q) > 0.0 && inv(q) * inv(q) * q == 1.0
  }

  /** `v / sqrt(v.v)`. The zero vector, the only one whose square norm is not
      positive, stays zero: in floating point it becomes NaN, and every
      comparison the callers make on it is then false, exactly as every
      comparison they make on the zero vector is. */
  function Normalize(inv: real -> real, v: Vec): Vec {
    if Dot(v, v) > 0.0 then Scale(inv(Dot(v, v)), v) else Zero
  }

  predicate IsUnit(v: Vec) {
    Dot(v, v) == 1.0
  }

  /** Three unit vectors, pairwise orthogonal, the third the cross product of
      the first two (a right-handed orthonormal frame). */
  predicate IsFrame(r0: Vec, r1: Vec, r2: Vec) {
    IsUnit(r0) && IsUnit(r1) && Dot(r0, r1) == 0.0 && r2 == Cross(r0, r1)
  }

  // ---------------------------------------------------------------------
  // Algebraic identities

  lemma DotScaleLeft(k: real, a: Vec, b: Vec)
    ensures Dot(Scale(k, a), b) == k * Dot(a, b)
  {
  }

  lemma DotScaleRight(k: real, a: Vec, b: Vec)
    ensures Dot(a, Scale(k, b)) == k * Dot(a, b)
  {
  }

  lemma DotAddLeft(a: Vec, b: Vec, c: Vec)
    ensures Dot(Add(a, b), c) == Dot(a, c) + Dot(b, c)
  {
  }

  lemma DotSymmetric(a: Vec, b: Vec)
    ensures Dot(a, b) == Dot(b, a)
  {
  }

  lemma DotSub(a: Vec, b: Vec, c: Vec)
    ensures Dot(Sub(a, b), c) == Dot(a, c) - Dot(b, c)
  {
  }

  lemma DotCombine(k0: real, k1: real, k2: real, r0: Vec, r1: Vec, r2: Vec, w: Vec)
    ensures Dot(Combine(k0, k1, k2, r0, r1, r2), w)
      == k0 * Dot(r0, w) + k1 * Dot(r1, w) + k2 * Dot(r2, w)
  {
    DotScaleLeft(k0, r0, w);
    DotScaleLeft(k1, r1, w);
    DotScaleLeft(k2, r2, w);
  }

  /** `p * q - r * s` scaled by `k`, with `k` moved onto either factor. */
  lemma ScaleDifference(k: real, p: real, q: real, r: real, s: real)
    ensures (k * p) * q - (k * r) * s == k * (p * q - r * s)
    ensures p * (k * q) - r * (k * s) == k * (p * q - r * s)
  {
    assert (k * p) * q == k * (p * q) && (k * r) * s == k * (r * s);
    assert p * (k * q) == k * (p * q) && r * (k * s) == k * (r * s);
  }

  lemma ScaleScale(j: real, k: real, v: Vec)
    ensures Scale(j, Scale(k, v)) == Scale(j * k, v)
  {
    assert j * (k * v.x) == (j * k) * v.x;
    assert j * (k * v.y) == (j * k) * v.y;
    assert j * (k * v.z) == (j * k) * v.z;
  }

  /** Two positive multiples that agree make the vectors multiples of each
      other. */
  lemma ScaleCancel(k: real, k0: real, a: Vec, a0: Vec)
    requires k0 != 0.0
    requires Scale(k, a) == Scale(k0, a0)
    ensures a0 == Scale(k / k0, a)
  {
    ScaleScale(1.0 / k0, k0, a0);
    ScaleScale(1.0 / k0, k, a);
    assert (1.0 / k0) * k0 == 1.0;
    assert (1.0 / k0) * k == k / k0;
  }

  /** Taking a multiple of a vector off it leaves the complementary multiple. */
  lemma SubMultiple(a: Vec, q: real)
    ensures Sub(a, Scale(q, a)) == Scale(1.0 - q, a)
  {
  }

  lemma CrossScaleLeft(k: real, a: Vec, b: Vec)
    ensures Cross(Scale(k, a), b) == Scale(k, Cross(a, b))
  {
    var l, r := Cross(Scale(k, a), b), Scale(k, Cross(a, b));
    assert l.x == r.x by { ScaleDifference(k, a.y, b.z, a.z, b.y); }
    assert l.y == r.y by { ScaleDifference(k, a.z, b.x, a.x, b.z); }
    assert l.z == r.z by { ScaleDifference(k, a.x, b.y, a.y, b.x); }
  }

  lemma CrossScaleRight(k: real, a: Vec, b: Vec)
    ensures Cross(a, Scale(k, b)) == Scale(k, Cross(a, b))
  {
    var l, r := Cross(a, Scale(k, b)), Scale(k, Cross(a, b));
    assert l.x == r.x by { ScaleDifference(k, a.y, b.z, a.z, b.y); }
    assert l.y == r.y by { ScaleDifference(k, a.z, b.x, a.x, b.z); }
    assert l.z == r.z by { ScaleDifference(k, a.x, b.y, a.y, b.x); }
  }

  lemma CrossZero(a: Vec)
    ensures Cross(Zero, a) == Zero && Cross(a, Zero) == Zero
  {
  }

  /** The cross product is orthogonal to both of its factors. */
  lemma DotCross(a: Vec, b: Vec)
    ensures Dot(a, Cross(a, b)) == 0.0
    ensures Dot(b, Cross(a, b)) == 0.0
  {
  }

  /** Two multiples of one vector have a zero cross product. */
  lemma CrossParallel(j: real, k: real, v: Vec)
    ensures Cross(Scale(j, v), Scale(k, v)) == Zero
  {
    CrossScaleLeft(j, v, Scale(k, v));
    CrossScaleRight(k, v, v);
  }

  /** Lagrange's identity: |a x b|^2 = |a|^2 |b|^2 - (a.b)^2. */
  lemma Lagrange(a: Vec, b: Vec)
    ensures Dot(Cross(a, b), Cross(a, b)) == Dot(a, a) * Dot(b, b) - Dot(a, b) * Dot(a, b)
  {
    LagrangeComponents(a.x, a.y, a.z, b.x, b.y, b.z);
  }

  /** Lagrange's identity in coordinates. */
  lemma LagrangeComponents(a0: real, a1: real, a2: real, b0: real, b1: real, b2: real)
    ensures (a1 * b2 - a2 * b1) * (a1 * b2 - a2 * b1) + (a2 * b0 - a0 * b2) * (a2 * b0 - a0 * b2)
            + (a0 * b1 - a1 * b0) * (a0 * b1 - a1 * b0)
         == (a0 * a0 + a1 * a1 + a2 * a2) * (b0 * b0 + b1 * b1 + b2 * b2)
            - (a0 * b0 + a1 * b1 + a2 * b2) * (a0 * b0 + a1 * b1 + a2 * b2)
  {
  }

  /** One coordinate of the expansion of (a x b) x c, as a polynomial identity. */
  lemma TripleComponent(a0: real, a1: real, a2: real, b0: real, b1: real, b2: real,
                        c0: real, c1: real, c2: real)
    ensures (a2 * b0 - a0 * b2) * c2 - (a0 * b1 - a1 * b0) * c1
      == (a0 * c0 + a1 * c1 + a2 * c2) * b0 - (b0 * c0 + b1 * c1 + b2 * c2) * a0
  {
  }

  lemma TripleX(a: Vec, b: Vec, c: Vec)
    ensures Cross(Cross(a, b), c).x == Dot(a, c) * b.x - Dot(b, c) * a.x
  {
    TripleComponent(a.x, a.y, a.z, b.x, b.y, b.z, c.x, c.y, c.z);
  }

  lemma TripleY(a: Vec, b: Vec, c: Vec)
    ensures Cross(Cross(a, b), c).y == Dot(a, c) * b.y - Dot(b, c) * a.y
  {
    TripleComponent(a.y, a.z, a.x, b.y, b.z, b.x, c.y, c.z, c.x);
  }

  lemma TripleZ(a: Vec, b: Vec, c: Vec)
    ensures Cross(Cross(a, b), c).z == Dot(a, c) * b.z - Dot(b, c) * a.z
  {
    TripleComponent(a.z, a.x, a.y, b.z, b.x, b.y, c.z, c.x, c.y);
  }

  /** (a x b) x c = b (a.c) - a (b.c). */
  lemma TripleProduct(a: Vec, b: Vec, c: Vec)
    ensures Cross(Cross(a, b), c) == Sub(Scale(Dot(a, c), b), Scale(Dot(b, c), a))
  {
    var l, r := Cross(Cross(a, b), c), Sub(Scale(Dot(a, c), b), Scale(Dot(b, c), a));
    assert l.x == r.x by { TripleX(a, b, c); }
    assert l.y == r.y by { TripleY(a, b, c); }
    assert l.z == r.z by { TripleZ(a, b, c); }
  }

  lemma CrossAntisymmetric(a: Vec, b: Vec)
    ensures Cross(b, a) == Scale(-1.0, Cross(a, b))
  {
  }

  /** a x (a x w) = a (a.w) - w (a.a). */
  lemma DoubleCross(a: Vec, w: Vec)
    ensures Cross(a, Cross(a, w)) == Sub(Scale(Dot(a, w), a), Scale(Dot(a, a), w))
  {
    CrossAntisymmetric(Cross(a, w), a);
    TripleProduct(a, w, a);
    DotSymmetric(w, a);
  }

  // ---------------------------------------------------------------------
  // Normalisation

  lemma NormalizeUnit(inv: real -> real, v: Vec)
    requires IsInvSqrt(inv)
    requires Dot(v, v) > 0.0
    ensures IsUnit(Normalize(inv, v))
  {
    var q := Dot(v, v);
    DotScaleLeft(inv(q), v, Scale(inv(q), v));
    DotScaleRight(inv(q), v, v);
    assert Dot(Normalize(inv, v), Normalize(inv, v)) == inv(q) * (inv(q) * q);
  }

  /** A unit vector is left exactly as it is. */
  lemma NormalizeOfUnit(inv: real -> real, v: Vec)
    requires IsInvSqrt(inv)
    requires IsUnit(v)
    ensures Normalize(inv, v) == v
  {
    var k := inv(1.0);
    assert k > 0.0 && k * k == 1.0;
    assert (k - 1.0) * (k + 1.0) == k * k - 1.0;
  }

  /** Normalisation commutes with negation. */
  lemma NormalizeNegate(inv: real -> real, v: Vec)
    ensures Normalize(inv, Scale(-1.0, v)) == Scale(-1.0, Normalize(inv, v))
  {
    var w := Scale(-1.0, v);
    assert Dot(w, w) == Dot(v, v);
  }

  /** Normalising gives a non-negative multiple of the vector. */
  lemma NormalizeIsMultiple(inv: real -> real, v: Vec) returns (k: real)
    ensures Normalize(inv, v) == Scale(k, v)
  {
    if Dot(v, v) > 0.0 {
      k := inv(Dot(v, v));
    } else {
      k := 0.0;
    }
  }

  /** A vector orthogonal to `c` is orthogonal to its normalisation. */
  lemma NormalizeKeepsOrthogonal(inv: real -> real, u: Vec, c: Vec)
    requires Dot(u, c) == 0.0
    ensures Dot(u, Normalize(inv, c)) == 0.0
  {
    var k := NormalizeIsMultiple(inv, c);
    DotScaleRight(k, u, c);
  }

  // ---------------------------------------------------------------------
  // Frames

  /** What is left of v after removing its components along an orthonormal
      frame is orthogonal to every vector of the frame. */
  lemma ResidualOrthogonal(v: Vec, r0: Vec, r1: Vec, r2: Vec)
    requires IsUnit(r0) && IsUnit(r1) && IsUnit(r2)
    requires Dot(r0, r1) == 0.0 && Dot(r0, r2) == 0.0 && Dot(r1, r2) == 0.0
    ensures var w := Sub(v, Combine(Dot(v, r0), Dot(v, r1), Dot(v, r2), r0, r1, r2));
      Dot(w, r0) == 0.0 && Dot(w, r1) == 0.0 && Dot(w, r2) == 0.0
  {
    var c := Combine(Dot(v, r0), Dot(v, r1), Dot(v, r2), r0, r1, r2);
    DotSymmetric(r0, r1);
    DotSymmetric(r0, r2);
    DotSymmetric(r1, r2);
    DotCombine(Dot(v, r0), Dot(v, r1), Dot(v, r2), r0, r1, r2, r0);
    DotCombine(Dot(v, r0), Dot(v, r1), Dot(v, r2), r0, r1, r2, r1);
    DotCombine(Dot(v, r0), Dot(v, r1), Dot(v, r2), r0, r1, r2, r2);
    DotSub(v, c, r0);
    DotSub(v, c, r1);
    DotSub(v, c, r2);
  }

  /** The vectors of a frame are unit length and pairwise orthogonal. */
  lemma FrameOrthonormal(r0: Vec, r1: Vec, r2: Vec)
    requires IsFrame(r0, r1, r2)
    ensures IsUnit(r2) && Dot(r0, r2) == 0.0 && Dot(r1, r2) == 0.0
  {
    Lagrange(r0, r1);
    DotCross(r0, r1);
  }

  /** A vector orthogonal to every vector of a frame is zero. */
  lemma OrthogonalToFrame(w: Vec, r0: Vec, r1: Vec, r2: Vec)
    requires IsFrame(r0, r1, r2)
    requires Dot(w, r0) == 0.0 && Dot(w, r1) == 0.0 && Dot(w, r2) == 0.0
    ensures w == Zero
  {
    FrameOrthonormal(r0, r1, r2);
    DotSymmetric(w, r0);
    DotSymmetric(w, r1);
    DotSymmetric(w, r2);
    TripleProduct(r0, r1, w);
    assert Cross(r2, w) == Zero;
    DoubleCross(r2, w);
    CrossZero(r2);
    assert Sub(Scale(0.0, r2), Scale(1.0, w)) == Zero;
  }

  /** The coordinates of `k0 r0 + k1 r1 + k2 r2` along a frame are
      `k0`, `k1` and `k2`. */
  lemma CombineCoordinates(k0: real, k1: real, k2: real, r0: Vec, r1: Vec, r2: Vec)
    requires IsFrame(r0, r1, r2)
    ensures var c := Combine(k0, k1, k2, r0, r1, r2);
            Dot(c, r0) == k0 && Dot(c, r1) == k1 && Dot(c, r2) == k2
  {
    FrameOrthonormal(r0, r1, r2);
    DotSymmetric(r0, r1);
    DotSymmetric(r0, r2);
    DotSymmetric(r1, r2);
    DotCombine(k0, k1, k2, r0, r1, r2, r0);
    DotCombine(k0, k1, k2, r0, r1, r2, r1);
    DotCombine(k0, k1, k2, r0, r1, r2, r2);
  }

  /** FrameExpansion for a triple that may or may not be a frame. */
  lemma FrameExpansionIf(v: Vec, r0: Vec, r1: Vec, r2: Vec)
    ensures IsFrame(r0, r1, r2) ==> Combine(Dot(v, r0), Dot(v, r1), Dot(v, r2), r0, r1, r2) == v
  {
    if IsFrame(r0, r1, r2) {
      FrameExpansion(v, r0, r1, r2);
    }
  }

  /** Any vector is the sum of its components along a frame:
      v = (v.r0) r0 + (v.r1) r1 + (v.r2) r2. */
  lemma FrameExpansion(v: Vec, r0: Vec, r1: Vec, r2: Vec)
    requires IsFrame(r0, r1, r2)
    ensures Combine(Dot(v, r0), Dot(v, r1), Dot(v, r2), r0, r1, r2) == v
  {
    FrameOrthonormal(r0, r1, r2);
    var c := Combine(Dot(v, r0), Dot(v, r1), Dot(v, r2), r0, r1, r2);
    ResidualOrthogonal(v, r0, r1, r2);
    OrthogonalToFrame(Sub(v, c), r0, r1, r2);
    assert c.x == v.x && c.y == v.y && c.z == v.z;
  }
}

=== FILE: vr_context.dfy ===
/** The bookkeeping side of `gaiasky.vr.openvr.VRContext`: the per-device
    button bitmask, lookups over the table of tracked devices, the pose
    table guard and the listener list. The OpenVR runtime itself (polling,
    poses, rendering) is not modelled. */
module VrContext {
  import opened Wrappers

  // ---------------------------------------------------------------------
  // Buttons

  /** The `long` button mask as its 64 bits, bit `k` at index `k`. */
  type Mask = m: seq<bool> | |m| == 64 witness seq(64, _ => false)

  const NO_BUTTONS: Mask := seq(64, _ => false)

  /** Java masks a `long` shift distance to its low six bits, so
      `1L << button` is bit `button mod 64`. */
  function ShiftDistance(button: int): (k: int)
    ensures 0 <= k < 64
    ensures 0 <= button < 64 ==> k == button
  {
    button % 64
  }

  /** `isButtonPressed`: buttons outside `[0, 64)` are never pressed. */
  function IsButtonPressed(buttons: Mask, button: int): (r: bool)
    ensures !(0 <= button < 64) ==> !r
    ensures 0 <= button < 64 ==> (r <==> buttons[button])
  {
    if button < 0 || button >= 64 then false
    else buttons[button]
  }

  /** `setButton`, as written: pressing ORs the bit in, releasing XORs it,
      which flips it whatever its state. */
  function SetButton(buttons: Mask, button: int, pressed: bool): (r: Mask)
    ensures forall j :: 0 <= j < 64 && j != ShiftDistance(button) ==> r[j] == buttons[j]
    ensures pressed ==> r[ShiftDistance(button)]
    ensures !pressed ==> r[ShiftDistance(button)] == !buttons[ShiftDistance(button)]
  {
    var k := ShiftDistance(button);
    if pressed then buttons[k := true] else buttons[k := !buttons[k]]
  }

  /** Releasing a button that is not pressed marks it pressed. */
  lemma ReleaseUnpressedPresses()
    ensures !IsButtonPressed(NO_BUTTONS, 3)
    ensures IsButtonPressed(SetButton(NO_BUTTONS, 3, false), 3)
  {
  }

  /** `setButton` as evidently intended: releasing clears the bit. */
  function SetButtonFixed(buttons: Mask, button: int, pressed: bool): (r: Mask)
    ensures forall j :: 0 <= j < 64 && j != ShiftDistance(button) ==> r[j] == buttons[j]
    ensures r[ShiftDistance(button)] == pressed
  {
    var k := ShiftDistance(button);
    if pressed then buttons[k := true] else buttons[k := false]
  }

  /** The two agree on every press, and on every release of a pressed
      button. */
  lemma SetButtonAgreesOnPressedRelease(buttons: Mask, button: int, pressed: bool)
    requires pressed || buttons[ShiftDistance(button)]
    ensures SetButton(buttons, button, pressed) == SetButtonFixed(buttons, button, pressed)
  {
  }

  /** For a button in range, after a corrected event that button is pressed
      exactly as the event says and every other button is unchanged. */
  lemma SetButtonFixedPressed(buttons: Mask, button: int, pressed: bool, other: int)
    requires 0 <= button < 64
    ensures IsButtonPressed(SetButtonFixed(buttons, button, pressed), other) ==
            if other == button then pressed else IsButtonPressed(buttons, other)
  {
  }

  // ---------------------------------------------------------------------
  // Devices

  datatype DeviceType = HeadMountedDisplay | Controller | BaseStation | Generic

  datatype ControllerRole = Invalid | LeftHand | Max | OptOut | RightHand | Treadmill

  /** A tracked device, reduced to what the lookups read. */
  datatype Device = Device(index: nat, kind: DeviceType, role: ControllerRole, buttons: Mask)

  /** The device table: one slot per tracked-device index, null when no
      device is connected there. */
  type Devices = seq<Option<Device>>

  predicate OfType(d: Option<Device>, t: DeviceType) {
    d.Some? && d.value.kind == t
  }

  /** The slot `getDeviceByType` stops at. */
  function FirstOfType(devices: Devices, t: DeviceType): (r: Option<nat>)
    ensures r.Some? ==> r.value < |devices| && OfType(devices[r.value], t) &&
                        forall k :: 0 <= k < r.value ==> !OfType(devices[k], t)
    ensures r.None? ==> forall k :: 0 <= k < |devices| ==> !OfType(devices[k], t)
  {
    if |devices| == 0 then None
    else if OfType(devices[0], t) then Some(0)
    else
      match FirstOfType(devices[1..], t)
      case None => None
      case Some(i) => Some(i + 1)
  }

  /** `getDeviceByType`: the first non-null device of the type, or null. */
  function GetDeviceByType(devices: Devices, t: DeviceType): (r: Option<Device>)
    ensures r.Some? ==> r.value.kind == t && Some(r.value) in devices
    ensures r.None? <==> forall k :: 0 <= k < |devices| ==> !OfType(devices[k], t)
  {
    match FirstOfType(devices, t)
    case None => None
    case Some(i) => devices[i]
  }

  /** `getDevicesByType`: every non-null device of the type, in slot order. */
  function GetDevicesByType(devices: Devices, t: DeviceType): (r: seq<Device>)
    ensures forall k :: 0 <= k < |r| ==> r[k].kind == t && Some(r[k]) in devices
    ensures forall k :: 0 <= k < |devices| && OfType(devices[k], t) ==> devices[k].value in r
  {
    if |devices| == 0 then []
    else
      var rest := GetDevicesByType(devices[1..], t);
      assert forall k :: 1 <= k < |devices| ==> devices[k] == devices[1..][k - 1];
      if OfType(devices[0], t) then [devices[0].value] + rest else rest
  }

  /** Slot order: the devices found in a table split in two are those of
      the first part followed by those of the second. */
  lemma {:induction false} GetDevicesByTypeConcat(a: Devices, b: Devices, t: DeviceType)
    ensures GetDevicesByType(a + b, t) == GetDevicesByType(a, t) + GetDevicesByType(b, t)
  {
    if |a| > 0 {
      assert (a + b)[1..] == a[1..] + b;
      GetDevicesByTypeConcat(a[1..], b, t);
    } else {
      assert a + b == b;
    }
  }

  /** The single lookup returns the head of the list lookup. */
  lemma {:induction false} FirstOfList(devices: Devices, t: DeviceType)
    ensures var all := GetDevicesByType(devices, t);
            GetDeviceByType(devices, t) == if |all| == 0 then None else Some(all[0])
  {
    if |devices| > 0 {
      var rest := devices[1..];
      if OfType(devices[0], t) {
        assert FirstOfType(devices, t) == Some(0);
        assert GetDevicesByType(devices, t)[0] == devices[0].value;
      } else {
        assert GetDevicesByType(devices, t) == GetDevicesByType(rest, t);
        assert GetDeviceByType(devices, t) == GetDeviceByType(rest, t) by {
          match FirstOfType(rest, t)
          case None =>
          case Some(i) => assert devices[i + 1] == rest[i];
        }
        FirstOfList(rest, t);
      }
    }
  }

  /** `getDevices`: every non-null device, in slot order. */
  function GetDevices(devices: Devices): (r: seq<Device>)
    ensures forall k :: 0 <= k < |r| ==> Some(r[k]) in devices
    ensures forall k :: 0 <= k < |devices| && devices[k].Some? ==> devices[k].value in r
    ensures |r| <= |devices|
  {
    if |devices| == 0 then []
    else
      var rest := GetDevices(devices[1..]);
      assert forall k :: 1 <= k < |devices| ==> devices[k] == devices[1..][k - 1];
      if devices[0].Some? then [devices[0].value] + rest else rest
  }

  /** Grouping by type loses and adds no device: the devices of one type
      are among all devices, and every device is found under its type. */
  lemma {:induction false} DevicesByTypePartition(devices: Devices, d: Device)
    ensures d in GetDevices(devices) <==> d in GetDevicesByType(devices, d.kind)
  {
    if |devices| > 0 {
      DevicesByTypePartition(devices[1..], d);
    }
  }

  /** `getControllerByRole`: the first controller with that role, or null. */
  function GetControllerByRole(devices: Devices, role: ControllerRole): (r: Option<Device>)
    ensures r.Some? ==> r.value.kind == Controller && r.value.role == role && Some(r.value) in devices
    ensures r.None? ==> forall k :: 0 <= k < |devices| && OfType(devices[k], Controller) ==> devices[k].value.role != role
  {
    if |devices| == 0 then None
    else if OfType(devices[0], Controller) && devices[0].value.role == role then devices[0]
    else
      var rest := GetControllerByRole(devices[1..], role);
      assert forall k :: 1 <= k < |devices| ==> devices[k] == devices[1..][k - 1];
      rest
  }

  datatype Error = IndexOutOfBounds

  /** `getDevicePose`: the pose at a valid index; any other index throws. */
  function GetDevicePose<P>(poses: seq<P>, deviceIndex: int): (r: Result<P, Error>)
    ensures r.Ok? <==> 0 <= deviceIndex < |poses|
    ensures r.Ok? ==> r.value == poses[deviceIndex]
  {
    if deviceIndex < 0 || deviceIndex >= |poses| then Err(IndexOutOfBounds)
    else Ok(poses[deviceIndex])
  }

  // ---------------------------------------------------------------------
  // Listeners

  predicate Distinct<L(==)>(ls: seq<L>) {
    forall i, j :: 0 <= i < j < |ls| ==> ls[i] != ls[j]
  }

  /** `addListener`: a listener already present (by identity) is not added
      again; a new one goes at the end. */
  function AddListener<L(==)>(ls: seq<L>, l: L): (r: seq<L>)
    ensures l in r && forall x :: x in ls ==> x in r
    ensures forall x :: x in r ==> x in ls || x == l
    ensures |ls| <= |r| <= |ls| + 1 && r[..|ls|] == ls
    ensures Distinct(ls) ==> Distinct(r)
  {
    if l in ls then ls else ls + [l]
  }

  /** `removeListener`: the first occurrence is removed. */
  function RemoveListener<L(==)>(ls: seq<L>, l: L): (r: seq<L>)
    ensures l !in ls ==> r == ls
    ensures l in ls ==> |r| == |ls| - 1
    ensures forall x :: x in r ==> x in ls
    ensures Distinct(ls) ==> l !in r && Distinct(r) && forall x :: x in ls && x != l ==> x in r
  {
    if |ls| == 0 then []
    else if ls[0] == l then ls[1..]
    else
      var rest := RemoveListener(ls[1..], l);
      assert forall x :: x in ls[1..] ==> x in ls;
      assert Distinct(ls) ==> Distinct(ls[1..]) && ls[0] !in rest by {
        if Distinct(ls) {
          assert ls[0] !in ls[1..];
        }
      }
      [ls[0]] + rest
  }

  /** Adding a new listener and removing it again restores the list; adding
      twice is adding once. */
  lemma {:induction false} AddRemoveListener<L>(ls: seq<L>, l: L)
    ensures l !in ls ==> RemoveListener(AddListener(ls, l), l) == ls
    ensures AddListener(AddListener(ls, l), l) == AddListener(ls, l)
  {
    if l !in ls && |ls| > 0 {
      assert (ls + [l])[1..] == ls[1..] + [l];
      AddRemoveListener(ls[1..], l);
    }
  }
}

=== FILE: wrappers.dfy ===
/** Failure-carrying wrappers shared by every module of the model.
    `Option` stands for a Java reference that may be null; `Result` stands for a
    call that either returns a value or throws. */
module Wrappers {

  datatype Option<+T> = None | Some(value: T) {

    /** The wrapped value, or `default` when there is none. */
    function GetOr(default: T): T {
      match this
      case Some(v) => v
      case None => default
    }
  }

  datatype Result<+R, +E> = Ok(value: R) | Err(error: E) {

    predicate IsOk() {
      Ok?
    }
  }
}
